=== FILE: README.md ===
# FAT12/16/32 driver core and UTF-8/UTF-16 charset layer

A Dafny model of a small FAT file-system driver and the character-set
routines it sits on.

The driver has three layers:

- **YY layer.** Mounts a drive from a partitioned or unpartitioned disk
  image (`YY_MountDrive`). It keeps one cached FAT sector per drive; for
  FAT12 it also keeps the neighbouring bytes of that sector, so that
  12-bit entries that straddle a sector seam can be read and written. It
  walks cluster chains (`YY_GetClusterEntry`, `YY_SetClusterEntry`,
  `YY_GetNextSector`), allocates clusters (`YY_AllocateCluster`), opens
  and walks directories (`YY_OpenDirectory`, `YY_ChangeDirectory`,
  `YY_NextDirectoryItem`), and assembles VFAT long names. It opens files
  by path and reads them a byte at a time (`YY_OpenFile`, `YY_getc`).
- **ZZ layer.** A stdio-like wrapper over the YY layer (`ZZ_fopen`,
  `ZZ_fread`, `ZZ_fgets`, `ZZ_fseek`, `ZZ_openfolder`, …). Its handles
  index a fixed table of "things".
- **Charset layer.** UTF-8 and UTF-16 encoding and decoding, with
  character-indexed string helpers (`getchar`, `putchar`, `nextchar`,
  `prevchar`, `chars`, `compare`, `token`, `concat`, …).

The model is organised as follows:

- **Disk.** The disk is a map from sector numbers to 512-byte sectors. A
  sector missing from the map is a failed read or write.
- **Pointers.** C pointers become indices into slot tables, and a null
  pointer becomes `None`.
- **Strings.** A NUL-terminated buffer is a fixed-length sequence, read
  through `Str` up to its first NUL.
- **Integer width.** Every C integer width is written out (`Wrap32`,
  `Wrap16`, `Wrap8`, bit-vectors).
- **Error paths.** Each operation returns its error path (`Option`, a
  flag, `Eof`). A precondition excludes a case only where the C code
  itself cannot run it: a null handle it dereferences (Streams.Fclose,
  Streams.FopenD), a buffer it overruns (CharStrings.Insert,
  Charset.MbToWide, Charset.WideToMb), or a cluster
  size that is not a power of two (the chain lemmas that require
  Entries.ClusterGeometry). Each is named under "## Left out".
- **Unbounded loops.** Loops that C runs until a chain ends carry a fuel
  or budget argument.

Where the source's behaviour differs from what it evidently means, there
are two definitions:

- an `…AsWritten` definition that follows the code;
- the corrected one that the rest of the model uses.

A lemma relates the two (see "## Findings").

## Model

| member | source | states |
|---|---|---|
| Device.ReadSector | c/FAT.cpp:155-176 | A read succeeds iff the sector exists, and then returns exactly that sector's bytes (a primitive whose contract repeats its body; Device.ReadAfterWrite carries the meaning) |
| Device.WriteSector | c/FAT.cpp:180-195 | A write succeeds iff the sector exists; it replaces only that sector; a failed write changes nothing; the set of sectors never changes (a primitive; Device.ReadAfterWrite carries the meaning) |
| Device.ReadAfterWrite | c/FAT.cpp:155-195 | Reading a sector just written returns the written data; every other sector reads as before |
| Device.OpenDevice | c/FAT.cpp:141-151 | A device opens iff its name is known, giving that device's disk (a lookup whose contract repeats its body) |
| FatTypes.Bytes16 | c/FAT_YY.h:46-60 | The two-byte encoding of a 16-bit field decodes little-endian to the value |
| FatTypes.Bytes32 | c/FAT_YY.h:46-60 | The four-byte encoding of a 32-bit field decodes little-endian to the value |
| FatTypes.Le16Bytes | c/FAT_YY.h:46-60 | Decoding two bytes and encoding the result gives the same bytes |
| FatTypes.Le32Bytes | c/FAT_YY.h:46-60 | Decoding four bytes and encoding the result gives the same bytes |
| FatTypes.Get24 | c/FAT_YY.h:6-12 | The packed 24-bit value is below 2^24 and its three bytes, low first, are the stored bytes |
| FatTypes.Set24 | c/FAT_YY.h:6-12 | The three stored bytes are the value's bits 0-7, 8-15 and 16-23 (repeats its body; FatTypes.Uint24RoundTrip and FatTypes.Uint24Restore carry the meaning) |
| FatTypes.Uint24RoundTrip | c/FAT_YY.h:6-12 | Get after set returns the value masked to 24 bits |
| FatTypes.Uint24Restore | c/FAT_YY.h:6-12 | Setting what get returned gives back the same three bytes |
| FatTypes.FomFlagsDisjoint | c/FAT_YY.h:106-114 | Each open-mode flag is a single bit and the flags are pairwise disjoint; the caller's bits and the internal bits do not overlap and together fill the byte |
| FatTypes.EofIsNotAByte | c/FAT_YY.h:116 | YY_EOF differs from every byte value getc can return |
| FatTypes.ParseDirn | c/FAT_YY.h:46-60 | A 32-byte directory entry parses into a well-formed entry whose name, extension, attribute and NTRes are the bytes at their offsets |
| FatTypes.SerializeDirn | c/FAT_YY.h:46-60 | Serialising an entry gives 32 bytes, each the byte of its field at that offset |
| FatTypes.DirnRoundTrip | c/FAT_YY.h:46-60 | Parsing a serialised entry gives the entry back |
| FatTypes.DirnBytesRoundTrip | c/FAT_YY.h:46-60 | Serialising a parsed 32 bytes gives the bytes back |
| FatTypes.DirSect | c/FAT_YY.h:62-64 | A directory sector is 16 entries, entry k parsed from bytes 32k to 32k+31 (repeats its body; FatTypes.DirSectRoundTrip carries the meaning) |
| FatTypes.JoinDirSect | c/FAT_YY.h:62-64 | Joining n entries gives 32·n bytes |
| FatTypes.DirSectRoundTrip | c/FAT_YY.h:62-64 | Splitting a sector into entries and joining them gives the sector back |
| FatTypes.DefaultDrive | c/FAT_YY.h:19-42 | An unused drive slot has id 0, no cached FAT sector, a clean cache, partition start 0 and no FAT type |
| Clusters.ClusterToSectorData | c/Clusters_YY.cpp:42-46 | A cluster's first sector is the cluster-area start plus (c−2) clusters of sectors |
| Clusters.SectorToClusterData | c/Clusters_YY.cpp:47-50 | A data sector belongs to cluster 2 plus its offset in the cluster area divided by the cluster size |
| Clusters.ClusterSectorRoundTrip | c/Clusters_YY.cpp:42-50 | The cluster of a cluster's first sector is that cluster |
| Clusters.SectorClusterFloor | c/Clusters_YY.cpp:42-50 | A sector's cluster starts at or before it, on a cluster boundary, and the distance is the sector's offset within the cluster |
| Clusters.FlushFat | c/Clusters_YY.cpp:58-65 | A flush leaves the cache clean and changes no other drive field; a clean cache flushes to no change |
| Clusters.FlushWritesBothCopies | c/Clusters_YY.cpp:58-65 | A dirty cached sector is written at its place in the first FAT and in the mirror FAT, and nowhere else |
| Clusters.FlushKeepsView | c/Clusters_YY.cpp:58-65 | A flush changes no sector of the FAT as seen through the cache |
| Clusters.GetFatSector | c/Clusters_YY.cpp:67-76 | Afterwards s is the cached sector; only the cache changes and its seam bytes are kept; if s was cached already nothing changes |
| Clusters.GetFatSectorView | c/Clusters_YY.cpp:67-76 | The cache then holds s's current contents, the FAT as seen is unchanged, and a freshly fetched sector is clean |
| Clusters.PutArrArr | c/Clusters_YY.cpp:132-207 | Writing back what the byte window at offset −2..1 reads changes nothing |
| Clusters.ArrPutArr | c/Clusters_YY.cpp:132-207 | Reading the window after writing it gives the written bytes (at offset −2, all but the first) |
| Drives.ReadBootSector | c/Drives_YY.cpp:68-96 | The read fails iff sector 0 is missing or lacks the 55AA signature; the disk is unpartitioned iff the OEM name is "MSDOS5.0" |
| Drives.VolumeStart | c/Drives_YY.cpp:205-241 | A volume start needs a signed sector 0 and a partition number of at most 3. Unpartitioned: partition 0 at sector 0. Partitioned: the entry's type is 1, 4 or 0x0C and the start is its begin LBA |
| Drives.FindVolume | c/Drives_YY.cpp:201-241 | A volume is found iff it has a start, its sector exists and carries 55AA, and it has 512 bytes per sector; then the volume sector is returned |
| Drives.ToSlideLog | c/Drives_YY.cpp:152-160 | A cluster size of 0 gives shift 255; otherwise the shift is floor(log2 n), below 8 |
| Drives.ToSlidePow2 | c/Drives_YY.cpp:152-160 | For a power of two below 256 the shift is its logarithm |
| Drives.FatTypeOf | c/Drives_YY.cpp:260-265 | FAT12 iff fewer than 4085 clusters, FAT16 iff 4085 to 65524, FAT32 iff 65525 or more |
| Drives.FatTypeBoundaries | c/Drives_YY.cpp:260-265 | The type changes exactly between 4084 and 4085 and between 65524 and 65525 clusters |
| Drives.RootDirSectors | c/Drives_YY.cpp:248 | The root directory takes the fewest sectors that hold its entries at 16 per sector (at most 4096) |
| Drives.MountLayout | c/Drives_YY.cpp:270-273 | The FAT starts after the reserved sectors, the root after all FAT copies, and the cluster area after the root's sectors |
| Drives.MountRootFits | c/Drives_YY.cpp:248-273 | The gap between root directory and cluster area is exactly the sectors the root entries need |
| Drives.MountClusters | c/Drives_YY.cpp:249-265 | The cluster count is the data sectors divided by the cluster size, rounded down, and the FAT type follows from it |
| Drives.MountSlide | c/Drives_YY.cpp:268-269 | A cluster size 2^k gives shift k and mask 2^k−1 |
| Drives.FindSlot | c/Drives_YY.cpp:165-177 | The first slot holding the id, or None iff no slot holds it |
| Drives.FindMap | c/Drives_YY.cpp:181-185 | A map[] entry for the drive letter, or None iff there is none |
| Drives.MountedDrive | c/Drives_YY.cpp:244-278 | A fresh mount has the id and device, cwd "X:/", FAT tag 0x0FFFFFFF, a clean cache and a zero free-search cursor |
| Drives.MountInto | c/Drives_YY.cpp:186-299 | A mount changes only its own slot, and sets the id iff it succeeds |
| Drives.MountDrive | c/Drives_YY.cpp:161-299 | An already-mounted id returns its slot with nothing changed; a failure sets no id; occupied slots are never touched |
| Drives.MountKeepsSlides | c/Drives_YY.cpp:268 | Mounting keeps every slot's cluster shift below 32, and a fresh mount's shift below 8 |
| Drives.MountTwice | c/Drives_YY.cpp:165-177 | Mounting is idempotent: mounting again after a success returns the same table and slot |
| Drives.MountSucceeds | c/Drives_YY.cpp:161-299 | A mount succeeds iff the id is mounted already, or: a slot is free, the letter is mapped, the device opens, the volume is found and its cluster size is not zero |
| FileSlots.GetFileSlot | c/Files_YY.cpp:20-26 | The first slot with no drive, or None iff every slot is taken |
| FileSlots.FreeFileSlot | c/Files_YY.cpp:27-31 | Freeing clears that slot's drive and changes nothing else |
| FileSlots.ClaimRelease | c/Files_YY.cpp:20-31 | Claiming a slot adds exactly it to the busy set; freeing it restores the busy set |
| FileSlots.DirOrFile | c/Files_YY.cpp:42-49 | An item is never both folder and file; volume labels are neither; otherwise it is a folder iff the directory bit is set, and a file iff it is not |
| FileSlots.MatchNameIff | c/Files_YY.cpp:54-62 | The name matches iff it is shorter than MAX_PATH and equals the long name after ASCII case folding |
| Files.OpenFileDirect | c/Files_YY.cpp:63-72 | The file is open with the caller's mode bits and no buffered sector; its first sector is its start cluster's; the pointer moves to the size iff the mode has write and append; nothing else changes |
| Files.OpenedIsOpen | c/Files_YY.cpp:50-72 | A file opened directly is open; the as-written test agrees only when the mode has a bit other than FOM_OPEN |
| Files.CloseFile | c/Files_YY.cpp:98-107 | Closing removes exactly that slot from the busy set; a null file changes nothing |
| Files.SplitRejoin | c/Files_YY.cpp:77-83 | The split point divides the path into a folder ending in a separator and a name holding none, which rejoin to the path |
| Files.FindFile | c/Files_YY.cpp:86-96 | A found file is a plain file, open, named as asked, on the folder's drive, in a slot that was free; no other slot changes use and only the FAT cache changes |
| Files.SearchFolder | c/Files_YY.cpp:86-96 | The folder is closed afterwards; a found file takes a slot that was free, holds the name on the folder's drive and is open (which file is found: Files.SearchFolderFindsFirstFile) |
| Files.FindFindsFirstFile | c/Files_YY.cpp:86-96 | For every folder, the scan opens a file iff the folder's listing holds a plain file of that name, and it opens the first such entry of the listing |
| Files.SearchFolderFindsFirstFile | c/Files_YY.cpp:86-96 | The same for the folder open in a directory slot whose drive is mounted: a file iff the listing holds one, the first match |
| Files.OpenInFindsFirstFile | c/Files_YY.cpp:81-96 | A folder that does not open gives no file; one that opens gives a file iff its listing holds a plain file of the name, the first match |
| Files.FolderBufferReads | c/Files_YY.cpp:77-81 | The buffer given to YY_OpenDirectory reads as the folder part; for "C:NAME" it reaches YY_OpenDirectory with drive letter 0 |
| Files.OpenFileFindsFirstFile | c/Files_YY.cpp:73-97 | YY_OpenFile opens a file iff its folder opens and that folder's listing holds a plain file of the name part; the file opened is the first such entry |
| Files.OpenFileAtRoot | c/Files_YY.cpp:73-97 | For "X:/name" with X mountable and a directory slot free, the root of X is opened, and the file is opened iff the root lists a plain file called name, the first one |
| Files.OpenFile | c/Files_YY.cpp:73-97 | An empty path opens nothing and changes nothing; success gives a slot that was free holding the path's file open; directory slots end as they began. The folder is opened from the path buffer with a NUL written over the name's first unit, as the code does it |
| Files.OpenIn | c/Files_YY.cpp:79-97 | The same, once the path is split into folder and name (which file is found: Files.OpenInFindsFirstFile) |
| Files.ChaseFollows | c/Files_YY.cpp:184-187 | The loop from the k-th to the n-th sector of a file lands on the sector n−k chain steps along |
| Files.ReadInFileSound | c/Files_YY.cpp:173-192 | After a successful read the buffer holds the file's n-th sector as the chain gives it |
| Files.ReadInFile | c/Files_YY.cpp:173-192 | A read changes only the buffer fields, and the buffer then holds the disk sector it names; it cannot fail when every sector is present |
| Files.Getc | c/Files_YY.cpp:194-205 | At or past the size the result is EOF. EOF changes nothing. Otherwise the result is byte pointer mod 512 of the file's sector pointer/512, and the pointer advances by one. With every sector present, EOF comes only at the end |
| Files.GetcFromChain | c/Files_YY.cpp:194-205 | After getc the buffered sector is the file's sector pointer/512 along the chain |
| Files.GetcBuffered | c/Files_YY.cpp:199-204 | The same when the needed sector was already buffered |
| Files.GetcReads | c/Files_YY.cpp:199-201 | The same when the needed sector has to be read |
| Files.ReadAll | c/Files_YY.cpp:194-205 | Repeated getc reads bytes up to the size at most, advancing the pointer by their count, and exactly size − pointer bytes when every sector is present |
| Files.NthAdd | c/Files_YY.cpp:184-187 | Following a+b chain steps equals following a steps and then b |
| Names.ShortNameChecksum | c/Directories_YY.cpp:307-311 | The loop computes the VFAT checksum of the 11-byte name, equal to the rotate-right-and-add definition |
| Names.ChecksumIsRotate | c/Directories_YY.cpp:309 | The step `(csum & 1 ? 0x80 : 0) + (csum >> 1)` is an 8-bit right rotation |
| Names.MakeLongFromShort | c/Directories_YY.cpp:118-135 | The loop builds the same long name as the functional definition |
| Names.BackOverSpaces | c/Directories_YY.cpp:118-135 | Stepping back over trailing spaces stops just after the last non-space |
| Names.BackOverTail | c/Directories_YY.cpp:118-135 | The same for the extension part |
| Names.LongFromShortReadme | c/Directories_YY.cpp:118-135 | "README  TXT" becomes "README.TXT", or "readme.TXT" with the lower-case-base flag |
| Names.LongFromShortDots | c/Directories_YY.cpp:118-135 | The "." and ".." entries keep their names |
| Names.LongFromShortNoExt | c/Directories_YY.cpp:118-135 | A name with a blank extension gets no dot: just the trimmed base |
| Names.LowerUnitFolds | c/Files_YY.cpp:59 | tolower changes only 'A'..'Z', adding 0x20; it is idempotent and maps only NUL to NUL |
| Names.StrToBuf | c/Directories_YY.cpp:139-153 | A NUL-free string shorter than the buffer is stored and reads back unchanged |
| Names.WcsCat | c/Directories_YY.cpp:150-151 | The result always fits MAX_PATH; an overflowing append gives the empty path |
| Names.CutBack | c/Directories_YY.cpp:143-147 | The ".." loop keeps a non-empty prefix of the path |
| Names.UpOne | c/Directories_YY.cpp:143-147 | ".." keeps a prefix of the path |
| Names.AddPathUndo | c/Directories_YY.cpp:139-153 | Adding a component to a path ending in '/' and then ".." gives the path back |
| Names.GetToken | c/Directories_YY.cpp:168-183 | The token is the units up to the next separator or NUL. The index moves past a separator but stops on a NUL. The result is true iff the token is non-empty |
| Directories.GetDirectorySlot | c/Directories_YY.cpp:25-31 | The first directory slot with no drive, or None iff every slot is taken |
| Directories.CloseDirectory | c/Directories_YY.cpp:327-330 | Closing clears that slot's drive and changes nothing else |
| Directories.Place | c/Directories_YY.cpp:80-96 | Units go to their positions below MAX_PATH; every position outside the range keeps its value |
| Directories.UnpackLong | c/Directories_YY.cpp:67-97 | Unpacking a fragment changes only the long name and the saved checksum |
| Directories.UnpackLongPlaces | c/Directories_YY.cpp:67-97 | A fragment's units up to the first NUL go to positions 13·(ord−1) onward. A first fragment (0x40) zeroes the rest of the name and records the checksum. A later fragment keeps both |
| Directories.PutStr | c/Directories_YY.cpp:303 | A string shorter than the buffer is stored followed by NUL |
| Directories.TakeItemIgnoresChecksum | c/Directories_YY.cpp:300-320 | The item handed out does not depend on the saved checksum (C only prints a warning); it carries the directory's drive and path |
| Directories.TakeItemShortName | c/Directories_YY.cpp:302-303 | With no long name gathered, the item's name is the one built from the 8.3 name |
| Directories.LongFromShortNoNul | c/Directories_YY.cpp:118-135 | A name built from an 8.3 name has at most 12 units, none NUL when the 8.3 name has none |
| Directories.ScanSector | c/Directories_YY.cpp:286-323 | The scan stops at an end marker or at an item. Every entry it passes is deleted or a long-name fragment. Only the long name and checksum of the file change |
| Directories.NextDirectoryItem | c/Directories_YY.cpp:262-325 | The directory keeps its drive, start and path. Only the FAT cache changes. An item goes to the first free file slot, on the directory's drive. It holds the entry just passed, the directory's path and pointer 0. No other slot changes use |
| Directories.NextItemHere | c/Directories_YY.cpp:286-321 | With an item at the slot of the buffered sector, that entry is handed out in the first free slot and the slot moves past it |
| Directories.NextItemAtEnd | c/Directories_YY.cpp:291-293 | A 0 name byte ends the listing with no item and nothing changed |
| Directories.ResetDirectory | c/Directories_YY.cpp:254-261 | A reset puts the cursor at slot 0 of the root (for FAT32, the root cluster) or of the start cluster; nothing else changes |
| Directories.Search | c/Directories_YY.cpp:192-203 | A failed search keeps start and path; success appends the name to the path with sector and slot 0; no file slot changes use |
| Directories.ChangeDirectory | c/Directories_YY.cpp:185-204 | A failure keeps start cluster and path; a success on a name other than "." appends it to the path; no file slot stays claimed |
| Directories.ChangeToDot | c/Directories_YY.cpp:187-188 | "." succeeds and changes nothing |
| Directories.FirstMatch | c/Directories_YY.cpp:192-203 | The position of the first folder in the listing whose name matches, or the listing's length |
| Directories.SearchFindsFirstMatch | c/Directories_YY.cpp:192-203 | The search succeeds iff the listing has a matching folder, and moves to the first one's cluster |
| Directories.ChangeFindsFirstMatch | c/Directories_YY.cpp:185-204 | Changing directory succeeds iff the listing from the start holds a matching folder, and enters the first |
| Directories.Replay | c/Directories_YY.cpp:235-242 | Replaying the cwd keeps the directory's drive and every file slot's use; only the FAT cache changes |
| Directories.Descend | c/Directories_YY.cpp:246-250 | The same for descending the path's components |
| Directories.Settle | c/Directories_YY.cpp:246-253 | A failure frees the directory slot; a success returns it; no other directory or file slot changes |
| Directories.OpenDirectory | c/Directories_YY.cpp:210-253 | Success takes the first free directory slot, on the path's drive, and changes no other directory slot. A failure leaves every slot's use unchanged. File slots keep their use |
| Directories.DescendRoot | c/Directories_YY.cpp:243-246 | A path that is just a separator descends nowhere and succeeds |
| Directories.OpenRoot | c/Directories_YY.cpp:210-253 | Opening "X:/" succeeds iff X mounts and a directory slot is free; it is then at the root sector of X, slot 0, with path "X:/" |
| Directories.ReplayLast | c/Directories_YY.cpp:237-241 | Replaying a one-component cwd succeeds iff the root listing holds that folder, and enters the first match |
| Directories.DescendOne | c/Directories_YY.cpp:246-250 | Descending "/name" succeeds iff the listing holds that folder, and enters the first match |
| Directories.OpenOneComponent | c/Directories_YY.cpp:210-253 | Opening "X:/name" succeeds iff X's root holds a folder called name, and enters the first such |
| Entries.GetClusterEntryReads | c/Clusters_YY.cpp:212-222 | The value read is the cluster's entry in the FAT as seen; the FAT as seen is unchanged and only the cache moves |
| Entries.Merge32Bits | c/Clusters_YY.cpp:229-235 | A FAT32 write keeps the top 4 reserved bits and replaces the low 28 |
| Entries.SetEntryValue | c/Clusters_YY.cpp:224-246 | After the write, the entry reads as the value kept to the entry width; every other entry reads as before |
| Entries.SetEntryState | c/Clusters_YY.cpp:224-246 | The write keeps the cache consistent and changes only the drive's FAT cache |
| Entries.SetClusterEntryKeepsReserved | c/Clusters_YY.cpp:229-235 | The entry's reserved FAT32 bits are unchanged in the FAT as seen |
| Entries.FollowFromReads | c/Clusters_YY.cpp:370-373 | The step from a cluster is decided by its entry in the FAT as seen |
| Entries.MaskedOffset | c/Clusters_YY.cpp:367-368 | Masking an offset with sectors_in_cluster_mask gives the offset modulo the cluster size |
| Entries.ClusterEndIff | c/Clusters_YY.cpp:367-368 | The mask test on the next sector's offset from the data area is zero iff that sector starts a new cluster |
| Entries.AlignedClusterEndIff | c/Clusters_YY.cpp:367-368 | When the data area starts on a cluster boundary, masking the absolute sector number agrees with the offset test |
| Entries.NextAtClusterEnd | c/Clusters_YY.cpp:367-373 | At a cluster's last sector, the next sector is the chain's next |
| Entries.NextInCluster | c/Clusters_YY.cpp:367-369 | Inside a cluster, the next sector is the chain's next |
| Entries.NextInRoot | c/Clusters_YY.cpp:363-367 | In the fixed FAT12/16 root, the next sector is the chain's next |
| Entries.GetNextSectorSteps | c/Clusters_YY.cpp:363-374 | The next sector is the reference definition's next sector for root and data sectors alike, 0 at the end of a chain, wherever the data area starts |
| FatEntries.GetPut16 | c/Clusters_YY.cpp:238-243 | After a 16-bit write the entry reads as the value; every other entry is unchanged |
| FatEntries.GetPut32 | c/Clusters_YY.cpp:229-235 | After a 32-bit write the entry reads as the value; every other entry is unchanged |
| FatEntries.ReadLow | c/Clusters_YY.cpp:138-140 | Entries 0..340 read from the first sector are the flat triad's entries |
| FatEntries.Read341 | c/Clusters_YY.cpp:141-147 | Entry 341, read across the seam of sectors 0 and 1, is the flat triad's entry |
| FatEntries.ReadMiddle | c/Clusters_YY.cpp:148-151 | Entries 342..681 read from the second sector are the flat triad's entries |
| FatEntries.Read682 | c/Clusters_YY.cpp:152-158 | Entry 682, read across the seam of sectors 1 and 2, is the flat triad's entry |
| FatEntries.ReadTop | c/Clusters_YY.cpp:159-162 | Entries 683..1023 read from the third sector are the flat triad's entries |
| FatEntries.Get12FatReads | c/Clusters_YY.cpp:132-163 | get12bitsFAT returns the flat triad's entry for every index and does not change the FAT as seen |
| FatEntries.Set12FatWrites | c/Clusters_YY.cpp:165-207 | set12bitsFAT changes the flat triad as a packed-array write does and leaves every other FAT sector unchanged |
| FatEntries.WithPrefixView | c/Clusters_YY.cpp:142 | Saving a byte into fatPrefix does not change the FAT as seen |
| Fat12.GetSet12A | c/Clusters_YY.cpp:111-130 | Reading an entry after writing it gives the value's low 12 bits |
| Fat12.GetSet12AOther | c/Clusters_YY.cpp:111-130 | Writing one entry leaves every other entry unchanged |
| Fat12.Set12AFrame | c/Clusters_YY.cpp:119-130 | Bytes outside the entry's pair are unchanged |
| Fat12.Get12RegionsFlat | c/Clusters_YY.cpp:132-163 | Reading by region across three sectors and their seam bytes equals reading the flat 1536-byte triad |
| Fat12.Set12RegionsFlat | c/Clusters_YY.cpp:165-207 | Writing by region equals writing the flat triad |
| Fat12.GetSet12Regions | c/Clusters_YY.cpp:132-207 | Reading by region after writing by region gives the value's low 12 bits |
| Allocate.ScanLimitBounds | c/Clusters_YY.cpp:259-298 | The search stops before count+2 and within the FAT's whole entries |
| Allocate.ScanLimitInFat | c/Clusters_YY.cpp:259-298 | Every cluster below the limit has its whole entry inside the FAT |
| Allocate.CursorOfBelow | c/Clusters_YY.cpp:266 | A search started from the speed-up recorded for cluster c begins at or before c |
| Allocate.FindFree | c/Clusters_YY.cpp:256-358 | The search returns the first cluster in the range whose entry is 0, and 0 iff there is none |
| Allocate.AllocateCluster | c/Clusters_YY.cpp:252-359 | The result is 0 iff no entry is free, and a failure only resets the speed-up. Otherwise the entry was 0 and now holds the end-of-chain mark, and every other entry is unchanged. The entries skipped were non-zero, and the speed-up records the cluster |
| Allocate.TakeEntry | c/Clusters_YY.cpp:262-267 | Taking a cluster writes the end-of-chain mark into its entry and into no other |
| Allocate.TakeState | c/Clusters_YY.cpp:262-267 | Taking a cluster keeps the cache consistent and changes only the cache and the speed-up, which records the cluster |
| Allocate.TakenSound | c/Clusters_YY.cpp:266-267 | If every cluster before the search start was in use, the new speed-up keeps that true |
| Allocate.FirstWideSector | c/Clusters_YY.cpp:256-292 | The FAT16/32 sector search returns a sector at or after its start and inside the FAT |
| Chars.Utf16ToUnicode | c/Chars_YY.cpp:11-34 | The result is 0 iff the index did not move; a non-zero result is a Unicode scalar |
| Chars.Utf8ToUnicode | c/Chars_YY.cpp:35-83 | The result is below 2^21; a non-zero result advances the 16-bit index by the length its lead byte names |
| Chars.ToWide | c/Chars_YY.cpp:133-142 | The output is NUL-terminated within its limit, and nothing at or past the limit changes |
| Chars.ToNarrow | c/Chars_YY.cpp:143-152 | The output is NUL-terminated within its limit, and nothing at or past the limit changes |
| Chars.WideAscii | c/Chars_YY.cpp:133-142 | ASCII text that fits widens unit for unit, then NUL |
| Chars.NarrowAscii | c/Chars_YY.cpp:143-152 | ASCII text that fits narrows unit for unit, then NUL |
| Chars.AsciiRoundTrip | c/Chars_YY.cpp:133-152 | Narrowing widened ASCII text gives the text back |
| Chars.Limit | c/Chars_YY.cpp:133-152 | The usable output size: cbOut, or 1 when cbOut is 0 (repeats its body; the conversions that use it carry the meaning) |
| Unicode.Decode16 | Z80debug/Z80debug/charset.cpp:110-133 | A non-surrogate, non-NUL unit decodes to itself (length 1). A high then low surrogate decode to a supplementary scalar (length 2). Anything else decodes to nothing |
| Unicode.DecodeSingle | Z80debug/Z80debug/charset.cpp:110-133 | A non-surrogate unit decodes to itself |
| Unicode.DecodePair | Z80debug/Z80debug/charset.cpp:110-133 | A surrogate pair decodes to 0x10000 plus the two 10-bit halves |
| Unicode.Utf16RoundTrip | Z80debug/Z80debug/charset.cpp:110-133 | Decoding the UTF-16 units of a scalar gives the scalar and their count |
| Unicode.Decode8 | Z80debug/Z80debug/charset.cpp:137-185 | Bytes decode iff the lead byte is non-zero and valid and the continuation bytes it calls for are there; the length is the lead's |
| Unicode.Utf8RoundTrip | Z80debug/Z80debug/charset.cpp:137-185 | Decoding the UTF-8 bytes of a scalar gives the scalar and their count |
| Unicode.Utf8UnitsShape | Z80debug/Z80debug/charset.cpp:65-93 | The lead byte names the byte count; the rest are continuation bytes; the lead is 0 only for key 0 |
| Unicode.GetUtf8Lenient | Z80debug/Z80debug/charset.cpp:137-185 | Malformed input still decodes: C3 C3 gives 0xC3 over two bytes and the overlong C0 80 gives 0 |
| Unicode.CharBytes | Z80debug/Z80debug/charset.cpp:95-106 | The byte count is the length of the key's UTF-8 encoding, 0 iff the key is not a scalar |
| Unicode.PutUnits | c/Chars_YY.cpp:84-127 | Nothing is written iff there is nothing to write or no room. Otherwise the units go at the index, the index advances by their count, and it stays at most max−1 |
| Unicode.PutUtf16 | Z80debug/Z80debug/charset.cpp:46-60 | The count is 0 iff the key is not a scalar or its units do not fit |
| Unicode.PutUtf8 | Z80debug/Z80debug/charset.cpp:65-93 | The count is 0 iff the key is not a scalar or its bytes do not fit |
| Unicode.PutGetUtf16 | Z80debug/Z80debug/charset.cpp:46-133 | Getting what was put gives the key and steps over exactly the units written |
| Unicode.PutGetUtf8 | Z80debug/Z80debug/charset.cpp:65-185 | Getting what was put gives the key and steps over exactly the bytes written |
| Unicode.Step16 | c/Chars_YY.cpp:133-142 | A key goes into the output iff it is a scalar and fits before max; its units go at n and nothing else changes |
| Unicode.Step8 | c/Chars_YY.cpp:143-152 | A key goes into the output iff it is a scalar and fits before max; its bytes go at n and nothing else changes |
| Unicode.End16 | c/Chars_YY.cpp:133-142 | The terminator goes at n and nothing else changes |
| Unicode.End8 | c/Chars_YY.cpp:143-152 | The terminator goes at n and nothing else changes |
| Charset.PutUtf8AsWrittenAgrees | Z80debug/Z80debug/charset.cpp:65-93 | When max is 0 or at least the key's byte count, the code as written agrees with the corrected putchar |
| Charset.MbToWide | Z80debug/Z80debug/charset.cpp:190-201 | The output is NUL-terminated within nw and untouched beyond. nw == 0, which putchar takes as no limit (:43), stands for the whole buffer. On success it holds the same characters as the input |
| Charset.MbToWideUnlimited | Z80debug/Z80debug/charset.cpp:190-201 | With nw == 0 and a buffer longer than the input, the conversion succeeds iff every code point of the input is a Unicode scalar value |
| Charset.MbToWideFitsGoes | Z80debug/Z80debug/charset.cpp:190-201 | A conversion succeeds when every code point is a scalar value and all their UTF-16 units, with the terminator, stay under nw |
| Charset.Utf16Length | Z80debug/Z80debug/charset.cpp:190-201 | The UTF-16 units the conversion writes are never more than the input bytes they come from |
| Charset.Utf16LengthScalars | Z80debug/Z80debug/charset.cpp:46-49 | The UTF-16 length is defined iff every code point is a scalar value, the only keys putchar refuses outright |
| Charset.WideToMb | Z80debug/Z80debug/charset.cpp:202-216 | The output is NUL-terminated within nc and untouched beyond. nc == 0, which putchar takes as no limit (:62), stands for the whole buffer. On success it holds the input's characters with carriage returns removed. When nc is below a key's byte count, the putchar that C calls at :209 writes past nc; the model refuses the key, as the corrected putchar does (see "## Findings") |
| Charset.WideToMbUnlimited | Z80debug/Z80debug/charset.cpp:202-216 | With nc == 0 and a buffer of more than three bytes per input unit, the conversion always succeeds |
| Charset.WideToMbFitsGoes | Z80debug/Z80debug/charset.cpp:202-216 | A conversion succeeds when the UTF-8 bytes of everything but the carriage returns, with the terminator, stay under nc |
| Charset.Utf8Length | Z80debug/Z80debug/charset.cpp:202-216 | The UTF-8 bytes the conversion writes are never more than three per input unit |
| Charset.WideReadsBack | Z80debug/Z80debug/charset.cpp:190-201 | Units written for a key read back as that key over their length |
| Charset.NarrowReadsBack | Z80debug/Z80debug/charset.cpp:202-216 | Bytes written for a key read back as that key over their length |
| Charset.NextChar | Z80debug/Z80debug/charset.cpp:313-372 | The index never moves back, and moves forward on success |
| Charset.NextAgreesGet | Z80debug/Z80debug/charset.cpp:313-372 | Where getchar decodes a character, nextchar succeeds and moves exactly as far |
| Charset.NextChar16Lenient | Z80debug/Z80debug/charset.cpp:313-329 | Two low surrogates count as one character; a high surrogate before 'A' fails yet moves the index by 2 |
| Charset.Prev16 | Z80debug/Z80debug/charset.cpp:373-386 | On success the index moves back; on failure it stays |
| Charset.Prev8 | Z80debug/Z80debug/charset.cpp:387-418 | On success the index moves back; on failure it stays |
| Charset.PrevChar | Z80debug/Z80debug/charset.cpp:373-418 | On success the index moves back; on failure it stays |
| Charset.PrevUndoesGet16 | Z80debug/Z80debug/charset.cpp:110-133 | prevchar after a UTF-16 character returns to its start |
| Charset.PrevUndoesPut8 | Z80debug/Z80debug/charset.cpp:330-418 | Over a scalar's UTF-8 bytes, nextchar steps over them and prevchar steps back to their start |
| Charset.PrevUndoesPut16 | Z80debug/Z80debug/charset.cpp:313-386 | Over a scalar's UTF-16 units, nextchar steps over them and prevchar steps back to their start |
| Charset.IndexCharInverse | Z80debug/Z80debug/charset.cpp:423-462 | indextochar and chartoindex undo each other whenever they succeed |
| Charset.CharThenIndex | Z80debug/Z80debug/charset.cpp:423-442 | The index loop run on the index the column loop found gives back the column |
| Charset.IndexThenChar | Z80debug/Z80debug/charset.cpp:423-442 | The column loop run on the column the index loop found gives back the index |
| Charset.CharToIndexWithinChars | Z80debug/Z80debug/charset.cpp:434-462 | Every column up to the character count has an index, which maps back to the column |
| Charset.Chars | Z80debug/Z80debug/charset.cpp:484-500 | The character count is the number of characters decoded before getchar first returns 0 |
| Charset.Length | Z80debug/Z80debug/charset.cpp:468-482 | The first NUL is at the length |
| Charset.CharsAtMostLength | Z80debug/Z80debug/charset.cpp:468-500 | A string never holds more characters than units |
| Charset.Get | Z80debug/Z80debug/charset.cpp:110-185 | No character decodes to nothing but 0; a decoded character lies inside the text and starts at a non-NUL unit |
| CharStrings.TerminatorIsLength | Z80debug/Z80debug/charset.cpp:468-475 | The first NUL byte of a buffer is at length() |
| CharStrings.Copy | Z80debug/Z80debug/charset.cpp:502-519 | A null pointer fails and changes nothing. Otherwise the first k units are copied and then a NUL, and the rest is untouched. The result is true iff k reached the source's end or n |
| CharStrings.Copied | Z80debug/Z80debug/charset.cpp:505-507 | The count copied is at most the length, at most cb−1 and at most n, and equals one of them (or 0) |
| CharStrings.Compare | Z80debug/Z80debug/charset.cpp:536-599 | The result is the lexicographic order of the two character sequences, case-folded for comparei and capped at n characters; a null pointer reads as empty |
| CharStrings.CompareFromLex | Z80debug/Z80debug/charset.cpp:536-599 | The character loop computes that order from any position |
| CharStrings.CompareAntisymmetric | Z80debug/Z80debug/charset.cpp:536-599 | Swapping the arguments negates the result |
| CharStrings.CompareZero | Z80debug/Z80debug/charset.cpp:536-599 | With no limit, the result is 0 iff the (folded) character sequences are equal |
| CharStrings.CompareCase | Z80debug/Z80debug/charset.cpp:536-599 | "A" against "a" is 0 for comparei and −1 for compare |
| CharStrings.LexAntisymmetric | Z80debug/Z80debug/charset.cpp:536-599 | The lexicographic order is antisymmetric |
| CharStrings.LexZero | Z80debug/Z80debug/charset.cpp:536-599 | The order is 0 iff the sequences are equal |
| CharStrings.InListKeys | Z80debug/Z80debug/charset.cpp:601-611 | isinList holds iff the character is one of the list's characters |
| CharStrings.Token | Z80debug/Z80debug/charset.cpp:613-640 | There is no token iff there is no start and no context, or the text is empty after skipping one space or tab; then the text is unchanged and the context ends. A token starts one byte after the resume point iff the byte there is a space or tab, otherwise at it, on a non-NUL byte |
| CharStrings.TokenSplits | Z80debug/Z80debug/charset.cpp:613-640 | The token holds no delimiter. If a context remains, the text from the token reads as the token, one delimiter, then the text from the context. Otherwise the text is unchanged |
| CharStrings.TokenOneSpace | Z80debug/Z80debug/charset.cpp:619-620 | Only one leading space is skipped: in "  a" the token starts at the second space |
| CharStrings.Scan | Z80debug/Z80debug/charset.cpp:625-639 | The scan stops at NUL or at a delimiter character |
| CharStrings.Concat | Z80debug/Z80debug/charset.cpp:642-657 | concat succeeds iff both strings and a NUL fit in cb; then the destination reads as dest followed by src and is untouched past the result; a failure changes nothing |
| CharStrings.Insert | Z80debug/Z80debug/charset.cpp:659-664 | The text reads as the prefix, c, then the rest; bytes past the old NUL plus one are untouched |
| CharStrings.InsertReads | Z80debug/Z80debug/charset.cpp:659-664 | The memmove form reads as the prefix, c, then the rest |
| Streams.GetThing | c/FAT_ZZ.cpp:21-28 | The first free thing takes the pointer; None iff every thing is taken, with the table unchanged |
| Streams.FreeThing | c/FAT_ZZ.cpp:29-32 | Freeing empties that thing and changes nothing else |
| Streams.GetThenFree | c/FAT_ZZ.cpp:21-32 | Getting a thing and freeing it gives the table back |
| Streams.GetFile | c/FAT_ZZ.cpp:90 | A handle gives file i only when its thing wraps file i; no handle gives no file |
| Streams.GetFolder | c/FAT_ZZ.cpp:293 | A handle gives folder k only when its thing wraps folder k; no handle gives no folder |
| Streams.Claim | c/FAT_ZZ.cpp:44-49 | Wrapping takes the first free thing; with none free there is no handle and the table is unchanged |
| Streams.ModeFrom | c/FAT_ZZ.cpp:111-133 | A mode is known iff a table row matches it, and then gives that row's flags |
| Streams.ModeCodes | c/FAT_ZZ.cpp:111-118 | The six rows give their flag sets, and "rb" is unknown |
| Streams.FopenWide | c/FAT_ZZ.cpp:120-133 | An unknown mode changes nothing. A handle is a thing that was free, wrapping a slot that was free, now holding the path's file open |
| Streams.FopenD | c/FAT_ZZ.cpp:134-148 | An unknown mode changes nothing. Otherwise the same handle, its file open with the entry unchanged. The pointer moves to the size for write+append and stays without append |
| Streams.FopenWideOpens | c/FAT_ZZ.cpp:120-133 | With a known mode, a handle comes back iff YY_OpenFile opens the file and a thing is free, and the handle leads to the file it opened |
| Streams.Fclose | c/FAT_ZZ.cpp:150-156 | Closing frees the handle's thing and its file's slot; folders and drives are unchanged |
| Streams.FopenFclose | c/FAT_ZZ.cpp:120-156 | Opening then closing gives the things table back and frees the file's slot |
| Streams.OpenedHandle | c/FAT_ZZ.cpp:120-133 | An opened handle is a plain, open file, never a folder |
| Streams.FileGetc | c/FAT_ZZ.cpp:172-178 | At or past the size the result is EOF, and EOF changes nothing. Otherwise a byte is returned and the pointer advances by one. Only this file changes |
| Streams.ReadFrom | c/FAT_ZZ.cpp:157-171 | At most count bytes; the pointer advances by the number read and never past the size |
| Streams.ReadFromEnds | c/FAT_ZZ.cpp:157-171 | With every sector present, a short read happens only at the end of the file |
| Streams.Fread | c/FAT_ZZ.cpp:157-171 | The count returned is the number of bytes read, at most count, and the pointer advances by it; a null handle reads nothing |
| Streams.FreadCount | c/FAT_ZZ.cpp:157-171 | With every sector present, fread reads min(count, size − pointer) bytes |
| Streams.Fgetc | c/FAT_ZZ.cpp:172-178 | A null handle gives 0 and changes nothing; otherwise EOF changes nothing and a byte advances the pointer by one |
| Streams.Fgets | c/FAT_ZZ.cpp:179-201 | The line has at most count−1 bytes; a null handle gives None |
| Streams.GetsIsReadToNewLine | c/FAT_ZZ.cpp:179-201 | The fgets loop reads what reading count−1 bytes reads, cut just after the first newline |
| Streams.FgetsIsFreadToNewLine | c/FAT_ZZ.cpp:179-201 | fgets gives fread of count−1 bytes cut after its first newline, and None when fread reads nothing |
| Streams.Seek | c/FAT_ZZ.cpp:232-254 | With the pointer inside the file, there is a target iff the origin is SET, CUR or END and base + offset lies in 0..size, and it is that sum |
| Streams.Fseek | c/FAT_ZZ.cpp:232-254 | fseek returns 0 or 1. On 1 nothing changes. On 0 only the file's pointer moves, to base + offset, within the size |
| Streams.SeekAsWrittenAgrees | c/FAT_ZZ.cpp:232-254 | Without 32-bit overflow the code as written agrees with the corrected seek |
| Streams.Ftell | c/FAT_ZZ.cpp:255-260 | ftell is the file pointer, 0 for a null handle |
| Streams.TellAfterSeek | c/FAT_ZZ.cpp:232-260 | ftell after a successful fseek gives the target |
| Streams.FileSize | c/FAT_ZZ.cpp:104-109 | The entry's size, 0 for a null handle (a null-safe accessor whose contract repeats its body) |
| Streams.LongName | c/FAT_ZZ.cpp:98-103 | The long name in UTF-8, empty for a null handle (a null-safe accessor whose contract repeats its body) |
| Streams.LongPath | c/FAT_ZZ.cpp:92-97 | The path in UTF-8, empty for a null handle (a null-safe accessor whose contract repeats its body) |
| Streams.NarrowNameAscii | c/FAT_ZZ.cpp:98-103 | An ASCII name narrows unit for unit, then NUL |
| Streams.FileIsDir | c/FAT_ZZ.cpp:269-275 | True iff the handle holds a file that is a folder (a null-safe accessor whose contract repeats its body) |
| Streams.FileIsFile | c/FAT_ZZ.cpp:276-282 | True iff the handle holds a file that is a plain file (a null-safe accessor whose contract repeats its body) |
| Streams.FileIsOpen | c/FAT_ZZ.cpp:283-289 | True iff the handle holds a file that is open (a null-safe accessor whose contract repeats its body) |
| Streams.OpenFolderWide | c/FAT_ZZ.cpp:295-300 | A handle is handed out iff the directory opens and a thing is free. It is then the first free thing, and it wraps the opened directory, on the path's drive |
| Streams.ChangeFolderWide | c/FAT_ZZ.cpp:301-307 | A null folder gives false and changes nothing; a success keeps the folder's drive and the things table |
| Streams.ChangeFolderFindsFirstMatch | c/FAT_ZZ.cpp:301-307 | changefolder succeeds iff the folder's listing holds a matching subfolder, and enters the first |
| Streams.FindNextFile | c/FAT_ZZ.cpp:308-317 | A null folder gives nothing. An item comes as a handle to a slot that was free, on the folder's drive, with the folder's path and pointer 0 |
| Streams.ResetFolder | c/FAT_ZZ.cpp:318-323 | Only the folder's directory changes: back to slot 0 with the same start cluster; a null handle changes nothing |
| Streams.FolderPathName | c/FAT_ZZ.cpp:324-330 | The folder's path in UTF-8, empty for a null handle |
| Streams.CloseFolder | c/FAT_ZZ.cpp:331-336 | Closing frees the handle's thing and the directory slot; a null folder changes nothing |

## Left out

- Drives.MountInto: a boot sector with 0 sectors per cluster is refused with the slot left free. C stores the drive id first (Drives_YY.cpp:244) and then divides by zero at :259. The model does not model the division fault.
- Drives.CountOfClusters: requires a non-zero cluster size. The zero case is refused earlier, in Drives.MountInto.
- Allocate.AllocateCluster: searches clusters 2 to count_of_clusters+1 whose entries lie inside the FAT. C's loops cover other ranges; those are recorded under "## Findings".
- Allocate.AllocateCluster: a search that finds nothing leaves the disk and cache as they were. C's GetFatSector calls during the search may flush a dirty FAT sector and leave the last sector cached. Neither changes the FAT as seen.
- Directories.Place: units at or beyond MAX_PATH are dropped, where C writes past longName. The overrun is recorded under "## Findings".
- Names.WcsCat: an overflowing append clears the path, where wcscat_s invokes the invalid-parameter handler.
- Directories.NextDirectoryItem: the walk over a directory's sectors takes a fuel bound, because a FAT chain can be cyclic. Out of fuel reads as "no more items".
- Directories.Search: the listing search takes a budget of items, for the same reason.
- Directories.OpenDirectory: replaying the cwd and descending the path use the Search budget.
- Files.Chase: follows at most the given number of links.
- Files.FindFile: the folder scan takes a count of items.
- Streams.Fclose: a null handle is excluded, because freeFILE dereferences it (c/FAT_ZZ.cpp:49, :155).
- CharStrings.Insert: requires the index within the string and a buffer one byte longer than the string, because the memmove in C overruns otherwise.
- Entries.ClusterGeometry: the chain lemmas (Entries.GetNextSectorSteps, Files.ChaseFollows, Files.ReadInFileSound, Files.GetcFromChain and their helpers) assume a power-of-two cluster size of at most 128 sectors, as Drives.MountSlide gives. Other sizes give a mask that is not one less than the cluster size.
- Streams.FopenD: requires that the handle's file exists when the mode is known, because C dereferences it.
- Streams.Fopen, Streams.OpenFolder and Streams.ChangeFolder: the UTF-8-path wrappers promise only that the world stays well formed. Their contracts go through Streams.FopenWide, Streams.OpenFolderWide and Streams.ChangeFolderWide.
- Streams.Fgets: the line is returned as a sequence, so the NUL that C stores after it is not modelled.
- FileSlots.GetFileSlot: the debug counters UsedFileSlots, YY_Dused, UsedDirectorySlots and UsedZZthings are not modelled. FileSlots.Busy gives the same count as a set.
- Writing is not modelled: ZZ_fwrite, ZZ_fputc and ZZ_fputs are stubs, and the commented-out YY_WriteBlock/YY_ReadBlock are not compiled.
- YY_DeleteFile, YY_SeekFile and YY_TellFile are stubs that return constants.
- YY_CloseFile only frees its slot; the write-back it describes is a comment.
- Display helpers are not modelled: YY_WriteDirectoryItem, MakeFlags, makeTime, makeDate and ZZ_writefiledesc only format text.
- The printed checksum warnings are not modelled; a boolean records them.
- totext/towide in FAT_ZZ.cpp rotate among static buffers. The model converts directly with Chars.ToNarrow and Chars.ToWide. towide (c/FAT_ZZ.cpp:84) indexes `wideslot[nslot]` rather than `wideslot[wslot]`, so two towide calls with no totext between them return the same buffer. No modelled operation makes two such calls. split in FAT_ZZ.cpp is compiled out (#if 0).
- Charset.Chars: a null pointer, for which C returns 0 (Z80debug/Z80debug/charset.cpp:486, :495), is not modelled; texts are sequences.
- Charset.Length: a null pointer, for which C returns 0 (Z80debug/Z80debug/charset.cpp:470, :478), is not modelled; texts are sequences.
- Charset.MbToWide: requires a buffer of nw units, or with nw == 0 one longer than the input, because C writes past a shorter buffer.
- Charset.WideToMb: requires a buffer of nc bytes, or with nc == 0 one of more than three bytes per input unit, because C writes past a shorter buffer.
- Device I/O (XX_OpenDevice, XX_ReadSector, XX_WriteSector in FAT.cpp) is a map from names to disks. XX_alloc, XX_free, the test driver main and the dump helpers are not modelled.
- Not modelled in charset.cpp: duplicate (allocation), mbtocode/codetomb (escape coding), translateKey and XXtoWIN (key tables for the debugger UI).
- FAT32.cpp, merge.cpp and the rest of the Z80 debugger are not part of this model.

## Findings

| source | as written | input that shows it | evidently intended | confidence | as-written member | corrected member |
|---|---|---|---|---|---|---|
| c/Clusters_YY.cpp:194 | The first half of entry 682 is written by `set12bitsA(array, 341, value)` on sector 1, which uses the odd-entry layout for an even entry: the value's low nibble lands in the high nibble of sector 1's last byte | sector 1 byte 511 = 0, set entry 682 to 0x0ff: it reads back as 0x0f0 | entry 682 reads back as written | not executed | FatEntries.Set12At682AsWrittenState | FatEntries.Set12FatWrites |
| c/Clusters_YY.cpp:194 | (the same step, on the flat triad) | as above | as above | not executed | Fat12.Set12RegionsAsWrittenLoses682 | Fat12.Set12RegionsFlat |
| c/Clusters_YY.cpp:367-368 | The end of a cluster is found by masking the absolute sector number, which marks cluster ends only when the data area starts on a cluster boundary | 4-sector clusters, data area at sector 497, FAT entry of cluster 2 = 3: after sector 499 the code reads the FAT and goes to sector 501, skipping sector 500 of cluster 2 | mask the offset from the start of the data area | not executed | Entries.GetNextSectorMaskLeavesCluster | Entries.GetNextSectorSteps |
| c/Clusters_YY.cpp:372 | The end of a chain is recognised only by the FAT32 mark 0x0FFFFFFF | a FAT16 entry 0xFFFF: the walk goes on to cluster 0xFFFF's sectors | end of chain for every FAT type | not executed | Entries.GetNextSectorAsWrittenRunsOn | Entries.GetNextSectorSteps |
| c/Clusters_YY.cpp:262 | The FAT32 free test `(t & 0xfffffff)==0` (and the FAT16 one at :283) tests the index t, not the entry just read, so only index 0 of a sector is ever taken | entry 2 free and cursor 0: cluster 0 is returned, which the caller reads as a full disk | return the first zero entry | not executed | Allocate.WideAsWrittenReportsFull | Allocate.AllocateCluster |
| c/Clusters_YY.cpp:283 | The FAT16 free test `t==0` tests the index t, not the entry just read | cursor 1 on a FAT16 volume: cluster 256 is taken whatever its entry | return the first zero entry | not executed | Allocate.WideAsWrittenTakesAny | Allocate.AllocateCluster |
| c/Clusters_YY.cpp:323 | The FAT12 middle loop stops before index 681 | fatSize 3, 1000 clusters: cluster 681 is never offered | every data cluster can be offered | not executed | Allocate.Offered12Skips681 | Allocate.AllocateCluster |
| c/Clusters_YY.cpp:295 | The FAT12 count left is measured from (sector/3)·1023, so a triad offers one entry too many | fatSize 12, 3100 clusters: cluster 3102 is offered | offer clusters up to count+1 only | not executed | Allocate.Offered12BeyondVolume | Allocate.AllocateCluster |
| c/Clusters_YY.cpp:298 | The FAT12 count omits the two reserved entries | fatSize 3, 1000 clusters: clusters 1000 and 1001 are never offered | offer clusters 2..count+1 | not executed | Allocate.Offered12MissesLast | Allocate.AllocateCluster |
| c/Clusters_YY.cpp:259-260 | The FAT32/16 count omits the two reserved entries | FAT16, fatSize 16, 1000 clusters: clusters 1000 and 1001 are never offered | offer clusters 2..count+1 | not executed | Allocate.OfferedWideMissesLast | Allocate.AllocateCluster |
| c/Clusters_YY.cpp:333-336 | The free test of entry 682 reads the prefix byte from byte 509 of sector 1 rather than byte 511 | sector 1 byte 509 = 0, byte 511 ≠ 0: entry 682 is taken as free | test entry 682 itself | not executed | Allocate.Test682AsWrittenMisreads | FatEntries.Read682 |
| c/Directories_YY.cpp:318 | memcpy copies MAX_PATH bytes of a MAX_PATH-unit wide path: half the buffer | a path longer than MAX_PATH/2 units is cut | copy the whole path | not executed | Directories.HalfCopyAsWrittenCuts | Directories.NextDirectoryItem |
| c/Directories_YY.cpp:254-261 | Reset of the root uses root_dir_first_sector, which for FAT32 is the first data sector rather than the root cluster | FAT32 with root cluster above 2: the reset lands on cluster 2 | reset to the root cluster's first sector | not executed | Directories.ResetAsWrittenMissesRoot | Directories.ResetDirectory |
| c/Directories_YY.cpp:80 | The long-name index is (ord & 0x3f − 1)·13 with no bound | ord 0 (index −13, wrapped) or ord 21 (index 260): the write lands outside longName | drop units outside the buffer | not executed | Directories.FragmentTargetsAsWrittenOverrun | Directories.UnpackLongPlaces |
| c/Files_YY.cpp:198 | The sector number in the file is truncated to 16 bits | pointer 0x2000000: getc reads from sector 0 of the buffer | use the full sector number | not executed | Files.GetcAsWrittenWraps | Files.Getc |
| c/Files_YY.cpp:52 | isOpen is `(open_mode ^ FOM_OPEN) != 0`, an XOR rather than an AND | a closed file (mode 0) counts as open; a file opened with mode FOM_OPEN alone counts as closed | test the FOM_OPEN bit | not executed | FileSlots.IsOpenAsWrittenWrong | Files.OpenedIsOpen |
| Z80debug/Z80debug/charset.cpp:65-93 | The room test `index >= max − bytes` wraps in DWORD when max < bytes. widetomb (:209) calls this putchar with its nc | max 1, key 0x80: two bytes are written past the limit | report no room | not executed | Charset.PutUtf8Overrun | Unicode.PutUtf8 |
| Z80debug/Z80debug/charset.cpp:387-418 | The backward scan over continuation bytes does not stop at index 0 | text 0x80 0x80, index 2: the scan reads before the buffer | stop at the start | not executed | Charset.Prev8Underrun | Charset.Prev8 |
| c/FAT_ZZ.cpp:243-244 | The CUR target is computed in 32 bits and wraps | pointer 0xFFFFFFFF, offset +1: the seek lands on 0 | refuse the out-of-range target | not executed | Streams.SeekAsWrittenWraps | Streams.Seek |
| c/FAT_ZZ.cpp:331-336 | closefolder closes the directory but never frees the ZZ thing | open a folder then close it: the thing stays taken | free the thing, as freeFOLDER does | not executed | Streams.OpenCloseFolder | Streams.CloseFolder |
| c/FAT_ZZ.cpp:299 | A failed open directory is still passed to getthing, which stores the null pointer in the first free thing, so that thing stays free and its index comes back as a handle | a path that does not open: a handle is returned whose thing is empty, and the next allocation hands out the same thing | return no handle | not executed | Streams.OpenFolderAsWrittenHandsOutNothing | Streams.OpenFolderWide |

=== FILE: allocate.dfy ===
/** YY_AllocateCluster: the search for a free FAT entry, starting at the FAT
    sector where free space was last found and falling back to a search
    from the start of the FAT, and the end-of-chain mark written into the
    entry it finds. */
module Allocate {
  import opened Uint
  import opened Wrappers
  import opened FatTypes
  import opened Clusters
  import opened FatEntries
  import opened Entries
  import opened Fat12

  // ---------------------------------------------------------------------------
  // The range the search covers
  // ---------------------------------------------------------------------------

  /** The number of entries a FAT holds whole in its fatSize sectors.  A
      FAT12 triad of three sectors holds 1024 entries; the first sector of a
      triad holds 341 of them whole and the first two hold 682.  FAT12
      entry numbers stop at 2^16, the width get12bitsFAT takes. */
  function FatCapacity(d: Drive): (r: nat)
  {
    match d.geo.fatType
    case Fat32 => d.geo.fatSize * 128
    case Fat16 => d.geo.fatSize * 256
    case _ =>
      var k := 1024 * (d.geo.fatSize / 3) + [0, 341, 682][d.geo.fatSize % 3];
      if k < 0x1_0000 then k else 0x1_0000
  }

  /** One past the last cluster the search may return.  The data clusters
      of a volume are numbered 2 to count_of_clusters + 1, each must have
      its entry inside the FAT, and a cluster number is a uint32_t. */
  function ScanLimit(d: Drive): (r: nat)
  {
    var n := d.geo.countOfClusters + 2;
    var k := FatCapacity(d);
    var m := if n < k then n else k;
    if m < Two32 then m else Two32
  }

  /** The first cluster whose entry lies in the FAT sector the speed-up
      names (for FAT12, in the triad it starts), and never below 2. */
  function ScanStart(d: Drive): (r: nat)
  {
    var f := match d.geo.fatType
      case Fat32 => d.freeCursor * 128
      case Fat16 => d.freeCursor * 256
      case _ => (d.freeCursor / 3) * 1024;
    if f < 2 then 2 else f
  }

  /** The speed-up value that records cluster c: the FAT sector holding its
      entry, or for FAT12 the first sector of its triad. */
  function CursorOf(ft: FatType, c: U32): (r: U32)
  {
    match ft
    case Fat32 => c / 128
    case Fat16 => c / 256
    case _ => 3 * (c / 1024)
  }

  lemma ScanLimitBounds(d: Drive)
    ensures ScanLimit(d) <= d.geo.countOfClusters + 2
    ensures ScanLimit(d) <= FatCapacity(d) && ScanLimit(d) <= Two32
  {
  }

  /** Every cluster below the limit has its whole entry inside the FAT, so
      the entry can be read and written. */
  lemma ScanLimitInFat(d: Drive, c: U32)
    requires c < ScanLimit(d)
    ensures InFat(d, c)
  {
    match d.geo.fatType
    case Fat32 =>
      DivBounds(c, 128);
    case Fat16 =>
      DivBounds(c, 256);
    case _ =>
      Fat12InFat(d.geo.fatSize, c);
  }

  lemma Fat12InFat(n: nat, c: nat)
    requires c < 1024 * (n / 3) + [0, 341, 682][n % 3]
    ensures 3 * (c / 1024) + TriadLast(c % 1024) < n
  {
    var t := c / 1024;
    var i := c % 1024;
    var q := n / 3;
    assert c == 1024 * t + i;
    assert n == 3 * q + n % 3;
    if t < q {
      assert 3 * t + 2 < 3 * q;
    } else {
      assert t == q;
      assert i < [0, 341, 682][n % 3];
    }
  }

  /** The speed-up set after taking cluster c makes the next search start
      no higher than c. */
  lemma CursorOfBelow(d: Drive, c: U32)
    requires c >= 2
    ensures ScanStart(d.(freeCursor := CursorOf(d.geo.fatType, c))) <= c
  {
    match d.geo.fatType
    case Fat32 =>
      DivBounds(c, 128);
    case Fat16 =>
      DivBounds(c, 256);
    case _ =>
      DivBounds(c, 1024);
      assert (3 * (c / 1024)) / 3 == c / 1024;
  }

  // ---------------------------------------------------------------------------
  // The search
  // ---------------------------------------------------------------------------

  /** No cluster of the volume is free. */
  ghost predicate Full(v: Vol)
  {
    forall k: U32 :: 2 <= k < ScanLimit(v.drive) ==> EntryInFat(v, k) != 0
  }

  /** The speed-up skips nothing: every cluster below the one the search
      starts from is in use. */
  ghost predicate CursorSound(v: Vol)
  {
    forall k: U32 :: 2 <= k < ScanStart(v.drive) && k < ScanLimit(v.drive) ==> EntryInFat(v, k) != 0
  }

  /** The first free entry in [from, limit), or 0 when there is none. */
  method FindFree(v: Vol, from: nat, limit: nat) returns (c: U32)
    requires 2 <= from && limit <= Two32
    ensures c == 0 <==> forall k: U32 :: from <= k < limit ==> EntryInFat(v, k) != 0
    ensures c != 0 ==> from <= c < limit && EntryInFat(v, c) == 0
    ensures c != 0 ==> forall k: U32 :: from <= k < c ==> EntryInFat(v, k) != 0
  {
    var k := from;
    while k < limit
      invariant from <= k
      invariant forall j: U32 :: from <= j < k && j < limit ==> EntryInFat(v, j) != 0
      decreases limit - k
    {
      if EntryInFat(v, k) == 0 {
        return k;
      }
      k := k + 1;
    }
    return 0;
  }

  // ---------------------------------------------------------------------------
  // Taking a cluster
  // ---------------------------------------------------------------------------

  /** Cluster c taken: its entry is set to the end-of-chain mark through the
      cache and the speed-up remembers where it was found. */
  function Take(v: Vol, c: U32): (w: Vol)
  {
    var u := SetClusterEntry(v, c, 0x0fff_ffff);
    Vol(u.disk, u.drive.(freeCursor := CursorOf(v.drive.geo.fatType, c)))
  }

  /** The speed-up takes no part in what the FAT reads. */
  lemma CursorAside(u: Vol, x: U32, k: U32)
    ensures EntryInFat(Vol(u.disk, u.drive.(freeCursor := x)), k) == EntryInFat(u, k)
  {
    var w := Vol(u.disk, u.drive.(freeCursor := x));
    forall s: int ensures View(w, s) == View(u, s) {
      if 0 <= s < u.drive.geo.fatSize {
        assert FatLba(w.drive, s) == FatLba(u.drive, s);
      }
    }
    match u.drive.geo.fatType
    case Fat32 => SameViewEntry32(u, w, k);
    case Fat16 => SameViewEntry16(u, w, k);
    case _ => SameViewEntry12(u, w, k);
  }

  lemma SameViewEntry32(u: Vol, w: Vol, k: U32)
    requires u.drive.geo.fatType == Fat32 && w.drive.geo == u.drive.geo
    requires forall s: int :: View(w, s) == View(u, s)
    ensures EntryInFat(w, k) == EntryInFat(u, k)
  {
    EntryInFat32(w, k);
    EntryInFat32(u, k);
  }

  lemma SameViewEntry16(u: Vol, w: Vol, k: U32)
    requires u.drive.geo.fatType == Fat16 && w.drive.geo == u.drive.geo
    requires forall s: int :: View(w, s) == View(u, s)
    ensures EntryInFat(w, k) == EntryInFat(u, k)
  {
    EntryInFat16(w, k);
    EntryInFat16(u, k);
  }

  lemma SameViewEntry12(u: Vol, w: Vol, k: U32)
    requires u.drive.geo.fatType != Fat32 && u.drive.geo.fatType != Fat16 && w.drive.geo == u.drive.geo
    requires forall s: int :: View(w, s) == View(u, s)
    ensures EntryInFat(w, k) == EntryInFat(u, k)
  {
    var t := Wrap16(k) / 1024;
    assert TriadView(w, t) == TriadView(u, t);
    EntryInFat12(w, k);
    EntryInFat12(u, k);
  }

  /** Nor in whether the cache is sound. */
  lemma CursorAsideCache(u: Vol, x: U32)
    ensures CacheOk(Vol(u.disk, u.drive.(freeCursor := x))) == CacheOk(u)
  {
    var w := Vol(u.disk, u.drive.(freeCursor := x));
    assert forall s :: FatLba(w.drive, s) == FatLba(u.drive, s) && MirrorLba(w.drive, s) == MirrorLba(u.drive, s);
  }

  /** Every bit of an entry set is the end-of-chain mark at each width. */
  lemma MarkKept(ft: FatType)
    ensures Kept(ft, 0x0fff_ffff) == EntryMask(ft)
  {
  }

  /** What taking cluster c leaves: entry c holds the end-of-chain mark,
      every other entry is as it was. */
  lemma TakeEntry(v: Vol, c: U32, k: U32)
    requires v.drive.geo.fatType != UnknownFat && CacheOk(v) && InFat(v.drive, c)
    ensures EntryInFat(Take(v, c), k)
            == if SameEntry(v.drive.geo.fatType, c, k) then EntryMask(v.drive.geo.fatType) else EntryInFat(v, k)
  {
    var u := SetClusterEntry(v, c, 0x0fff_ffff);
    SetEntryValue(v, c, 0x0fff_ffff, k);
    MarkKept(v.drive.geo.fatType);
    CursorAside(u, CursorOf(v.drive.geo.fatType, c), k);
  }

  /** Taking a cluster keeps the cache sound and changes nothing of the
      drive but the cache and the speed-up. */
  lemma TakeState(v: Vol, c: U32)
    requires v.drive.geo.fatType != UnknownFat && CacheOk(v) && InFat(v.drive, c)
    ensures CacheOk(Take(v, c))
    ensures Take(v, c).drive == v.drive.(cache := Take(v, c).drive.cache, freeCursor := CursorOf(v.drive.geo.fatType, c))
  {
    var u := SetClusterEntry(v, c, 0x0fff_ffff);
    SetEntryState(v, c, 0x0fff_ffff);
    CursorAsideCache(u, CursorOf(v.drive.geo.fatType, c));
  }

  /** YY_AllocateCluster: the first free cluster from the speed-up on, and
      failing that the first from the start of the FAT; the cluster's entry
      becomes the end-of-chain mark and the speed-up points at it.  0 means
      the volume is full, and then the speed-up is cleared. */
  method AllocateCluster(v: Vol) returns (w: Vol, c: U32)
    requires v.drive.geo.fatType != UnknownFat && CacheOk(v)
    ensures CacheOk(w)
    ensures w.drive == v.drive.(cache := w.drive.cache, freeCursor := w.drive.freeCursor)
    ensures c == 0 <==> Full(v)
    ensures c == 0 ==> w == Vol(v.disk, v.drive.(freeCursor := 0))
    ensures c != 0 ==> 2 <= c < ScanLimit(v.drive) && EntryInFat(v, c) == 0
    ensures c != 0 ==> w.drive.freeCursor == CursorOf(v.drive.geo.fatType, c)
    ensures c != 0 ==> forall k: U32 ::
      EntryInFat(w, k) == if SameEntry(v.drive.geo.fatType, c, k) then EntryMask(v.drive.geo.fatType) else EntryInFat(v, k)
    ensures c != 0 ==> forall k: U32 ::
      (ScanStart(v.drive) <= k < c || (c < ScanStart(v.drive) && 2 <= k < c)) ==> EntryInFat(v, k) != 0
    ensures c != 0 && CursorSound(v) ==> forall k: U32 :: 2 <= k < c ==> EntryInFat(v, k) != 0
    ensures CursorSound(v) ==> CursorSound(w)
  {
    var d := v.drive;
    var limit := ScanLimit(d);
    ScanLimitBounds(d);
    c := FindFree(v, ScanStart(d), limit);
    if c == 0 && d.freeCursor != 0 {
      c := FindFree(v, 2, limit);
    }
    if c == 0 {
      w := Vol(v.disk, d.(freeCursor := 0));
      forall k: U32 ensures EntryInFat(w, k) == EntryInFat(v, k) {
        CursorAside(v, 0, k);
      }
      CursorAsideCache(v, 0);
    } else {
      ScanLimitInFat(d, c);
      w := Take(v, c);
      TakeState(v, c);
      forall k: U32 ensures EntryInFat(w, k)
          == if SameEntry(d.geo.fatType, c, k) then EntryMask(d.geo.fatType) else EntryInFat(v, k) {
        TakeEntry(v, c, k);
      }
      TakenSound(v, w, c);
    }
  }

  /** After cluster c was taken as the first free one, a speed-up that
      skipped nothing still skips nothing. */
  lemma TakenSound(v: Vol, w: Vol, c: U32)
    requires 2 <= c < ScanLimit(v.drive)
    requires w.drive.geo == v.drive.geo && w.drive.freeCursor == CursorOf(v.drive.geo.fatType, c)
    requires forall k: U32 ::
      EntryInFat(w, k) == if SameEntry(v.drive.geo.fatType, c, k) then EntryMask(v.drive.geo.fatType) else EntryInFat(v, k)
    requires forall k: U32 ::
      (ScanStart(v.drive) <= k < c || (c < ScanStart(v.drive) && 2 <= k < c)) ==> EntryInFat(v, k) != 0
    ensures c != 0 && CursorSound(v) ==> forall k: U32 :: 2 <= k < c ==> EntryInFat(v, k) != 0
    ensures CursorSound(v) ==> CursorSound(w)
  {
    if CursorSound(v) {
      CursorOfBelow(v.drive, c);
      assert ScanStart(w.drive) <= c by {
        assert w.drive == v.drive.(freeCursor := w.drive.freeCursor, cache := w.drive.cache,
                                   device := w.drive.device, id := w.drive.id, cwd := w.drive.cwd);
      }
      forall k: U32 | 2 <= k < ScanStart(w.drive) && k < ScanLimit(w.drive)
        ensures EntryInFat(w, k) != 0
      {
        assert !SameEntry(v.drive.geo.fatType, c, k);
      }
    }
  }

  // ---------------------------------------------------------------------------
  // The search as written
  // ---------------------------------------------------------------------------

  /** The sector loop of the FAT32 and FAT16 searches as written, from
      sector `sector` on: the first FAT sector whose clusters_to_go,
      computed in uint32_t, is not zero.  The inner loop's free test looks
      at the loop index t instead of the entry, so it succeeds at t == 0 of
      that sector without reading the FAT. */
  function FirstWideSector(d: Drive, sector: nat, n: nat): (r: Option<nat>)
    ensures r.Some? ==> sector <= r.value < d.geo.fatSize
    decreases d.geo.fatSize - sector
  {
    if sector >= d.geo.fatSize then None
    else if Wrap32(d.geo.countOfClusters - Wrap32(sector * n)) > 0 then Some(sector)
    else FirstWideSector(d, sector + 1, n)
  }

  /** The cluster the FAT32 and FAT16 branches of YY_AllocateCluster
      return: the first entry of the first sector the loop enters, on the
      pass from the speed-up and, when that pass enters none, on the pass
      from sector 0. */
  function AllocateWideAsWritten(d: Drive): (c: U32)
    requires d.geo.fatType == Fat32 || d.geo.fatType == Fat16
  {
    var n := if d.geo.fatType == Fat32 then 128 else 256;
    match FirstWideSector(d, d.freeCursor, n)
    case Some(s) => Wrap32(s * n)
    case None =>
      if d.freeCursor == 0 then 0
      else match FirstWideSector(d, 0, n)
        case Some(s) => Wrap32(s * n)
        case None => 0
  }

  /** With the speed-up clear, the search as written answers "disk full"
      (it returns entry 0) even when cluster 2 is free, where the corrected
      search returns a cluster. */
  lemma WideAsWrittenReportsFull(v: Vol)
    requires v.drive.geo.fatType == Fat32 || v.drive.geo.fatType == Fat16
    requires v.drive.freeCursor == 0 && v.drive.geo.fatSize > 0
    requires ScanLimit(v.drive) > 2 && EntryInFat(v, 2) == 0
    ensures AllocateWideAsWritten(v.drive) == 0
    ensures !Full(v)
  {
    var d := v.drive;
    var n := if d.geo.fatType == Fat32 then 128 else 256;
    assert Wrap32(d.geo.countOfClusters - Wrap32(0 * n)) > 0;
    assert FirstWideSector(d, 0, n) == Some(0);
  }

  /** With the speed-up at FAT16 sector 1, the search as written returns
      cluster 256 whatever its entry holds, and marks it end of chain. */
  lemma WideAsWrittenTakesAny(d: Drive)
    requires d.geo.fatType == Fat16 && d.freeCursor == 1
    requires d.geo.fatSize >= 2 && d.geo.countOfClusters > 256
    ensures AllocateWideAsWritten(d) == 256
  {
    assert Wrap32(d.geo.countOfClusters - Wrap32(1 * 256)) > 0;
    assert FirstWideSector(d, 1, 256) == Some(1);
  }

  /** Whether the FAT12 search as written examines entry c on a pass that
      reaches c's triad: the triad's first sector lies in the FAT, c is
      below clusters_to_go (computed in uint32_t with 1023 entries per
      triad where a triad holds 1024), and c is not entry 681 of its
      triad, which the loop over 342..680 stops short of. */
  predicate Offered12AsWritten(d: Drive, c: nat)
  {
    var t := c / 1024;
    var i := c % 1024;
    var togo := Wrap32(d.geo.countOfClusters - Wrap32(t * 1023));
    && 3 * t < d.geo.fatSize
    && i < togo
    && i != 681
  }

  /** Cluster 681 of a 1000-cluster FAT12 volume is never examined, though
      it belongs to the volume. */
  lemma Offered12Skips681(d: Drive)
    requires d.geo.fatType == Fat12 && d.geo.fatSize == 3 && d.geo.countOfClusters == 1000
    ensures !Offered12AsWritten(d, 681)
    ensures 2 <= 681 < ScanLimit(d)
  {
  }

  /** On a 3100-cluster FAT12 volume the search as written can return
      cluster 3102, one past the volume's last cluster 3101. */
  lemma Offered12BeyondVolume(d: Drive)
    requires d.geo.fatType == Fat12 && d.geo.fatSize == 12 && d.geo.countOfClusters == 3100
    ensures Offered12AsWritten(d, 3102)
    ensures ScanLimit(d) == 3102
  {
    assert 3102 / 1024 == 3 && 3102 % 1024 == 30;
  }

  /** The bound index < clusters_to_go counts entries from 0, so the last
      two clusters of a volume (count and count + 1) are never examined. */
  lemma Offered12MissesLast(d: Drive)
    requires d.geo.fatType == Fat12 && d.geo.fatSize == 3 && d.geo.countOfClusters == 1000
    ensures !Offered12AsWritten(d, 1000) && !Offered12AsWritten(d, 1001)
    ensures 1001 < ScanLimit(d)
  {
  }

  /** The value the FAT12 search as written tests for entry 682 of a
      triad.  fatPrefix is copied from array[511] while array still points
      two bytes before the second sector, so byte 509 of that sector stands
      where its byte 511 belongs. */
  function Test682AsWritten(tv: Triad): (r: bv16)
  {
    Get12A([tv.s1[509]] + tv.s2, 0)
  }

  /** With byte 509 of the second sector zero and byte 511 not, entry 682
      is in use but passes the as-written test for free, so the search
      would hand out a cluster that is in use. */
  lemma Test682AsWrittenMisreads(tv: Triad)
    requires tv.s1[509] == 0 && tv.s1[511] != 0 && tv.s2[0] & 0x0f == 0
    ensures Test682AsWritten(tv) == 0 && Get12A(Flat(tv), 682) != 0
  {
    Get12RegionsFlat682(tv);
  }

  /** Where bytes 509 and 511 of the second sector agree, the as-written
      test reads entry 682 itself. */
  lemma Test682AsWrittenAgrees(tv: Triad)
    requires tv.s1[509] == tv.s1[511]
    ensures Test682AsWritten(tv) == Get12A(Flat(tv), 682)
  {
    Get12RegionsFlat682(tv);
    assert [tv.s1[509]] + tv.s2 == [tv.s1[511]] + tv.s2;
  }

  /** Whether the inner loop's bound t < clusters_to_go lets the FAT32 or
      FAT16 search as written reach entry c, with n entries per sector:
      clusters_to_go counts entries from 0, not from cluster 2. */
  predicate OfferedWideAsWritten(d: Drive, c: nat, n: nat)
    requires n > 0
  {
    var s := c / n;
    s < d.geo.fatSize && c % n < Wrap32(d.geo.countOfClusters - Wrap32(s * n))
  }

  /** The FAT16 bound as written never reaches the last two clusters of a
      volume (count and count + 1), which belong to it. */
  lemma OfferedWideMissesLast(d: Drive)
    requires d.geo.fatType == Fat16 && d.geo.fatSize == 16 && d.geo.countOfClusters == 1000
    ensures !OfferedWideAsWritten(d, 1000, 256) && !OfferedWideAsWritten(d, 1001, 256)
    ensures 1001 < ScanLimit(d)
  {
  }
}

=== FILE: chars.dfy ===
/** The conversions of Chars_YY.cpp between the UTF-8 texts the API takes
    and the UTF-16 names the directory holds.  Indices there are uint16_t:
    a decoder's index wraps at 0x10000, while the room tests of the
    encoders are done in the signed arithmetic the operands are promoted
    to, which is module Unicode's Fits. */
module Chars {
  import opened Uint
  import opened Names
  import opened Unicode

  /** UTF16toUnicode: the code point at index and the index after it. */
  function Utf16ToUnicode(t: seq<bv16>, index: U16): (r: (bv32, U16))
    ensures r.0 == 0 <==> r.1 == index
    ensures r.0 != 0 ==> Scalar(r.0)
  {
    var d := GetUtf16(t, index);
    (d.key, Wrap16(index + d.len))
  }

  /** UTF8toUnicode: the code point at index and the index after it.  A
      decoded overlong NUL moves the index but still reads as the end. */
  function Utf8ToUnicode(t: seq<bv8>, index: U16): (r: (bv32, U16))
    ensures r.0 < 0x20_0000
    ensures r.0 != 0 ==> r.1 == Wrap16(index + LeadLength(Byte(t, index)))
  {
    var d := GetUtf8(t, index);
    (d.key, Wrap16(index + d.len))
  }

  /** A write limit of its own, for a buffer that must hold at least the
      terminator. */
  function Limit(cbOut: U16): (m: nat)
    ensures m >= 1 && (cbOut >= 1 ==> m == cbOut)
  {
    if cbOut == 0 then 1 else cbOut
  }

  /** YY_ToWide: convert UTF-8 to UTF-16 until the input ends, a code point
      is refused or the output is full, then terminate the output.  The
      buffer must hold cbOut units, and at least one: with cbOut == 0 the
      loop does not run and the terminator still goes to output[0]. */
  function ToWide(output: seq<bv16>, cbOut: U16, input: seq<bv8>, cbIn: U16): (r: seq<bv16>)
    requires 1 <= |output| && cbOut <= |output|
    ensures |r| == |output|
    ensures Ended16(r, 0, Limit(cbOut))
    ensures r[Limit(cbOut)..] == output[Limit(cbOut)..]
  {
    WideFrom(output, cbOut, input, cbIn, 0, 0)
  }

  /** The loop of YY_ToWide from input index i and output index n. */
  function WideFrom(out: seq<bv16>, cbOut: U16, input: seq<bv8>, cbIn: U16, i: U16, n: nat): (r: seq<bv16>)
    requires cbOut <= |out| && n < Limit(cbOut) <= |out|
    ensures |r| == |out|
    ensures forall j :: 0 <= j < n ==> r[j] == out[j]
    ensures Ended16(r, n, Limit(cbOut))
    ensures r[Limit(cbOut)..] == out[Limit(cbOut)..]
    decreases cbOut - n
  {
    if n < cbOut - 1 && i < cbIn then
      var (c, i') := Utf8ToUnicode(input, i);
      if c == 0 then End16(out, n)
      else
        var p := Step16(out, n, cbOut, c);
        if p.count == 0 then End16(out, n)
        else WideFrom(p.text, cbOut, input, cbIn, i', p.index)
    else End16(out, n)
  }

  /** YY_ToNarrow: convert UTF-16 to UTF-8 the same way. */
  function ToNarrow(output: seq<bv8>, cbOut: U16, input: seq<bv16>, cbIn: U16): (r: seq<bv8>)
    requires 1 <= |output| && cbOut <= |output|
    ensures |r| == |output|
    ensures Ended8(r, 0, Limit(cbOut))
    ensures r[Limit(cbOut)..] == output[Limit(cbOut)..]
  {
    NarrowFrom(output, cbOut, input, cbIn, 0, 0)
  }

  /** The loop of YY_ToNarrow from input index i and output index n. */
  function NarrowFrom(out: seq<bv8>, cbOut: U16, input: seq<bv16>, cbIn: U16, i: U16, n: nat): (r: seq<bv8>)
    requires cbOut <= |out| && n < Limit(cbOut) <= |out|
    ensures |r| == |out|
    ensures forall j :: 0 <= j < n ==> r[j] == out[j]
    ensures Ended8(r, n, Limit(cbOut))
    ensures r[Limit(cbOut)..] == out[Limit(cbOut)..]
    decreases cbOut - n
  {
    if n < cbOut - 1 && i < cbIn then
      var (c, i') := Utf16ToUnicode(input, i);
      if c == 0 then End8(out, n)
      else
        var p := Step8(out, n, cbOut, c);
        if p.count == 0 then End8(out, n)
        else NarrowFrom(p.text, cbOut, input, cbIn, i', p.index)
    else End8(out, n)
  }

  // ---------------------------------------------------------------------------
  // Plain ASCII passes through both conversions unchanged
  // ---------------------------------------------------------------------------

  /** The first m bytes of t are ASCII characters and a NUL follows them. */
  predicate AsciiText8(t: seq<bv8>, m: nat)
  {
    (forall j :: 0 <= j < m ==> 0 < Byte(t, j) < 0x80) && Byte(t, m) == 0
  }

  /** The same for UTF-16 units. */
  predicate AsciiText16(t: seq<bv16>, m: nat)
  {
    (forall j :: 0 <= j < m ==> 0 < At(t, j) < 0x80) && At(t, m) == 0
  }

  /** A string of m ASCII characters that fits the output converts to the
      same characters in UTF-16, terminated. */
  lemma WideAscii(output: seq<bv16>, cbOut: U16, input: seq<bv8>, cbIn: U16, m: nat)
    requires 1 <= |output| && cbOut <= |output|
    requires AsciiText8(input, m) && m <= cbIn && m < cbOut
    ensures var r := ToWide(output, cbOut, input, cbIn);
      && (forall j :: 0 <= j < m ==> r[j] == Byte(input, j) as bv16)
      && r[m] == 0
  {
    WideAsciiFrom(output, cbOut, input, cbIn, m, 0);
  }

  lemma {:induction false} WideAsciiFrom(out: seq<bv16>, cbOut: U16, input: seq<bv8>, cbIn: U16, m: nat, n: nat)
    requires cbOut <= |out| && AsciiText8(input, m) && m <= cbIn && m < cbOut && n <= m
    requires forall j :: 0 <= j < n ==> out[j] == Byte(input, j) as bv16
    ensures var r := WideFrom(out, cbOut, input, cbIn, n, n);
      && (forall j :: 0 <= j < m ==> r[j] == Byte(input, j) as bv16)
      && r[m] == 0
    decreases m - n
  {
    if n < m {
      var out' := Write(out, n, [Byte(input, n) as bv16]);
      WideAsciiUnfold(out, cbOut, input, cbIn, m, n);
      WideAsciiKept(out, input, n);
      WideAsciiFrom(out', cbOut, input, cbIn, m, n + 1);
    }
  }

  /** One ASCII character through the loop of YY_ToWide: written as it is,
      after the characters before it. */
  lemma WideAsciiUnfold(out: seq<bv16>, cbOut: U16, input: seq<bv8>, cbIn: U16, m: nat, n: nat)
    requires cbOut <= |out| && AsciiText8(input, m) && m <= cbIn && m < cbOut && n < m
    ensures var out' := Write(out, n, [Byte(input, n) as bv16]);
      WideFrom(out, cbOut, input, cbIn, n, n) == WideFrom(out', cbOut, input, cbIn, n + 1, n + 1)
  {
    var c := Byte(input, n);
    WideAsciiStep(input, n, c);
    PutAscii16(out, n, cbOut, c);
  }

  /** A UTF-16 string of m ASCII characters that fits the output converts
      to the same characters in UTF-8, terminated. */
  lemma NarrowAscii(output: seq<bv8>, cbOut: U16, input: seq<bv16>, cbIn: U16, m: nat)
    requires 1 <= |output| && cbOut <= |output|
    requires AsciiText16(input, m) && m <= cbIn && m < cbOut
    ensures var r := ToNarrow(output, cbOut, input, cbIn);
      && (forall j :: 0 <= j < m ==> r[j] == At(input, j) as bv8)
      && r[m] == 0
  {
    NarrowAsciiFrom(output, cbOut, input, cbIn, m, 0);
  }

  lemma {:induction false} NarrowAsciiFrom(out: seq<bv8>, cbOut: U16, input: seq<bv16>, cbIn: U16, m: nat, n: nat)
    requires cbOut <= |out| && AsciiText16(input, m) && m <= cbIn && m < cbOut && n <= m
    requires forall j :: 0 <= j < n ==> out[j] == At(input, j) as bv8
    ensures var r := NarrowFrom(out, cbOut, input, cbIn, n, n);
      && (forall j :: 0 <= j < m ==> r[j] == At(input, j) as bv8)
      && r[m] == 0
    decreases m - n
  {
    if n < m {
      var out' := Write(out, n, [At(input, n) as bv8]);
      NarrowAsciiUnfold(out, cbOut, input, cbIn, m, n);
      NarrowAsciiKept(out, input, m, n);
      NarrowAsciiFrom(out', cbOut, input, cbIn, m, n + 1);
    }
  }

  /** The characters written so far stay, and the next one joins them. */
  lemma WideAsciiKept(out: seq<bv16>, input: seq<bv8>, n: nat)
    requires n < |out| && forall j :: 0 <= j < n ==> out[j] == Byte(input, j) as bv16
    ensures var out' := Write(out, n, [Byte(input, n) as bv16]);
      |out'| == |out| && forall j :: 0 <= j < n + 1 ==> out'[j] == Byte(input, j) as bv16
  {
  }

  lemma NarrowAsciiKept(out: seq<bv8>, input: seq<bv16>, m: nat, n: nat)
    requires AsciiText16(input, m) && n < m
    requires n < |out| && forall j :: 0 <= j < n ==> out[j] == At(input, j) as bv8
    ensures var out' := Write(out, n, [At(input, n) as bv8]);
      |out'| == |out| && forall j :: 0 <= j < n + 1 ==> out'[j] == At(input, j) as bv8
  {
  }

  /** One ASCII character through the loop of YY_ToNarrow. */
  lemma NarrowAsciiUnfold(out: seq<bv8>, cbOut: U16, input: seq<bv16>, cbIn: U16, m: nat, n: nat)
    requires cbOut <= |out| && AsciiText16(input, m) && m <= cbIn && m < cbOut && n < m
    ensures var out' := Write(out, n, [At(input, n) as bv8]);
      NarrowFrom(out, cbOut, input, cbIn, n, n) == NarrowFrom(out', cbOut, input, cbIn, n + 1, n + 1)
  {
    var c := At(input, n);
    NarrowAsciiStep(input, n, c);
    PutAscii8(out, n, cbOut, c);
  }

  /** Converting an ASCII name to UTF-16 and back gives the name again. */
  lemma AsciiRoundTrip(wide: seq<bv16>, narrow: seq<bv8>, cb: U16, input: seq<bv8>, m: nat)
    requires 1 <= |wide| && 1 <= |narrow| && cb <= |wide| && cb <= |narrow|
    requires AsciiText8(input, m) && m < cb
    ensures var w := ToWide(wide, cb, input, cb);
      var r := ToNarrow(narrow, cb, w, cb);
      (forall j :: 0 <= j < m ==> r[j] == Byte(input, j)) && r[m] == 0
  {
    var w := ToWide(wide, cb, input, cb);
    WideAscii(wide, cb, input, cb, m);
    forall j | 0 <= j < m
      ensures 0 < At(w, j) < 0x80 && At(w, j) as bv8 == Byte(input, j)
    {
      AsciiBits(Byte(input, j));
    }
    NarrowAscii(narrow, cb, w, cb, m);
  }

  lemma AsciiBits(c: bv8)
    requires 0 < c < 0x80
    ensures c & 0x80 == 0 && Single(c as bv32) == c as bv16 && Scalar(c as bv32)
    ensures (c as bv16) as bv8 == c && 0 < c as bv16 < 0x80
  {
  }

  lemma NarrowBits(c: bv16)
    requires 0 < c < 0x80
    ensures Ascii(c as bv32) == c as bv8 && Scalar(c as bv32)
  {
  }

  lemma WideAsciiStep(input: seq<bv8>, n: U16, c: bv8)
    requires c == Byte(input, n) && 0 < c < 0x80 && n < 0xffff
    ensures Utf8ToUnicode(input, n) == (c as bv32, n + 1)
  {
    AsciiBits(c);
    Decode8One(c, Byte(input, n + 1), Byte(input, n + 2), Byte(input, n + 3));
  }

  lemma PutAscii16(out: seq<bv16>, n: nat, cbOut: nat, c: bv8)
    requires 0 < c < 0x80 && cbOut <= |out| && n + 1 < cbOut
    ensures PutUtf16(out, n, cbOut, c as bv32) == Put(Write(out, n, [c as bv16]), n + 1, 1)
  {
    AsciiBits(c);
  }

  lemma NarrowAsciiStep(input: seq<bv16>, n: U16, c: bv16)
    requires c == At(input, n) && 0 < c < 0x80 && n < 0xffff
    ensures Utf16ToUnicode(input, n) == (c as bv32, n + 1)
  {
  }

  lemma PutAscii8(out: seq<bv8>, n: nat, cbOut: nat, c: bv16)
    requires 0 < c < 0x80 && cbOut <= |out| && n + 1 < cbOut
    ensures PutUtf8(out, n, cbOut, c as bv32) == Put(Write(out, n, [c as bv8]), n + 1, 1)
  {
    NarrowBits(c);
  }
}

=== FILE: charset.dfy ===
/** The character-set layer of charset.cpp: texts that may be UTF-8 or
    UTF-16, conversions between them, and moving through a text by whole
    characters.  Indices there are DWORDs; they are held as unbounded
    naturals, since no buffer the code handles comes near 4 GiB.  The one
    place where the DWORD arithmetic matters, the room test of the UTF-8
    putchar, is modelled as written and then corrected. */
module Charset {
  import opened Uint
  import opened Names
  import opened Unicode
  import opened Wrappers

  /** A NUL-terminated text of either width (PCUTF8 or PCUTF16). */
  datatype Text = Narrow(bytes: seq<bv8>) | Wide(units: seq<bv16>)

  function Size(t: Text): nat
  {
    match t
    case Narrow(b) => |b|
    case Wide(w) => |w|
  }

  /** Element i of a text as a number, 0 past the end. */
  function Elem(t: Text, i: nat): (e: nat)
    ensures i >= Size(t) ==> e == 0
  {
    match t
    case Narrow(b) => Byte(b, i) as nat
    case Wide(w) => At(w, i) as nat
  }

  /** getchar, for either width: a code point never runs past the text, and
      only the end or an error reads as 0. */
  function Get(t: Text, i: nat): (r: Decoded)
    ensures r.len == 0 ==> r.key == 0
    ensures r.len > 0 ==> i + r.len <= Size(t)
    ensures r.len > 0 ==> Elem(t, i) != 0
  {
    match t
    case Narrow(b) => GetUtf8Within(b, i); GetUtf8(b, i)
    case Wide(w) => GetUtf16Within(w, i); GetUtf16(w, i)
  }

  /** A decoded UTF-8 sequence lies within the text: every byte it takes is
      non-zero, and past the end the text reads 0. */
  lemma GetUtf8Within(t: seq<bv8>, i: nat)
    ensures GetUtf8(t, i).len > 0 ==> i + GetUtf8(t, i).len <= |t| && Byte(t, i) != 0
  {
    var r := GetUtf8(t, i);
    if r.len > 0 {
      assert Byte(t, i) != 0;
      assert r.len >= 2 ==> Byte(t, i + 1) != 0;
      assert r.len >= 3 ==> Byte(t, i + 2) != 0;
      assert r.len == 4 ==> Byte(t, i + 3) != 0;
    }
  }

  /** The same for UTF-16. */
  lemma GetUtf16Within(t: seq<bv16>, i: nat)
    ensures GetUtf16(t, i).len > 0 ==> i + GetUtf16(t, i).len <= |t| && At(t, i) != 0
  {
    var r := GetUtf16(t, i);
    if r.len == 2 {
      LowNonZero(At(t, i + 1));
    }
  }

  lemma LowNonZero(d: bv16)
    requires LowSurrogate(d)
    ensures d != 0
  {
  }

  /** The code points of a text from index i up to its end or its first
      error: what repeated getchar calls return before the first 0. */
  function Keys(t: Text, i: nat): (ks: seq<bv32>)
    ensures forall j :: 0 <= j < |ks| ==> ks[j] != 0
    decreases Size(t) - i
  {
    var d := Get(t, i);
    if d.key == 0 then [] else [d.key] + Keys(t, i + d.len)
  }

  // ---------------------------------------------------------------------------
  // putchar(PUTF8) with DWORD arithmetic
  // ---------------------------------------------------------------------------

  /** putchar(PUTF8) as written.  The room test `index >= max - n` is done
      on DWORDs, so when max is non-zero but below n the subtraction wraps
      to nearly 2^32 and the test lets the bytes through.  The caller's
      buffer is assumed to have room for them, so the write itself can be
      modelled. */
  function PutUtf8AsWritten(t: seq<bv8>, index: nat, max: U32, key: bv32): (r: Put<bv8>)
    requires index + |Utf8Units(key)| <= |t|
    ensures r.count == 0 <==> !Scalar(key) || (max != 0 && index >= Wrap32(max - |Utf8Units(key)|))
    ensures r.count == 0 ==> r.text == t && r.index == index
    ensures r.count > 0 ==> r.count == |Utf8Units(key)| && r.index == index + r.count
    ensures r.count > 0 ==> r.text == Write(t, index, Utf8Units(key))
  {
    if (key >= 0xd800 && key <= 0xdfff) || key > 0x10ffff then Put(t, index, 0)
    else if key <= 0x7f then
      if max != 0 && index >= Wrap32(max - 1) then Put(t, index, 0)
      else Put(Write(t, index, [Ascii(key)]), index + 1, 1)
    else if key <= 0x7ff then
      if max != 0 && index >= Wrap32(max - 2) then Put(t, index, 0)
      else Put(Write(t, index, [Lead2(key), Cont(key, 0)]), index + 2, 2)
    else if key <= 0xffff then
      if max != 0 && index >= Wrap32(max - 3) then Put(t, index, 0)
      else Put(Write(t, index, [Lead3(key), Cont(key, 6), Cont(key, 0)]), index + 3, 3)
    else
      if max != 0 && index >= Wrap32(max - 4) then Put(t, index, 0)
      else Put(Write(t, index, [Lead4(key), Cont(key, 12), Cont(key, 6), Cont(key, 0)]), index + 4, 4)
  }

  /** With a one-byte limit only the terminator fits, yet the code writes
      the two bytes of U+0080 and leaves the index past the limit; the
      signed test of Unicode.PutUtf8 refuses it. */
  lemma PutUtf8Overrun()
    ensures var r := PutUtf8AsWritten([0, 0, 0], 0, 1, 0x80);
      r.count == 2 && r.index > 1 - 1
    ensures PutUtf8([0, 0, 0], 0, 1, 0x80).count == 0
  {
  }

  /** Whenever the limit is 0 or covers the bytes of the key, the code as
      written does what the corrected encoder does. */
  lemma PutUtf8AsWrittenAgrees(t: seq<bv8>, index: nat, max: U32, key: bv32)
    requires max == 0 || |Utf8Units(key)| <= max <= |t|
    requires index + |Utf8Units(key)| <= |t|
    ensures PutUtf8AsWritten(t, index, max, key) == PutUtf8(t, index, max, key)
  {
  }

  // ---------------------------------------------------------------------------
  // mbtowide and widetomb
  // ---------------------------------------------------------------------------

  /** The limit a conversion keeps to: n elements, or, for n == 0, which
      putchar takes as no limit at all, the whole buffer.  The caller of an
      unlimited conversion owes a buffer longer than anything it can write,
      so the limit of the buffer is never the one that stops it
      (MbToWideUnlimited, WideToMbUnlimited). */
  function Cap(n: nat, size: nat): (m: nat)
    ensures n != 0 ==> m == n
  {
    if n == 0 then size else n
  }

  /** mbtowide: convert a UTF-8 text into a buffer of nw units, stopping at
      the end of the input, and failing when a code point is refused (it
      does not fit, or is not a scalar value).  Either way the output is
      terminated within its nw units, and a successful conversion reads
      back as the code points of the input.  With nw == 0 there is no
      limit, and the buffer must outlast the input. */
  function MbToWide(c: seq<bv8>, w: seq<bv16>, nw: nat): (r: (bool, seq<bv16>))
    requires if nw == 0 then |c| < |w| else nw <= |w|
    ensures var m := Cap(nw, |w|);
      |r.1| == |w| && Ended16(r.1, 0, m) && r.1[m..] == w[m..]
    ensures r.0 ==> Keys(Wide(r.1), 0) == Keys(Narrow(c), 0)
  {
    var m := Cap(nw, |w|);
    var r := MbToWideFrom(c, w, m, 0, 0);
    if r.0 then MbToWideKeys(c, w, m, 0, 0, r); r else r
  }

  /** Every code point of a sequence is a scalar value. */
  predicate AllScalar(ks: seq<bv32>)
  {
    |ks| == 0 || (Scalar(ks[0]) && AllScalar(ks[1..]))
  }

  /** A UTF-8 sequence never takes fewer bytes than its code point takes
      UTF-16 units. */
  lemma Utf16NoLonger(c: seq<bv8>, ic: nat)
    ensures var d := Get(Narrow(c), ic);
      d.key != 0 ==> |Utf16Units(d.key)| <= d.len
  {
    var d := Get(Narrow(c), ic);
    Decode8Width(Byte(c, ic), Byte(c, ic + 1), Byte(c, ic + 2), Byte(c, ic + 3));
  }

  /** Two bytes carry at most 11 bits and three at most 16. */
  lemma Decode8Width(a: bv8, b: bv8, e: bv8, f: bv8)
    ensures var r := Decode8(a, b, e, f);
      && (r.len == 2 ==> r.key <= 0x7ff)
      && (r.len == 3 ==> r.key <= 0xffff)
  {
  }

  /** mbtowide with no limit fails only on a code point that is not a
      scalar value, as putchar with max == 0 refuses nothing else. */
  lemma MbToWideUnlimited(c: seq<bv8>, w: seq<bv16>)
    requires |c| < |w|
    ensures MbToWide(c, w, 0).0 <==> AllScalar(Keys(Narrow(c), 0))
  {
    Utf16LengthScalars(c, 0);
    if AllScalar(Keys(Narrow(c), 0)) {
      MbToWideFitsGoes(c, w, |w|, 0, 0, MbToWideFrom(c, w, |w|, 0, 0));
    }
    var r := MbToWide(c, w, 0);
    if r.0 {
      WideScalars(r.1, 0);
    }
  }

  /** The units mbtowide writes for the input from position ic on, or
      None when a code point is not a scalar value and cannot be written at
      all.  No code point takes more units than it took bytes. */
  function Utf16Length(c: seq<bv8>, ic: nat): (n: Option<nat>)
    requires ic <= |c|
    ensures n.Some? ==> n.value <= |c| - ic
    decreases |c| - ic
  {
    var d := Get(Narrow(c), ic);
    Utf16NoLonger(c, ic);
    if d.key == 0 then Some(0)
    else if !Scalar(d.key) then None
    else match Utf16Length(c, ic + d.len)
      case None => None
      case Some(n) => Some(|Utf16Units(d.key)| + n)
  }

  /** The length is defined just when every code point is a scalar value. */
  lemma {:induction false} Utf16LengthScalars(c: seq<bv8>, ic: nat)
    requires ic <= |c|
    ensures Utf16Length(c, ic).Some? <==> AllScalar(Keys(Narrow(c), ic))
    decreases |c| - ic
  {
    var d := Get(Narrow(c), ic);
    if d.key != 0 {
      AllScalarStep(Narrow(c), ic);
      Utf16LengthScalars(c, ic + d.len);
    }
  }

  /** An mbtowide whose output, terminator included, stays under the limit
      succeeds. */
  lemma {:induction false} MbToWideFitsGoes(c: seq<bv8>, w: seq<bv16>, nw: nat, ic: nat, iw: nat, r: (bool, seq<bv16>))
    requires ic <= |c| && iw < nw <= |w| && r == MbToWideFrom(c, w, nw, ic, iw) && Utf16Length(c, ic).Some? && iw + Utf16Length(c, ic).value < nw
    ensures r.0
    decreases |c| - ic
  {
    var done := MbToWideFromEnd(c, w, nw, ic, iw, r);
    if !done {
      var w', ic', iw' := MbToWideFitsNext(c, w, nw, ic, iw, r);
      MbToWideFitsGoes(c, w', nw, ic', iw', r);
    }
  }

  /** At the end of the input mbtowide succeeds. */
  lemma MbToWideFromEnd(c: seq<bv8>, w: seq<bv16>, nw: nat, ic: nat, iw: nat, r: (bool, seq<bv16>)) returns (done: bool)
    requires ic <= |c| && iw < nw <= |w| && r == MbToWideFrom(c, w, nw, ic, iw)
    ensures done <==> Get(Narrow(c), ic).key == 0
    ensures done ==> r.0
  {
    done := Get(Narrow(c), ic).key == 0;
  }

  /** A code point of an mbtowide that fits is written, after which the
      rest still fits. */
  lemma MbToWideFitsNext(c: seq<bv8>, w: seq<bv16>, nw: nat, ic: nat, iw: nat, r: (bool, seq<bv16>))
      returns (w': seq<bv16>, ic': nat, iw': nat)
    requires ic <= |c| && iw < nw <= |w| && r == MbToWideFrom(c, w, nw, ic, iw) && Utf16Length(c, ic).Some? && iw + Utf16Length(c, ic).value < nw
    requires Get(Narrow(c), ic).key != 0
    ensures ic < ic' <= |c| && nw <= |w'| && Utf16Length(c, ic').Some? && iw' + Utf16Length(c, ic').value < nw
    ensures r == MbToWideFrom(c, w', nw, ic', iw')
  {
    var d := Get(Narrow(c), ic);
    var p := Step16(w, iw, nw, d.key);
    MbToWideFitsPut(c, w, nw, ic, iw, r, d, p);
    w', ic', iw' := p.text, ic + d.len, p.index;
  }

  /** The step itself: the code point is written, and the rest still fits. */
  lemma MbToWideFitsPut(c: seq<bv8>, w: seq<bv16>, nw: nat, ic: nat, iw: nat, r: (bool, seq<bv16>), d: Decoded, p: Put<bv16>)
    requires ic <= |c| && iw < nw <= |w| && r == MbToWideFrom(c, w, nw, ic, iw) && Utf16Length(c, ic).Some? && iw + Utf16Length(c, ic).value < nw
    requires d == Get(Narrow(c), ic) && d.key != 0 && p == Step16(w, iw, nw, d.key)
    ensures ic < ic + d.len <= |c| && nw <= |p.text| && Utf16Length(c, ic + d.len).Some?
    ensures p.index + Utf16Length(c, ic + d.len).value < nw
    ensures r == MbToWideFrom(c, p.text, nw, ic + d.len, p.index)
  {
    Utf16LengthNext(c, ic);
    assert r == MbToWideFrom(c, p.text, nw, ic + d.len, p.index);
  }

  /** Past a code point of an input whose length is defined, the rest has
      a length too, shorter by the units of that code point. */
  lemma Utf16LengthNext(c: seq<bv8>, ic: nat)
    requires ic <= |c| && Utf16Length(c, ic).Some? && Get(Narrow(c), ic).key != 0
    ensures var d := Get(Narrow(c), ic);
      && Scalar(d.key) && Utf16Length(c, ic + d.len).Some?
      && Utf16Length(c, ic).value == |Utf16Units(d.key)| + Utf16Length(c, ic + d.len).value
  {
  }

  /** A UTF-16 text decodes to nothing but scalar values. */
  lemma {:induction false} WideScalars(t: seq<bv16>, i: nat)
    ensures AllScalar(Keys(Wide(t), i))
    decreases |t| - i
  {
    var d := Get(Wide(t), i);
    if d.key != 0 {
      AllScalarStep(Wide(t), i);
      WideScalars(t, i + d.len);
    }
  }

  /** The code points from a non-terminating position are all scalars just
      when the first is and the rest are. */
  lemma AllScalarStep(t: Text, i: nat)
    requires Get(t, i).key != 0
    ensures var d := Get(t, i);
      AllScalar(Keys(t, i)) <==> Scalar(d.key) && AllScalar(Keys(t, i + d.len))
  {
    var d := Get(t, i);
    KeysStep(t, i);
    ScalarsCons(d.key, Keys(t, i + d.len));
  }

  /** AllScalar of a sequence with one code point in front. */
  lemma ScalarsCons(k: bv32, ks: seq<bv32>)
    ensures AllScalar([k] + ks) <==> Scalar(k) && AllScalar(ks)
  {
    assert ([k] + ks)[1..] == ks;
  }

  function MbToWideFrom(c: seq<bv8>, w: seq<bv16>, nw: nat, ic: nat, iw: nat): (r: (bool, seq<bv16>))
    requires ic <= |c| && iw < nw <= |w|
    ensures |r.1| == |w| && Ended16(r.1, iw, nw) && r.1[nw..] == w[nw..]
    ensures forall j :: 0 <= j < iw ==> r.1[j] == w[j]
    decreases |c| - ic
  {
    var d := Get(Narrow(c), ic);
    if d.key == 0 then (true, End16(w, iw))
    else
      var p := Step16(w, iw, nw, d.key);
      if p.count == 0 then (false, End16(w, iw))
      else MbToWideFrom(c, p.text, nw, ic + d.len, p.index)
  }

  /** A successful mbtowide loses nothing: the output reads back as the
      code points of the input. */
  lemma {:induction false} MbToWideKeys(c: seq<bv8>, w: seq<bv16>, nw: nat, ic: nat, iw: nat, r: (bool, seq<bv16>))
    requires ic <= |c| && iw < nw <= |w| && r == MbToWideFrom(c, w, nw, ic, iw) && r.0
    ensures Keys(Wide(r.1), iw) == Keys(Narrow(c), ic)
    decreases |c| - ic
  {
    var d := Get(Narrow(c), ic);
    if d.key == 0 {
      WideNulEnds(r.1, iw);
    } else {
      var p := Step16(w, iw, nw, d.key);
      assert r == MbToWideFrom(c, p.text, nw, ic + d.len, p.index);
      MbToWideKeys(c, p.text, nw, ic + d.len, p.index, r);
      WideReadsBack(r.1, p.text, iw, p.index, d.key);
      WideKeysCons(r.1, iw, p.index, Narrow(c), ic, d.key);
    }
  }

  /** widetomb: the reverse conversion, which drops carriage returns.  A
      successful conversion loses nothing but them.  With nc == 0 there is
      no limit, and the buffer must hold three bytes per input unit. */
  function WideToMb(w: seq<bv16>, c: seq<bv8>, nc: nat): (r: (bool, seq<bv8>))
    requires if nc == 0 then 3 * |w| < |c| else nc <= |c|
    ensures var m := Cap(nc, |c|);
      |r.1| == |c| && Ended8(r.1, 0, m) && r.1[m..] == c[m..]
    ensures r.0 ==> Keys(Narrow(r.1), 0) == NoReturns(Keys(Wide(w), 0))
  {
    var m := Cap(nc, |c|);
    var r := WideToMbFrom(w, c, m, 0, 0);
    if r.0 then WideToMbKeys(w, c, m, 0, 0, r); r else r
  }

  /** widetomb with no limit always succeeds: every code point a UTF-16
      text decodes to is a scalar value, which putchar with max == 0
      always writes. */
  lemma WideToMbUnlimited(w: seq<bv16>, c: seq<bv8>)
    requires 3 * |w| < |c|
    ensures WideToMb(w, c, 0).0
  {
    WideToMbFitsGoes(w, c, |c|, 0, 0, WideToMbFrom(w, c, |c|, 0, 0));
  }

  /** The bytes widetomb writes for the input from position iw on: the
      UTF-8 length of every code point but the carriage returns, which is
      never more than three bytes a unit. */
  function Utf8Length(w: seq<bv16>, iw: nat): (n: nat)
    requires iw <= |w|
    ensures n <= 3 * (|w| - iw)
    decreases |w| - iw
  {
    var d := Get(Wide(w), iw);
    Utf8NoLonger(w, iw);
    if d.key == 0 then 0
    else if d.key == 0x0d then Utf8Length(w, iw + d.len)
    else |Utf8Units(d.key)| + Utf8Length(w, iw + d.len)
  }

  /** A widetomb whose output, terminator included, stays under the limit
      succeeds. */
  lemma {:induction false} WideToMbFitsGoes(w: seq<bv16>, c: seq<bv8>, nc: nat, iw: nat, ic: nat, r: (bool, seq<bv8>))
    requires iw <= |w| && nc <= |c| && ic + Utf8Length(w, iw) < nc && r == WideToMbFrom(w, c, nc, iw, ic)
    ensures r.0
    decreases |w| - iw
  {
    var done, c', iw', ic' := WideToMbFitsNext(w, c, nc, iw, ic, r);
    if !done {
      WideToMbFitsGoes(w, c', nc, iw', ic', r);
    }
  }

  /** One code point of a widetomb that fits: the end, where it succeeds,
      or a code point skipped or written, after which it goes on. */
  lemma WideToMbFitsNext(w: seq<bv16>, c: seq<bv8>, nc: nat, iw: nat, ic: nat, r: (bool, seq<bv8>))
      returns (done: bool, c': seq<bv8>, iw': nat, ic': nat)
    requires iw <= |w| && nc <= |c| && ic + Utf8Length(w, iw) < nc && r == WideToMbFrom(w, c, nc, iw, ic)
    ensures done ==> r.0
    ensures !done ==> iw < iw' <= |w| && nc <= |c'| && ic' + Utf8Length(w, iw') < nc
    ensures !done ==> r == WideToMbFrom(w, c', nc, iw', ic')
  {
    var d := Get(Wide(w), iw);
    if d.key == 0 {
      done, c', iw', ic' := true, c, iw, ic;
    } else if d.key == 0x0d {
      WideToMbFitsSkip(w, c, nc, iw, ic, r, d);
      done, c', iw', ic' := false, c, iw + d.len, ic;
    } else {
      var p := Step8(c, ic, nc, d.key);
      WideToMbFitsPut(w, c, nc, iw, ic, r, d, p);
      done, c', iw', ic' := false, p.text, iw + d.len, p.index;
    }
  }

  /** A carriage return is passed over. */
  lemma WideToMbFitsSkip(w: seq<bv16>, c: seq<bv8>, nc: nat, iw: nat, ic: nat, r: (bool, seq<bv8>), d: Decoded)
    requires iw <= |w| && nc <= |c| && ic + Utf8Length(w, iw) < nc && r == WideToMbFrom(w, c, nc, iw, ic)
    requires d == Get(Wide(w), iw) && d.key == 0x0d
    ensures iw < iw + d.len <= |w| && ic + Utf8Length(w, iw + d.len) < nc
    ensures r == WideToMbFrom(w, c, nc, iw + d.len, ic)
  {
    WideToMbFromSkip(w, c, nc, iw, ic, d);
  }

  /** A code point that fits is written, and the conversion goes on after
      it. */
  lemma WideToMbFitsPut(w: seq<bv16>, c: seq<bv8>, nc: nat, iw: nat, ic: nat, r: (bool, seq<bv8>), d: Decoded, p: Put<bv8>)
    requires iw <= |w| && nc <= |c| && ic + Utf8Length(w, iw) < nc && r == WideToMbFrom(w, c, nc, iw, ic)
    requires d == Get(Wide(w), iw) && d.key !in {0, 0x0d} && p == Step8(c, ic, nc, d.key)
    ensures iw + d.len <= |w| && p.index < nc <= |p.text| && p.index + Utf8Length(w, iw + d.len) < nc
    ensures r == WideToMbFrom(w, p.text, nc, iw + d.len, p.index)
  {
    Utf8NoLonger(w, iw);
    WideToMbFromPut(w, c, nc, iw, ic, d, p);
  }

  /** A UTF-16 sequence never takes more than three times as many UTF-8
      bytes as it has units, and always decodes to a scalar value. */
  lemma Utf8NoLonger(w: seq<bv16>, iw: nat)
    ensures var d := Get(Wide(w), iw);
      d.key != 0 ==> Scalar(d.key) && |Utf8Units(d.key)| <= 3 * d.len
  {
  }

  function WideToMbFrom(w: seq<bv16>, c: seq<bv8>, nc: nat, iw: nat, ic: nat): (r: (bool, seq<bv8>))
    requires iw <= |w| && ic < nc <= |c|
    ensures |r.1| == |c| && Ended8(r.1, ic, nc) && r.1[nc..] == c[nc..]
    ensures forall j :: 0 <= j < ic ==> r.1[j] == c[j]
    decreases |w| - iw
  {
    var d := Get(Wide(w), iw);
    if d.key == 0 then (true, End8(c, ic))
    else if d.key == 0x0d then WideToMbFrom(w, c, nc, iw + d.len, ic)
    else
      var p := Step8(c, ic, nc, d.key);
      if p.count == 0 then (false, End8(c, ic))
      else WideToMbFrom(w, p.text, nc, iw + d.len, p.index)
  }

  /** A successful widetomb loses nothing but the carriage returns. */
  lemma {:induction false} WideToMbKeys(w: seq<bv16>, c: seq<bv8>, nc: nat, iw: nat, ic: nat, r: (bool, seq<bv8>))
    requires iw <= |w| && ic < nc <= |c| && r == WideToMbFrom(w, c, nc, iw, ic) && r.0
    ensures Keys(Narrow(r.1), ic) == NoReturns(Keys(Wide(w), iw))
    decreases |w| - iw
  {
    var d := Get(Wide(w), iw);
    if d.key == 0 {
      NarrowNulEnds(r.1, ic);
      assert NoReturns([]) == [];
    } else if d.key == 0x0d {
      WideToMbFromSkip(w, c, nc, iw, ic, d);
      WideToMbKeys(w, c, nc, iw + d.len, ic, r);
      SkipReturn(w, iw, r.1, ic);
    } else {
      var p := Step8(c, ic, nc, d.key);
      WideToMbFromPut(w, c, nc, iw, ic, d, p);
      WideToMbKeys(w, p.text, nc, iw + d.len, p.index, r);
      PutNarrow(w, iw, r.1, p.text, ic, p.index);
    }
  }

  /** A carriage return in the input leaves the output as it was. */
  lemma SkipReturn(w: seq<bv16>, iw: nat, out: seq<bv8>, ic: nat)
    requires Get(Wide(w), iw).key == 0x0d
    requires Keys(Narrow(out), ic) == NoReturns(Keys(Wide(w), iw + Get(Wide(w), iw).len))
    ensures Keys(Narrow(out), ic) == NoReturns(Keys(Wide(w), iw))
  {
    KeysStep(Wide(w), iw);
    NoReturnsCons(0x0d, Keys(Wide(w), iw + Get(Wide(w), iw).len));
  }

  /** Any other code point of the input is read back from the bytes the
      step wrote for it, ahead of what the rest of the loop wrote. */
  lemma PutNarrow(w: seq<bv16>, iw: nat, out: seq<bv8>, text: seq<bv8>, ic: nat, j: nat)
    requires Get(Wide(w), iw).key !in {0, 0x0d} && Scalar(Get(Wide(w), iw).key)
    requires j == ic + |Utf8Units(Get(Wide(w), iw).key)| && j <= |text| == |out|
    requires text[ic..j] == Utf8Units(Get(Wide(w), iw).key)
    requires forall m :: 0 <= m < j ==> out[m] == text[m]
    requires Keys(Narrow(out), j) == NoReturns(Keys(Wide(w), iw + Get(Wide(w), iw).len))
    ensures Keys(Narrow(out), ic) == NoReturns(Keys(Wide(w), iw))
  {
    var key := Get(Wide(w), iw).key;
    NarrowReadsBack(out, text, ic, j, key);
    NarrowKeysCons(out, ic, j, Wide(w), iw, key);
  }

  /** One unfolding of the widetomb loop at a carriage return. */
  lemma WideToMbFromSkip(w: seq<bv16>, c: seq<bv8>, nc: nat, iw: nat, ic: nat, d: Decoded)
    requires iw <= |w| && ic < nc <= |c| && d == Get(Wide(w), iw) && d.key == 0x0d
    ensures iw + d.len <= |w|
    ensures WideToMbFrom(w, c, nc, iw, ic) == WideToMbFrom(w, c, nc, iw + d.len, ic)
  {
  }

  /** One unfolding of the widetomb loop at a code point it writes. */
  lemma WideToMbFromPut(w: seq<bv16>, c: seq<bv8>, nc: nat, iw: nat, ic: nat, d: Decoded, p: Put<bv8>)
    requires iw <= |w| && ic < nc <= |c| && d == Get(Wide(w), iw) && d.key !in {0, 0x0d}
    requires p == Step8(c, ic, nc, d.key)
    ensures WideToMbFrom(w, c, nc, iw, ic).0 ==> p.count > 0
    ensures p.count > 0 ==> ic < p.index < nc && |p.text| == |c| && iw + d.len <= |w|
    ensures p.count > 0 ==> WideToMbFrom(w, c, nc, iw, ic) == WideToMbFrom(w, p.text, nc, iw + d.len, p.index)
  {
    assert iw + d.len <= |w|;
  }

  /** A code point sequence without its carriage returns. */
  function NoReturns(ks: seq<bv32>): (r: seq<bv32>)
    ensures |r| <= |ks|
  {
    if ks == [] then []
    else if ks[0] == 0x0d then NoReturns(ks[1..])
    else [ks[0]] + NoReturns(ks[1..])
  }

  lemma WideNulEnds(t: seq<bv16>, i: nat)
    requires i < |t| && t[i] == 0
    ensures Keys(Wide(t), i) == []
  {
    assert Decode16(0, At(t, i + 1)).key == 0;
  }

  lemma NarrowNulEnds(t: seq<bv8>, i: nat)
    requires i < |t| && t[i] == 0
    ensures Keys(Narrow(t), i) == []
  {
  }

  lemma NoReturnsCons(k: bv32, ks: seq<bv32>)
    ensures NoReturns([k] + ks) == if k == 0x0d then NoReturns(ks) else [k] + NoReturns(ks)
  {
    assert ([k] + ks)[1..] == ks;
  }

  /** A code point written to a UTF-16 output extends the code points
      read back from it in step with the input. */
  lemma WideKeysCons(out: seq<bv16>, i: nat, j: nat, src: Text, k: nat, key: bv32)
    requires i <= j && key != 0 && Get(Wide(out), i) == Decoded(key, j - i) && Get(src, k).key == key
    requires Keys(Wide(out), j) == Keys(src, k + Get(src, k).len)
    ensures Keys(Wide(out), i) == Keys(src, k)
  {
    KeysStep(Wide(out), i);
    KeysStep(src, k);
  }

  /** The same for a UTF-8 output, which leaves out carriage returns. */
  lemma NarrowKeysCons(out: seq<bv8>, i: nat, j: nat, src: Text, k: nat, key: bv32)
    requires i <= j && key != 0 && key != 0x0d && Get(Narrow(out), i) == Decoded(key, j - i) && Get(src, k).key == key
    requires Keys(Narrow(out), j) == NoReturns(Keys(src, k + Get(src, k).len))
    ensures Keys(Narrow(out), i) == NoReturns(Keys(src, k))
  {
    var rest := Keys(src, k + Get(src, k).len);
    KeysStep(Narrow(out), i);
    KeysStep(src, k);
    NoReturnsCons(key, rest);
    calc {
      Keys(Narrow(out), i);
      [key] + Keys(Narrow(out), j);
      [key] + NoReturns(rest);
      NoReturns([key] + rest);
      NoReturns(Keys(src, k));
    }
  }

  /** One step of Keys. */
  lemma KeysStep(t: Text, i: nat)
    requires Get(t, i).key != 0
    ensures Keys(t, i) == [Get(t, i).key] + Keys(t, i + Get(t, i).len)
  {
  }

  /** The units a conversion step wrote survive the rest of the loop, so
      they read back as the code point. */
  lemma WideReadsBack(r: seq<bv16>, p: seq<bv16>, i: nat, j: nat, key: bv32)
    requires Scalar(key) && key != 0 && j == i + |Utf16Units(key)| && j <= |p| == |r|
    requires p[i..j] == Utf16Units(key)
    requires forall m :: 0 <= m < j ==> r[m] == p[m]
    ensures Get(Wide(r), i) == Decoded(key, j - i)
  {
    assert r[i..j] == p[i..j];
    Utf16RoundTrip(r, i, key);
  }

  /** The same for bytes. */
  lemma NarrowReadsBack(r: seq<bv8>, p: seq<bv8>, i: nat, j: nat, key: bv32)
    requires Scalar(key) && key != 0 && j == i + |Utf8Units(key)| && j <= |p| == |r|
    requires p[i..j] == Utf8Units(key)
    requires forall m :: 0 <= m < j ==> r[m] == p[m]
    ensures Get(Narrow(r), i) == Decoded(key, j - i)
  {
    assert r[i..j] == p[i..j];
    Utf8RoundTrip(r, i, key);
  }

  // ---------------------------------------------------------------------------
  // Moving by whole characters
  // ---------------------------------------------------------------------------

  /** nextchar(PCUTF16) on the unit at the index (c) and the one after it
      (d): whether it succeeds and how far it moves.  Unlike getchar it
      does not check that c is a high surrogate, and it moves past a
      surrogate pair before testing the second unit. */
  function Next16(c: bv16, d: bv16): (r: (bool, nat))
    ensures r.0 ==> r.1 > 0
  {
    if c == 0 then (false, 0)
    else if c < 0xd800 || c >= 0xe000 then (true, 1)
    else if d == 0 then (false, 0)
    else (d & 0xfc00 == 0xdc00, 2)
  }

  /** nextchar(PCUTF8) on the lead byte and the three after it: the same
      tests as getchar, without computing the code point. */
  function Next8(c: bv8, d: bv8, e: bv8, f: bv8): (r: (bool, nat))
    ensures r.0 == (r.1 > 0)
  {
    if c == 0 then (false, 0)
    else if c & 0x80 == 0 then (true, 1)
    else if c & 0xc0 == 0x80 then (false, 0)
    else if c & 0xe0 == 0xc0 then
      if d == 0 || d & 0x80 != 0x80 then (false, 0) else (true, 2)
    else if c & 0xf0 == 0xe0 then
      if d == 0 || d & 0x80 != 0x80 then (false, 0)
      else if e == 0 || e & 0x80 != 0x80 then (false, 0)
      else (true, 3)
    else if c & 0xf8 == 0xf0 then
      if d == 0 || d & 0x80 != 0x80 then (false, 0)
      else if e == 0 || e & 0x80 != 0x80 then (false, 0)
      else if f == 0 || f & 0x80 != 0x80 then (false, 0)
      else (true, 4)
    else (false, 0)
  }

  /** nextchar for either width: whether it succeeded and the new index. */
  function NextChar(t: Text, i: nat): (r: (bool, nat))
    ensures r.1 >= i && (r.0 ==> r.1 > i)
  {
    match t
    case Wide(w) => var n := Next16(At(w, i), At(w, i + 1)); (n.0, i + n.1)
    case Narrow(b) => var n := Next8(Byte(b, i), Byte(b, i + 1), Byte(b, i + 2), Byte(b, i + 3)); (n.0, i + n.1)
  }

  /** nextchar(PCUTF8) succeeds exactly where getchar takes a sequence,
      and moves as far. */
  lemma Next8IsGet(c: bv8, d: bv8, e: bv8, f: bv8)
    ensures Next8(c, d, e, f) == (Decode8(c, d, e, f).len > 0, Decode8(c, d, e, f).len)
  {
  }

  /** nextchar(PCUTF16) moves over whatever getchar takes; where it
      succeeds on a unit that is not a low surrogate, getchar agrees. */
  lemma Next16IsGet(c: bv16, d: bv16)
    ensures Decode16(c, d).len > 0 ==> Next16(c, d) == (true, Decode16(c, d).len)
    ensures Next16(c, d).0 && !LowSurrogate(c) ==> Decode16(c, d).len == Next16(c, d).1
  {
  }

  /** Wherever getchar reads a character, nextchar moves over it. */
  lemma NextAgreesGet(t: Text, i: nat)
    ensures Get(t, i).len > 0 ==> NextChar(t, i) == (true, i + Get(t, i).len)
  {
    match t
    case Wide(w) => Next16IsGet(At(w, i), At(w, i + 1));
    case Narrow(b) => Next8IsGet(Byte(b, i), Byte(b, i + 1), Byte(b, i + 2), Byte(b, i + 3));
  }

  /** Where nextchar and getchar part: two low surrogates count as one
      character for nextchar and as an error for getchar, and a high
      surrogate with a bad partner moves the index although nextchar fails. */
  lemma NextChar16Lenient()
    ensures NextChar(Wide([0xdc00, 0xdc00]), 0) == (true, 2) && Get(Wide([0xdc00, 0xdc00]), 0).len == 0
    ensures NextChar(Wide([0xd800, 0x41]), 0) == (false, 2)
  {
  }

  /** prevchar(PCUTF16): step back over one unit, or over a surrogate pair
      when the unit before the index is a low surrogate; a low surrogate
      without its high one is refused. */
  function Prev16(w: seq<bv16>, i: nat): (r: (bool, nat))
    ensures r.0 ==> r.1 < i
    ensures !r.0 ==> r.1 == i
  {
    if i == 0 then (false, i)
    else
      var c := At(w, i - 1);
      if LowSurrogate(c) then
        if i == 1 then (false, i)
        else if !HighSurrogate(At(w, i - 2)) then (false, i)
        else (true, i - 2)
      else (true, i - 1)
  }

  /** The outcome of prevchar(PCUTF8) as written: a move, or a read of
      text[index - continuations - 1] with index == continuations, which is
      the DWORD 0xFFFFFFFF and outside every buffer. */
  datatype Back = Back(ok: bool, index: nat) | Underrun

  /** The continuation count prevchar(PCUTF8) reaches before the index i:
      its loop adds one while fewer than three were seen, bytes remain
      before them and the byte before them is 10xxxxxx. */
  function Continuations(t: seq<bv8>, i: nat): (n: nat)
    requires i >= 2
    ensures 1 <= n <= 3 && n <= i
  {
    if i - 1 != 0 && Tail(Byte(t, i - 2)) then
      if i - 2 != 0 && Tail(Byte(t, i - 3)) then 3 else 2
    else 1
  }

  /** The test prevchar applies to the byte before n continuations. */
  predicate LeadOf(c: bv8, n: nat)
  {
    || (n == 1 && c & 0xe0 == 0xc0)
    || (n == 2 && c & 0xf0 == 0xe0)
    || (n == 3 && c & 0xf8 == 0xf0)
  }

  /** prevchar(PCUTF8) as written.  Its final check (continuations > 3 or
      index == 0) can never hold, and it does not stop when the
      continuations reach the start of the text. */
  function Prev8AsWritten(t: seq<bv8>, i: nat): (r: Back)
    ensures r.Back? && r.ok ==> r.index < i
    ensures r.Back? && !r.ok ==> r.index == i
    ensures r.Underrun? ==> i >= 2 && Tail(Byte(t, 0)) && Tail(Byte(t, 1))
  {
    if i == 0 then Back(false, i)
    else
      var c := Byte(t, i - 1);
      if c == 0 then Back(false, i)
      else if !Tail(c) then Back(true, i - 1)
      else if i == 1 then Back(false, i)
      else
        var n := Continuations(t, i);
        if i - n == 0 then Underrun
        else if LeadOf(Byte(t, i - n - 1), n) then Back(true, i - n - 1)
        else Back(false, i)
  }

  /** prevchar(PCUTF8) with the start of the text checked: continuations
      that reach it are refused, as the lead byte they lack is. */
  function Prev8(t: seq<bv8>, i: nat): (r: (bool, nat))
    ensures r.0 ==> r.1 < i
    ensures !r.0 ==> r.1 == i
  {
    if i == 0 then (false, i)
    else
      var c := Byte(t, i - 1);
      if c == 0 then (false, i)
      else if !Tail(c) then (true, i - 1)
      else if i == 1 then (false, i)
      else
        var n := Continuations(t, i);
        if i - n == 0 then (false, i)
        else if LeadOf(Byte(t, i - n - 1), n) then (true, i - n - 1)
        else (false, i)
  }

  /** Two continuation bytes at the start of a text make prevchar read the
      byte before the text; the corrected version refuses them. */
  lemma Prev8Underrun()
    ensures Prev8AsWritten([0x80, 0x80], 2) == Underrun
    ensures Prev8([0x80, 0x80], 2) == (false, 2)
  {
  }

  /** Wherever prevchar as written stays inside the text, the corrected
      version does the same. */
  lemma Prev8AsWrittenAgrees(t: seq<bv8>, i: nat)
    ensures Prev8AsWritten(t, i).Back? ==> Prev8(t, i) == (Prev8AsWritten(t, i).ok, Prev8AsWritten(t, i).index)
    ensures Prev8AsWritten(t, i).Underrun? <==> Prev8(t, i) == (false, i) && i >= 2 && Tail(Byte(t, i - 1))
                                                 && i == Continuations(t, i)
  {
  }

  /** prevchar for either width (UTF-8 as corrected). */
  function PrevChar(t: Text, i: nat): (r: (bool, nat))
    ensures r.0 ==> r.1 < i
    ensures !r.0 ==> r.1 == i
  {
    match t
    case Wide(w) => Prev16(w, i)
    case Narrow(b) => Prev8(b, i)
  }

  /** In UTF-16, prevchar steps back over every character getchar reads. */
  lemma PrevUndoesGet16(w: seq<bv16>, i: nat)
    ensures Get(Wide(w), i).len > 0 ==> PrevChar(Wide(w), i + Get(Wide(w), i).len) == (true, i)
  {
    var d := Get(Wide(w), i);
    if d.len == 1 {
      NotLow(At(w, i));
    } else if d.len == 2 {
      assert At(w, i + 1) == w[i + 1] && At(w, i) == w[i];
    }
  }

  lemma NotLow(c: bv16)
    requires !(0xd800 <= c < 0xe000)
    ensures !LowSurrogate(c)
  {
  }

  /** In UTF-8, prevchar steps back over every character putchar writes,
      and nextchar steps forward over it. */
  lemma PrevUndoesPut8(b: seq<bv8>, i: nat, k: bv32)
    requires Scalar(k) && k != 0
    requires i + |Utf8Units(k)| <= |b| && b[i..i + |Utf8Units(k)|] == Utf8Units(k)
    ensures NextChar(Narrow(b), i) == (true, i + |Utf8Units(k)|)
    ensures PrevChar(Narrow(b), i + |Utf8Units(k)|) == (true, i)
  {
    var u := Utf8Units(k);
    var n := |u|;
    Utf8RoundTrip(b, i, k);
    NextAgreesGet(Narrow(b), i);
    Utf8UnitsShape(k);
    LeadBits(u[0], n - 1);
    UnitsAt(b, i, u);
    assert b[i] == u[0] && b[i + n - 1] == u[n - 1];
    if n == 2 {
      assert Continuations(b, i + n) == 1;
    } else if n == 3 {
      assert b[i + 1] == u[1];
      assert Continuations(b, i + n) == 2;
    } else if n == 4 {
      assert b[i + 1] == u[1] && b[i + 2] == u[2];
      assert Continuations(b, i + n) == 3;
    }
  }

  /** The units of a slice, read in place. */
  lemma UnitsAt(b: seq<bv8>, i: nat, u: seq<bv8>)
    requires i + |u| <= |b| && b[i..i + |u|] == u
    ensures forall j :: 0 <= j < |u| ==> b[i + j] == u[j]
  {
    forall j | 0 <= j < |u|
      ensures b[i + j] == u[j]
    {
      assert b[i..i + |u|][j] == b[i + j];
    }
  }

  /** A lead byte is not a continuation byte, and the lead tests of
      prevchar agree with the lengths getchar reads. */
  lemma LeadBits(c: bv8, n: nat)
    ensures LeadLength(c) > 0 ==> !Tail(c)
    ensures LeadOf(c, n) <==> n >= 1 && LeadLength(c) == n + 1
  {
  }

  /** In UTF-16, nextchar and prevchar undo each other over every character
      putchar writes. */
  lemma PrevUndoesPut16(w: seq<bv16>, i: nat, k: bv32)
    requires Scalar(k) && k != 0
    requires i + |Utf16Units(k)| <= |w| && w[i..i + |Utf16Units(k)|] == Utf16Units(k)
    ensures NextChar(Wide(w), i) == (true, i + |Utf16Units(k)|)
    ensures PrevChar(Wide(w), i + |Utf16Units(k)|) == (true, i)
  {
    Utf16RoundTrip(w, i, k);
    NextAgreesGet(Wide(w), i);
    PrevUndoesGet16(w, i);
  }

  // ---------------------------------------------------------------------------
  // Indices and character counts
  // ---------------------------------------------------------------------------

  /** The loop of indextochar: from element i, having counted col
      characters, move by nextchar until the index is reached.  The count
      is what col holds when the loop stops. */
  function IndexFrom(t: Text, index: nat, i: nat, col: nat): (r: (bool, nat))
    ensures r.1 >= col
    decreases index - i
  {
    if i < index then
      var (ok, i') := NextChar(t, i);
      if !ok then (false, col) else IndexFrom(t, index, i', col + 1)
    else (i == index, col)
  }

  /** indextochar: how many characters lie before an element index, and
      whether the index falls on a character boundary. */
  function IndexToChar(t: Text, index: nat): (r: (bool, nat))
  {
    IndexFrom(t, index, 0, 0)
  }

  /** The loop of chartoindex: move left more characters from element i.
      A failing nextchar may still have moved the index, which the caller
      gets back. */
  function CharFrom(t: Text, left: nat, i: nat): (r: (bool, nat))
    ensures r.1 >= i
  {
    if left == 0 then (true, i)
    else
      var (ok, i') := NextChar(t, i);
      if !ok then (false, i') else CharFrom(t, left - 1, i')
  }

  /** chartoindex: the element index of character col. */
  function CharToIndex(t: Text, col: nat): (r: (bool, nat))
  {
    CharFrom(t, col, 0)
  }

  /** The index chartoindex gives is on a boundary, and indextochar counts
      back the same number of characters. */
  lemma {:induction false} CharThenIndex(t: Text, left: nat, i: nat, col: nat)
    requires CharFrom(t, left, i).0
    ensures IndexFrom(t, CharFrom(t, left, i).1, i, col) == (true, col + left)
    decreases left
  {
    if left > 0 {
      var (ok, i') := NextChar(t, i);
      CharThenIndex(t, left - 1, i', col + 1);
    }
  }

  /** An index indextochar accepts is where chartoindex puts the character
      it counts. */
  lemma {:induction false} IndexThenChar(t: Text, index: nat, i: nat, col: nat)
    requires IndexFrom(t, index, i, col).0
    ensures CharFrom(t, IndexFrom(t, index, i, col).1 - col, i) == (true, index)
    decreases index - i
  {
    if i < index {
      var (ok, i') := NextChar(t, i);
      IndexThenChar(t, index, i', col + 1);
    }
  }

  /** The two conversions are inverse on boundaries. */
  lemma IndexCharInverse(t: Text, index: nat, col: nat)
    ensures CharToIndex(t, col).0 ==> IndexToChar(t, CharToIndex(t, col).1) == (true, col)
    ensures IndexToChar(t, index).0 ==> CharToIndex(t, IndexToChar(t, index).1) == (true, index)
  {
    if CharToIndex(t, col).0 {
      CharThenIndex(t, col, 0, 0);
    }
    if IndexToChar(t, index).0 {
      IndexThenChar(t, index, 0, 0);
    }
  }

  /** chars: how many characters getchar reads before the first 0. */
  function Chars(t: Text): (n: nat)
    ensures n == |Keys(t, 0)|
  {
    CharsFrom(t, 0)
  }

  function CharsFrom(t: Text, i: nat): (n: nat)
    ensures n == |Keys(t, i)|
    decreases Size(t) - i
  {
    var d := Get(t, i);
    if d.key == 0 then 0 else 1 + CharsFrom(t, i + d.len)
  }

  /** Every character chars counts can be reached by chartoindex, and
      lands where getchar's reads put it. */
  lemma {:induction false} CharFromKeys(t: Text, left: nat, i: nat)
    requires left <= |Keys(t, i)|
    ensures CharFrom(t, left, i).0
    decreases left
  {
    if left > 0 {
      var j := KeysShorter(t, left, i);
      CharFromKeys(t, left - 1, j);
      CharFromStep(t, left, i, j);
    }
  }

  /** A character to read leaves one fewer to read after it, from the
      index j just past it. */
  lemma KeysShorter(t: Text, left: nat, i: nat) returns (j: nat)
    requires 0 < left <= |Keys(t, i)|
    ensures Get(t, i).key != 0 && j == i + Get(t, i).len && left - 1 <= |Keys(t, j)|
  {
    KeysStep(t, i);
    j := i + Get(t, i).len;
  }

  /** chartoindex gets past character i when it gets past the rest. */
  lemma CharFromStep(t: Text, left: nat, i: nat, j: nat)
    requires 0 < left && Get(t, i).key != 0 && j == i + Get(t, i).len && CharFrom(t, left - 1, j).0
    ensures CharFrom(t, left, i).0
  {
    NextAgreesGet(t, i);
  }

  /** Any character count up to chars converts to an index and back. */
  lemma CharToIndexWithinChars(t: Text, col: nat)
    requires col <= Chars(t)
    ensures CharToIndex(t, col).0
    ensures IndexToChar(t, CharToIndex(t, col).1) == (true, col)
  {
    CharFromKeys(t, col, 0);
    IndexCharInverse(t, 0, col);
  }

  /** length: the elements before the first NUL. */
  function Length(t: Text): (n: nat)
    ensures Elem(t, n) == 0
    ensures forall j :: 0 <= j < n ==> Elem(t, j) != 0
  {
    LengthFrom(t, 0)
  }

  function LengthFrom(t: Text, i: nat): (n: nat)
    requires forall j :: 0 <= j < i ==> Elem(t, j) != 0
    ensures i <= n && Elem(t, n) == 0
    ensures forall j :: 0 <= j < n ==> Elem(t, j) != 0
    decreases Size(t) - i
  {
    if Elem(t, i) == 0 then i else LengthFrom(t, i + 1)
  }

  /** A text never holds more characters than elements. */
  lemma CharsAtMostLength(t: Text)
    ensures Chars(t) <= Length(t)
  {
    KeysWithin(t, 0, Length(t));
  }

  lemma {:induction false} KeysWithin(t: Text, i: nat, n: nat)
    requires i <= n && Elem(t, n) == 0
    ensures |Keys(t, i)| <= n - i
    decreases Size(t) - i
  {
    var d := Get(t, i);
    if d.key != 0 {
      EndsBeforeNul(t, i, n);
      KeysWithin(t, i + d.len, n);
      KeysWithinStep(t, i, n);
    } else {
      KeysEnd(t, i);
    }
  }

  lemma KeysWithinStep(t: Text, i: nat, n: nat)
    requires Get(t, i).key != 0 && i + Get(t, i).len <= n
    requires |Keys(t, i + Get(t, i).len)| <= n - (i + Get(t, i).len)
    ensures |Keys(t, i)| <= n - i
  {
    KeysStep(t, i);
  }

  lemma KeysEnd(t: Text, i: nat)
    requires Get(t, i).key == 0
    ensures Keys(t, i) == []
  {
  }

  /** A character starting before a NUL ends at or before it. */
  lemma EndsBeforeNul(t: Text, i: nat, n: nat)
    requires i <= n && Elem(t, n) == 0 && Get(t, i).key != 0
    ensures i + Get(t, i).len <= n
  {
    GetNonZero(t, i);
  }

  /** Every element a character takes is non-zero. */
  lemma GetNonZero(t: Text, i: nat)
    ensures forall j :: i <= j < i + Get(t, i).len ==> Elem(t, j) != 0
  {
    match t
    case Narrow(b) =>
      var r := GetUtf8(b, i);
      if r.len > 0 {
        assert r.len >= 2 ==> Byte(b, i + 1) != 0;
        assert r.len >= 3 ==> Byte(b, i + 2) != 0;
        assert r.len == 4 ==> Byte(b, i + 3) != 0;
      }
    case Wide(w) =>
      if GetUtf16(w, i).len == 2 {
        LowNonZero(At(w, i + 1));
      }
  }
}

=== FILE: charset_strings.dfy ===
/** The string routines of charset.cpp that mimic the C library: copy,
    compare, comparei, token, concat and insert.  The copy and concat
    overloads for UTF-8 and UTF-16 differ only in the element type, so they
    are modelled once over any element type with its NUL passed in; a null
    pointer is None. */
module CharStrings {
  import opened Wrappers
  import opened Unicode
  import opened Charset

  // ---------------------------------------------------------------------------
  // Terminated buffers
  // ---------------------------------------------------------------------------

  /** The index of the first NUL of a buffer that holds one. */
  function Terminator<T(==)>(s: seq<T>, zero: T): (n: nat)
    requires zero in s
    ensures n < |s| && s[n] == zero
    ensures forall j :: 0 <= j < n ==> s[j] != zero
  {
    assert s[0..] == s;
    TerminatorFrom(s, zero, 0)
  }

  function TerminatorFrom<T(==)>(s: seq<T>, zero: T, i: nat): (n: nat)
    requires i <= |s| && zero in s[i..]
    requires forall j :: 0 <= j < i ==> s[j] != zero
    ensures i <= n < |s| && s[n] == zero
    ensures forall j :: 0 <= j < n ==> s[j] != zero
    decreases |s| - i
  {
    if s[i] == zero then i
    else
      assert s[i..] == [s[i]] + s[i + 1..];
      TerminatorFrom(s, zero, i + 1)
  }

  /** The string a terminated buffer holds. */
  function Before<T(==)>(s: seq<T>, zero: T): (r: seq<T>)
    requires zero in s
    ensures zero !in r && r + [zero] <= s
  {
    var n := Terminator(s, zero);
    assert s[..n] + [zero] == s[..n + 1];
    s[..n]
  }

  /** For a byte buffer, the terminator is where length stops. */
  lemma TerminatorIsLength(b: seq<bv8>)
    requires 0 in b
    ensures Terminator(b, 0) == Length(Narrow(b))
  {
    var n := Terminator(b, 0);
    assert Elem(Narrow(b), n) == 0;
  }

  // ---------------------------------------------------------------------------
  // copy
  // ---------------------------------------------------------------------------

  /** How many elements copy moves: up to the terminator, at most cb - 1
      and, unless n is -1, at most n. */
  function Copied(len: nat, cb: int, n: int): (k: nat)
    ensures k <= len && (cb >= 1 ==> k <= cb - 1) && (cb < 1 ==> k == 0)
    ensures n != -1 ==> k <= if n < 0 then 0 else n
    ensures k == len || k == cb - 1 || k == n || k == 0
  {
    var a := if cb - 1 < len then (if cb - 1 < 0 then 0 else cb - 1) else len;
    if n == -1 || a <= n then a else if n < 0 then 0 else n
  }

  /** copy: strcpy / strncpy into a buffer of cb elements.  The copy is
      terminated even when cb is 0 or less, in which case the terminator
      still goes to dest[0]; it succeeds when the whole string or exactly n
      elements went across. */
  function Copy<T(==)>(dest: Option<seq<T>>, cb: int, src: Option<seq<T>>, n: int, zero: T)
    : (r: (bool, Option<seq<T>>))
    requires dest.Some? ==> 1 <= |dest.value| && cb <= |dest.value|
    requires src.Some? ==> zero in src.value
    ensures dest.None? || src.None? ==> r == (false, dest)
    ensures dest.Some? && src.Some? ==>
      var k := Copied(Terminator(src.value, zero), cb, n);
      && r.1.Some? && |r.1.value| == |dest.value|
      && r.1.value[..k] == src.value[..k] && r.1.value[k] == zero
      && r.1.value[k + 1..] == dest.value[k + 1..]
      && (r.0 <==> k == Terminator(src.value, zero) || k == n)
  {
    if dest.None? || src.None? then (false, dest)
    else
      var r := CopyFrom(dest.value, cb, src.value, n, zero, 0);
      (r.0, Some(r.1))
  }

  /** The loop of copy from element i. */
  function CopyFrom<T(==)>(dest: seq<T>, cb: int, src: seq<T>, n: int, zero: T, i: nat): (r: (bool, seq<T>))
    requires zero in src && 1 <= |dest| && cb <= |dest|
    requires i <= Copied(Terminator(src, zero), cb, n)
    requires dest[..i] == src[..i]
    ensures var k := Copied(Terminator(src, zero), cb, n);
      && |r.1| == |dest| && r.1[..k] == src[..k] && r.1[k] == zero
      && r.1[k + 1..] == dest[k + 1..]
      && (r.0 <==> k == Terminator(src, zero) || k == n)
    decreases |src| - i
  {
    if src[i] != zero && i < cb - 1 && (n == -1 || i < n) then
      var d := dest[i := src[i]];
      assert d[..i + 1] == src[..i + 1];
      CopyFrom(d, cb, src, n, zero, i + 1)
    else
      (src[i] == zero || i == n, dest[i := zero])
  }

  // ---------------------------------------------------------------------------
  // compare and comparei
  // ---------------------------------------------------------------------------

  /** tolower on a code point: only A to Z change, by setting bit 5. */
  function Fold(k: bv32): (r: bv32)
    ensures r == 0 <==> k == 0
    ensures 0x41 <= k <= 0x5a ==> r == k + 0x20
  {
    if 0x41 <= k <= 0x5a then k | 0x20 else k
  }

  function FoldAll(ks: seq<bv32>, fold: bool): (r: seq<bv32>)
    ensures |r| == |ks|
  {
    if ks == [] then [] else [FoldIf(ks[0], fold)] + FoldAll(ks[1..], fold)
  }

  function FoldIf(k: bv32, fold: bool): (r: bv32)
    ensures r == 0 <==> k == 0
  {
    if fold then Fold(k) else k
  }

  /** Lexicographic order of two strings of code points, as -1, 0 or 1; a
      string before one it is a prefix of.  Code points are UNICODE, an
      unsigned 32-bit type, so they are compared as the numbers they are. */
  function Lex(a: seq<bv32>, b: seq<bv32>): (r: int)
    ensures -1 <= r <= 1
  {
    if a == [] then (if b == [] then 0 else -1)
    else if b == [] then 1
    else if Order(a[0], b[0]) != 0 then Order(a[0], b[0])
    else Lex(a[1..], b[1..])
  }

  /** The two tests the compare loop makes on a pair of code points: -1
      when the first is below, 1 when it is above, 0 when they are equal. */
  function Order(c1: bv32, c2: bv32): (r: int)
    ensures -1 <= r <= 1
  {
    if c1 as int < c2 as int then -1
    else if c1 as int > c2 as int then 1
    else 0
  }

  /** Only equal code points are level. */
  lemma OrderSame(c1: bv32, c2: bv32)
    ensures Order(c1, c2) == 0 <==> c1 == c2
  {
    assert (c1 as int) as bv32 == c1 && (c2 as int) as bv32 == c2;
  }

  /** Swapping the code points negates the order. */
  lemma OrderSwap(c1: bv32, c2: bv32)
    ensures Order(c1, c2) == -Order(c2, c1)
  {
  }

  /** NUL is below every other code point. */
  lemma OrderNul(c: bv32)
    ensures c != 0 ==> Order(0, c) == -1 && Order(c, 0) == 1
  {
    assert (c as int) as bv32 == c;
  }

  /** The code points compare still looks at once i have been compared:
      all of them when n is -1, else up to n in all, and at least one. */
  function Cap(ks: seq<bv32>, n: int, i: nat): (r: seq<bv32>)
    ensures r <= ks
  {
    if n == -1 then ks
    else
      var m := if n - i < 1 then 1 else n - i;
      if |ks| <= m then ks else ks[..m]
  }

  /** A null pointer reads as the empty string. */
  function OrEmpty(s: Option<Text>): Text
  {
    if s.Some? then s.value else Narrow([])
  }

  /** compare (fold false) and comparei (fold true): code points are read
      with getchar and compared as numbers.  The loop is a do-while, so n
      of 0 or less still compares one code point. */
  function Compare(s1: Option<Text>, s2: Option<Text>, n: int, fold: bool): (r: int)
    ensures r == Lex(Cap(FoldAll(Keys(OrEmpty(s1), 0), fold), n, 0),
                     Cap(FoldAll(Keys(OrEmpty(s2), 0), fold), n, 0))
  {
    var k1 := Keys(OrEmpty(s1), 0);
    var k2 := Keys(OrEmpty(s2), 0);
    CompareFromLex(k1, k2, 0, n, fold);
    CompareFrom(k1, k2, 0, n, fold)
  }

  /** What getchar returns the j-th time on a text whose code points are
      ks: each of them in turn, then 0. */
  function KeyAt(ks: seq<bv32>, j: nat): bv32
  {
    if j < |ks| then ks[j] else 0
  }

  /** The loop of compare once i code points of each string were read; k1
      and k2 are what getchar reads from the two strings. */
  function CompareFrom(k1: seq<bv32>, k2: seq<bv32>, i: nat, n: int, fold: bool): int
    requires forall j :: 0 <= j < |k1| ==> k1[j] != 0
    decreases |k1| - i
  {
    var c1 := FoldIf(KeyAt(k1, i), fold);
    var c2 := FoldIf(KeyAt(k2, i), fold);
    if Order(c1, c2) != 0 then Order(c1, c2)
    else if c1 != 0 && c2 != 0 && (n == -1 || i + 1 < n) then CompareFrom(k1, k2, i + 1, n, fold)
    else 0
  }

  /** The compare loop is the lexicographic order of the code points it
      may still look at. */
  lemma {:induction false} CompareFromLex(k1: seq<bv32>, k2: seq<bv32>, i: nat, n: int, fold: bool)
    requires forall j :: 0 <= j < |k1| ==> k1[j] != 0
    requires forall j :: 0 <= j < |k2| ==> k2[j] != 0
    requires n == -1 || i == 0 || i < n
    ensures CompareFrom(k1, k2, i, n, fold) == Lex(Cap(FoldAll(Rest(k1, i), fold), n, i), Cap(FoldAll(Rest(k2, i), fold), n, i))
    decreases |k1| - i
  {
    var c1 := FoldIf(KeyAt(k1, i), fold);
    var c2 := FoldIf(KeyAt(k2, i), fold);
    var a := FoldAll(Rest(k1, i), fold);
    var b := FoldAll(Rest(k2, i), fold);
    var a' := FoldAll(Rest(k1, i + 1), fold);
    var b' := FoldAll(Rest(k2, i + 1), fold);
    RestStep(k1, i, fold);
    RestStep(k2, i, fold);
    OrderSame(c1, c2);
    if c1 == 0 || c2 == 0 {
      StepZero(c1, c2, a', b', a, b, n, i);
    } else if c1 != c2 {
      StepDiffer(c1, c2, a', b', a, b, n, i);
    } else {
      StepSame(c1, a', b', a, b, n, i);
      if n == -1 || i + 1 < n {
        CompareFromLex(k1, k2, i + 1, n, fold);
      }
    }
  }

  /** The code points from the i-th on. */
  function Rest(ks: seq<bv32>, i: nat): seq<bv32>
  {
    if i <= |ks| then ks[i..] else []
  }

  /** The folded code points from the i-th on are the i-th and those after. */
  lemma RestStep(ks: seq<bv32>, i: nat, fold: bool)
    requires forall j :: 0 <= j < |ks| ==> ks[j] != 0
    ensures FoldAll(Rest(ks, i), fold)
         == if FoldIf(KeyAt(ks, i), fold) == 0 then [] else [FoldIf(KeyAt(ks, i), fold)] + FoldAll(Rest(ks, i + 1), fold)
  {
    if i < |ks| {
      assert Rest(ks, i)[1..] == Rest(ks, i + 1);
    }
  }

  /** One step of the compare loop when either string has ended. */
  lemma StepZero(c1: bv32, c2: bv32, a': seq<bv32>, b': seq<bv32>, a: seq<bv32>, b: seq<bv32>, n: int, i: nat)
    requires c1 == 0 || c2 == 0
    requires a == (if c1 == 0 then [] else [c1] + a')
    requires b == (if c2 == 0 then [] else [c2] + b')
    ensures Lex(Cap(a, n, i), Cap(b, n, i)) == Order(c1, c2)
  {
    OrderSame(c1, c2);
    OrderNul(c1);
    OrderNul(c2);
  }

  /** One step of the compare loop on two different code points. */
  lemma StepDiffer(c1: bv32, c2: bv32, a': seq<bv32>, b': seq<bv32>, a: seq<bv32>, b: seq<bv32>, n: int, i: nat)
    requires Order(c1, c2) != 0
    requires a == [c1] + a' && b == [c2] + b'
    ensures Lex(Cap(a, n, i), Cap(b, n, i)) == Order(c1, c2)
  {
    assert Cap(a, n, i)[0] == c1 && Cap(b, n, i)[0] == c2;
  }

  /** One step of the compare loop on the same code point. */
  lemma StepSame(c: bv32, a': seq<bv32>, b': seq<bv32>, a: seq<bv32>, b: seq<bv32>, n: int, i: nat)
    requires a == [c] + a' && b == [c] + b'
    ensures Lex(Cap(a, n, i), Cap(b, n, i))
         == if n == -1 || i + 1 < n then Lex(Cap(a', n, i + 1), Cap(b', n, i + 1)) else 0
  {
    OrderSame(c, c);
    if n == -1 || i + 1 < n {
      CapCons(c, a', n, i);
      CapCons(c, b', n, i);
      LexCons(c, Cap(a', n, i + 1), Cap(b', n, i + 1));
    } else {
      assert Cap(a, n, i) == [c] && Cap(b, n, i) == [c];
    }
  }

  lemma LexCons(c: bv32, a: seq<bv32>, b: seq<bv32>)
    ensures Lex([c] + a, [c] + b) == Lex(a, b)
  {
    OrderSame(c, c);
    assert ([c] + a)[1..] == a;
    assert ([c] + b)[1..] == b;
  }

  lemma CapCons(x: bv32, ks: seq<bv32>, n: int, i: nat)
    requires n == -1 || i + 1 < n
    ensures Cap([x] + ks, n, i) == [x] + Cap(ks, n, i + 1)
  {
    if n != -1 {
      var m := n - i;
      if m < |ks| + 1 {
        assert ([x] + ks)[..m] == [x] + ks[..m - 1];
      }
    }
  }

  /** Swapping the strings negates the order. */
  lemma {:induction false} LexAntisymmetric(a: seq<bv32>, b: seq<bv32>)
    ensures Lex(a, b) == -Lex(b, a)
  {
    if a != [] && b != [] {
      OrderSwap(a[0], b[0]);
      OrderSame(a[0], b[0]);
      if a[0] == b[0] {
        LexAntisymmetric(a[1..], b[1..]);
      }
    }
  }

  /** Only equal strings compare equal. */
  lemma {:induction false} LexZero(a: seq<bv32>, b: seq<bv32>)
    ensures Lex(a, b) == 0 <==> a == b
  {
    if a != [] && b != [] {
      OrderSame(a[0], b[0]);
    }
    if a != [] && b != [] && a[0] == b[0] {
      LexZero(a[1..], b[1..]);
      assert a == [a[0]] + a[1..] && b == [b[0]] + b[1..];
    }
  }

  /** compare and comparei are antisymmetric. */
  lemma CompareAntisymmetric(s1: Option<Text>, s2: Option<Text>, n: int, fold: bool)
    ensures Compare(s1, s2, n, fold) == -Compare(s2, s1, n, fold)
  {
    LexAntisymmetric(Cap(FoldAll(Keys(OrEmpty(s1), 0), fold), n, 0),
                     Cap(FoldAll(Keys(OrEmpty(s2), 0), fold), n, 0));
  }

  /** Unlimited compare finds two texts equal exactly when they read as the
      same code points, and comparei when they do after tolower. */
  lemma CompareZero(s1: Option<Text>, s2: Option<Text>, fold: bool)
    ensures Compare(s1, s2, -1, fold) == 0
        <==> FoldAll(Keys(OrEmpty(s1), 0), fold) == FoldAll(Keys(OrEmpty(s2), 0), fold)
  {
    LexZero(FoldAll(Keys(OrEmpty(s1), 0), fold), FoldAll(Keys(OrEmpty(s2), 0), fold));
  }

  /** Without folding, code points are left as they are. */
  lemma {:induction false} FoldAllNone(ks: seq<bv32>)
    ensures FoldAll(ks, false) == ks
  {
    if ks != [] {
      FoldAllNone(ks[1..]);
      assert ks == [ks[0]] + ks[1..];
    }
  }

  /** comparei finds "A" and "a" equal, and compare puts "A" first. */
  lemma CompareCase()
    ensures Compare(Some(Narrow([0x41, 0])), Some(Narrow([0x61, 0])), -1, true) == 0
    ensures Compare(Some(Narrow([0x41, 0])), Some(Narrow([0x61, 0])), -1, false) == -1
  {
    var a := Narrow([0x41, 0]);
    var b := Narrow([0x61, 0]);
    KeysStep(a, 0);
    KeysStep(b, 0);
    assert Keys(a, 1) == [] && Keys(b, 1) == [];
    assert Keys(a, 0) == [0x41] && Keys(b, 0) == [0x61];
  }

  // ---------------------------------------------------------------------------
  // token
  // ---------------------------------------------------------------------------

  /** isinList: whether a code point is one of those of a UTF-8 list. */
  predicate InList(c: bv32, list: seq<bv8>)
  {
    InListFrom(c, list, 0)
  }

  predicate InListFrom(c: bv32, list: seq<bv8>, index: nat)
    decreases |list| - index
  {
    var d := Get(Narrow(list), index);
    if d.key == 0 then false
    else if d.key == c then true
    else InListFrom(c, list, index + d.len)
  }

  /** A code point is in the list exactly when it is one of the code points
      the list reads as. */
  lemma InListKeys(c: bv32, list: seq<bv8>)
    ensures InList(c, list) <==> c in Keys(Narrow(list), 0)
  {
    InListFromKeys(c, list, 0);
  }

  lemma {:induction false} InListFromKeys(c: bv32, list: seq<bv8>, index: nat)
    ensures InListFrom(c, list, index) <==> c in Keys(Narrow(list), index)
    decreases |list| - index
  {
    var d := Get(Narrow(list), index);
    if d.key != 0 {
      InListFromKeys(c, list, index + d.len);
      KeysStep(Narrow(list), index);
    }
  }

  /** isspace: only the space and the tab. */
  predicate IsSpace(c: bv8)
  {
    c == 0x20 || c == 0x09
  }

  /** What one call of token leaves behind: the start of the token found
      (None for a null result), the text with the delimiter after the token
      overwritten by NUL, and the context the next call continues from. */
  datatype Tokenized = Tokenized(token: Option<nat>, text: seq<bv8>, context: Option<nat>)

  /** token: a strtok_s that continues from the context when str is null,
      skips ONE space or tab, and ends the token at the first code point of
      the delimiter list, which it overwrites with NUL.  Positions are
      indices into the one buffer both pointers point into.  The loop asks
      isinList of each code point; that is membership in the code points
      the list reads as (InListKeys), so the list is read once here. */
  function Token(text: seq<bv8>, str: Option<nat>, context: Option<nat>, delimiters: seq<bv8>): (r: Tokenized)
    ensures r.token.None? ==> r.text == text && r.context.None?
    ensures var q := if str.Some? then str.value else if context.Some? then context.value else 0;
      && (r.token.None? <==> (str.None? && context.None?) || Byte(text, if IsSpace(Byte(text, q)) then q + 1 else q) == 0)
      && (r.token.Some? ==>
            && (r.token.value == q || r.token.value == q + 1)
            && (r.token.value == q + 1 <==> IsSpace(Byte(text, q)))
            && Byte(text, r.token.value) != 0)
  {
    var start := if str.Some? then str else context;
    if start.None? then Tokenized(None, text, None)
    else
      var q := start.value;
      var q' := if IsSpace(Byte(text, q)) then q + 1 else q;
      if Byte(text, q') == 0 then Tokenized(None, text, None)
      else TokenAt(text, q', Keys(Narrow(delimiters), 0))
  }

  /** The rest of token once the token is known to start at q: the scan for
      its end and the NUL written over the delimiter found there. */
  function TokenAt(text: seq<bv8>, q: nat, ds: seq<bv32>): (r: Tokenized)
    ensures r.token == Some(q)
  {
    var e := Scan(text, q, ds);
    var d := Get(Narrow(text), e);
    if d.key == 0 then Tokenized(Some(q), text, None)
    else Tokenized(Some(q), text[e := 0], Some(e + d.len))
  }

  /** The loop of token: the index of the first code point from p on that
      ends the token, being the end of the text or a delimiter. */
  function Scan(text: seq<bv8>, p: nat, ds: seq<bv32>): (e: nat)
    ensures e >= p
    ensures var d := Get(Narrow(text), e); d.key == 0 || (d.key in ds && e < |text|)
    decreases |text| - p
  {
    var d := Get(Narrow(text), p);
    if d.key == 0 || d.key in ds then p
    else Scan(text, p + d.len, ds)
  }

  /** A token reads as the code points of the text up to the delimiter,
      none of them a delimiter; the delimiter follows, and the context is
      where the text goes on. */
  lemma TokenSplits(text: seq<bv8>, str: Option<nat>, context: Option<nat>, delimiters: seq<bv8>)
    ensures var r := Token(text, str, context, delimiters);
      r.token.Some? ==>
        && (forall j :: 0 <= j < |Keys(Narrow(r.text), r.token.value)| ==>
              !InList(Keys(Narrow(r.text), r.token.value)[j], delimiters))
        && (r.context.None? ==> r.text == text)
        && (r.context.Some? ==> exists k ::
              && InList(k, delimiters)
              && Keys(Narrow(text), r.token.value) == Keys(Narrow(r.text), r.token.value) + [k] + Keys(Narrow(text), r.context.value))
  {
    var r := Token(text, str, context, delimiters);
    if r.token.Some? {
      var q, ds := r.token.value, Keys(Narrow(delimiters), 0);
      assert r == TokenAt(text, q, ds);
      var e := TokenAtSplit(text, q, ds);
      var ks := Keys(Narrow(r.text), q);
      forall j | 0 <= j < |ks|
        ensures !InList(ks[j], delimiters)
      {
        InListKeys(ks[j], delimiters);
      }
      if r.context.Some? {
        var k := TokenAtDelimiter(text, q, ds);
        InListKeys(k, delimiters);
        assert InList(k, delimiters) && Keys(Narrow(text), q) == ks + [k] + Keys(Narrow(text), r.context.value);
      }
    }
  }

  /** A token ended by a delimiter: the delimiter follows it, then the
      text the context continues from. */
  lemma TokenAtDelimiter(text: seq<bv8>, q: nat, ds: seq<bv32>) returns (k: bv32)
    requires TokenAt(text, q, ds).context.Some?
    ensures k in ds
    ensures Keys(Narrow(text), q)
         == Keys(Narrow(TokenAt(text, q, ds).text), q) + [k] + Keys(Narrow(text), TokenAt(text, q, ds).context.value)
  {
    var e := TokenAtSplit(text, q, ds);
    var d := Get(Narrow(text), e);
    k := d.key;
    assert TokenAt(text, q, ds).context == Some(e + d.len);
    KeysStep(Narrow(text), e);
    AppendCons(Keys(Narrow(text), q), Keys(Narrow(TokenAt(text, q, ds).text), q), Keys(Narrow(text), e),
               k, Keys(Narrow(text), e + d.len));
  }

  /** Where token stops scanning at e, the text from the token on reads as
      the token (NUL-ended now) followed by what the text reads from e; no
      code point of the token is a delimiter. */
  lemma TokenAtSplit(text: seq<bv8>, q: nat, ds: seq<bv32>) returns (e: nat)
    ensures e == Scan(text, q, ds)
    ensures Keys(Narrow(text), q) == Keys(Narrow(TokenAt(text, q, ds).text), q) + Keys(Narrow(text), e)
    ensures var ks := Keys(Narrow(TokenAt(text, q, ds).text), q);
      forall j :: 0 <= j < |ks| ==> ks[j] !in ds
  {
    var n, read := |text|, ReaderOf(text);
    e := Scan(text, q, ds);
    ScanOf(text, q, ds);
    KeysOf(text, q);
    KeysOf(text, e);
    if Get(Narrow(text), e).key == 0 {
      ScanSplit(read, read, n, q, ds, e);
      ScanClean(read, read, n, q, ds, e);
    } else {
      var cut := text[e := 0];
      forall i: nat | q <= i && read(i).key != 0 && i + read(i).len <= e
        ensures ReaderOf(cut)(i) == read(i)
      {
        CutFrame(text, i, e);
      }
      NulGet(cut, e);
      ScanSplit(read, ReaderOf(cut), n, q, ds, e);
      ScanClean(read, ReaderOf(cut), n, q, ds, e);
      KeysOf(cut, q);
    }
  }

  lemma AppendCons<T>(all: seq<T>, ks: seq<T>, rest: seq<T>, k: T, tail: seq<T>)
    requires all == ks + rest && rest == [k] + tail
    ensures all == ks + [k] + tail
  {
  }

  // The loop of token over any reader of code points.  The proofs about
  // the loop are done here, away from the bits of the decoder; ReaderOf
  // ties them to a text.

  /** A reader of code points over n elements: every code point it reads
      takes at least one element and ends within the n. */
  ghost predicate Reads(read: nat -> Decoded, n: nat)
  {
    forall i: nat :: read(i).key != 0 ==> 0 < read(i).len && i + read(i).len <= n
  }

  /** getchar over a UTF-8 text, as a reader. */
  function ReaderOf(text: seq<bv8>): (read: nat -> Decoded)
    ensures Reads(read, |text|)
    ensures forall i: nat :: read(i) == Get(Narrow(text), i)
  {
    (i: nat) => Get(Narrow(text), i)
  }

  /** The code points a reader reads from i on, up to the first 0. */
  function KeysBy(read: nat -> Decoded, n: nat, i: nat): seq<bv32>
    requires Reads(read, n)
    decreases n - i
  {
    var d := read(i);
    if d.key == 0 then [] else [d.key] + KeysBy(read, n, i + d.len)
  }

  /** Scan over a reader. */
  function ScanBy(read: nat -> Decoded, n: nat, p: nat, ds: seq<bv32>): (e: nat)
    requires Reads(read, n)
    ensures e >= p
    ensures read(e).key == 0 || read(e).key in ds
    decreases n - p
  {
    var d := read(p);
    if d.key == 0 || d.key in ds then p
    else ScanBy(read, n, p + d.len, ds)
  }

  /** A reader cut at e: one that agrees with read on every code point the
      scan from p passes over, and reads 0 at e. */
  ghost predicate CutAt(read: nat -> Decoded, cut: nat -> Decoded, p: nat, e: nat)
  {
    && cut(e).key == 0
    && forall i: nat :: p <= i && read(i).key != 0 && i + read(i).len <= e ==> cut(i) == read(i)
  }

  /** Cut where its scan stops, a reader reads as the token, and the
      token followed by what it read from the stop is what it read before. */
  lemma {:induction false} ScanSplit(read: nat -> Decoded, cut: nat -> Decoded, n: nat, p: nat, ds: seq<bv32>, e: nat)
    requires Reads(read, n) && Reads(cut, n)
    requires e == ScanBy(read, n, p, ds) && CutAt(read, cut, p, e)
    ensures KeysBy(read, n, p) == KeysBy(cut, n, p) + KeysBy(read, n, e)
    decreases n - p
  {
    var d := read(p);
    if d.key != 0 && d.key !in ds {
      ScanSplit(read, cut, n, p + d.len, ds, e);
      ConsJoin(KeysBy(read, n, p), KeysBy(cut, n, p), d.key,
               KeysBy(read, n, p + d.len), KeysBy(cut, n, p + d.len), KeysBy(read, n, e));
    }
  }

  lemma ConsJoin<T>(all: seq<T>, cut: seq<T>, k: T, tail: seq<T>, ks: seq<T>, rest: seq<T>)
    requires all == [k] + tail && cut == [k] + ks && tail == ks + rest
    ensures all == cut + rest
  {
  }

  /** No code point of the token is a delimiter. */
  lemma {:induction false} ScanClean(read: nat -> Decoded, cut: nat -> Decoded, n: nat, p: nat, ds: seq<bv32>, e: nat)
    requires Reads(read, n) && Reads(cut, n)
    requires e == ScanBy(read, n, p, ds) && CutAt(read, cut, p, e)
    ensures forall j :: 0 <= j < |KeysBy(cut, n, p)| ==> KeysBy(cut, n, p)[j] !in ds
    decreases n - p
  {
    var d := read(p);
    if d.key != 0 && d.key !in ds {
      ScanClean(read, cut, n, p + d.len, ds, e);
      assert KeysBy(cut, n, p) == [d.key] + KeysBy(cut, n, p + d.len);
    }
  }

  /** Keys through the reader of a text is Keys of the text. */
  lemma {:induction false} KeysOf(text: seq<bv8>, i: nat)
    ensures KeysBy(ReaderOf(text), |text|, i) == Keys(Narrow(text), i)
    decreases |text| - i
  {
    var d := Get(Narrow(text), i);
    if d.key != 0 {
      KeysOf(text, i + d.len);
    }
  }

  /** The scan through the reader of a text is the scan of the text. */
  lemma {:induction false} ScanOf(text: seq<bv8>, p: nat, ds: seq<bv32>)
    ensures ScanBy(ReaderOf(text), |text|, p, ds) == Scan(text, p, ds)
    decreases |text| - p
  {
    var d := Get(Narrow(text), p);
    if d.key != 0 && d.key !in ds {
      ScanOf(text, p + d.len, ds);
    }
  }

  /** A code point read before the cut reads the same after it. */
  lemma CutFrame(text: seq<bv8>, p: nat, e: nat)
    requires e < |text| && p + Get(Narrow(text), p).len <= e && Get(Narrow(text), p).key != 0
    ensures Get(Narrow(text[e := 0]), p) == Get(Narrow(text), p)
  {
    GetFrame(text, text[e := 0], p);
  }

  /** A NUL reads as the end of the text. */
  lemma NulGet(t: seq<bv8>, i: nat)
    requires i < |t| && t[i] == 0
    ensures ReaderOf(t)(i).key == 0
  {
    assert Byte(t, i) == 0;
  }

  /** getchar reads only the bytes of the code point it returns. */
  lemma GetFrame(t: seq<bv8>, t': seq<bv8>, p: nat)
    requires |t'| == |t|
    requires Get(Narrow(t), p).len > 0
    requires forall j :: p <= j < p + Get(Narrow(t), p).len ==> Byte(t', j) == Byte(t, j)
    ensures Get(Narrow(t'), p) == Get(Narrow(t), p)
  {
    Decode8Frame(Byte(t, p), Byte(t, p + 1), Byte(t, p + 2), Byte(t, p + 3),
                 Byte(t', p + 1), Byte(t', p + 2), Byte(t', p + 3));
  }

  /** UTF8toUnicode looks no further than the length its lead byte gives. */
  lemma Decode8Frame(c: bv8, d: bv8, e: bv8, f: bv8, d': bv8, e': bv8, f': bv8)
    ensures Decode8(c, d, e, f).len == 1 ==> Decode8(c, d', e', f') == Decode8(c, d, e, f)
    ensures Decode8(c, d, e, f).len == 2 ==> Decode8(c, d, e', f') == Decode8(c, d, e, f)
    ensures Decode8(c, d, e, f).len == 3 ==> Decode8(c, d, e, f') == Decode8(c, d, e, f)
  {
  }

  /** Only one space is skipped: with a second one the token starts at it. */
  lemma TokenOneSpace()
    ensures Token([0x20, 0x20, 0x61, 0], Some(0), None, [0x2c, 0]).token == Some(1)
  {
  }

  // ---------------------------------------------------------------------------
  // concat and insert
  // ---------------------------------------------------------------------------

  /** concat: strcat into a buffer of cb elements.  It refuses, leaving the
      buffer alone, when the joined string and its terminator would not
      fit; otherwise the buffer holds the two strings joined. */
  function Concat<T(==)>(dest: seq<T>, cb: nat, src: seq<T>, zero: T): (r: (bool, seq<T>))
    requires zero in dest && zero in src && cb <= |dest|
    ensures r.0 <==> |Before(dest, zero)| + |Before(src, zero)| + 1 <= cb
    ensures !r.0 ==> r.1 == dest
    ensures r.0 ==> && |r.1| == |dest| && zero in r.1
                    && Before(r.1, zero) == Before(dest, zero) + Before(src, zero)
                    && r.1[cb..] == dest[cb..]
    ensures r.0 ==> var n := |Before(dest, zero)| + |Before(src, zero)| + 1;
                    r.1[n..] == dest[n..]
  {
    var n1 := Terminator(dest, zero);
    var n2 := Terminator(src, zero);
    if n1 + n2 + 1 > cb then (false, dest)
    else
      var r := dest[..n1] + src[..n2 + 1] + dest[n1 + n2 + 1..];
      assert r[n1 + n2] == zero;
      TerminatorAt(r, zero, n1 + n2);
      assert r[..n1 + n2] == Before(dest, zero) + Before(src, zero);
      assert r[n1 + n2 + 1..] == dest[n1 + n2 + 1..];
      assert r[cb..] == dest[cb..];
      (true, r)
  }

  /** A NUL with no NUL before it is the terminator. */
  lemma TerminatorAt<T>(s: seq<T>, zero: T, n: nat)
    requires n < |s| && s[n] == zero && forall j :: 0 <= j < n ==> s[j] != zero
    ensures zero in s && Terminator(s, zero) == n
  {
    assert s[n] in s;
  }

  /** insert: put byte c at index i of a UTF-8 string, moving the rest of
      the string and its terminator up one.  The caller keeps i within the
      string and the buffer one byte larger than it. */
  function Insert(p: seq<bv8>, i: nat, c: bv8): (r: seq<bv8>)
    requires 0 in p && i <= Terminator(p, 0) && Terminator(p, 0) + 2 <= |p|
    ensures |r| == |p| && r[Terminator(p, 0) + 2..] == p[Terminator(p, 0) + 2..]
    ensures c != 0 ==> 0 in r && Before(r, 0) == Before(p, 0)[..i] + [c] + Before(p, 0)[i..]
  {
    var n := Terminator(p, 0);
    var r := p[..i] + [c] + p[i..n + 1] + p[n + 2..];
    InsertReads(p, i, c, n, r);
    r
  }

  lemma InsertReads(p: seq<bv8>, i: nat, c: bv8, n: nat, r: seq<bv8>)
    requires 0 in p && n == Terminator(p, 0) && i <= n && n + 2 <= |p|
    requires r == p[..i] + [c] + p[i..n + 1] + p[n + 2..]
    ensures c != 0 ==> 0 in r && Before(r, 0) == Before(p, 0)[..i] + [c] + Before(p, 0)[i..]
  {
    if c != 0 {
      assert r[n + 1] == 0;
      TerminatorAt(r, 0, n + 1);
      assert r[..n + 1] == p[..n][..i] + [c] + p[..n][i..];
    }
  }
}

=== FILE: clusters.dfy ===
/** The cluster/sector arithmetic and the one-sector FAT cache of
    Clusters_YY.cpp. */
module Clusters {
  import opened Uint
  import opened FatTypes
  import opened Device

  /** A mounted drive together with the device it reads and writes. */
  datatype Vol = Vol(disk: Disk, drive: Drive)

  // ---------------------------------------------------------------------------
  // Cluster <-> sector arithmetic (uint32_t, wrapping like the C code)
  // ---------------------------------------------------------------------------

  /** YY_ClusterToSector: the first sector of cluster c.  Clusters are
      numbered from 2; the shift is only defined in C for a slide below 32. */
  function ClusterToSector(d: Drive, c: U32): (s: U32)
    requires d.geo.slide < 32
  {
    Wrap32(d.geo.clusterBegin + Shl32(Wrap32(c - 2), d.geo.slide))
  }

  /** YY_SectorToCluster: the cluster that holds sector s. */
  function SectorToCluster(d: Drive, s: U32): (c: U32)
    requires d.geo.slide < 32
  {
    Wrap32(Shr(Wrap32(s - d.geo.clusterBegin), d.geo.slide) + 2)
  }

  /** A data sector maps to its offset from the data area in whole
      clusters, counted from 2. */
  lemma SectorToClusterData(d: Drive, s: U32)
    requires d.geo.slide < 32 && d.geo.clusterBegin <= s
    requires (s - d.geo.clusterBegin) / Pow2(d.geo.slide) + 2 < Two32
    ensures SectorToCluster(d, s) == (s - d.geo.clusterBegin) / Pow2(d.geo.slide) + 2
  {
    assert Wrap32(s - d.geo.clusterBegin) == s - d.geo.clusterBegin;
  }

  /** A data cluster whose first sector lies below 2^32 starts a whole
      number of clusters into the data area. */
  lemma ClusterToSectorData(d: Drive, c: U32)
    requires d.geo.slide < 32 && c >= 2
    requires d.geo.clusterBegin + (c - 2) * Pow2(d.geo.slide) < Two32
    ensures ClusterToSector(d, c) == d.geo.clusterBegin + (c - 2) * Pow2(d.geo.slide)
  {
    assert Shl32(Wrap32(c - 2), d.geo.slide) == (c - 2) * Pow2(d.geo.slide);
  }

  /** A data cluster whose sectors do not run past 2^32 maps back to itself. */
  lemma ClusterSectorRoundTrip(d: Drive, c: U32)
    requires d.geo.slide < 32 && c >= 2
    requires d.geo.clusterBegin + (c - 2) * Pow2(d.geo.slide) < Two32
    ensures SectorToCluster(d, ClusterToSector(d, c)) == c
  {
    var p := Pow2(d.geo.slide);
    ClusterToSectorData(d, c);
    MulDivCancel(c - 2, p);
    SectorToClusterData(d, ClusterToSector(d, c));
  }

  /** The first sector of the cluster holding a data sector s is s less its
      offset within the cluster: at most s, fewer than a cluster's worth of
      sectors below it, and on a cluster boundary. */
  lemma SectorClusterFloor(d: Drive, s: U32)
    requires d.geo.slide < 32 && d.geo.clusterBegin <= s
    requires (s - d.geo.clusterBegin) / Pow2(d.geo.slide) + 2 < Two32
    ensures var f := ClusterToSector(d, SectorToCluster(d, s));
      && d.geo.clusterBegin <= f <= s
      && s - f == (s - d.geo.clusterBegin) % Pow2(d.geo.slide)
      && (f - d.geo.clusterBegin) % Pow2(d.geo.slide) == 0
    ensures SectorToCluster(d, ClusterToSector(d, SectorToCluster(d, s))) == SectorToCluster(d, s)
  {
    var p := Pow2(d.geo.slide);
    var x := s - d.geo.clusterBegin;
    var q := x / p;
    var f := q * p;
    FloorArith(x, p);
    SectorToClusterData(d, s);
    assert (q + 2 - 2) * p == f;
    ClusterToSectorData(d, q + 2);
    ClusterSectorRoundTrip(d, q + 2);
  }

  /** The multiple of p at or below x. */
  lemma FloorArith(x: nat, p: nat)
    requires p >= 1
    ensures var f := (x / p) * p; f <= x && x - f == x % p && f % p == 0
  {
    DivBounds(x, p);
    MulDivCancel(x / p, p);
  }

  // ---------------------------------------------------------------------------
  // The FAT cache
  // ---------------------------------------------------------------------------

  /** Device address of sector s of the first FAT. */
  function FatLba(d: Drive, s: U32): U32
  {
    Wrap32(s + d.geo.fatBegin)
  }

  /** Device address of sector s of the second FAT. */
  function MirrorLba(d: Drive, s: U32): U32
  {
    Wrap32(s + d.geo.fatBegin + d.geo.fatSize)
  }

  function ZeroSector(): (r: Sector)
    ensures forall k :: 0 <= k < 512 ==> r[k] == 0
  {
    seq(512, _ => 0)
  }

  /** The FAT as the engine sees it: the cached sector if it is the one asked
      for, otherwise the first FAT on the device.  Only sectors inside the
      FAT are described; the rest read as zeros. */
  function View(v: Vol, s: int): (r: Sector)
  {
    if s < 0 || s >= v.drive.geo.fatSize then ZeroSector()
    else if v.drive.cache.tag == s then v.drive.cache.table
    else if FatLba(v.drive, s) in v.disk then v.disk[FatLba(v.drive, s)]
    else ZeroSector()
  }

  /** Both FAT copies lie below 2^32, so no FAT address wraps. */
  predicate FatLayoutOk(d: Drive)
  {
    d.geo.fatBegin + 2 * d.geo.fatSize <= Two32
  }

  /** A clean cached FAT sector holds what the device holds. */
  predicate CleanCacheMatches(v: Vol)
  {
    var c := v.drive.cache;
    !c.dirty && c.tag < v.drive.geo.fatSize ==>
      FatLba(v.drive, c.tag) in v.disk && v.disk[FatLba(v.drive, c.tag)] == c.table
  }

  /** What the cache needs to keep the view consistent: the layout does not
      wrap, both FAT copies are on the device, only a FAT sector can be
      dirty, and a clean cache agrees with the device. */
  ghost predicate CacheOk(v: Vol)
  {
    && FatLayoutOk(v.drive)
    && (forall s: U32 :: s < v.drive.geo.fatSize ==> FatLba(v.drive, s) in v.disk && MirrorLba(v.drive, s) in v.disk)
    && (v.drive.cache.dirty ==> v.drive.cache.tag < v.drive.geo.fatSize)
    && CleanCacheMatches(v)
  }

  /** The two views agree on every FAT sector. */
  ghost predicate SameFat(v: Vol, w: Vol)
  {
    && v.drive.geo.fatSize == w.drive.geo.fatSize
    && forall s: int :: 0 <= s < v.drive.geo.fatSize ==> View(v, s) == View(w, s)
  }

  /** Only the FAT cache of the drive differs. */
  predicate OnlyCache(d: Drive, e: Drive)
  {
    e == d.(cache := e.cache)
  }

  /** The drive fields the FAT code never changes. */
  predicate SameGeometry(d: Drive, e: Drive)
  {
    e.geo == d.geo && e.id == d.id && e.cwd == d.cwd && e.device == d.device
  }

  /** YY_FlushFAT: a dirty cache is written to both FATs (write failures are
      ignored, as in the C code) and becomes clean. */
  function FlushFat(v: Vol): (w: Vol)
    ensures !w.drive.cache.dirty
    ensures w.drive == v.drive.(cache := v.drive.cache.(dirty := false))
    ensures !v.drive.cache.dirty ==> w == v
    ensures w.disk.Keys == v.disk.Keys
  {
    var d := v.drive;
    if d.cache.dirty then
      var disk1 := WriteSector(v.disk, FatLba(d, d.cache.tag), d.cache.table).0;
      var disk2 := WriteSector(disk1, MirrorLba(d, d.cache.tag), d.cache.table).0;
      Vol(disk2, d.(cache := d.cache.(dirty := false)))
    else v
  }

  /** Flushing a dirty cache writes the cached sector to both FAT copies. */
  lemma FlushWritesBothCopies(v: Vol)
    requires CacheOk(v) && v.drive.cache.dirty
    ensures FlushFat(v).disk == v.disk[FatLba(v.drive, v.drive.cache.tag) := v.drive.cache.table]
                                     [MirrorLba(v.drive, v.drive.cache.tag) := v.drive.cache.table]
  {
    var d := v.drive;
    assert FatLba(d, d.cache.tag) in v.disk && MirrorLba(d, d.cache.tag) in v.disk;
  }

  lemma FatLbaDistinct(d: Drive, s: U32, t: U32)
    requires FatLayoutOk(d) && s < d.geo.fatSize && t < d.geo.fatSize
    ensures s != t ==> FatLba(d, s) != FatLba(d, t)
    ensures FatLba(d, s) != MirrorLba(d, t)
  {
  }

  /** CacheOk depends only on the device's sector set, the FAT layout and
      the cache's tag and dirty flag. */
  lemma CacheOkKept(v: Vol, w: Vol)
    requires CacheOk(v) && w.disk.Keys == v.disk.Keys
    requires w.drive.geo.fatBegin == v.drive.geo.fatBegin && w.drive.geo.fatSize == v.drive.geo.fatSize
    requires w.drive.cache.dirty ==> w.drive.cache.tag < w.drive.geo.fatSize
    requires CleanCacheMatches(w)
    ensures CacheOk(w)
  {
    forall s: U32 | s < w.drive.geo.fatSize
      ensures FatLba(w.drive, s) in w.disk && MirrorLba(w.drive, s) in w.disk
    {
      assert FatLba(w.drive, s) == FatLba(v.drive, s) && MirrorLba(w.drive, s) == MirrorLba(v.drive, s);
    }
  }

  /** Flushing never changes what the engine sees of the FAT. */
  lemma FlushKeepsView(v: Vol)
    requires CacheOk(v)
    ensures CacheOk(FlushFat(v)) && SameFat(v, FlushFat(v))
  {
    var w := FlushFat(v);
    var d := v.drive;
    if d.cache.dirty {
      FlushWritesBothCopies(v);
      CacheOkKept(v, w);
      forall s: int | 0 <= s < d.geo.fatSize
        ensures View(v, s) == View(w, s)
      {
        FatLbaDistinct(d, s, d.cache.tag);
        assert FatLba(w.drive, s) == FatLba(d, s);
      }
    }
  }

  /** GetFatSector: bring FAT sector s into the cache, flushing the old one
      first if it is dirty.  A failed read leaves the buffer as it was, and
      the tag is set either way, as in the C code. */
  function GetFatSector(v: Vol, s: U32): (w: Vol)
    ensures w.drive.cache.tag == s
    ensures w.drive.cache.prefix == v.drive.cache.prefix && w.drive.cache.suffix == v.drive.cache.suffix
    ensures OnlyCache(v.drive, w.drive)
    ensures v.drive.cache.tag == s ==> w == v
    ensures w.disk.Keys == v.disk.Keys
  {
    var d := v.drive;
    if d.cache.tag != s then
      var f := FlushFat(v);
      var read := ReadSector(f.disk, FatLba(d, s));
      var table := if read.Some? then read.value else d.cache.table;
      Vol(f.disk, f.drive.(cache := f.drive.cache.(table := table, tag := s)))
    else v
  }

  /** Asking for a FAT sector inside the FAT leaves the view unchanged and
      puts that sector's current contents in the cache; changing sectors
      leaves the cache clean. */
  lemma GetFatSectorView(v: Vol, s: U32)
    requires CacheOk(v) && s < v.drive.geo.fatSize
    ensures CacheOk(GetFatSector(v, s)) && SameFat(v, GetFatSector(v, s))
    ensures GetFatSector(v, s).drive.cache.table == View(v, s)
    ensures v.drive.cache.tag != s ==> !GetFatSector(v, s).drive.cache.dirty
    ensures GetFatSector(v, s).drive.cache.dirty ==> v.drive.cache.dirty
  {
    if v.drive.cache.tag != s {
      FlushKeepsView(v);
      var f := FlushFat(v);
      FetchClean(f, s);
      assert FatLba(f.drive, s) == FatLba(v.drive, s);
      var c := f.drive.cache;
      assert GetFatSector(v, s) == Vol(f.disk, f.drive.(cache := c.(table := f.disk[FatLba(f.drive, s)], tag := s)));
      SameFatTrans(v, f, GetFatSector(v, s));
    }
  }

  lemma SameFatTrans(u: Vol, v: Vol, w: Vol)
    requires SameFat(u, v) && SameFat(v, w)
    ensures SameFat(u, w)
  {
  }

  /** Reading FAT sector s into a clean cache. */
  lemma FetchClean(f: Vol, s: U32)
    requires CacheOk(f) && !f.drive.cache.dirty && s < f.drive.geo.fatSize
    ensures var c := f.drive.cache;
      var w := Vol(f.disk, f.drive.(cache := c.(table := f.disk[FatLba(f.drive, s)], tag := s)));
      && FatLba(f.drive, s) in f.disk
      && CacheOk(w) && SameFat(f, w) && w.drive.cache.table == View(f, s)
  {
    var d := f.drive;
    assert FatLba(d, s) in f.disk;
    var w := Vol(f.disk, d.(cache := d.cache.(table := f.disk[FatLba(d, s)], tag := s)));
    CacheOkKept(f, w);
    forall t: int | 0 <= t < d.geo.fatSize
      ensures View(w, t) == View(f, t)
    {
      assert FatLba(w.drive, t) == FatLba(d, t);
    }
  }

  /** The cached sector after the code has changed it in place; the caller
      marks it dirty (fat_dirty = true). */
  function Store(v: Vol, c: FatCache, dirty: bool): (w: Vol)
    requires c.tag == v.drive.cache.tag
  {
    Vol(v.disk, v.drive.(cache := c.(dirty := dirty || v.drive.cache.dirty)))
  }

  /** Storing a changed, dirty cache sector changes exactly that sector of
      the view. */
  lemma StoreView(v: Vol, c: FatCache)
    requires CacheOk(v) && c.tag == v.drive.cache.tag && c.tag < v.drive.geo.fatSize
    ensures CacheOk(Store(v, c, true))
    ensures forall s: int :: View(Store(v, c, true), s) == if s == c.tag then c.table else View(v, s)
  {
    var w := Store(v, c, true);
    CacheOkKept(v, w);
    forall s: int
      ensures View(w, s) == if s == c.tag then c.table else View(v, s)
    {
      if 0 <= s < v.drive.geo.fatSize {
        assert FatLba(w.drive, s) == FatLba(v.drive, s);
      }
    }
  }

  // ---------------------------------------------------------------------------
  // Pointers into the cache
  // ---------------------------------------------------------------------------

  /** The bytes the C code lays out around the cached sector: fatPrefix, the
      512 bytes of fatTable, fatSuffix. */
  function Window(c: FatCache): (r: seq<bv8>)
    ensures |r| == 514 && r[0] == c.prefix && r[513] == c.suffix && r[1..513] == c.table
  {
    [c.prefix] + c.table + [c.suffix]
  }

  /** The byte array the code addresses through a pointer d bytes from the
      start of the cached sector (d in -2..1).  Element 0 of the d = -2 view
      is the byte before fatPrefix, which the code never touches through it;
      it reads as zero here. */
  function Arr(c: FatCache, d: int): (a: seq<bv8>)
    requires -2 <= d <= 1
    ensures |a| == 513 - d
  {
    if d == -2 then [0] + Window(c) else Window(c)[d + 1..]
  }

  /** The cache after the code has written the array a through the pointer
      d bytes from the start of the cached sector. */
  function PutArr(c: FatCache, d: int, a: seq<bv8>): (r: FatCache)
    requires -2 <= d <= 1 && |a| == 513 - d
    ensures r.tag == c.tag && r.dirty == c.dirty
  {
    var w := if d == -2 then a[1..] else Window(c)[..d + 1] + a;
    c.(prefix := w[0], table := w[1..513], suffix := w[513])
  }

  /** Writing back what was read through a pointer changes nothing. */
  lemma PutArrArr(c: FatCache, d: int)
    requires -2 <= d <= 1
    ensures PutArr(c, d, Arr(c, d)) == c
  {
    var w := Window(c);
    if d == -2 {
      assert ([0] + w)[1..] == w;
    } else {
      assert w[..d + 1] + w[d + 1..] == w;
    }
  }

  /** Reading through the pointer returns what was written through it (all
      but the untouched byte before fatPrefix). */
  lemma ArrPutArr(c: FatCache, d: int, a: seq<bv8>)
    requires -2 <= d <= 1 && |a| == 513 - d
    ensures d > -2 ==> Arr(PutArr(c, d, a), d) == a
    ensures d == -2 ==> Arr(PutArr(c, d, a), d)[1..] == a[1..]
  {
    var r := PutArr(c, d, a);
    var w := if d == -2 then a[1..] else Window(c)[..d + 1] + a;
    assert Window(r) == w;
  }
}

=== FILE: device.dfy ===
/** The sector device behind a drive letter.  The Windows raw-device calls
    (XX_OpenDevice, XX_ReadSector, XX_WriteSector) become operations on an
    abstract map from sector number to sector contents: a sector outside the
    map is one the device cannot read or write. */
module Device {
  import opened Uint
  import opened FatTypes
  import opened Wrappers

  /** A block device: the sectors it can address, by uint32_t sector number. */
  type Disk = map<U32, Sector>

  /** The devices that can be opened, by name. */
  type Devices = map<string, Disk>

  /** XX_ReadSector: the sector, or None when the device cannot deliver it. */
  function ReadSector(disk: Disk, sector: U32): (r: Option<Sector>)
    ensures r.Some? <==> sector in disk
    ensures r.Some? ==> r.value == disk[sector]
  {
    if sector in disk then Some(disk[sector]) else None
  }

  /** XX_WriteSector: the new device contents and whether the write happened.
      A failed write leaves the device as it was. */
  function WriteSector(disk: Disk, sector: U32, data: Sector): (r: (Disk, bool))
    ensures r.1 <==> sector in disk
    ensures r.1 ==> r.0 == disk[sector := data]
    ensures !r.1 ==> r.0 == disk
    ensures r.0.Keys == disk.Keys
  {
    if sector in disk then (disk[sector := data], true) else (disk, false)
  }

  /** A write followed by a read of the same sector returns what was written;
      other sectors are unaffected. */
  lemma ReadAfterWrite(disk: Disk, s: U32, t: U32, data: Sector)
    requires s in disk
    ensures ReadSector(WriteSector(disk, s, data).0, s) == Some(data)
    ensures t != s ==> ReadSector(WriteSector(disk, s, data).0, t) == ReadSector(disk, t)
  {
  }

  /** XX_OpenDevice: the device, or None when it cannot be opened. */
  function OpenDevice(devices: Devices, name: string): (r: Option<Disk>)
    ensures r.Some? <==> name in devices
    ensures r.Some? ==> r.value == devices[name]
  {
    if name in devices then Some(devices[name]) else None
  }
}

=== FILE: directories.dfy ===
/** The directory engine of Directories_YY.cpp: the directory slot pool,
    long-name fragments, the walk through a directory's 32-byte slots,
    changing into a child directory and opening a directory by path. */
module Directories {
  import opened Uint
  import opened Wrappers
  import opened FatTypes
  import opened Device
  import opened Clusters
  import opened Entries
  import opened Drives
  import opened Names
  import opened FileSlots

  /** The number of directory slots (MAX_DIRECTORY). */
  const MaxDirectories: nat := 20

  /** No sector in the buffer yet. */
  const NoSector: U32 := 0xffff_ffff

  /** YY_DIRECTORY.  The drive pointer is held as the drive letter, 0 while
      the slot is free. */
  datatype Directory = Directory(
    drive: bv8,
    startCluster: U32,      // 0 for the root directory
    sector: U32,            // the sector being worked through
    sectorInBuffer: U32,
    buffer: Sector,
    slot: U8,               // the next of the sector's 16 entries
    longPath: WBuf          // "X:/a/b/"
  )

  /** A slot as directories[] is initialised. */
  function EmptyDirectory(): (d: Directory)
    ensures d.drive == 0
  {
    Directory(0, 0, 0, NoSector, seq(512, _ => 0), 0, ZeroBuf())
  }

  /** The engine's state: the drive table, the devices behind it, and the
      directory and file pools. */
  datatype Sys = Sys(drives: seq<Drive>, devices: Devices, dirs: seq<Directory>, files: seq<FileRec>)

  /** What every operation keeps: the pools and the table at their sizes,
      and every drive's cluster shift one C can perform. */
  predicate SysOk(st: Sys)
  {
    |st.drives| == NDrives && |st.dirs| == MaxDirectories && |st.files| == MaxFiles && SlidesOk(st.drives)
  }

  /** The contents of a device, empty when the device is unknown. */
  function DiskOf(devices: Devices, name: string): Disk
  {
    if name in devices then devices[name] else map[]
  }

  /** Drive slot n together with its device. */
  function VolOf(st: Sys, n: nat): Vol
    requires n < |st.drives|
  {
    Vol(DiskOf(st.devices, st.drives[n].device), st.drives[n])
  }

  /** Puts a drive and its device back after an operation on them. */
  function PutVol(st: Sys, n: nat, v: Vol): (r: Sys)
    requires n < |st.drives|
    ensures |r.drives| == |st.drives| && r.dirs == st.dirs && r.files == st.files
    ensures r.drives[n] == v.drive && forall j :: 0 <= j < |st.drives| && j != n ==> r.drives[j] == st.drives[j]
  {
    st.(drives := st.drives[n := v.drive],
        devices := if v.drive.device in st.devices then st.devices[v.drive.device := v.disk] else st.devices)
  }

  // ---------------------------------------------------------------------------
  // The directory slot pool
  // ---------------------------------------------------------------------------

  /** GetDirectorySlot: the first free slot, not yet claimed. */
  function GetDirectorySlot(dirs: seq<Directory>): (r: Option<nat>)
    ensures r.Some? ==> r.value < |dirs| && dirs[r.value].drive == 0
    ensures r.Some? ==> forall j :: 0 <= j < r.value ==> dirs[j].drive != 0
    ensures r.None? ==> forall j :: 0 <= j < |dirs| ==> dirs[j].drive != 0
  {
    FirstFreeDir(dirs, 0)
  }

  function FirstFreeDir(dirs: seq<Directory>, i: nat): (r: Option<nat>)
    ensures r.Some? ==> i <= r.value < |dirs| && dirs[r.value].drive == 0
    ensures r.Some? ==> forall j :: i <= j < r.value ==> dirs[j].drive != 0
    ensures r.None? ==> forall j :: i <= j < |dirs| ==> dirs[j].drive != 0
    decreases |dirs| - i
  {
    if i >= |dirs| then None
    else if dirs[i].drive == 0 then Some(i)
    else FirstFreeDir(dirs, i + 1)
  }

  /** FreeDirectorySlot and YY_CloseDirectory: the slot is free again and
      nothing else changes. */
  function CloseDirectory(dirs: seq<Directory>, k: nat): (r: seq<Directory>)
    requires k < |dirs|
    ensures |r| == |dirs| && r[k] == dirs[k].(drive := 0)
    ensures forall j :: 0 <= j < |dirs| && j != k ==> r[j] == dirs[j]
  {
    dirs[k := dirs[k].(drive := 0)]
  }

  // ---------------------------------------------------------------------------
  // Slots of a directory sector
  // ---------------------------------------------------------------------------

  /** Entry k of a directory sector, as its 32 bytes. */
  function EntryBytes(b: Sector, k: nat): (raw: seq<bv8>)
    requires k < 16
    ensures |raw| == 32
  {
    b[32 * k .. 32 * k + 32]
  }

  /** The four kinds of slot YY_NextDirectoryItem tells apart. */
  datatype SlotKind = Unused | EndOfDirectory | LongPart | Item

  /** The tests in the order the engine makes them: a deleted slot (0xE5)
      is skipped whatever its attributes, a zero first byte ends the
      directory, the attribute low nibble 0x0F marks a long-name fragment,
      and anything else is an item. */
  function Classify(raw: seq<bv8>): SlotKind
    requires |raw| == 32
  {
    if raw[0] == 0xe5 then Unused
    else if raw[0] == 0 then EndOfDirectory
    else if raw[11] & 0x0f == 0x0f then LongPart
    else Item
  }

  /** A slot the walk passes over: deleted, or a long-name fragment. */
  predicate Skipped(b: Sector, k: nat)
    requires k < 16
  {
    Kind(b, k).Unused? || Kind(b, k).LongPart?
  }

  /** The kind of slot k of b. */
  function Kind(b: Sector, k: nat): SlotKind
    requires k < 16
  {
    Classify(EntryBytes(b, k))
  }

  // ---------------------------------------------------------------------------
  // Long-name fragments (UnpackLong)
  // ---------------------------------------------------------------------------

  /** Where the 13 name units of an LDIR slot sit: 5 from byte 1, 6 from
      byte 14, 2 from byte 28. */
  const UnitOffsets: seq<nat> := [1, 3, 5, 7, 9, 14, 16, 18, 20, 22, 24, 28, 30]

  /** The units before the first NUL. */
  function UntilNul(s: seq<bv16>): (r: seq<bv16>)
    ensures |r| <= |s| && r == s[..|r|]
    ensures forall i :: 0 <= i < |r| ==> r[i] != 0
    ensures |r| < |s| ==> s[|r|] == 0
  {
    if |s| == 0 || s[0] == 0 then [] else [s[0]] + UntilNul(s[1..])
  }

  /** The name units an LDIR slot carries: its 13 units up to the first NUL. */
  function FragmentUnits(raw: seq<bv8>): (r: seq<bv16>)
    requires |raw| == 32
    ensures |r| <= 13
  {
    UntilNul(seq(13, j requires 0 <= j < 13 => Le16(raw[UnitOffsets[j]], raw[UnitOffsets[j] + 1])))
  }

  /** Where the fragment's units go: ((Ord & 0x3F) - 1) * 13, computed in
      int and stored in a uint16_t. */
  function FragmentIndex(raw: seq<bv8>): U16
    requires |raw| == 32
  {
    Wrap16(((raw[0] & 0x3f) as int - 1) * 13)
  }

  /** The name positions the fragment's units are stored at, as written:
      index++ on a uint16_t, with no check against MAX_PATH. */
  function FragmentTargetsAsWritten(raw: seq<bv8>): (r: seq<U16>)
    requires |raw| == 32
    ensures |r| == |FragmentUnits(raw)|
  {
    Targets(FragmentIndex(raw), |FragmentUnits(raw)|)
  }

  /** n positions counted up from start by a uint16_t. */
  function Targets(start: U16, n: nat): (r: seq<U16>)
    ensures |r| == n && (n > 0 ==> r[0] == start)
    decreases n
  {
    if n == 0 then [] else [start] + Targets(Wrap16(start + 1), n - 1)
  }

  /** An ordinal of 0 (or above 20) sends the units past the 260-unit name
      buffer: ordinal 0 starts at 65523, ordinal 21 at 260. */
  lemma FragmentTargetsAsWrittenOverrun(raw: seq<bv8>)
    requires |raw| == 32 && (raw[0] & 0x3f == 0 || raw[0] & 0x3f == 21)
    requires Le16(raw[1], raw[2]) != 0
    ensures |FragmentTargetsAsWritten(raw)| > 0 && FragmentTargetsAsWritten(raw)[0] >= MaxPath
  {
    var u := seq(13, j requires 0 <= j < 13 => Le16(raw[UnitOffsets[j]], raw[UnitOffsets[j] + 1]));
    assert u[0] != 0;
    var ord := (raw[0] & 0x3f) as int;
    assert FragmentIndex(raw) == Wrap16((ord - 1) * 13);
    assert ord == 0 || ord == 21;
  }

  /** units written into buf from position index on, each one only where
      the buffer has room. */
  function Place(buf: WBuf, index: nat, units: seq<bv16>): (r: WBuf)
    ensures forall j :: 0 <= j < |units| && index + j < MaxPath ==> r[index + j] == units[j]
    ensures forall p :: 0 <= p < MaxPath && !(index <= p < index + |units|) ==> r[p] == buf[p]
  {
    seq(MaxPath, p requires 0 <= p < MaxPath => if index <= p < index + |units| then units[p - index] else buf[p])
  }

  /** UnpackLong: a fragment with the 0x40 bit starts a new name (the buffer
      is cleared and its checksum kept); every fragment stores its units
      at its place.  Units that would fall outside the name buffer are
      dropped.  The second result is the checksum warning the code prints
      for a later fragment whose checksum differs. */
  function UnpackLong(f: FileRec, raw: seq<bv8>): (r: (FileRec, bool))
    requires |raw| == 32
    ensures r.0 == f.(longName := r.0.longName, checksum := r.0.checksum)
  {
    var first := raw[0] & 0x40 != 0;
    var g := if first then f.(longName := ZeroBuf(), checksum := raw[13]) else f;
    (g.(longName := Place(g.longName, FragmentIndex(raw), FragmentUnits(raw))), !first && f.checksum != raw[13])
  }

  /** A fragment puts its units at ((Ord & 0x3F) - 1) * 13 on; a first
      fragment clears the rest of the name and records its checksum, a
      later one keeps the rest. */
  lemma UnpackLongPlaces(f: FileRec, raw: seq<bv8>)
    requires |raw| == 32 && 1 <= raw[0] & 0x3f <= 20
    ensures var g := UnpackLong(f, raw).0;
      var index := ((raw[0] & 0x3f) as int - 1) * 13;
      && (forall j :: 0 <= j < |FragmentUnits(raw)| ==> g.longName[index + j] == FragmentUnits(raw)[j])
      && (raw[0] & 0x40 != 0 ==>
            g.checksum == raw[13]
            && forall p :: 0 <= p < MaxPath && !(index <= p < index + |FragmentUnits(raw)|) ==> g.longName[p] == 0)
      && (raw[0] & 0x40 == 0 ==>
            g.checksum == f.checksum
            && forall p :: 0 <= p < MaxPath && !(index <= p < index + |FragmentUnits(raw)|) ==> g.longName[p] == f.longName[p])
  {
    var index := ((raw[0] & 0x3f) as int - 1) * 13;
    assert FragmentIndex(raw) == index;
  }

  // ---------------------------------------------------------------------------
  // The entry returned for an item slot
  // ---------------------------------------------------------------------------

  /** s written into buf with its terminator; what follows stays. */
  function PutStr(buf: WBuf, s: seq<bv16>): (r: WBuf)
    requires |s| < MaxPath
    ensures r[..|s|] == s && r[|s|] == 0
  {
    s + [0] + buf[|s| + 1..]
  }

  /** The file YY_NextDirectoryItem hands out for item slot raw: the entry
      copied verbatim, its first cluster, the long name from the fragments
      or else made from the short name, the pointer at 0, the slot claimed
      for the directory's drive and the directory's path as its path. */
  function TakeItem(dir: Directory, f: FileRec, raw: seq<bv8>): (g: FileRec)
    requires |raw| == 32
  {
    var d := ParseDirn(raw);
    var name := if f.longName[0] == 0 then PutStr(f.longName, LongFromShort(raw[..11], raw[12])) else f.longName;
    f.(startCluster := d.StartCluster(), longName := name, dirn := d, pointer := 0,
       drive := dir.drive, pathName := dir.longPath)
  }

  /** The checksum warning for an item slot: a long name was gathered and
      its fragments' checksum is not the short name's. */
  predicate ItemChecksumWarning(f: FileRec, raw: seq<bv8>)
    requires |raw| == 32
  {
    f.longName[0] != 0 && Checksum(raw[..11]) != f.checksum
  }

  /** The item comes back whether or not the checksums agree: the returned
      file does not depend on the fragments' checksum. */
  lemma TakeItemIgnoresChecksum(dir: Directory, f: FileRec, raw: seq<bv8>, x: bv8)
    requires |raw| == 32
    ensures TakeItem(dir, f.(checksum := x), raw) == TakeItem(dir, f, raw).(checksum := x)
    ensures TakeItem(dir, f, raw).pathName == dir.longPath && TakeItem(dir, f, raw).drive == dir.drive
  {
  }

  /** Without gathered fragments the long name is the one made from the
      short name, when the short name holds no NUL byte. */
  lemma TakeItemShortName(dir: Directory, f: FileRec, raw: seq<bv8>)
    requires |raw| == 32 && f.longName[0] == 0
    requires forall i :: 0 <= i < 11 ==> raw[i] != 0
    ensures Str(TakeItem(dir, f, raw).longName) == LongFromShort(raw[..11], raw[12])
  {
    var s := LongFromShort(raw[..11], raw[12]);
    LongFromShortNoNul(raw[..11], raw[12]);
    var name := PutStr(f.longName, s);
    assert TakeItem(dir, f, raw).longName == name;
    StrPrefix(name, |s|);
  }

  /** A name made from a short name is at most 12 units, none of them NUL
      when the short name has no NUL byte. */
  lemma LongFromShortNoNul(short: seq<bv8>, flags: bv8)
    requires |short| == 11
    ensures |LongFromShort(short, flags)| <= 12
    ensures (forall i :: 0 <= i < 11 ==> short[i] != 0) ==> forall i :: 0 <= i < |LongFromShort(short, flags)| ==> LongFromShort(short, flags)[i] != 0
  {
  }

  /** The path as written: memcpy of MAX_PATH bytes copies only the first
      130 of the 260 16-bit units of longPath. */
  function HalfCopyAsWritten(pathName: WBuf, longPath: WBuf): (r: WBuf)
  {
    longPath[..MaxPath / 2] + pathName[MaxPath / 2..]
  }

  /** A folder path longer than 130 units reaches a fresh file cut short. */
  lemma HalfCopyAsWrittenCuts(longPath: WBuf)
    requires |Str(longPath)| > MaxPath / 2
    ensures Str(HalfCopyAsWritten(ZeroBuf(), longPath)) == Str(longPath)[..MaxPath / 2] != Str(longPath)
  {
    var r := HalfCopyAsWritten(ZeroBuf(), longPath);
    StrPrefix(r, MaxPath / 2);
  }

  // ---------------------------------------------------------------------------
  // YY_NextDirectoryItem
  // ---------------------------------------------------------------------------

  /** How the slots of one buffered sector end: all passed over, a zero
      slot, or an item. */
  datatype Scan = Exhausted(file: FileRec) | Ended(at: nat, file: FileRec) | Found(at: nat, file: FileRec)
  {
    /** The slot the scan stopped at, 16 when it ran off the sector. */
    function Stop(): nat
    {
      if Exhausted? then 16 else at
    }
  }

  /** The inner loop of YY_NextDirectoryItem over slots slot..15 of b,
      gathering long-name fragments into f. */
  function ScanSector(b: Sector, slot: nat, f: FileRec): (r: Scan)
    ensures r.file == f.(longName := r.file.longName, checksum := r.file.checksum)
    ensures !r.Exhausted? ==> slot <= r.at < 16
    ensures r.Ended? ==> Kind(b, r.at).EndOfDirectory?
    ensures r.Found? ==> Kind(b, r.at).Item?
    ensures forall k :: slot <= k < r.Stop() ==> Skipped(b, k)
    decreases 16 - slot
  {
    if slot >= 16 then Exhausted(f)
    else
      match Kind(b, slot)
      case Unused => ScanSector(b, slot + 1, f)
      case EndOfDirectory => Ended(slot, f)
      case LongPart => ScanSector(b, slot + 1, UnpackLong(f, EntryBytes(b, slot)).0)
      case Item => Found(slot, f)
  }

  /** The result of a directory step: the drive and device, the directory,
      the file pool, and the file slot handed out, if any. */
  datatype Step = Step(v: Vol, dir: Directory, files: seq<FileRec>, item: Option<nat>)

  /** What a directory step keeps: the directory's identity and path, every
      drive field but the FAT cache, the device's sectors, and every file
      slot's use except that of the slot handed out, which was the first
      free one and now belongs to the directory's drive. */
  predicate StepKeeps(v: Vol, dir: Directory, files: seq<FileRec>, r: Step)
  {
    && |r.files| == |files|
    && r.dir.drive == dir.drive && r.dir.startCluster == dir.startCluster && r.dir.longPath == dir.longPath
    && OnlyCache(v.drive, r.v.drive) && r.v.disk.Keys == v.disk.Keys
    && (r.item.Some? ==> r.item == GetFileSlot(files) && r.files[r.item.value].drive == dir.drive)
    && forall j :: 0 <= j < |files| && (r.item.None? || j != r.item.value) ==> r.files[j].drive == files[j].drive
  }

  /** What a step that hands out slot i promises about it: the item is the
      entry just passed, copied verbatim, with the directory's path and
      the pointer at 0. */
  predicate Handed(dir: Directory, i: nat, r: Step)
  {
    r.item.Some? ==>
      && r.item.value == i && i < |r.files| && 1 <= r.dir.slot <= 16
      && Classify(EntryBytes(r.dir.buffer, r.dir.slot - 1)).Item?
      && r.files[i].dirn == ParseDirn(EntryBytes(r.dir.buffer, r.dir.slot - 1))
      && r.files[i].pathName == dir.longPath && r.files[i].pointer == 0
  }

  /** The file slot held for the item, still unclaimed. */
  predicate Held(files: seq<FileRec>, i: nat, f: FileRec)
  {
    i < |files| && files[i].drive == 0 && GetFileSlot(files) == Some(i) && f.drive == 0
  }

  /** The walk stops without an item; the slot keeps what was gathered. */
  function Stop(v: Vol, dir: Directory, files: seq<FileRec>, i: nat, f: FileRec): (r: Step)
    requires Held(files, i, f)
    ensures StepKeeps(v, dir, files, r) && r.item.None?
  {
    Step(v, dir, files[i := f], None)
  }

  /** The slots of the buffered sector from the directory's slot index on,
      with file slot i held for the item. */
  function Walk(v: Vol, dir: Directory, files: seq<FileRec>, i: nat, f: FileRec, fuel: nat): (r: Step)
    requires v.drive.geo.slide < 32 && Held(files, i, f)
    ensures StepKeeps(v, dir, files, r) && Handed(dir, i, r)
    decreases fuel, 1
  {
    if dir.slot >= 16 then Advance(v, dir, files, i, f, fuel)
    else
      match ScanSector(dir.buffer, dir.slot as nat, f)
      case Exhausted(g) => Advance(v, dir.(slot := 16), files, i, g, fuel)
      case Ended(k, g) => Stop(v, dir.(slot := k), files, i, g)
      case Found(k, g) => Hand(v, dir, files, i, g, k)
  }

  /** The item at slot k goes out in file slot i. */
  function Hand(v: Vol, dir: Directory, files: seq<FileRec>, i: nat, g: FileRec, k: nat): (r: Step)
    requires Held(files, i, g) && k < 16 && Classify(EntryBytes(dir.buffer, k)).Item?
    ensures StepKeeps(v, dir, files, r) && Handed(dir, i, r) && r.item == Some(i)
  {
    Step(v, dir.(slot := k + 1), files[i := TakeItem(dir, g, EntryBytes(dir.buffer, k))], Some(i))
  }

  /** A slot index of 16: on to the next sector of the chain.  fuel bounds
      how many sectors that may happen for (the C loop has no bound and runs
      forever on a cyclic chain). */
  function Advance(v: Vol, dir: Directory, files: seq<FileRec>, i: nat, f: FileRec, fuel: nat): (r: Step)
    requires v.drive.geo.slide < 32 && Held(files, i, f)
    ensures StepKeeps(v, dir, files, r) && Handed(dir, i, r)
    decreases fuel, 0
  {
    if fuel == 0 then Stop(v, dir, files, i, f)
    else
      var n := GetNextSector(v, dir.sector);
      GetNextSectorShape(v, dir.sector);
      var d1 := dir.(sector := n.1);
      if n.1 == 0 then Stop(n.0, d1, files, i, f)
      else
        match ReadSector(n.0.disk, n.1)
        case None => Stop(n.0, d1, files, i, f)
        case Some(b) => Walk(n.0, d1.(buffer := b, slot := 0), files, i, f, fuel - 1)
  }

  /** YY_NextDirectoryItem: the next item of the directory in a newly
      claimed file slot, or None at the end of the directory, when no file
      slot is free or when a sector cannot be read. */
  function NextDirectoryItem(v: Vol, dir: Directory, files: seq<FileRec>, fuel: nat): (r: Step)
    requires v.drive.geo.slide < 32
    ensures StepKeeps(v, dir, files, r)
    ensures r.item.Some? ==> Handed(dir, r.item.value, r)
  {
    match GetFileSlot(files)
    case None => Step(v, dir, files, None)
    case Some(i) =>
      var f := files[i].(longName := ZeroBuf());
      if dir.sectorInBuffer != dir.sector then
        match ReadSector(v.disk, dir.sector)
        case None => Stop(v, dir, files, i, f)
        case Some(b) => Walk(v, dir.(buffer := b, sectorInBuffer := dir.sector), files, i, f, fuel)
      else Walk(v, dir, files, i, f, fuel)
  }

  /** With the sector in the buffer and an item at the current slot, the
      item is returned and the slot moves on by exactly one. */
  lemma NextItemHere(v: Vol, dir: Directory, files: seq<FileRec>, fuel: nat)
    requires v.drive.geo.slide < 32 && GetFileSlot(files).Some?
    requires dir.sectorInBuffer == dir.sector && dir.slot < 16
    requires Classify(EntryBytes(dir.buffer, dir.slot as nat)).Item?
    ensures var r := NextDirectoryItem(v, dir, files, fuel);
      && r.item == GetFileSlot(files) && r.dir.slot == dir.slot + 1 && r.v == v
      && r.dir == dir.(slot := dir.slot + 1)
      && r.files[r.item.value].dirn == ParseDirn(EntryBytes(dir.buffer, dir.slot as nat))
  {
    var i := GetFileSlot(files).value;
    var f := files[i].(longName := ZeroBuf());
    assert ScanSector(dir.buffer, dir.slot as nat, f) == Found(dir.slot as nat, f);
  }

  /** A zero slot ends the directory where it stands: nothing is returned
      and the slot index stays on it. */
  lemma NextItemAtEnd(v: Vol, dir: Directory, files: seq<FileRec>, fuel: nat)
    requires v.drive.geo.slide < 32 && GetFileSlot(files).Some?
    requires dir.sectorInBuffer == dir.sector && dir.slot < 16
    requires Classify(EntryBytes(dir.buffer, dir.slot as nat)).EndOfDirectory?
    ensures var r := NextDirectoryItem(v, dir, files, fuel);
      r.item.None? && r.dir == dir && r.v == v
  {
    var i := GetFileSlot(files).value;
    var f := files[i].(longName := ZeroBuf());
    assert ScanSector(dir.buffer, dir.slot as nat, f) == Ended(dir.slot as nat, f);
  }

  // ---------------------------------------------------------------------------
  // YY_ResetDirectory
  // ---------------------------------------------------------------------------

  /** The first sector of the root directory: the fixed root area on FAT12
      and FAT16, the first sector of cluster BPB_RootClus on FAT32. */
  function RootSector(d: Drive): U32
    requires d.geo.slide < 32
  {
    if d.geo.fatType == Fat32 then ClusterToSector(d, d.geo.rootClus) else d.geo.rootDirFirst
  }

  /** YY_ResetDirectory: back to the first slot of the directory's first
      sector, the root (start cluster 0) found through RootSector. */
  function ResetDirectory(dir: Directory, d: Drive): (r: Directory)
    requires d.geo.slide < 32
    ensures r == dir.(sector := r.sector, slot := 0)
    ensures dir.startCluster == 0 ==> r.sector == RootSector(d)
    ensures dir.startCluster != 0 ==> r.sector == ClusterToSector(d, dir.startCluster)
  {
    dir.(sector := if dir.startCluster == 0 then RootSector(d) else ClusterToSector(d, dir.startCluster), slot := 0)
  }

  /** YY_ResetDirectory as written: the root is always root_dir_first_sector. */
  function ResetDirectoryAsWritten(dir: Directory, d: Drive): (r: Directory)
    requires d.geo.slide < 32
  {
    dir.(sector := if dir.startCluster == 0 then d.geo.rootDirFirst else ClusterToSector(d, dir.startCluster), slot := 0)
  }

  /** On FAT32 the fixed root area is empty, so root_dir_first_sector is the
      first sector of cluster 2: the as-written reset lists cluster 2 even
      when BPB_RootClus names another cluster. */
  lemma ResetAsWrittenMissesRoot(dir: Directory, d: Drive)
    requires d.geo.slide < 32 && d.geo.fatType == Fat32 && dir.startCluster == 0
    requires d.geo.rootDirFirst == d.geo.clusterBegin
    requires 2 < d.geo.rootClus && d.geo.clusterBegin + (d.geo.rootClus - 2) * Pow2(d.geo.slide) < Two32
    ensures ResetDirectoryAsWritten(dir, d).sector == ClusterToSector(d, 2)
    ensures ResetDirectory(dir, d).sector == ClusterToSector(d, d.geo.rootClus)
    ensures ResetDirectoryAsWritten(dir, d).sector != ResetDirectory(dir, d).sector
  {
    ClusterToSectorData(d, 2);
    ClusterSectorRoundTrip(d, d.geo.rootClus);
    ClusterSectorRoundTrip(d, 2);
  }

  // ---------------------------------------------------------------------------
  // YY_ChangeDirectory
  // ---------------------------------------------------------------------------

  /** YY_AddPath on a directory's path buffer. */
  function AddPathBuf(buf: WBuf, src: seq<bv16>): WBuf
  {
    var r := AddPath(Str(buf), src);
    if src == [Dot] || |r| >= MaxPath then buf else ToBuf(r)
  }

  /** The result of a directory change: the drive and device, the
      directory, the file pool and whether the change happened. */
  datatype Change = Change(v: Vol, dir: Directory, files: seq<FileRec>, ok: bool)

  /** What a directory change keeps: the directory's drive, every drive
      field but the FAT cache, the device's sectors, and the use of every
      file slot (each entry looked at is released again). */
  predicate ChangeKeeps(v: Vol, dir: Directory, files: seq<FileRec>, r: Change)
  {
    && |r.files| == |files|
    && r.dir.drive == dir.drive
    && OnlyCache(v.drive, r.v.drive) && r.v.disk.Keys == v.disk.Keys
    && forall j :: 0 <= j < |files| ==> r.files[j].drive == files[j].drive
  }

  /** How many more items a search may look at after the current one,
      counted down one item at a time. */
  datatype Budget = Spent | Left(more: Budget)

  /** The budget of n more items. */
  function BudgetOf(n: nat): (b: Budget)
    ensures n == 0 <==> b.Spent?
  {
    if n == 0 then Spent else Left(BudgetOf(n - 1))
  }

  /** The search loop of YY_ChangeDirectory: each item is released after
      it is looked at; the first directory whose name matches becomes the
      directory.  count bounds the number of items looked at. */
  function Search(v: Vol, dir: Directory, files: seq<FileRec>, path: seq<bv16>, fuel: nat, count: Budget): (r: Change)
    requires v.drive.geo.slide < 32
    ensures ChangeKeeps(v, dir, files, r)
    ensures !r.ok ==> r.dir.startCluster == dir.startCluster && r.dir.longPath == dir.longPath
    ensures r.ok ==> r.dir.longPath == AddPathBuf(dir.longPath, path) && r.dir.sector == 0 && r.dir.slot == 0
    decreases count
  {
    var s := NextDirectoryItem(v, dir, files, fuel);
    match s.item
    case None => Change(s.v, s.dir, s.files, false)
    case Some(i) =>
      var f := s.files[i];
      var rest := FreeFileSlot(s.files, Some(i));
      if IsDir(f) && MatchName(f, path) then
        Change(s.v, s.dir.(longPath := AddPathBuf(s.dir.longPath, path), startCluster := f.startCluster,
                           sector := 0, slot := 0), rest, true)
      else if count.Spent? then Change(s.v, s.dir, rest, false)
      else Search(s.v, s.dir, rest, path, fuel, count.more)
  }

  /** The name "." as ChangeDirectory recognises it: a dot, then the end. */
  predicate IsDotName(path: seq<bv16>)
  {
    At(path, 0) == Dot && At(path, 1) == 0
  }

  /** YY_ChangeDirectory: "." succeeds without a change; otherwise the
      directory is searched from its start for a directory of that name,
      whose cluster becomes the start and whose name is added to the path.
      fuel bounds both the sectors of one step and the items looked at. */
  function ChangeDirectory(v: Vol, dir: Directory, files: seq<FileRec>, path: seq<bv16>, fuel: nat): (r: Change)
    requires v.drive.geo.slide < 32
    ensures ChangeKeeps(v, dir, files, r)
    ensures !r.ok ==> r.dir.startCluster == dir.startCluster && r.dir.longPath == dir.longPath
    ensures r.ok && !IsDotName(path) ==> r.dir.longPath == AddPathBuf(dir.longPath, path)
  {
    if IsDotName(path) then Change(v, dir, files, true)
    else Search(v, ResetDirectory(dir, v.drive), files, path, fuel, BudgetOf(fuel))
  }

  /** "." is the directory itself. */
  lemma ChangeToDot(v: Vol, dir: Directory, files: seq<FileRec>, fuel: nat)
    requires v.drive.geo.slide < 32
    ensures ChangeDirectory(v, dir, files, [Dot], fuel) == Change(v, dir, files, true)
  {
  }

  /** The items the directory hands out one after another, each released
      before the next is asked for, at most one more than count: what the
      search of YY_ChangeDirectory looks at when nothing matches. */
  function Listing(v: Vol, dir: Directory, files: seq<FileRec>, fuel: nat, count: Budget): (items: seq<FileRec>)
    requires v.drive.geo.slide < 32
    decreases count
  {
    var s := NextDirectoryItem(v, dir, files, fuel);
    match s.item
    case None => []
    case Some(i) =>
      [s.files[i]] + (if count.Spent? then [] else Listing(s.v, s.dir, FreeFileSlot(s.files, Some(i)), fuel, count.more))
  }

  /** An item the search takes: a directory of that name. */
  predicate Matches(f: FileRec, path: seq<bv16>)
  {
    IsDir(f) && MatchName(f, path)
  }

  /** The position of the first matching item from k on, |items| if none. */
  function FirstMatch(items: seq<FileRec>, path: seq<bv16>, k: nat): (j: nat)
    requires k <= |items|
    ensures k <= j <= |items|
    ensures j < |items| ==> Matches(items[j], path)
    ensures forall m :: k <= m < j ==> !Matches(items[m], path)
    decreases |items| - k
  {
    if k == |items| || Matches(items[k], path) then k else FirstMatch(items, path, k + 1)
  }

  /** r is what a search over items gives: success exactly when the items
      hold a directory of that name, and then the first such directory's
      cluster as the start. */
  predicate FoundFirst(r: Change, items: seq<FileRec>, path: seq<bv16>)
  {
    var j := FirstMatch(items, path, 0);
    && (r.ok <==> j < |items|)
    && (r.ok ==> r.dir.startCluster == items[j].startCluster)
  }

  /** The search succeeds exactly when the listing holds a directory of
      that name, and then moves to the first such directory's cluster. */
  lemma {:induction false} SearchFindsFirstMatch(v: Vol, dir: Directory, files: seq<FileRec>, path: seq<bv16>, fuel: nat, count: Budget)
    requires v.drive.geo.slide < 32
    ensures FoundFirst(Search(v, dir, files, path, fuel, count), Listing(v, dir, files, fuel, count), path)
    decreases count
  {
    var stop, v', dir', files' := SearchStep(v, dir, files, path, fuel, count);
    if !stop {
      SearchFindsFirstMatch(v', dir', files', path, fuel, count.more);
    }
  }

  /** One item of the search: either the search ends on it, or the item
      does not match and what the search finds from the next item on is
      what it finds from this one. */
  lemma SearchStep(v: Vol, dir: Directory, files: seq<FileRec>, path: seq<bv16>, fuel: nat, count: Budget)
    returns (stop: bool, v': Vol, dir': Directory, files': seq<FileRec>)
    requires v.drive.geo.slide < 32
    ensures !stop ==> count.Left? && v'.drive.geo.slide < 32
    ensures stop ==> FoundFirst(Search(v, dir, files, path, fuel, count), Listing(v, dir, files, fuel, count), path)
    ensures !stop && FoundFirst(Search(v', dir', files', path, fuel, count.more), Listing(v', dir', files', fuel, count.more), path) ==>
      FoundFirst(Search(v, dir, files, path, fuel, count), Listing(v, dir, files, fuel, count), path)
  {
    var s := NextDirectoryItem(v, dir, files, fuel);
    stop := s.item.None? || Matches(s.files[s.item.value], path) || count.Spent?;
    if stop {
      SearchStops(v, dir, files, path, fuel, count);
      v', dir', files' := v, dir, files;
    } else {
      v', dir', files' := SearchGoesOn(v, dir, files, path, fuel, count);
    }
  }

  /** Past an item that does not match, what the search finds from the
      next item on is what it finds from this one. */
  lemma SearchGoesOn(v: Vol, dir: Directory, files: seq<FileRec>, path: seq<bv16>, fuel: nat, count: Budget)
    returns (v': Vol, dir': Directory, files': seq<FileRec>)
    requires v.drive.geo.slide < 32 && count.Left?
    requires var s := NextDirectoryItem(v, dir, files, fuel); s.item.Some? && !Matches(s.files[s.item.value], path)
    ensures v'.drive.geo.slide < 32
    ensures FoundFirst(Search(v', dir', files', path, fuel, count.more), Listing(v', dir', files', fuel, count.more), path) ==>
      FoundFirst(Search(v, dir, files, path, fuel, count), Listing(v, dir, files, fuel, count), path)
  {
    var s := NextDirectoryItem(v, dir, files, fuel);
    var i := s.item.value;
    v', dir', files' := s.v, s.dir, FreeFileSlot(s.files, Some(i));
    SearchPassesOver(v, dir, files, path, fuel, count);
    if FoundFirst(Search(v', dir', files', path, fuel, count.more), Listing(v', dir', files', fuel, count.more), path) {
      FoundFirstShift(Search(v', dir', files', path, fuel, count.more), s.files[i], Listing(v', dir', files', fuel, count.more), path);
    }
  }

  /** The search ends on the first item: at the end of the directory, on a
      match, or when no more items may be looked at. */
  lemma SearchStops(v: Vol, dir: Directory, files: seq<FileRec>, path: seq<bv16>, fuel: nat, count: Budget)
    requires v.drive.geo.slide < 32
    requires var s := NextDirectoryItem(v, dir, files, fuel);
      s.item.None? || Matches(s.files[s.item.value], path) || count.Spent?
    ensures FoundFirst(Search(v, dir, files, path, fuel, count), Listing(v, dir, files, fuel, count), path)
  {
    var s := NextDirectoryItem(v, dir, files, fuel);
    if s.item.Some? {
      assert Listing(v, dir, files, fuel, count)[0] == s.files[s.item.value];
    }
  }

  /** An item that does not match is passed over: the search and the
      listing go on from the next one. */
  lemma SearchPassesOver(v: Vol, dir: Directory, files: seq<FileRec>, path: seq<bv16>, fuel: nat, count: Budget)
    requires v.drive.geo.slide < 32 && count.Left?
    requires var s := NextDirectoryItem(v, dir, files, fuel); s.item.Some? && !Matches(s.files[s.item.value], path)
    ensures var s := NextDirectoryItem(v, dir, files, fuel);
      var i := s.item.value;
      var rest := FreeFileSlot(s.files, Some(i));
      && Search(v, dir, files, path, fuel, count) == Search(s.v, s.dir, rest, path, fuel, count.more)
      && Listing(v, dir, files, fuel, count) == [s.files[i]] + Listing(s.v, s.dir, rest, fuel, count.more)
  {
  }

  /** A non-matching item in front of the items changes nothing found. */
  lemma FoundFirstShift(r: Change, f: FileRec, items: seq<FileRec>, path: seq<bv16>)
    requires !Matches(f, path) && FoundFirst(r, items, path)
    ensures FoundFirst(r, [f] + items, path)
  {
    FirstMatchShift(f, items, path, 0);
  }

  /** An item in front that does not match moves the first match on by one. */
  lemma {:induction false} FirstMatchShift(f: FileRec, items: seq<FileRec>, path: seq<bv16>, k: nat)
    requires k <= |items| && !Matches(f, path)
    ensures FirstMatch([f] + items, path, k + 1) == 1 + FirstMatch(items, path, k)
    ensures FirstMatch([f] + items, path, 0) == FirstMatch([f] + items, path, 1)
    decreases |items| - k
  {
    assert ([f] + items)[k + 1..] == items[k..];
    if k < |items| && !Matches(items[k], path) {
      FirstMatchShift(f, items, path, k + 1);
    }
  }

  /** YY_ChangeDirectory to a name other than ".": it succeeds exactly when
      the directory's listing from its start holds a directory of that
      name, and then the first such directory becomes the directory. */
  lemma ChangeFindsFirstMatch(v: Vol, dir: Directory, files: seq<FileRec>, path: seq<bv16>, fuel: nat)
    requires v.drive.geo.slide < 32 && !IsDotName(path)
    ensures var r := ChangeDirectory(v, dir, files, path, fuel);
      var items := Listing(v, ResetDirectory(dir, v.drive), files, fuel, BudgetOf(fuel));
      && (r.ok <==> exists m :: 0 <= m < |items| && Matches(items[m], path))
      && (r.ok ==> r.dir.startCluster == items[FirstMatch(items, path, 0)].startCluster)
  {
    var items := Listing(v, ResetDirectory(dir, v.drive), files, fuel, BudgetOf(fuel));
    SearchFindsFirstMatch(v, ResetDirectory(dir, v.drive), files, path, fuel, BudgetOf(fuel));
    var j := FirstMatch(items, path, 0);
    if j == |items| {
      assert forall m :: 0 <= m < |items| ==> !Matches(items[m], path);
    }
  }

  // ---------------------------------------------------------------------------
  // YY_OpenDirectory
  // ---------------------------------------------------------------------------

  /** The path components of text from index on, one directory change
      each, stopping at the first that fails. */
  function Replay(v: Vol, dir: Directory, files: seq<FileRec>, text: seq<bv16>, index: nat, fuel: nat): (r: Change)
    requires v.drive.geo.slide < 32
    ensures ChangeKeeps(v, dir, files, r)
    decreases |text| + 1 - index
  {
    var t := GetToken(text, index);
    if !t.2 then Change(v, dir, files, true)
    else
      var c := ChangeDirectory(v, dir, files, t.1, fuel);
      if !c.ok then c else Replay(c.v, c.dir, c.files, text, t.0, fuel)
  }

  /** The drive a path names: "X:" picks drive X (the unit cut to a byte),
      anything else the default drive; and where the rest of the path
      starts. */
  function PathDrive(path: seq<bv16>): (r: (bv8, nat))
  {
    if At(path, 1) == Unit(':') then ((At(path, 0) & 0xff) as bv8, 2) else (DefaultDriveId, 0)
  }

  /** The directory a fresh open starts from: the root of the drive, with
      path "X:/". */
  function RootOf(slot: Directory, id: bv8): (d: Directory)
  {
    slot.(drive := id, startCluster := 0, sector := 0, sectorInBuffer := NoSector, slot := 0,
          longPath := ToBuf([id as bv16, Unit(':'), Slash]))
  }

  /** The components YY_OpenDirectory follows from the root: the drive's
      working directory from its fourth unit unless the path (from index)
      starts with a separator, then the path's own components. */
  function Descend(v: Vol, dir: Directory, files: seq<FileRec>, path: seq<bv16>, index: nat, fuel: nat): (c: Change)
    requires v.drive.geo.slide < 32
    ensures ChangeKeeps(v, dir, files, c)
  {
    var fromRoot := IsSeparator(At(path, index));
    var c0 := if fromRoot then Change(v, dir, files, true) else Replay(v, dir, files, v.drive.cwd, 3, fuel);
    if c0.ok then Replay(c0.v, c0.dir, c0.files, path, if fromRoot then index + 1 else index, fuel) else c0
  }

  /** The end of YY_OpenDirectory: the drive and files are put back, and
      directory slot k is reset for reading or, after a failed component,
      freed. */
  function Settle(st: Sys, n: nat, k: nat, c: Change): (r: (Sys, Option<nat>))
    requires SysOk(st) && n < NDrives && k < MaxDirectories
    requires ChangeKeeps(VolOf(st, n), st.dirs[k], st.files, c)
    ensures SysOk(r.0)
    ensures forall j :: 0 <= j < |st.files| ==> r.0.files[j].drive == st.files[j].drive
    ensures forall j :: 0 <= j < |st.dirs| && j != k ==> r.0.dirs[j] == st.dirs[j]
    ensures r.1.None? ==> r.0.dirs[k].drive == 0
    ensures r.1.Some? ==> r.1 == Some(k) && r.0.dirs[k].drive == st.dirs[k].drive
    ensures r.0.drives[n].id == st.drives[n].id
  {
    var st2 := PutVol(st, n, c.v).(files := c.files);
    if !c.ok then (st2.(dirs := CloseDirectory(st.dirs[k := c.dir], k)), None)
    else (st2.(dirs := st.dirs[k := ResetDirectory(c.dir, c.v.drive)]), Some(k))
  }

  /** YY_OpenDirectory: mount (or find) the drive the path names, claim a
      directory slot, start at the root, replay the drive's working
      directory unless the rest of the path starts with a separator, then
      follow the path's components.  A failed component frees the slot. */
  function OpenDirectory(st: Sys, path: seq<bv16>, fuel: nat): (r: (Sys, Option<nat>))
    requires SysOk(st)
    ensures SysOk(r.0)
    ensures forall j :: 0 <= j < |st.files| ==> r.0.files[j].drive == st.files[j].drive
    ensures r.1.None? ==> forall j :: 0 <= j < |st.dirs| ==> r.0.dirs[j].drive == st.dirs[j].drive
    ensures r.1.Some? ==> r.1 == GetDirectorySlot(st.dirs) && r.0.dirs[r.1.value].drive == PathDrive(path).0
    ensures r.1.Some? ==> forall j :: 0 <= j < |st.dirs| && j != r.1.value ==> r.0.dirs[j] == st.dirs[j]
  {
    var (id, index) := PathDrive(path);
    var m := MountDrive(st.drives, st.devices, DeviceMap, id);
    MountKeepsSlides(st.drives, st.devices, DeviceMap, id);
    var st1 := st.(drives := m.0);
    match m.1
    case None => (st1, None)
    case Some(n) =>
      match GetDirectorySlot(st.dirs)
      case None => (st1, None)
      case Some(k) =>
        var v := VolOf(st1, n);
        var dir := RootOf(st.dirs[k], v.drive.id);
        var st2 := st1.(dirs := st.dirs[k := dir]);
        Settle(st2, n, k, Descend(v, dir, st.files, path, index, fuel))
  }

  /** A path that names only the root ("X:/") follows no component. */
  lemma DescendRoot(v: Vol, dir: Directory, files: seq<FileRec>, path: seq<bv16>, index: nat, fuel: nat)
    requires v.drive.geo.slide < 32
    requires IsSeparator(At(path, index)) && At(path, index + 1) == 0
    ensures Descend(v, dir, files, path, index, fuel) == Change(v, dir, files, true)
  {
    assert GetToken(path, index + 1) == (index + 1, [], false);
  }

  /** Opening "X:/" succeeds exactly when drive X mounts and a directory
      slot is free; the directory is then the first free slot, at the
      first slot of the drive's root directory, with path "X:/".  The
      buffer may go on past the NUL that ends "X:/". */
  lemma OpenRoot(st: Sys, path: seq<bv16>, fuel: nat)
    requires SysOk(st)
    requires |path| >= 3 && path[1] == Unit(':') && IsSeparator(path[2]) && At(path, 3) == 0
    ensures var r := OpenDirectory(st, path, fuel);
      && (r.1.Some? <==> MountDrive(st.drives, st.devices, DeviceMap, PathDrive(path).0).1.Some? && GetDirectorySlot(st.dirs).Some?)
      && (r.1.Some? ==>
            var d := r.0.dirs[r.1.value];
            && d.startCluster == 0 && d.slot == 0 && d.sectorInBuffer == NoSector
            && d.longPath == ToBuf([PathDrive(path).0 as bv16, Unit(':'), Slash])
            && exists n :: 0 <= n < NDrives && r.0.drives[n].geo.slide < 32 && r.0.drives[n].id == d.drive
                             && d.sector == RootSector(r.0.drives[n]))
  {
    var (id, index) := PathDrive(path);
    var m := MountDrive(st.drives, st.devices, DeviceMap, id);
    MountKeepsSlides(st.drives, st.devices, DeviceMap, id);
    var st1 := st.(drives := m.0);
    if m.1.Some? && GetDirectorySlot(st.dirs).Some? {
      var n := m.1.value;
      var k := GetDirectorySlot(st.dirs).value;
      var v := VolOf(st1, n);
      var dir := RootOf(st.dirs[k], v.drive.id);
      DescendRoot(v, dir, st.files, path, index, fuel);
      var r := OpenDirectory(st, path, fuel);
      assert r.0.drives[n] == v.drive;
      assert r.0.dirs[k] == ResetDirectory(dir, v.drive);
    }
  }

  /** With one component left, the replay ends in the first directory of
      that name the listing of dir holds, and fails when it holds none. */
  lemma ReplayLast(v: Vol, dir: Directory, files: seq<FileRec>, text: seq<bv16>, index: nat, fuel: nat)
    requires v.drive.geo.slide < 32
    requires GetToken(text, index).2 && !GetToken(text, GetToken(text, index).0).2
    requires !IsDotName(GetToken(text, index).1)
    ensures FoundFirst(Replay(v, dir, files, text, index, fuel),
                       Listing(v, ResetDirectory(dir, v.drive), files, fuel, BudgetOf(fuel)), GetToken(text, index).1)
  {
    ChangeFindsFirstMatch(v, dir, files, GetToken(text, index).1, fuel);
  }

  /** A path that goes from the root through one component follows that
      component from dir. */
  lemma DescendOne(v: Vol, dir: Directory, files: seq<FileRec>, path: seq<bv16>, index: nat, fuel: nat)
    requires v.drive.geo.slide < 32 && IsSeparator(At(path, index))
    requires GetToken(path, index + 1).2 && !GetToken(path, GetToken(path, index + 1).0).2
    requires !IsDotName(GetToken(path, index + 1).1)
    ensures FoundFirst(Descend(v, dir, files, path, index, fuel),
                       Listing(v, ResetDirectory(dir, v.drive), files, fuel, BudgetOf(fuel)), GetToken(path, index + 1).1)
  {
    ReplayLast(v, dir, files, path, index + 1, fuel);
  }

  /** Opening "X:/name", with drive X mounted and a directory slot free,
      succeeds exactly when the root directory lists a directory called
      name, and the directory opened starts at the first such one's
      cluster. */
  lemma OpenOneComponent(st: Sys, path: seq<bv16>, fuel: nat)
    requires SysOk(st)
    requires At(path, 1) == Unit(':') && IsSeparator(At(path, 2))
    requires GetToken(path, 3).2 && !GetToken(path, GetToken(path, 3).0).2 && !IsDotName(GetToken(path, 3).1)
    requires MountDrive(st.drives, st.devices, DeviceMap, PathDrive(path).0).1.Some?
    requires GetDirectorySlot(st.dirs).Some?
    ensures var m := MountDrive(st.drives, st.devices, DeviceMap, PathDrive(path).0);
      var d := m.0[m.1.value];
      var k := GetDirectorySlot(st.dirs).value;
      d.geo.slide < 32 &&
      var items := Listing(Vol(DiskOf(st.devices, d.device), d), ResetDirectory(RootOf(st.dirs[k], d.id), d),
                           st.files, fuel, BudgetOf(fuel));
      var j := FirstMatch(items, GetToken(path, 3).1, 0);
      var r := OpenDirectory(st, path, fuel);
      && (r.1.Some? <==> j < |items|)
      && (r.1.Some? ==> r.1.value == k && r.0.dirs[k].startCluster == items[j].startCluster)
  {
    var (id, index) := PathDrive(path);
    var m := MountDrive(st.drives, st.devices, DeviceMap, id);
    MountKeepsSlides(st.drives, st.devices, DeviceMap, id);
    var st1 := st.(drives := m.0);
    var n := m.1.value;
    var k := GetDirectorySlot(st.dirs).value;
    var v := VolOf(st1, n);
    var dir := RootOf(st.dirs[k], v.drive.id);
    DescendOne(v, dir, st.files, path, index, fuel);
  }

  /** The change finds a child directory whose entry is the first of the
      directory: with no long name before it, the name compared is the one
      made from the short name, and the directory's start becomes the
      entry's first cluster. */
  lemma ChangeFindsFirstEntry(v: Vol, dir: Directory, files: seq<FileRec>, path: seq<bv16>, fuel: nat)
    requires v.drive.geo.slide < 32 && GetFileSlot(files).Some?
    requires dir.sectorInBuffer == ResetDirectory(dir, v.drive).sector
    requires Classify(EntryBytes(dir.buffer, 0)).Item?
    requires ParseDirn(EntryBytes(dir.buffer, 0)).attr & (AttrDirectory | AttrVolume) == AttrDirectory
    requires forall i :: 0 <= i < 11 ==> dir.buffer[i] != 0
    requires !IsDotName(path) && forall i :: 0 <= i < |path| ==> path[i] != 0
    requires FoldEqual(LongFromShort(dir.buffer[..11], dir.buffer[12]), path)
    ensures var r := ChangeDirectory(v, dir, files, path, fuel);
      r.ok && r.dir.startCluster == ParseDirn(EntryBytes(dir.buffer, 0)).StartCluster()
  {
    var raw := EntryBytes(dir.buffer, 0);
    assert raw[..11] == dir.buffer[..11] && raw[12] == dir.buffer[12];
    var d := ResetDirectory(dir, v.drive);
    var i := GetFileSlot(files).value;
    var f := files[i].(longName := ZeroBuf());
    FirstItemTaken(v, d, files, fuel);
    var g := TakeItem(d, f, raw);
    TakeItemShortName(d, f, raw);
    LongFromShortNoNul(raw[..11], raw[12]);
    MatchNameIff(g, path);
    SearchTakesMatch(v, d, files, path, fuel, BudgetOf(fuel));
  }

  /** With the first entry of the directory in the buffer, an item in it
      and a file slot free, the first item handed out is that entry. */
  lemma FirstItemTaken(v: Vol, d: Directory, files: seq<FileRec>, fuel: nat)
    requires v.drive.geo.slide < 32 && GetFileSlot(files).Some?
    requires d.sectorInBuffer == d.sector && d.slot == 0
    requires Classify(EntryBytes(d.buffer, 0)).Item?
    ensures var s := NextDirectoryItem(v, d, files, fuel);
      var i := GetFileSlot(files).value;
      s.item == Some(i) && s.files[i] == TakeItem(d, files[i].(longName := ZeroBuf()), EntryBytes(d.buffer, 0))
  {
    var i := GetFileSlot(files).value;
    var f := files[i].(longName := ZeroBuf());
    assert ScanSector(d.buffer, 0, f) == Found(0, f);
    assert NextDirectoryItem(v, d, files, fuel) == Hand(v, d, files, i, f, 0);
  }

  /** A search whose first item matches takes it. */
  lemma SearchTakesMatch(v: Vol, dir: Directory, files: seq<FileRec>, path: seq<bv16>, fuel: nat, count: Budget)
    requires v.drive.geo.slide < 32
    requires var s := NextDirectoryItem(v, dir, files, fuel); s.item.Some? && Matches(s.files[s.item.value], path)
    ensures var s := NextDirectoryItem(v, dir, files, fuel);
      var r := Search(v, dir, files, path, fuel, count);
      r.ok && r.dir.startCluster == s.files[s.item.value].startCluster
  {
  }
}

=== FILE: drives.dfy ===
/** YY_MountDrive and its helpers (Drives_YY.cpp): the table of drive
    slots, the map from drive letters to devices and partitions, the
    classification of sector 0, and the drive geometry derived from the
    volume's BIOS parameter block. */
module Drives {
  import opened Uint
  import opened Wrappers
  import opened FatTypes
  import opened Device

  /** The number of drive slots (N_DRIVES). */
  const NDrives: nat := 4

  /** The drive whose working directory is used when a path names none
      (YY_defaultDrive, 'C'). */
  const DefaultDriveId: bv8 := 0x43

  /** One row of map[]: a drive letter, the device it lives on and the
      partition of that device. */
  datatype MapEntry = MapEntry(id: bv8, device: string, partition: U8)

  /** map[] as shipped: two floppies and four partitions of one card. */
  const DeviceMap: seq<MapEntry> := [
    MapEntry(0x41, "\\\\.\\A:", 0),
    MapEntry(0x42, "\\\\.\\B:", 1),
    MapEntry(0x43, "\\\\.\\PhysicalDrive2", 0),
    MapEntry(0x44, "\\\\.\\PhysicalDrive2", 1),
    MapEntry(0x45, "\\\\.\\PhysicalDrive2", 2),
    MapEntry(0x46, "\\\\.\\PhysicalDrive2", 3)
  ]

  // ---------------------------------------------------------------------------
  // Fields of sector 0 and of the volume boot sector
  // ---------------------------------------------------------------------------

  function U16At(s: Sector, k: nat): bv16
    requires k + 1 < 512
  {
    Le16(s[k], s[k + 1])
  }

  function U32At(s: Sector, k: nat): bv32
    requires k + 3 < 512
  {
    Le32(s[k], s[k + 1], s[k + 2], s[k + 3])
  }

  /** The boot signature 0x55 0xAA in the last two bytes. */
  predicate HasSignature(s: Sector)
  {
    s[510] == 0x55 && s[511] == 0xaa
  }

  /** "MSDOS5.0", the OEM name that marks a device without a partition
      table. */
  const MsDos50: seq<bv8> := [0x4d, 0x53, 0x44, 0x4f, 0x53, 0x35, 0x2e, 0x30]

  /** The partition-table fields the engine uses: the type code and the
      first sector of partition p. */
  function PartitionType(boot: Sector, p: nat): bv8
    requires p < 4
  {
    boot[446 + 16 * p + 4]
  }

  function PartitionBegin(boot: Sector, p: nat): U32
    requires p < 4
  {
    U32At(boot, 446 + 16 * p + 8) as int
  }

  /** The partition types the engine accepts: FAT12, FAT16 below 32 MB and
      FAT32 with LBA addressing. */
  predicate FatPartitionType(code: bv8)
  {
    code == 0x01 || code == 0x04 || code == 0x0c
  }

  datatype BootKind = BootError | Unpartitioned | Partitioned

  /** ReadBootSector: 0 (error) when sector 0 cannot be read or lacks the
      signature, 1 when its OEM name is "MSDOS5.0" (the sector is itself
      the volume boot sector), 2 when it holds a partition table. */
  function ReadBootSector(disk: Disk): (k: BootKind)
    ensures k != BootError <==> 0 in disk && HasSignature(disk[0])
    ensures k == Unpartitioned <==> 0 in disk && HasSignature(disk[0]) && disk[0][3..11] == MsDos50
  {
    match ReadSector(disk, 0)
    case None => BootError
    case Some(b) =>
      if !HasSignature(b) then BootError
      else if b[3..11] == MsDos50 then Unpartitioned
      else Partitioned
  }

  /** Where the volume starts on a device for partition p, or None when
      YY_MountDrive gives up on the device before reading the volume. */
  function VolumeStart(disk: Disk, p: U8): (r: Option<U32>)
    ensures r.Some? ==> 0 in disk && HasSignature(disk[0]) && p <= 3
    ensures r.Some? && ReadBootSector(disk) == Unpartitioned ==> p == 0 && r.value == 0
    ensures r.Some? && ReadBootSector(disk) == Partitioned ==>
      FatPartitionType(PartitionType(disk[0], p)) && r.value == PartitionBegin(disk[0], p)
  {
    match ReadBootSector(disk)
    case BootError => None
    case Unpartitioned => if p != 0 then None else Some(0)
    case Partitioned =>
      if p > 3 then None
      else if !FatPartitionType(PartitionType(disk[0], p)) then None
      else Some(PartitionBegin(disk[0], p))
  }

  /** The volume boot sector of partition p, with its first sector, when
      every check YY_MountDrive makes passes: the signature, and 512 bytes
      per sector. */
  function FindVolume(disk: Disk, p: U8): (r: Option<(U32, Sector)>)
    ensures r.Some? <==> VolumeStart(disk, p).Some? && VolumeStart(disk, p).value in disk
                         && HasSignature(disk[VolumeStart(disk, p).value])
                         && U16At(disk[VolumeStart(disk, p).value], 11) == 512
    ensures r.Some? ==> r.value.0 == VolumeStart(disk, p).value && r.value.1 == disk[r.value.0]
  {
    match VolumeStart(disk, p)
    case None => None
    case Some(pb) =>
      match ReadSector(disk, pb)
      case None => None
      case Some(vol) =>
        if !HasSignature(vol) || U16At(vol, 11) != 512 then None else Some((pb, vol))
  }

  // ---------------------------------------------------------------------------
  // Geometry
  // ---------------------------------------------------------------------------

  /** The number of bits needed to write n. */
  function BitLength(n: nat): (r: nat)
  {
    if n == 0 then 0 else 1 + BitLength(n / 2)
  }

  /** toSlide: one less than the bit length of n, as a uint8_t (255 for 0).
      For a power of two this is the shift that divides by it. */
  function ToSlide(n: U8): (r: U8)
  {
    Wrap8(BitLength(n) - 1)
  }

  lemma {:induction false} BitLengthPow2(k: nat)
    ensures BitLength(Pow2(k)) == k + 1
  {
    if k > 0 {
      BitLengthPow2(k - 1);
      assert Pow2(k) / 2 == Pow2(k - 1);
    }
  }

  lemma {:induction false} BitLengthBounds(n: nat)
    requires n >= 1
    ensures BitLength(n) >= 1
    ensures Pow2(BitLength(n) - 1) <= n < Pow2(BitLength(n))
  {
    if n >= 2 {
      BitLengthBounds(n / 2);
    }
  }

  lemma BitLengthSmall(n: nat)
    requires n < 0x100
    ensures BitLength(n) <= 8
  {
    if n >= 1 {
      BitLengthBounds(n);
      if BitLength(n) > 8 {
        Pow2Monotone(8, BitLength(n) - 1);
        Pow2Small(7);
      }
    }
  }

  /** For a cluster of 2^k sectors, toSlide gives k back, so shifting by it
      multiplies and divides by the cluster size. */
  lemma ToSlidePow2(k: nat)
    requires k < 8
    ensures Pow2(k) < 0x100 && ToSlide(Pow2(k)) == k && Pow2(ToSlide(Pow2(k))) == Pow2(k)
  {
    Pow2Small(k);
    BitLengthPow2(k);
  }

  /** For any non-zero sectors-per-cluster, toSlide is the floor of its
      base-2 logarithm; for 0 it is 255. */
  lemma ToSlideLog(n: U8)
    ensures n == 0 ==> ToSlide(n) == 255
    ensures n >= 1 ==> ToSlide(n) < 8 && Pow2(ToSlide(n)) <= n < 2 * Pow2(ToSlide(n))
  {
    if n >= 1 {
      BitLengthBounds(n);
      BitLengthSmall(n);
    }
  }

  /** The FAT width by cluster count, as Microsoft's FAT32 File System
      Specification ("FAT Type Determination") defines it. */
  function FatTypeOf(count: U32): (ft: FatType)
    ensures ft == Fat12 <==> count < 4085
    ensures ft == Fat16 <==> 4085 <= count < 65525
    ensures ft == Fat32 <==> 65525 <= count
  {
    if count < 4085 then Fat12 else if count < 65525 then Fat16 else Fat32
  }

  lemma FatTypeBoundaries()
    ensures FatTypeOf(4084) == Fat12 && FatTypeOf(4085) == Fat16
    ensures FatTypeOf(65524) == Fat16 && FatTypeOf(65525) == Fat32
  {
  }

  /** The sectors the fixed root directory takes: RootEntCnt entries of 32
      bytes rounded up to whole 512-byte sectors (none on FAT32). */
  function RootDirSectors(rootEntCnt: bv16): (r: nat)
    ensures 16 * r >= rootEntCnt as int && 16 * (r - 1) < rootEntCnt as int
    ensures r <= 4096
  {
    (rootEntCnt as int * 32 + 511) / 512
  }

  /** The fields of a volume boot sector the engine reads. */
  datatype Bpb = Bpb(
    secPerClus: U8,
    rsvdSecCnt: nat,
    numFats: nat,
    rootEntCnt: bv16,
    fatSize: U32,
    totSec: U32,
    rootClus: U32
  )

  /** The BIOS parameter block: the sector and total counts come from the
      16-bit fields when those are non-zero, from the 32-bit ones
      otherwise. */
  function ParseBpb(vol: Sector): (b: Bpb)
  {
    Bpb(
      vol[13] as int,
      U16At(vol, 14) as int,
      vol[16] as int,
      U16At(vol, 17),
      if U16At(vol, 22) != 0 then U16At(vol, 22) as int else U32At(vol, 36) as int,
      if U16At(vol, 19) != 0 then U16At(vol, 19) as int else U32At(vol, 32) as int,
      U32At(vol, 44) as int)
  }

  /** The first sector of the data area, relative to the partition, before
      any uint32_t reduction. */
  function MetaSectors(b: Bpb): nat
  {
    b.rsvdSecCnt + FatArea(b) + RootDirSectors(b.rootEntCnt)
  }

  /** The sectors all copies of the FAT take. */
  function FatArea(b: Bpb): nat
  {
    b.numFats * b.fatSize
  }

  /** count_of_clusters: the data sectors (computed in uint32_t) divided by
      the cluster size.  The C code divides by BPB_SecPerClus without
      checking it; this takes a non-zero one. */
  function CountOfClusters(b: Bpb): (r: U32)
    requires b.secPerClus != 0
  {
    Wrap32(b.totSec - MetaSectors(b)) / b.secPerClus
  }

  /** The geometry YY_MountDrive derives for a volume starting at sector pb,
      every sector number reduced to uint32_t as the C code stores it. */
  function MountGeometry(pb: U32, b: Bpb): (g: Geometry)
    requires b.secPerClus != 0
  {
    var count := CountOfClusters(b);
    Geometry(
      FatTypeOf(count),
      pb,
      b.fatSize,
      ToSlide(b.secPerClus),
      Wrap8(b.secPerClus - 1),
      FatBeginOf(pb, b),
      RootDirFirstOf(pb, b),
      b.rootEntCnt as int,
      ClusterBeginOf(pb, b),
      count,
      b.rootClus)
  }

  function FatBeginOf(pb: U32, b: Bpb): U32
  {
    Wrap32(pb + b.rsvdSecCnt)
  }

  function RootDirFirstOf(pb: U32, b: Bpb): U32
  {
    Wrap32(pb + b.rsvdSecCnt + FatArea(b))
  }

  function ClusterBeginOf(pb: U32, b: Bpb): U32
  {
    Wrap32(pb + MetaSectors(b))
  }

  /** When the volume lies below 2^32 the regions follow one another: the
      reserved sectors, NumFATs copies of the FAT, the fixed root directory
      and the data area. */
  lemma MountLayout(pb: U32, b: Bpb)
    requires b.secPerClus != 0 && pb + MetaSectors(b) < Two32
    ensures var g := MountGeometry(pb, b);
      && g.fatBegin == pb + b.rsvdSecCnt
      && g.rootDirFirst == g.fatBegin + b.numFats * b.fatSize
      && g.clusterBegin == g.rootDirFirst + RootDirSectors(b.rootEntCnt)
  {
    var f := FatArea(b);
    assert MetaSectors(b) == b.rsvdSecCnt + f + RootDirSectors(b.rootEntCnt);
    assert FatBeginOf(pb, b) == pb + b.rsvdSecCnt;
    var x := pb + b.rsvdSecCnt + f;
    assert x + RootDirSectors(b.rootEntCnt) == pb + MetaSectors(b);
    assert RootDirFirstOf(pb, b) == Wrap32(x);
    assert Wrap32(x) == x;
    assert ClusterBeginOf(pb, b) == pb + MetaSectors(b);
  }

  /** The fixed root directory has room for every root entry, with less
      than one sector to spare. */
  lemma MountRootFits(pb: U32, b: Bpb)
    requires b.secPerClus != 0 && pb + MetaSectors(b) < Two32
    ensures var g := MountGeometry(pb, b);
      && 16 * (g.clusterBegin - g.rootDirFirst) >= g.rootDirEntries
      && 16 * (g.clusterBegin - g.rootDirFirst - 1) < g.rootDirEntries
  {
    MountLayout(pb, b);
  }

  /** The cluster count is the number of whole clusters in the data area
      when the data area does not underflow. */
  lemma MountClusters(pb: U32, b: Bpb)
    requires b.secPerClus != 0 && MetaSectors(b) <= b.totSec
    ensures var g := MountGeometry(pb, b);
      var n := b.totSec - MetaSectors(b);
      && g.countOfClusters * b.secPerClus <= n < (g.countOfClusters + 1) * b.secPerClus
      && g.fatType == FatTypeOf(n / b.secPerClus)
  {
    var n := b.totSec - MetaSectors(b);
    assert Wrap32(n) == n;
    var q := CountOfClusters(b);
    assert q == n / b.secPerClus;
    assert MountGeometry(pb, b).countOfClusters == q;
    DivBounds(n, b.secPerClus);
  }

  lemma MountSlide(pb: U32, b: Bpb, k: nat)
    requires k < 8 && b.secPerClus == Pow2(k)
    ensures var g := MountGeometry(pb, b);
      g.slide == k && g.mask as int == Pow2(k) - 1 && g.slide < 8
  {
    ToSlidePow2(k);
  }

  // ---------------------------------------------------------------------------
  // The slot table
  // ---------------------------------------------------------------------------

  /** The first slot from i on whose drive id is id. */
  function FindSlot(t: seq<Drive>, id: bv8, i: nat): (r: Option<nat>)
    ensures r.Some? ==> i <= r.value < |t| && t[r.value].id == id
    ensures r.Some? ==> forall j :: i <= j < r.value ==> t[j].id != id
    ensures r.None? ==> forall j :: i <= j < |t| ==> t[j].id != id
    decreases |t| - i
  {
    if i >= |t| then None
    else if t[i].id == id then Some(i)
    else FindSlot(t, id, i + 1)
  }

  /** The first row of the map for drive letter id. */
  function FindMap(maps: seq<MapEntry>, id: bv8, i: nat): (r: Option<MapEntry>)
    ensures r.Some? ==> r.value.id == id && exists j :: i <= j < |maps| && maps[j] == r.value
    ensures r.None? ==> forall j :: i <= j < |maps| ==> maps[j].id != id
    decreases |maps| - i
  {
    if i >= |maps| then None
    else if maps[i].id == id then Some(maps[i])
    else FindMap(maps, id, i + 1)
  }

  /** The drive a successful mount leaves in its slot: the letter, the
      derived geometry, cwd "X:/", an empty clean FAT cache (its tag
      0x0FFFFFFF names no sector of a FAT below 2^28 sectors; the buffer
      still holds the boot sector it was read into) and a cleared
      speed-up. */
  function MountedDrive(d: Drive, device: string, id: bv8, pb: U32, vol: Sector): (e: Drive)
    requires vol[13] != 0
    ensures e.id == id && e.device == device
    ensures e.cwd == [id as bv16, ':' as bv16, '/' as bv16]
    ensures !e.cache.dirty && e.cache.tag == 0x0fff_ffff && e.freeCursor == 0
  {
    Drive(device, id, [id as bv16, ':' as bv16, '/' as bv16],
          MountGeometry(pb, ParseBpb(vol)),
          d.cache.(table := vol, tag := 0x0fff_ffff, dirty := false), 0)
  }

  /** The mount of drive id into free slot n: the device must open and hold
      a mountable volume at the partition map[] names. */
  function MountInto(t: seq<Drive>, n: nat, devices: Devices, me: MapEntry, id: bv8): (r: (seq<Drive>, Option<nat>))
    requires n < |t|
    ensures |r.0| == |t| && forall j :: 0 <= j < |t| && j != n ==> r.0[j] == t[j]
    ensures r.1.None? ==> r.0[n].id == t[n].id
    ensures r.1.Some? ==> r.1.value == n && r.0[n].id == id
  {
    match OpenDevice(devices, me.device)
    case None => (t[n := t[n].(device := me.device)], None)
    case Some(disk) =>
      match FindVolume(disk, me.partition)
      case None => (t[n := t[n].(device := me.device)], None)
      case Some(found) =>
        if found.1[13] == 0 then (t[n := t[n].(device := me.device)], None)
        else (t[n := MountedDrive(t[n], me.device, id, found.0, found.1)], Some(n))
  }

  /** YY_MountDrive: the slot already holding drive id, else the first free
      slot with the drive mounted into it, else None.  A failed mount sets
      no drive id, so the slot stays free. */
  function MountDrive(t: seq<Drive>, devices: Devices, maps: seq<MapEntry>, id: bv8): (r: (seq<Drive>, Option<nat>))
    ensures |r.0| == |t|
    ensures FindSlot(t, id, 0).Some? ==> r == (t, FindSlot(t, id, 0))
    ensures r.1.Some? ==> r.1.value < |t| && r.0[r.1.value].id == id
    ensures r.1.None? ==> forall j :: 0 <= j < |t| ==> r.0[j].id == t[j].id
    ensures forall j :: 0 <= j < |t| && t[j].id != 0 ==> r.0[j] == t[j]
  {
    match FindSlot(t, id, 0)
    case Some(n) => (t, Some(n))
    case None =>
      match FindSlot(t, 0, 0)
      case None => (t, None)
      case Some(n) =>
        match FindMap(maps, id, 0)
        case None => (t, None)
        case Some(me) => MountInto(t, n, devices, me, id)
  }

  /** Every slot's cluster shift is one C can perform. */
  predicate SlidesOk(t: seq<Drive>)
  {
    forall j :: 0 <= j < |t| ==> t[j].geo.slide < 32
  }

  /** A mount keeps every slot's shift in range: a mounted cluster size is
      a non-zero byte, whose shift is below 8. */
  lemma MountKeepsSlides(t: seq<Drive>, devices: Devices, maps: seq<MapEntry>, id: bv8)
    requires SlidesOk(t)
    ensures SlidesOk(MountDrive(t, devices, maps, id).0)
    ensures MountDrive(t, devices, maps, id).1.Some? ==> MountDrive(t, devices, maps, id).0[MountDrive(t, devices, maps, id).1.value].geo.slide < 8 || FindSlot(t, id, 0).Some?
  {
    var r := MountDrive(t, devices, maps, id);
    if r.1.Some? && FindSlot(t, id, 0).None? {
      var n := r.1.value;
      var me := FindMap(maps, id, 0).value;
      var found := FindVolume(devices[me.device], me.partition).value;
      ToSlideLog(found.1[13] as int);
      assert r.0 == t[n := MountedDrive(t[n], me.device, id, found.0, found.1)];
    }
  }

  /** Mounting is idempotent: a second mount of a drive that mounted
      returns the same slot and changes nothing. */
  lemma MountTwice(t: seq<Drive>, devices: Devices, maps: seq<MapEntry>, id: bv8)
    requires MountDrive(t, devices, maps, id).1.Some?
    ensures var r := MountDrive(t, devices, maps, id);
      MountDrive(r.0, devices, maps, id) == r
  {
    var r := MountDrive(t, devices, maps, id);
    var n := r.1.value;
    if FindSlot(t, id, 0).None? {
      var f := FindSlot(t, 0, 0);
      assert f == Some(n);
      assert forall j :: 0 <= j < n ==> r.0[j].id != id;
      assert FindSlot(r.0, id, 0) == Some(n) by {
        FindSlotFirst(r.0, id, n);
      }
    }
  }

  lemma FindSlotFirst(t: seq<Drive>, id: bv8, n: nat)
    requires n < |t| && t[n].id == id && forall j :: 0 <= j < n ==> t[j].id != id
    ensures FindSlot(t, id, 0) == Some(n)
  {
  }

  /** When does a mount succeed: when the drive is already in the table, or
      when a slot is free, map[] knows the letter, the device opens and the
      partition holds a signed 512-byte-sector volume whose cluster size
      is not zero. */
  lemma MountSucceeds(t: seq<Drive>, devices: Devices, maps: seq<MapEntry>, id: bv8)
    ensures MountDrive(t, devices, maps, id).1.Some? <==>
      || FindSlot(t, id, 0).Some?
      || (&& FindSlot(t, 0, 0).Some?
          && FindMap(maps, id, 0).Some?
          && FindMap(maps, id, 0).value.device in devices
          && var f := FindVolume(devices[FindMap(maps, id, 0).value.device], FindMap(maps, id, 0).value.partition);
             f.Some? && f.value.1[13] != 0)
  {
  }
}

=== FILE: entries.dfy ===
/** YY_GetClusterEntry, YY_SetClusterEntry and YY_GetNextSector: FAT entries
    of every width, read and written through the one-sector cache, and the
    walk from one sector of a chain to the next. */
module Entries {
  import opened Uint
  import opened FatTypes
  import opened Fat12
  import opened Clusters
  import opened FatEntries

  // ---------------------------------------------------------------------------
  // The entry the engine sees
  // ---------------------------------------------------------------------------

  /** The bits of an entry the engine keeps: all twelve of a FAT12 entry, all
      sixteen of a FAT16 entry, the low 28 of a FAT32 entry (the top four are
      reserved). */
  function EntryMask(ft: FatType): (m: bv32)
  {
    match ft
    case Fat32 => 0x0fff_ffff
    case Fat16 => 0xffff
    case _ => 0xfff
  }

  /** What an entry keeps of a value stored into it. */
  function Kept(ft: FatType, x: bv32): bv32
  {
    x & EntryMask(ft)
  }

  /** The end-of-chain mark the engine writes: every bit of the entry set. */
  predicate IsEndOfChain(ft: FatType, e: bv32)
  {
    e == EntryMask(ft)
  }

  /** Whole entry c lies inside the FAT.  get12bitsFAT takes its index as a
      uint16_t, so a FAT12 cluster number is cut to 16 bits first; a drive
      of unknown type is read as FAT12, as YY_GetClusterEntry does. */
  predicate InFat(d: Drive, c: U32)
  {
    match d.geo.fatType
    case Fat32 => c / 128 < d.geo.fatSize
    case Fat16 => c / 256 < d.geo.fatSize
    case _ => 3 * (Wrap16(c) / 1024) + TriadLast(Wrap16(c) % 1024) < d.geo.fatSize
  }

  /** Entry c of the FAT the engine sees, at the drive's width: a 32-bit
      word with its top four bits dropped, a 16-bit word, or twelve bits of
      the triad read flat. */
  function EntryInFat(v: Vol, c: U32): (e: bv32)
  {
    match v.drive.geo.fatType
    case Fat32 => Entry32(v, c) & 0x0fff_ffff
    case Fat16 => Entry16(v, c) as bv32
    case _ => Entry12(v, Wrap16(c)) as bv32
  }

  /** The 32-bit word of FAT32 entry c, top four bits included. */
  function Entry32(v: Vol, c: U32): bv32
  {
    Le32At(View(v, c / 128), c % 128)
  }

  /** FAT16 entry c. */
  function Entry16(v: Vol, c: U32): bv16
  {
    Le16At(View(v, c / 256), c % 256)
  }

  /** Entry n of a FAT12 as the engine sees it: entry n % 1024 of the flat
      triad n / 1024. */
  function Entry12(v: Vol, n: U16): bv16
  {
    Get12A(Flat(TriadView(v, n / 1024)), n % 1024)
  }

  /** Two cluster numbers that address the same FAT entry. */
  predicate SameEntry(ft: FatType, c: U32, c2: U32)
  {
    if ft == Fat32 || ft == Fat16 then c == c2 else Wrap16(c) == Wrap16(c2)
  }

  // ---------------------------------------------------------------------------
  // YY_GetClusterEntry
  // ---------------------------------------------------------------------------

  /** YY_GetClusterEntry: the drive after the cache has moved, and the entry. */
  function GetClusterEntry(v: Vol, c: U32): (r: (Vol, bv32))
  {
    match v.drive.geo.fatType
    case Fat32 =>
      var w := GetFatSector(v, c / 128);
      (w, Le32At(w.drive.cache.table, c % 128) & 0x0fff_ffff)
    case Fat16 =>
      var w := GetFatSector(v, c / 256);
      (w, Le16At(w.drive.cache.table, c % 256) as bv32)
    case _ =>
      var g := Get12Fat(v, Wrap16(c));
      (g.0, g.1 as bv32)
  }

  /** The engine only reads the FAT while getting an entry: the view does
      not change, and the value returned is the entry in the view. */
  lemma GetClusterEntryReads(v: Vol, c: U32)
    requires CacheOk(v) && InFat(v.drive, c)
    ensures var r := GetClusterEntry(v, c);
      && CacheOk(r.0) && SameFat(v, r.0) && OnlyCache(v.drive, r.0.drive)
      && r.1 == EntryInFat(v, c)
  {
    match v.drive.geo.fatType
    case Fat32 => GetEntry32Reads(v, c);
    case Fat16 => GetEntry16Reads(v, c);
    case _ => GetEntry12Reads(v, c);
  }

  lemma GetEntry32Reads(v: Vol, c: U32)
    requires v.drive.geo.fatType == Fat32 && CacheOk(v) && InFat(v.drive, c)
    ensures var r := GetClusterEntry(v, c);
      && CacheOk(r.0) && SameFat(v, r.0) && OnlyCache(v.drive, r.0.drive)
      && r.1 == EntryInFat(v, c)
  {
    GetFatSectorView(v, c / 128);
    EntryInFat32(v, c);
  }

  lemma GetEntry16Reads(v: Vol, c: U32)
    requires v.drive.geo.fatType == Fat16 && CacheOk(v) && InFat(v.drive, c)
    ensures var r := GetClusterEntry(v, c);
      && CacheOk(r.0) && SameFat(v, r.0) && OnlyCache(v.drive, r.0.drive)
      && r.1 == EntryInFat(v, c)
  {
    GetFatSectorView(v, c / 256);
    EntryInFat16(v, c);
  }

  lemma GetEntry12Reads(v: Vol, c: U32)
    requires v.drive.geo.fatType != Fat32 && v.drive.geo.fatType != Fat16 && CacheOk(v) && InFat(v.drive, c)
    ensures var r := GetClusterEntry(v, c);
      && CacheOk(r.0) && SameFat(v, r.0) && OnlyCache(v.drive, r.0.drive)
      && r.1 == EntryInFat(v, c)
  {
    Get12FatReads(v, Wrap16(c));
    EntryInFat12(v, c);
  }

  // ---------------------------------------------------------------------------
  // YY_SetClusterEntry
  // ---------------------------------------------------------------------------

  /** The 32-bit word the FAT32 branch stores: the old reserved top four
      bits with the low 28 bits of the value. */
  function Merge32(stored: bv32, value: bv32): bv32
  {
    (stored & 0xf000_0000) | (value & 0x0fff_ffff)
  }

  lemma Merge32Bits(stored: bv32, value: bv32)
    ensures Merge32(stored, value) & 0xf000_0000 == stored & 0xf000_0000
    ensures Merge32(stored, value) & 0x0fff_ffff == value & 0x0fff_ffff
  {
  }

  lemma Low16Bits(x: bv32)
    ensures ((x & 0xffff) as bv16) as bv32 == Kept(Fat16, x)
  {
  }

  /** YY_SetClusterEntry: the entry is written through the cache and the
      cache is marked dirty.  A drive of unknown FAT type is left alone. */
  function SetClusterEntry(v: Vol, c: U32, x: bv32): (w: Vol)
  {
    match v.drive.geo.fatType
    case Fat32 =>
      var w := GetFatSector(v, c / 128);
      var tbl := w.drive.cache.table;
      Store(w, w.drive.cache.(table := Put32At(tbl, c % 128, Merge32(Le32At(tbl, c % 128), x))), true)
    case Fat16 =>
      var w := GetFatSector(v, c / 256);
      var tbl := w.drive.cache.table;
      Store(w, w.drive.cache.(table := Put16At(tbl, c % 256, (x & 0xffff) as bv16)), true)
    case Fat12 => MarkDirty(Set12Fat(v, Wrap16(c), (x & 0xfff) as bv16))
    case UnknownFat => v
  }

  /** A store into one FAT sector s through the cache: sector s now reads
      tbl and no other sector of the view changed. */
  lemma SectorStored(v: Vol, s: U32, tbl: Sector)
    requires CacheOk(v) && s < v.drive.geo.fatSize
    ensures var w0 := GetFatSector(v, s);
      var w := Store(w0, w0.drive.cache.(table := tbl), true);
      && w0.drive.cache.table == View(v, s)
      && Changed(v, w, s, tbl)
  {
    GetFatSectorView(v, s);
    var w0 := GetFatSector(v, s);
    StoreChanged(v, w0, w0.drive.cache.(table := tbl));
  }

  /** The entry of a FAT32 or FAT16 store, just after it: sector s of the
      view holds the new table, every other sector is as it was. */
  lemma WideStore(v: Vol, c: U32, x: bv32)
    requires v.drive.geo.fatType == Fat32 || v.drive.geo.fatType == Fat16
    requires CacheOk(v) && InFat(v.drive, c)
    ensures var n := if v.drive.geo.fatType == Fat32 then 128 else 256;
      var tbl := View(v, c / n);
      var nt := if v.drive.geo.fatType == Fat32 then Put32At(tbl, c % 128, Merge32(Le32At(tbl, c % 128), x))
                else Put16At(tbl, c % 256, (x & 0xffff) as bv16);
      Changed(v, SetClusterEntry(v, c, x), c / n, nt)
  {
    var n := if v.drive.geo.fatType == Fat32 then 128 else 256;
    var s := c / n;
    var w0 := GetFatSector(v, s);
    var tbl := w0.drive.cache.table;
    var nt := if v.drive.geo.fatType == Fat32 then Put32At(tbl, c % 128, Merge32(Le32At(tbl, c % 128), x))
              else Put16At(tbl, c % 256, (x & 0xffff) as bv16);
    SectorStored(v, s, nt);
    assert SetClusterEntry(v, c, x) == Store(w0, w0.drive.cache.(table := nt), true);
  }

  /** A FAT32 view in which only word c % 128 of sector c / 128 changed,
      to m. */
  ghost predicate Word32Set(v: Vol, w: Vol, c: U32, m: bv32)
  {
    && OnlyCache(v.drive, w.drive)
    && (forall r: int :: r != c / 128 ==> View(w, r) == View(v, r))
    && (forall j :: 0 <= j < 128 ==>
          Le32At(View(w, c / 128), j) == if j == c % 128 then m else Le32At(View(v, c / 128), j))
  }

  /** The same for word c % 256 of a FAT16 sector. */
  ghost predicate Word16Set(v: Vol, w: Vol, c: U32, h: bv16)
  {
    && OnlyCache(v.drive, w.drive)
    && (forall r: int :: r != c / 256 ==> View(w, r) == View(v, r))
    && (forall j :: 0 <= j < 256 ==>
          Le16At(View(w, c / 256), j) == if j == c % 256 then h else Le16At(View(v, c / 256), j))
  }

  lemma Word32SetOf(v: Vol, w: Vol, c: U32, m: bv32)
    requires Changed(v, w, c / 128, Put32At(View(v, c / 128), c % 128, m))
    ensures Word32Set(v, w, c, m)
  {
    forall j | 0 <= j < 128
      ensures Le32At(View(w, c / 128), j) == if j == c % 128 then m else Le32At(View(v, c / 128), j)
    {
      GetPut32(View(v, c / 128), c % 128, m, j);
    }
  }

  lemma Word16SetOf(v: Vol, w: Vol, c: U32, h: bv16)
    requires Changed(v, w, c / 256, Put16At(View(v, c / 256), c % 256, h))
    ensures Word16Set(v, w, c, h)
  {
    forall j | 0 <= j < 256
      ensures Le16At(View(w, c / 256), j) == if j == c % 256 then h else Le16At(View(v, c / 256), j)
    {
      GetPut16(View(v, c / 256), c % 256, h, j);
    }
  }

  /** Two cluster numbers with the same sector and word are the same. */
  lemma SameWord(c: int, c2: int, n: int)
    requires n > 0 && c / n == c2 / n && c % n == c2 % n
    ensures c == c2
  {
  }

  lemma EntryInFat32(v: Vol, c: U32)
    requires v.drive.geo.fatType == Fat32
    ensures EntryInFat(v, c) == Entry32(v, c) & 0x0fff_ffff
  {
  }

  lemma EntryInFat16(v: Vol, c: U32)
    requires v.drive.geo.fatType == Fat16
    ensures EntryInFat(v, c) == Entry16(v, c) as bv32
  {
  }

  lemma EntryInFat12(v: Vol, c: U32)
    requires v.drive.geo.fatType != Fat32 && v.drive.geo.fatType != Fat16
    ensures EntryInFat(v, c) == Entry12(v, Wrap16(c)) as bv32
  {
  }

  /** Only word c changed: it reads m, every other word as before. */
  lemma Word32Read(v: Vol, w: Vol, c: U32, m: bv32, c2: U32)
    requires Word32Set(v, w, c, m)
    ensures Entry32(w, c2) == if c2 == c then m else Entry32(v, c2)
  {
    if c2 / 128 != c / 128 {
      assert View(w, c2 / 128) == View(v, c2 / 128);
    } else if c2 != c {
      assert c2 % 128 != c % 128 by {
        if c2 % 128 == c % 128 {
          SameWord(c, c2, 128);
        }
      }
    }
  }

  lemma Word16Read(v: Vol, w: Vol, c: U32, h: bv16, c2: U32)
    requires Word16Set(v, w, c, h)
    ensures Entry16(w, c2) == if c2 == c then h else Entry16(v, c2)
  {
    if c2 / 256 != c / 256 {
      assert View(w, c2 / 256) == View(v, c2 / 256);
    } else if c2 != c {
      assert c2 % 256 != c % 256 by {
        if c2 % 256 == c % 256 {
          SameWord(c, c2, 256);
        }
      }
    }
  }

  /** A FAT32 view in which only entry c changed, to hold m: entry c reads
      m without its top four bits, the rest as before. */
  lemma Entry32Done(v: Vol, w: Vol, c: U32, m: bv32, c2: U32)
    requires v.drive.geo.fatType == Fat32 && Word32Set(v, w, c, m)
    ensures EntryInFat(w, c2) == if c2 == c then m & 0x0fff_ffff else EntryInFat(v, c2)
  {
    assert w.drive.geo.fatType == Fat32;
    Word32Read(v, w, c, m, c2);
    EntryInFat32(w, c2);
    EntryInFat32(v, c2);
  }

  /** The same for a FAT16 view and a 16-bit entry h. */
  lemma Entry16Done(v: Vol, w: Vol, c: U32, h: bv16, c2: U32)
    requires v.drive.geo.fatType == Fat16 && Word16Set(v, w, c, h)
    ensures EntryInFat(w, c2) == if c2 == c then h as bv32 else EntryInFat(v, c2)
  {
    assert w.drive.geo.fatType == Fat16;
    Word16Read(v, w, c, h, c2);
    EntryInFat16(w, c2);
    EntryInFat16(v, c2);
  }

  /** A FAT12 view after set12bitsFAT stored x at entry i of triad t, seen
      through the cluster numbers: entry c reads x, the rest as before. */
  lemma Entry12Done(v: Vol, w: Vol, c: U32, x: bv16, c2: U32)
    requires v.drive.geo.fatType == Fat12 && x as int < 0x1000
    requires Set12Done(v, w, Wrap16(c) / 1024, Wrap16(c) % 1024, x)
    ensures EntryInFat(w, c2) == if Wrap16(c2) == Wrap16(c) then x as bv32 else EntryInFat(v, c2)
  {
    assert w.drive.geo.fatType == Fat12;
    Entry12Read(v, w, Wrap16(c), x, Wrap16(c2));
    Entry12Lift(v, w, c, x, c2);
  }

  lemma Entry12Lift(v: Vol, w: Vol, c: U32, x: bv16, c2: U32)
    requires v.drive.geo.fatType == Fat12 && w.drive.geo.fatType == Fat12
    requires Entry12(w, Wrap16(c2)) == if Wrap16(c2) == Wrap16(c) then x else Entry12(v, Wrap16(c2))
    ensures EntryInFat(w, c2) == if Wrap16(c2) == Wrap16(c) then x as bv32 else EntryInFat(v, c2)
  {
    if Wrap16(c2) == Wrap16(c) {
      Entry12LiftSame(w, c2, x);
    } else {
      Entry12LiftOther(v, w, c2);
    }
  }

  lemma Entry12LiftSame(w: Vol, c2: U32, x: bv16)
    requires w.drive.geo.fatType == Fat12 && Entry12(w, Wrap16(c2)) == x
    ensures EntryInFat(w, c2) == x as bv32
  {
    EntryInFat12(w, c2);
  }

  lemma Entry12LiftOther(v: Vol, w: Vol, c2: U32)
    requires v.drive.geo.fatType == Fat12 && w.drive.geo.fatType == Fat12
    requires Entry12(w, Wrap16(c2)) == Entry12(v, Wrap16(c2))
    ensures EntryInFat(w, c2) == EntryInFat(v, c2)
  {
    EntryInFat12(w, c2);
    EntryInFat12(v, c2);
  }

  /** After set12bitsFAT stored x at entry n, entry n reads x and every
      other entry as before. */
  lemma Entry12Read(v: Vol, w: Vol, n: U16, x: bv16, n2: U16)
    requires x as int < 0x1000
    requires Set12Done(v, w, n / 1024, n % 1024, x)
    ensures Entry12(w, n2) == if n2 == n then x else Entry12(v, n2)
  {
    if n2 / 1024 == n / 1024 {
      Entry12SameTriad(v, w, n, x, n2);
    } else {
      Entry12OtherTriad(v, w, n, x, n2);
    }
  }

  /** Within the written triad only the written entry changes. */
  lemma Entry12SameTriad(v: Vol, w: Vol, n: U16, x: bv16, n2: U16)
    requires x as int < 0x1000 && n2 / 1024 == n / 1024
    requires Set12Done(v, w, n / 1024, n % 1024, x)
    ensures Entry12(w, n2) == if n2 == n then x else Entry12(v, n2)
  {
    var a := Flat(TriadView(v, n / 1024));
    if n2 % 1024 == n % 1024 {
      SameWord(n, n2, 1024);
      GetSet12A(a, n % 1024, x);
    } else {
      GetSet12AOther(a, n % 1024, n2 % 1024, x);
    }
  }

  /** Entries of the other triads are untouched. */
  lemma Entry12OtherTriad(v: Vol, w: Vol, n: U16, x: bv16, n2: U16)
    requires n2 / 1024 != n / 1024
    requires Set12Done(v, w, n / 1024, n % 1024, x)
    ensures Entry12(w, n2) == Entry12(v, n2)
  {
    var t2 := n2 / 1024;
    assert View(w, 3 * t2) == View(v, 3 * t2);
    assert View(w, 3 * t2 + 1) == View(v, 3 * t2 + 1);
    assert View(w, 3 * t2 + 2) == View(v, 3 * t2 + 2);
  }

  /** The value set12bitsFAT is given: the low twelve bits. */
  lemma Low12Bits(x: bv32)
    ensures ((x & 0xfff) as bv16) as int < 0x1000
    ensures ((x & 0xfff) as bv16) as bv32 == Kept(Fat12, x)
  {
  }

  lemma SetEntry32(v: Vol, c: U32, value: bv32, c2: U32)
    requires v.drive.geo.fatType == Fat32
    requires CacheOk(v) && InFat(v.drive, c)
    ensures EntryInFat(SetClusterEntry(v, c, value), c2) == if c2 == c then Kept(Fat32, value) else EntryInFat(v, c2)
  {
    var tbl := View(v, c / 128);
    var m := Merge32(Le32At(tbl, c % 128), value);
    WideStore(v, c, value);
    Word32SetOf(v, SetClusterEntry(v, c, value), c, m);
    Entry32Done(v, SetClusterEntry(v, c, value), c, m, c2);
    Merge32Bits(Le32At(tbl, c % 128), value);
  }

  lemma SetEntry16(v: Vol, c: U32, value: bv32, c2: U32)
    requires v.drive.geo.fatType == Fat16
    requires CacheOk(v) && InFat(v.drive, c)
    ensures EntryInFat(SetClusterEntry(v, c, value), c2) == if c2 == c then Kept(Fat16, value) else EntryInFat(v, c2)
  {
    WideStore(v, c, value);
    Word16SetOf(v, SetClusterEntry(v, c, value), c, (value & 0xffff) as bv16);
    Entry16Done(v, SetClusterEntry(v, c, value), c, (value & 0xffff) as bv16, c2);
    Low16Bits(value);
  }

  lemma SetEntry12(v: Vol, c: U32, value: bv32, c2: U32)
    requires v.drive.geo.fatType == Fat12
    requires CacheOk(v) && InFat(v.drive, c)
    ensures EntryInFat(SetClusterEntry(v, c, value), c2)
            == if Wrap16(c2) == Wrap16(c) then Kept(Fat12, value) else EntryInFat(v, c2)
  {
    var x := (value & 0xfff) as bv16;
    Set12FatWrites(v, Wrap16(c), x);
    Low12Bits(value);
    Entry12Done(v, SetClusterEntry(v, c, value), c, x, c2);
  }

  /** What YY_SetClusterEntry leaves: entry c holds the value cut to the
      FAT's width, and every entry that is not the same one is as it was. */
  lemma SetEntryValue(v: Vol, c: U32, value: bv32, c2: U32)
    requires v.drive.geo.fatType != UnknownFat
    requires CacheOk(v) && InFat(v.drive, c)
    ensures var w := SetClusterEntry(v, c, value);
      EntryInFat(w, c2) == if SameEntry(v.drive.geo.fatType, c, c2) then Kept(v.drive.geo.fatType, value) else EntryInFat(v, c2)
  {
    match v.drive.geo.fatType
    case Fat32 => SetEntry32(v, c, value, c2);
    case Fat16 => SetEntry16(v, c, value, c2);
    case Fat12 => SetEntry12(v, c, value, c2);
  }

  /** YY_SetClusterEntry keeps the cache sound and changes nothing but the
      cache. */
  lemma SetEntryState(v: Vol, c: U32, value: bv32)
    requires v.drive.geo.fatType != UnknownFat
    requires CacheOk(v) && InFat(v.drive, c)
    ensures var w := SetClusterEntry(v, c, value);
      CacheOk(w) && OnlyCache(v.drive, w.drive)
  {
    match v.drive.geo.fatType
    case Fat32 => WideStore(v, c, value);
    case Fat16 => WideStore(v, c, value);
    case Fat12 => Set12FatWrites(v, Wrap16(c), (value & 0xfff) as bv16);
  }

  /** The FAT32 branch keeps the four reserved bits of the stored word. */
  lemma SetClusterEntryKeepsReserved(v: Vol, c: U32, value: bv32)
    requires v.drive.geo.fatType == Fat32
    requires CacheOk(v) && InFat(v.drive, c)
    ensures Le32At(View(SetClusterEntry(v, c, value), c / 128), c % 128) & 0xf000_0000
            == Le32At(View(v, c / 128), c % 128) & 0xf000_0000
  {
    var s := c / 128;
    var w0 := GetFatSector(v, s);
    var tbl := w0.drive.cache.table;
    var m := Merge32(Le32At(tbl, c % 128), value);
    SectorStored(v, s, Put32At(tbl, c % 128, m));
    GetPut32(tbl, c % 128, m, c % 128);
    Merge32Bits(Le32At(tbl, c % 128), value);
  }

  // ---------------------------------------------------------------------------
  // YY_GetNextSector
  // ---------------------------------------------------------------------------

  /** What the cluster arithmetic needs of a mounted drive: a cluster of at
      most 128 sectors and the mask one less than the cluster size. */
  predicate ClusterGeometry(d: Drive)
  {
    && d.geo.slide < 8
    && d.geo.mask as int == Pow2(d.geo.slide) - 1
  }

  /** Where a chain goes from a cluster whose entry is e: nowhere (0) at the
      end-of-chain mark, otherwise to the first sector of cluster e. */
  function FollowEntry(d: Drive, e: bv32): U32
    requires d.geo.slide < 32
  {
    if IsEndOfChain(d.geo.fatType, e) then 0 else ClusterToSector(d, e as int)
  }

  /** Reads the entry of cluster c and follows it. */
  function FollowFrom(v: Vol, c: U32): (r: (Vol, U32))
    requires v.drive.geo.slide < 32
  {
    var e := GetClusterEntry(v, c);
    (e.0, FollowEntry(v.drive, e.1))
  }

  /** w is what a FAT read leaves of v: a sound cache, the same FAT
      contents and nothing but the cache changed. */
  ghost predicate ReadStep(v: Vol, w: Vol)
  {
    CacheOk(w) && SameFat(v, w) && OnlyCache(v.drive, w.drive)
  }

  lemma ReadStepRefl(v: Vol)
    requires CacheOk(v)
    ensures ReadStep(v, v)
  {
  }

  lemma FollowFromReads(v: Vol, c: U32)
    requires v.drive.geo.slide < 32 && CacheOk(v) && InFat(v.drive, c)
    ensures var r := FollowFrom(v, c);
      ReadStep(v, r.0) && r.1 == FollowEntry(v.drive, EntryInFat(v, c))
  {
    GetClusterEntryReads(v, c);
  }

  /** YY_GetNextSector: the sector after s in its chain, or 0 at the end.
      Below the data area (the FAT12/16 root directory) it counts up to the
      data area; inside a cluster it steps by one; at the end of a cluster
      it follows the FAT, and stops at the end-of-chain mark of the drive's
      FAT width.  The end of a cluster is found by masking the sector's
      offset from the start of the data area. */
  function GetNextSector(v: Vol, s: U32): (r: (Vol, U32))
    requires v.drive.geo.slide < 32
  {
    var d := v.drive;
    if s < d.geo.clusterBegin then
      var n := Wrap32(s + 1);
      (v, if n >= d.geo.clusterBegin then 0 else n)
    else if BitAnd(Wrap32(s + 1 - d.geo.clusterBegin), d.geo.mask) != 0 then (v, Wrap32(s + 1))
    else FollowFrom(v, SectorToCluster(d, s))
  }

  /** Whatever the FAT holds, finding the next sector changes nothing but
      the drive's FAT cache, and a flush on the way writes only sectors
      the device has. */
  lemma GetNextSectorShape(v: Vol, s: U32)
    requires v.drive.geo.slide < 32
    ensures OnlyCache(v.drive, GetNextSector(v, s).0.drive)
    ensures GetNextSector(v, s).0.disk.Keys == v.disk.Keys
  {
    var d := v.drive;
    if s >= d.geo.clusterBegin && BitAnd(Wrap32(s + 1 - d.geo.clusterBegin), d.geo.mask) == 0 {
      GetClusterEntryShape(v, SectorToCluster(d, s));
    }
  }

  lemma GetClusterEntryShape(v: Vol, c: U32)
    ensures OnlyCache(v.drive, GetClusterEntry(v, c).0.drive)
    ensures GetClusterEntry(v, c).0.disk.Keys == v.disk.Keys
  {
  }

  /** YY_GetNextSector as written.  It masks the absolute sector number,
      so it finds a cluster's end only where the data area starts on a
      cluster boundary; and only the FAT32 mark 0x0FFFFFFF ends a chain, so
      the FAT12 and FAT16 marks are followed as cluster numbers. */
  function GetNextSectorAsWritten(v: Vol, s: U32): (r: (Vol, U32))
    requires v.drive.geo.slide < 32
  {
    var d := v.drive;
    if s < d.geo.clusterBegin then
      var n := Wrap32(s + 1);
      (v, if n >= d.geo.clusterBegin then 0 else n)
    else if BitAnd(Wrap32(s + 1), d.geo.mask) != 0 then (v, Wrap32(s + 1))
    else
      var e := GetClusterEntry(v, SectorToCluster(d, s));
      (e.0, if e.1 == 0x0fff_ffff then 0 else ClusterToSector(d, e.1 as int))
  }

  /** Masking a sector's offset from the start of the data area gives its
      position within its cluster. */
  lemma MaskedOffset(d: Drive, x: nat)
    requires ClusterGeometry(d) && x < Two32
    ensures BitAnd(Wrap32(x), d.geo.mask) == x % Pow2(d.geo.slide)
  {
    assert Wrap32(x) == x;
    BitAndLowMask(x, d.geo.slide);
  }

  /** The mask test finds a cluster's end exactly where the count from the
      start of the data area does. */
  lemma ClusterEndIff(d: Drive, s: U32)
    requires ClusterGeometry(d) && d.geo.clusterBegin <= s && s + 1 < Two32
    ensures (BitAnd(Wrap32(s + 1 - d.geo.clusterBegin), d.geo.mask) == 0)
      == ((s + 1 - d.geo.clusterBegin) % Pow2(d.geo.slide) == 0)
  {
    MaskedOffset(d, s + 1 - d.geo.clusterBegin);
  }

  /** Masking the absolute sector number finds the same position within a
      cluster as the offset from the data area does, when the data area
      starts on a cluster boundary. */
  lemma AlignedClusterEndIff(d: Drive, s: U32)
    requires ClusterGeometry(d) && d.geo.clusterBegin % Pow2(d.geo.slide) == 0
    requires d.geo.clusterBegin <= s && s + 1 < Two32
    ensures (BitAnd(Wrap32(s + 1), d.geo.mask) == 0) == ((s + 1 - d.geo.clusterBegin) % Pow2(d.geo.slide) == 0)
  {
    assert Wrap32(s + 1) == s + 1;
    BitAndLowMask(s + 1, d.geo.slide);
    ModSubMultiple(s + 1, d.geo.clusterBegin, Pow2(d.geo.slide));
  }

  /** The sector after s in its chain, from the cluster arithmetic: through
      the fixed root directory up to the data area, one sector further
      inside a cluster, and at a cluster's end to the first sector of the
      cluster its entry names (0 after the last cluster). */
  function NextInChain(v: Vol, s: U32): U32
    requires v.drive.geo.slide < 32
  {
    var d := v.drive;
    if s < d.geo.clusterBegin then (if s + 1 < d.geo.clusterBegin then s + 1 else 0)
    else if (s + 1 - d.geo.clusterBegin) % Pow2(d.geo.slide) != 0 then Wrap32(s + 1)
    else FollowEntry(d, EntryInFat(v, SectorToCluster(d, s)))
  }

  /** At the end of a cluster the code reads the entry of s's cluster. */
  lemma NextAtClusterEnd(v: Vol, s: U32)
    requires ClusterGeometry(v.drive) && CacheOk(v) && s + 1 < Two32
    requires s >= v.drive.geo.clusterBegin && BitAnd(Wrap32(s + 1 - v.drive.geo.clusterBegin), v.drive.geo.mask) == 0
    requires InFat(v.drive, SectorToCluster(v.drive, s))
    ensures var r := GetNextSector(v, s);
      ReadStep(v, r.0) && r.1 == NextInChain(v, s)
  {
    ClusterEndIff(v.drive, s);
    StepAtClusterEnd(v, s);
    FollowFromReads(v, SectorToCluster(v.drive, s));
  }

  lemma StepAtClusterEnd(v: Vol, s: U32)
    requires v.drive.geo.slide < 32 && s >= v.drive.geo.clusterBegin
    requires BitAnd(Wrap32(s + 1 - v.drive.geo.clusterBegin), v.drive.geo.mask) == 0
    requires (s + 1 - v.drive.geo.clusterBegin) % Pow2(v.drive.geo.slide) == 0
    ensures var c := SectorToCluster(v.drive, s);
      GetNextSector(v, s) == FollowFrom(v, c) && NextInChain(v, s) == FollowEntry(v.drive, EntryInFat(v, c))
  {
  }

  /** Inside a cluster the next sector is the following one. */
  lemma NextInCluster(v: Vol, s: U32)
    requires ClusterGeometry(v.drive) && CacheOk(v) && s + 1 < Two32
    requires s >= v.drive.geo.clusterBegin && BitAnd(Wrap32(s + 1 - v.drive.geo.clusterBegin), v.drive.geo.mask) != 0
    ensures var r := GetNextSector(v, s);
      ReadStep(v, r.0) && r.1 == NextInChain(v, s)
  {
    ClusterEndIff(v.drive, s);
    StepInCluster(v, s);
    ReadStepRefl(v);
  }

  lemma StepInCluster(v: Vol, s: U32)
    requires v.drive.geo.slide < 32 && s >= v.drive.geo.clusterBegin
    requires BitAnd(Wrap32(s + 1 - v.drive.geo.clusterBegin), v.drive.geo.mask) != 0
    requires (s + 1 - v.drive.geo.clusterBegin) % Pow2(v.drive.geo.slide) != 0
    ensures GetNextSector(v, s) == (v, Wrap32(s + 1)) && NextInChain(v, s) == Wrap32(s + 1)
  {
  }

  /** Below the data area the sectors are counted up to it. */
  lemma NextInRoot(v: Vol, s: U32)
    requires v.drive.geo.slide < 32 && CacheOk(v) && s < v.drive.geo.clusterBegin
    ensures var r := GetNextSector(v, s);
      ReadStep(v, r.0) && r.1 == NextInChain(v, s)
  {
    assert GetNextSector(v, s) == (v, NextInChain(v, s));
    ReadStepRefl(v);
  }

  /** YY_GetNextSector moves on as the cluster arithmetic says, wherever
      the data area starts.  Only at a cluster's end does it read the FAT,
      and it never changes what the FAT holds. */
  lemma GetNextSectorSteps(v: Vol, s: U32)
    requires ClusterGeometry(v.drive) && CacheOk(v) && s + 1 < Two32
    requires s >= v.drive.geo.clusterBegin ==> InFat(v.drive, SectorToCluster(v.drive, s))
    ensures var r := GetNextSector(v, s);
      ReadStep(v, r.0) && r.1 == NextInChain(v, s)
  {
    var d := v.drive;
    if s < d.geo.clusterBegin {
      NextInRoot(v, s);
    } else if BitAnd(Wrap32(s + 1 - d.geo.clusterBegin), d.geo.mask) == 0 {
      NextAtClusterEnd(v, s);
    } else {
      NextInCluster(v, s);
    }
  }

  /** The as-written end-of-chain test misses a FAT16 chain's last cluster:
      where the correct walk stops, the code goes on to the first sector of
      cluster 0xFFFF (on a data area aligned to clusters, where the two
      mask tests agree). */
  lemma GetNextSectorAsWrittenRunsOn(v: Vol, s: U32)
    requires v.drive.geo.fatType == Fat16
    requires ClusterGeometry(v.drive) && CacheOk(v) && s + 1 < Two32
    requires v.drive.geo.clusterBegin % Pow2(v.drive.geo.slide) == 0
    requires v.drive.geo.clusterBegin <= s && v.drive.geo.clusterBegin < 0xff00_0000
    requires (s + 1 - v.drive.geo.clusterBegin) % Pow2(v.drive.geo.slide) == 0
    requires InFat(v.drive, SectorToCluster(v.drive, s))
    requires EntryInFat(v, SectorToCluster(v.drive, s)) == 0xffff
    ensures GetNextSector(v, s).1 == 0
    ensures GetNextSectorAsWritten(v, s).1 == ClusterToSector(v.drive, 0xffff) != 0
  {
    GetNextSectorSteps(v, s);
    MarkEndsChain(v, s);
    AsWrittenFollowsMark(v, s);
    ClusterFfffInRange(v.drive);
  }

  lemma MarkEndsChain(v: Vol, s: U32)
    requires v.drive.geo.fatType == Fat16 && v.drive.geo.slide < 32
    requires v.drive.geo.clusterBegin <= s && (s + 1 - v.drive.geo.clusterBegin) % Pow2(v.drive.geo.slide) == 0
    requires EntryInFat(v, SectorToCluster(v.drive, s)) == 0xffff
    ensures NextInChain(v, s) == 0
  {
  }

  lemma AsWrittenFollowsMark(v: Vol, s: U32)
    requires ClusterGeometry(v.drive) && CacheOk(v) && s + 1 < Two32
    requires v.drive.geo.clusterBegin % Pow2(v.drive.geo.slide) == 0
    requires v.drive.geo.clusterBegin <= s && (s + 1 - v.drive.geo.clusterBegin) % Pow2(v.drive.geo.slide) == 0
    requires InFat(v.drive, SectorToCluster(v.drive, s))
    requires EntryInFat(v, SectorToCluster(v.drive, s)) == 0xffff
    ensures GetNextSectorAsWritten(v, s).1 == ClusterToSector(v.drive, 0xffff)
  {
    AlignedClusterEndIff(v.drive, s);
    AsWrittenAtClusterEnd(v, s);
    GetClusterEntryReads(v, SectorToCluster(v.drive, s));
  }

  /** The first sector of cluster 0xFFFF lies above the data area's start,
      so it is no end mark. */
  lemma ClusterFfffInRange(d: Drive)
    requires ClusterGeometry(d) && d.geo.clusterBegin < 0xff00_0000
    ensures ClusterToSector(d, 0xffff) != 0
  {
    Pow2Small(d.geo.slide);
    assert Shl32(Wrap32(0xffff - 2), d.geo.slide) == 0xfffd * Pow2(d.geo.slide);
  }

  lemma AsWrittenAtClusterEnd(v: Vol, s: U32)
    requires v.drive.geo.slide < 32 && s >= v.drive.geo.clusterBegin
    requires BitAnd(Wrap32(s + 1), v.drive.geo.mask) == 0
    ensures var e := GetClusterEntry(v, SectorToCluster(v.drive, s));
      GetNextSectorAsWritten(v, s).1 == if e.1 == 0x0fff_ffff then 0 else ClusterToSector(v.drive, e.1 as int)
  {
  }

  /** The absolute mask misses a cluster's end when the data area is not
      aligned to clusters.  With 4-sector clusters and the data area at
      sector 497, sector 499 is the third of cluster 2; the next sector 500
      is the last of the same cluster, but 500 & 3 == 0, so the code reads
      the FAT and jumps to the cluster it names. */
  lemma GetNextSectorMaskLeavesCluster(v: Vol)
    requires v.drive.geo.slide == 2 && v.drive.geo.mask == 3 && v.drive.geo.clusterBegin == 497
    requires CacheOk(v) && InFat(v.drive, 2) && EntryInFat(v, 2) == 3
    ensures NextInChain(v, 499) == 500 && GetNextSector(v, 499).1 == 500
    ensures GetNextSectorAsWritten(v, 499).1 == 501
  {
    var d := v.drive;
    Pow2Small(2);
    assert ClusterGeometry(d);
    BitAndLowMask(500, 2);
    BitAndLowMask(3, 2);
    assert Shr(Wrap32(499 - 497), 2) == 0;
    assert SectorToCluster(d, 499) == 2;
    GetClusterEntryReads(v, 2);
    assert Shl32(Wrap32(3 - 2), 2) == 4;
  }
}

=== FILE: fat12.dfy ===
/** Packed 12-bit FAT entries (Clusters_YY.cpp, get12bitsA/set12bitsA and the
    three-sector "triad" addressing of get12bitsFAT/set12bitsFAT), as pure
    functions over byte sequences. */
module Fat12 {
  import opened FatTypes

  /** Entry i of a packed array lives in the three-byte pair i/2; an even
      entry uses bytes 0 and 1 of the pair, an odd one bytes 1 and 2.  The
      array holds them when its length covers 3i/2 + 1 bytes (even) or
      (3i + 1)/2 + 1 bytes (odd), written here without the division. */
  predicate Fits(a: seq<bv8>, i: nat)
  {
    if i % 2 == 0 then 3 * i + 2 < 2 * |a| else 3 * i + 1 < 2 * |a|
  }

  /** get12bitsA */
  function Get12A(a: seq<bv8>, i: nat): (r: bv16)
    requires Fits(a, i)
    ensures r <= 0xfff
  {
    var p := 3 * (i / 2);
    if i % 2 == 0 then
      (a[p] as bv16) | (((a[p + 1] & 0x0f) as bv16) << 8)
    else
      (((a[p + 1] & 0xf0) >> 4) as bv16) | ((a[p + 2] as bv16) << 4)
  }

  /** set12bitsA */
  function Set12A(a: seq<bv8>, i: nat, v: bv16): (r: seq<bv8>)
    requires Fits(a, i)
    ensures |r| == |a|
  {
    var p := 3 * (i / 2);
    if i % 2 == 0 then
      a[p := (v & 0xff) as bv8][p + 1 := (a[p + 1] & 0xf0) | ((v >> 8) & 0x0f) as bv8]
    else
      a[p + 1 := (a[p + 1] & 0x0f) | (((v & 0x0f) << 4) as bv8)][p + 2 := ((v >> 4) & 0xff) as bv8]
  }

  /** Bytes of a packed array that belong to no other entry than i's pair
      are the only ones a set may touch. */
  predicate Touches(i: nat, k: nat)
  {
    var p := 3 * (i / 2);
    if i % 2 == 0 then k == p || k == p + 1 else k == p + 1 || k == p + 2
  }

  lemma Set12AFrame(a: seq<bv8>, i: nat, v: bv16, k: nat)
    requires Fits(a, i) && k < |a| && !Touches(i, k)
    ensures Set12A(a, i, v)[k] == a[k]
  {
  }

  lemma EvenBits(v: bv16, old1: bv8)
    ensures var y := (old1 & 0xf0) | ((v >> 8) & 0x0f) as bv8;
      (((v & 0xff) as bv8) as bv16) | (((y & 0x0f) as bv16) << 8) == v & 0xfff
  {
  }

  lemma OddBits(v: bv16, old1: bv8)
    ensures var y := (old1 & 0x0f) | (((v & 0x0f) << 4) as bv8);
      (((y & 0xf0) >> 4) as bv16) | (((((v >> 4) & 0xff) as bv8) as bv16) << 4) == v & 0xfff
  {
  }

  /** Reading back an entry returns the low twelve bits of what was stored. */
  lemma GetSet12A(a: seq<bv8>, i: nat, v: bv16)
    requires Fits(a, i)
    ensures Get12A(Set12A(a, i, v), i) == v & 0xfff
  {
    var p := 3 * (i / 2);
    var r := Set12A(a, i, v);
    if i % 2 == 0 {
      EvenBits(v, a[p + 1]);
      assert r[p] == (v & 0xff) as bv8;
      assert r[p + 1] == (a[p + 1] & 0xf0) | ((v >> 8) & 0x0f) as bv8;
    } else {
      OddBits(v, a[p + 1]);
      assert r[p + 1] == (a[p + 1] & 0x0f) | (((v & 0x0f) << 4) as bv8);
      assert r[p + 2] == ((v >> 4) & 0xff) as bv8;
    }
  }

  /** Storing one entry leaves every other entry as it was, including the
      entry that shares a byte with it. */
  lemma GetSet12AOther(a: seq<bv8>, i: nat, j: nat, v: bv16)
    requires Fits(a, i) && Fits(a, j) && i != j
    ensures Get12A(Set12A(a, i, v), j) == Get12A(a, j)
  {
    var r := Set12A(a, i, v);
    var p := 3 * (i / 2);
    var q := 3 * (j / 2);
    if i / 2 != j / 2 {
      assert q + 2 < p || q > p + 2 || (q + 1 < p) || q >= p + 3 by {
        assert i / 2 < j / 2 || i / 2 > j / 2;
      }
      if j % 2 == 0 {
        Set12AFrame(a, i, v, q);
        Set12AFrame(a, i, v, q + 1);
      } else {
        Set12AFrame(a, i, v, q + 1);
        Set12AFrame(a, i, v, q + 2);
      }
    }
  }

  // ---------------------------------------------------------------------------
  // Moving a packed array inside a longer one
  // ---------------------------------------------------------------------------

  /** An entry fits once the array holds one and a half bytes per entry
      up to and including it. */
  lemma FitsLen(a: seq<bv8>, i: nat)
    requires 3 * i + 2 < 2 * |a|
    ensures Fits(a, i)
  {
  }

  lemma FitsAppend(a: seq<bv8>, b: seq<bv8>, i: nat)
    requires Fits(a, i)
    ensures Fits(a + b, i)
  {
  }

  /** Bytes after the array do not change what an entry reads or writes. */
  lemma Get12AAppend(a: seq<bv8>, b: seq<bv8>, i: nat)
    requires Fits(a, i)
    ensures Fits(a + b, i) && Get12A(a + b, i) == Get12A(a, i)
  {
  }

  lemma Set12AAppend(a: seq<bv8>, b: seq<bv8>, i: nat, v: bv16)
    requires Fits(a, i)
    ensures Fits(a + b, i) && Set12A(a + b, i, v) == Set12A(a, i, v) + b
  {
    var p := 3 * (i / 2);
    var l := Set12A(a + b, i, v);
    var r := Set12A(a, i, v) + b;
    assert |l| == |r|;
    forall k | 0 <= k < |l| ensures l[k] == r[k] {
      if k >= |a| {
        assert l[k] == b[k - |a|];
      }
    }
  }

  /** Prepending whole pairs (3 bytes for every 2 entries) shifts entry
      numbers by two per pair. */
  lemma Get12AShift(b: seq<bv8>, a: seq<bv8>, m: nat, i: nat)
    requires |b| == 3 * m && Fits(a, i)
    ensures Fits(b + a, i + 2 * m) && Get12A(b + a, i + 2 * m) == Get12A(a, i)
  {
    assert (i + 2 * m) / 2 == i / 2 + m;
    assert (i + 2 * m) % 2 == i % 2;
  }

  lemma UpdateShift(b: seq<bv8>, a: seq<bv8>, p: nat, x: bv8, y: bv8)
    requires p + 1 < |a|
    ensures (b + a)[|b| + p := x][|b| + p + 1 := y] == b + a[p := x][p + 1 := y]
  {
  }

  lemma MulShift(i: nat, m: nat)
    ensures (i + 2 * m) / 2 == i / 2 + m && (i + 2 * m) % 2 == i % 2
    ensures 3 * ((i + 2 * m) / 2) == 3 * m + 3 * (i / 2)
  {
  }

  /** An even entry writes the two bytes at p = 3 * (i / 2). */
  lemma Set12AEvenAt(a: seq<bv8>, i: nat, p: nat, v: bv16)
    requires i % 2 == 0 && p == 3 * (i / 2) && p + 1 < |a|
    ensures Set12A(a, i, v) == a[p := (v & 0xff) as bv8][p + 1 := (a[p + 1] & 0xf0) | ((v >> 8) & 0x0f) as bv8]
  {
  }

  /** An odd entry writes the two bytes at q = 3 * (i / 2) + 1. */
  lemma Set12AOddAt(a: seq<bv8>, i: nat, q: nat, v: bv16)
    requires i % 2 == 1 && q == 3 * (i / 2) + 1 && q + 1 < |a|
    ensures Set12A(a, i, v) == a[q := (a[q] & 0x0f) | (((v & 0x0f) << 4) as bv8)][q + 1 := ((v >> 4) & 0xff) as bv8]
  {
  }

  lemma Set12AShiftEven(b: seq<bv8>, a: seq<bv8>, m: nat, i: nat, v: bv16)
    requires |b| == 3 * m && Fits(a, i) && i % 2 == 0
    ensures Fits(b + a, i + 2 * m) && Set12A(b + a, i + 2 * m, v) == b + Set12A(a, i, v)
  {
    MulShift(i, m);
    var p := 3 * (i / 2);
    var ba := b + a;
    assert ba[|b| + p + 1] == a[p + 1];
    Set12AEvenAt(ba, i + 2 * m, |b| + p, v);
    Set12AEvenAt(a, i, p, v);
    UpdateShift(b, a, p, (v & 0xff) as bv8, (a[p + 1] & 0xf0) | ((v >> 8) & 0x0f) as bv8);
  }

  lemma Set12AShiftOdd(b: seq<bv8>, a: seq<bv8>, m: nat, i: nat, v: bv16)
    requires |b| == 3 * m && Fits(a, i) && i % 2 == 1
    ensures Fits(b + a, i + 2 * m) && Set12A(b + a, i + 2 * m, v) == b + Set12A(a, i, v)
  {
    MulShift(i, m);
    var q := 3 * (i / 2) + 1;
    var ba := b + a;
    assert ba[|b| + q] == a[q];
    Set12AOddAt(ba, i + 2 * m, |b| + q, v);
    Set12AOddAt(a, i, q, v);
    UpdateShift(b, a, q, (a[q] & 0x0f) | (((v & 0x0f) << 4) as bv8), ((v >> 4) & 0xff) as bv8);
  }

  /** Storing through a shifted array start stores the same entry. */
  lemma Set12AShift(b: seq<bv8>, a: seq<bv8>, m: nat, i: nat, v: bv16)
    requires |b| == 3 * m && Fits(a, i)
    ensures Fits(b + a, i + 2 * m) && Set12A(b + a, i + 2 * m, v) == b + Set12A(a, i, v)
  {
    if i % 2 == 0 {
      Set12AShiftEven(b, a, m, i, v);
    } else {
      Set12AShiftOdd(b, a, m, i, v);
    }
  }

  // ---------------------------------------------------------------------------
  // Triads: three FAT sectors holding 1024 entries
  // ---------------------------------------------------------------------------

  /** Three consecutive FAT12 sectors: 1536 bytes, exactly 1024 entries. */
  datatype Triad = Triad(s0: Sector, s1: Sector, s2: Sector)

  /** The triad read as one flat packed array. */
  function Flat(t: Triad): (r: seq<bv8>)
    ensures |r| == 1536
    ensures forall i :: 0 <= i < 1024 ==> Fits(r, i)
  {
    t.s0 + t.s1 + t.s2
  }

  /** get12bitsFAT's five cases within one triad.  Entry 341 has four bits
      at the end of sector 0 and eight at the start of sector 1; entry 682
      has eight bits at the end of sector 1 and four at the start of
      sector 2.  The code reaches them by moving the array start two bytes
      (341, with the saved byte of sector 0 in front) or one byte (682 and
      above, with the cache's saved byte in front) before the cached
      sector; `pre` is whatever byte the cache holds in front of sector 2
      when an entry above 682 is read. */
  function Get12Regions(t: Triad, pre: bv8, i: nat): (r: bv16)
    requires i < 1024
  {
    if i < 341 then Get12A(t.s0, i)
    else if i == 341 then Get12A([0, t.s0[511]] + t.s1, 1)
    else if i < 682 then Get12A(t.s1[1..], i - 342)
    else if i == 682 then Get12A([t.s1[511]] + t.s2, 0)
    else Get12A([pre] + t.s2, i - 682)
  }

  lemma Get12AIgnoresFirst(x: bv8, y: bv8, a: seq<bv8>, k: nat)
    requires k >= 1 && Fits([x] + a, k)
    ensures Fits([y] + a, k) && Get12A([x] + a, k) == Get12A([y] + a, k)
  {
    var p := 3 * (k / 2);
    if k % 2 == 0 {
      assert p >= 3;
      assert ([x] + a)[p] == ([y] + a)[p];
      assert ([x] + a)[p + 1] == ([y] + a)[p + 1];
    } else {
      assert ([x] + a)[p + 1] == ([y] + a)[p + 1];
      assert ([x] + a)[p + 2] == ([y] + a)[p + 2];
    }
  }

  lemma Get12RegionsFlatLow(t: Triad, i: nat)
    requires i < 341
    ensures Get12A(t.s0, i) == Get12A(Flat(t), i)
  {
    assert Flat(t) == t.s0 + (t.s1 + t.s2);
    Get12AAppend(t.s0, t.s1 + t.s2, i);
  }

  lemma Get12RegionsFlat341(t: Triad)
    ensures Get12A([0, t.s0[511]] + t.s1, 1) == Get12A(Flat(t), 341)
  {
    var f := Flat(t);
    assert f[511] == t.s0[511] && f[512] == t.s1[0];
  }

  lemma Get12RegionsFlat682(t: Triad)
    ensures Get12A([t.s1[511]] + t.s2, 0) == Get12A(Flat(t), 682)
  {
    var f := Flat(t);
    assert f[1023] == t.s1[511] && f[1024] == t.s2[0];
  }

  lemma Get12RegionsFlatMiddle(t: Triad, i: nat)
    requires 342 <= i < 682
    ensures Get12A(t.s1[1..], i - 342) == Get12A(Flat(t), i)
  {
    var b := t.s0 + [t.s1[0]];
    assert Flat(t) == b + (t.s1[1..] + t.s2);
    Get12AShift(b, t.s1[1..] + t.s2, 171, i - 342);
    Get12AAppend(t.s1[1..], t.s2, i - 342);
  }

  lemma Get12RegionsFlatTop(t: Triad, pre: bv8, i: nat)
    requires 683 <= i < 1024
    ensures Get12A([pre] + t.s2, i - 682) == Get12A(Flat(t), i)
  {
    var b := t.s0 + t.s1[..511];
    assert Flat(t) == b + ([t.s1[511]] + t.s2);
    Get12AShift(b, [t.s1[511]] + t.s2, 341, i - 682);
    Get12AIgnoresFirst(t.s1[511], pre, t.s2, i - 682);
  }

  /** The five-region addressing reads the same entry as flat decoding of
      the triad's 1536 bytes, whatever byte the cache holds in front of
      sector 2. */
  lemma Get12RegionsFlat(t: Triad, pre: bv8, i: nat)
    requires i < 1024
    ensures Get12Regions(t, pre, i) == Get12A(Flat(t), i)
  {
    if i < 341 {
      Get12RegionsFlatLow(t, i);
    } else if i == 341 {
      Get12RegionsFlat341(t);
    } else if i < 682 {
      Get12RegionsFlatMiddle(t, i);
    } else if i == 682 {
      Get12RegionsFlat682(t);
    } else {
      Get12RegionsFlatTop(t, pre, i);
    }
  }

  /** set12bitsFAT's five cases within one triad, as the entry is meant to
      be stored.  `pre` and `suf` are the cache bytes in front of and after
      the cached sector; whatever is written into them is lost when the
      cache moves on, so only the three sectors are returned.  At 682 the
      low eight bits of the entry fill the last byte of sector 1. */
  function Set12Regions(t: Triad, pre: bv8, suf: bv8, i: nat, v: bv16): (r: Triad)
    requires i < 1024
  {
    if i < 341 then Triad(Set12A(t.s0, i, v), t.s1, t.s2)
    else if i == 341 then
      Triad(Set12A(t.s0 + [suf], 341, v)[..512], Set12A([0, t.s0[511]] + t.s1, 1, v)[2..], t.s2)
    else if i < 682 then Triad(t.s0, [t.s1[0]] + Set12A(t.s1[1..], i - 342, v), t.s2)
    else if i == 682 then
      Triad(t.s0, t.s1[511 := (v & 0xff) as bv8], Set12A([pre] + t.s2, 0, v)[1..])
    else Triad(t.s0, t.s1, Set12A([pre] + t.s2, i - 682, v)[1..])
  }

  /** set12bitsFAT as written: at 682 it stores into sector 1 with
      set12bitsA(array, 341, value), the layout of an odd entry, so the
      last byte of sector 1 keeps its low nibble and receives the entry's
      low nibble in its high half (Clusters_YY.cpp:194). */
  function Set12RegionsAsWritten(t: Triad, pre: bv8, suf: bv8, i: nat, v: bv16): (r: Triad)
    requires i < 1024
    ensures i != 682 ==> r == Set12Regions(t, pre, suf, i, v)
    ensures i == 682 ==> r.s1[511] == (t.s1[511] & 0x0f) | (((v & 0x0f) << 4) as bv8)
  {
    if i == 682 then
      Triad(t.s0, Set12A(t.s1 + [suf], 341, v)[..512], Set12A([pre] + t.s2, 0, v)[1..])
    else Set12Regions(t, pre, suf, i, v)
  }

  lemma AppendFirst(a: seq<bv8>, b: seq<bv8>, c: seq<bv8>, a': seq<bv8>)
    requires |a| == |a'|
    ensures a' + b + c == (a' + (b + c))
  {
  }

  lemma Set12RegionsFlatLow(t: Triad, pre: bv8, suf: bv8, i: nat, v: bv16)
    requires i < 341
    ensures Flat(Set12Regions(t, pre, suf, i, v)) == Set12A(Flat(t), i, v)
  {
    assert Flat(t) == t.s0 + (t.s1 + t.s2);
    Set12AAppend(t.s0, t.s1 + t.s2, i, v);
    assert Flat(Set12Regions(t, pre, suf, i, v)) == Set12A(t.s0, i, v) + (t.s1 + t.s2);
  }

  /** Two single-byte updates either side of the sector 0 / sector 1 seam. */
  lemma UpdateSeam01(t: Triad, x: bv8, y: bv8)
    ensures Flat(Triad(t.s0[511 := x], t.s1[0 := y], t.s2)) == Flat(t)[511 := x][512 := y]
  {
    var l := Flat(Triad(t.s0[511 := x], t.s1[0 := y], t.s2));
    var r := Flat(t)[511 := x][512 := y];
    forall k | 0 <= k < 1536
      ensures l[k] == r[k]
    {
      if k < 512 {
        assert l[k] == t.s0[511 := x][k];
      } else if k < 1024 {
        assert l[k] == t.s1[0 := y][k - 512];
      }
    }
  }

  /** The two halves of entry 341 as seen from each side of the seam. */
  lemma Seam341Low(s0: Sector, suf: bv8, v: bv16)
    ensures var x := (s0[511] & 0x0f) | (((v & 0x0f) << 4) as bv8);
      Set12A(s0 + [suf], 341, v)[..512] == s0[511 := x]
  {
    var a := s0 + [suf];
    assert a[511] == s0[511];
    Set12AOddAt(a, 341, 511, v);
  }

  lemma Seam341High(b: bv8, s1: Sector, v: bv16)
    ensures Set12A([0, b] + s1, 1, v)[2..] == s1[0 := ((v >> 4) & 0xff) as bv8]
  {
    Set12AOddAt([0, b] + s1, 1, 1, v);
  }

  lemma Set12RegionsFlat341(t: Triad, pre: bv8, suf: bv8, v: bv16)
    ensures Flat(Set12Regions(t, pre, suf, 341, v)) == Set12A(Flat(t), 341, v)
  {
    var f := Flat(t);
    var x := (t.s0[511] & 0x0f) | (((v & 0x0f) << 4) as bv8);
    var y := ((v >> 4) & 0xff) as bv8;
    assert f[511] == t.s0[511];
    Set12AOddAt(f, 341, 511, v);
    Seam341Low(t.s0, suf, v);
    Seam341High(t.s0[511], t.s1, v);
    assert Set12Regions(t, pre, suf, 341, v) == Triad(t.s0[511 := x], t.s1[0 := y], t.s2);
    UpdateSeam01(t, x, y);
  }

  lemma Set12RegionsFlatMiddle(t: Triad, pre: bv8, suf: bv8, i: nat, v: bv16)
    requires 342 <= i < 682
    ensures Flat(Set12Regions(t, pre, suf, i, v)) == Set12A(Flat(t), i, v)
  {
    var b := t.s0 + [t.s1[0]];
    assert Flat(t) == b + (t.s1[1..] + t.s2);
    Set12AShift(b, t.s1[1..] + t.s2, 171, i - 342, v);
    Set12AAppend(t.s1[1..], t.s2, i - 342, v);
    assert Flat(Set12Regions(t, pre, suf, i, v)) == b + (Set12A(t.s1[1..], i - 342, v) + t.s2);
  }

  /** Two single-byte updates either side of the sector 1 / sector 2 seam. */
  lemma UpdateSeam12(t: Triad, x: bv8, y: bv8)
    ensures Flat(Triad(t.s0, t.s1[511 := x], t.s2[0 := y])) == Flat(t)[1023 := x][1024 := y]
  {
    var l := Flat(Triad(t.s0, t.s1[511 := x], t.s2[0 := y]));
    var r := Flat(t)[1023 := x][1024 := y];
    forall k | 0 <= k < 1536
      ensures l[k] == r[k]
    {
      if k < 512 {
      } else if k < 1024 {
        assert l[k] == t.s1[511 := x][k - 512];
      } else {
        assert l[k] == t.s2[0 := y][k - 1024];
      }
    }
  }

  lemma Seam682High(pre: bv8, s2: Sector, v: bv16)
    ensures Set12A([pre] + s2, 0, v)[1..] == s2[0 := (s2[0] & 0xf0) | ((v >> 8) & 0x0f) as bv8]
  {
    Set12AEvenAt([pre] + s2, 0, 0, v);
  }

  lemma Set12RegionsFlat682(t: Triad, pre: bv8, suf: bv8, v: bv16)
    ensures Flat(Set12Regions(t, pre, suf, 682, v)) == Set12A(Flat(t), 682, v)
  {
    var f := Flat(t);
    var x := (v & 0xff) as bv8;
    var y := (t.s2[0] & 0xf0) | ((v >> 8) & 0x0f) as bv8;
    assert f[1024] == t.s2[0];
    Set12AEvenAt(f, 682, 1023, v);
    Seam682High(pre, t.s2, v);
    assert Set12Regions(t, pre, suf, 682, v) == Triad(t.s0, t.s1[511 := x], t.s2[0 := y]);
    UpdateSeam12(t, x, y);
  }

  lemma SplitLast(s0: seq<bv8>, s1: seq<bv8>, z: seq<bv8>)
    requires |s1| == 512
    ensures s0 + s1 + z == (s0 + s1[..511]) + ([s1[511]] + z)
  {
    assert s1 == s1[..511] + [s1[511]];
  }

  lemma FitsTop(x: bv8, s2: Sector, k: nat)
    requires 1 <= k < 342
    ensures Fits([x] + s2, k)
  {
    assert k / 2 <= 170;
  }

  lemma Set12RegionsFlatTop(t: Triad, pre: bv8, suf: bv8, i: nat, v: bv16)
    requires 683 <= i < 1024
    ensures Flat(Set12Regions(t, pre, suf, i, v)) == Set12A(Flat(t), i, v)
  {
    var b := t.s0 + t.s1[..511];
    var c := [t.s1[511]] + t.s2;
    var k := i - 682;
    var r := Set12Regions(t, pre, suf, i, v);
    FitsTop(t.s1[511], t.s2, k);
    SplitLast(t.s0, t.s1, t.s2);
    assert Flat(t) == b + c;
    Set12AShift(b, c, 341, k, v);
    assert Set12A(Flat(t), i, v) == b + Set12A(c, k, v);
    Set12AIgnoresFirst(t.s1[511], pre, t.s2, k, v);
    assert Set12A(c, k, v) == [t.s1[511]] + r.s2;
    SplitLast(t.s0, t.s1, r.s2);
  }

  /** Storing through the five regions has the effect of storing into the
      flat triad. */
  lemma Set12RegionsFlat(t: Triad, pre: bv8, suf: bv8, i: nat, v: bv16)
    requires i < 1024
    ensures Flat(Set12Regions(t, pre, suf, i, v)) == Set12A(Flat(t), i, v)
  {
    if i < 341 {
      Set12RegionsFlatLow(t, pre, suf, i, v);
    } else if i == 341 {
      Set12RegionsFlat341(t, pre, suf, v);
    } else if i < 682 {
      Set12RegionsFlatMiddle(t, pre, suf, i, v);
    } else if i == 682 {
      Set12RegionsFlat682(t, pre, suf, v);
    } else {
      Set12RegionsFlatTop(t, pre, suf, i, v);
    }
  }

  /** Writing past the first byte never changes it, and the rest of the
      array does not depend on it. */
  lemma Set12AIgnoresFirst(x: bv8, y: bv8, a: seq<bv8>, k: nat, v: bv16)
    requires k >= 1 && Fits([x] + a, k)
    ensures Fits([y] + a, k)
    ensures Set12A([x] + a, k, v) == [x] + Set12A([y] + a, k, v)[1..]
  {
    var p := 3 * (k / 2);
    var l := Set12A([x] + a, k, v);
    var r := [x] + Set12A([y] + a, k, v)[1..];
    assert |l| == |r|;
    forall j | 0 <= j < |l| ensures l[j] == r[j] {
      if j == 0 {
        Set12AFrame([x] + a, k, v, 0);
      }
    }
  }

  /** A get right after a set returns the stored value at every index of
      the triad (through the intended 682 store). */
  lemma GetSet12Regions(t: Triad, pre: bv8, suf: bv8, pre2: bv8, i: nat, v: bv16)
    requires i < 1024
    ensures Get12Regions(Set12Regions(t, pre, suf, i, v), pre2, i) == v & 0xfff
  {
    Set12RegionsFlat(t, pre, suf, i, v);
    Get12RegionsFlat(Set12Regions(t, pre, suf, i, v), pre2, i);
    GetSet12A(Flat(t), i, v);
  }

  /** As written, storing 0x0FF at entry 682 of a triad whose sector 1 ends
      in a zero byte reads back as 0x0F0. */
  lemma Set12RegionsAsWrittenLoses682(t: Triad, pre: bv8, suf: bv8, pre2: bv8)
    requires t.s1[511] == 0
    ensures Get12Regions(Set12RegionsAsWritten(t, pre, suf, 682, 0x0ff), pre2, 682) == 0x0f0
  {
    var r := Set12RegionsAsWritten(t, pre, suf, 682, 0x0ff);
    assert r.s1[511] == 0xf0;
    assert r.s2[0] == (t.s2[0] & 0xf0);
  }
}

=== FILE: fat_entries.dfy ===
/** FAT entries of all three widths (Clusters_YY.cpp: get12bitsFAT,
    set12bitsFAT, YY_GetClusterEntry, YY_SetClusterEntry, YY_GetNextSector),
    read and written through the one-sector cache. */
module FatEntries {
  import opened Uint
  import opened FatTypes
  import opened Fat12
  import opened Clusters

  // ---------------------------------------------------------------------------
  // 16- and 32-bit entries inside one sector
  // ---------------------------------------------------------------------------

  function Le16At(s: Sector, k: nat): bv16
    requires k < 256
  {
    Le16(s[2 * k], s[2 * k + 1])
  }

  function Le32At(s: Sector, k: nat): bv32
    requires k < 128
  {
    Le32(s[4 * k], s[4 * k + 1], s[4 * k + 2], s[4 * k + 3])
  }

  /** The sector with 16-bit entry k replaced by x. */
  function Put16At(s: Sector, k: nat, x: bv16): (r: Sector)
    requires k < 256
    ensures forall j :: 0 <= j < 512 && j / 2 != k ==> r[j] == s[j]
  {
    s[..2 * k] + Bytes16(x) + s[2 * k + 2..]
  }

  /** The sector with 32-bit entry k replaced by x. */
  function Put32At(s: Sector, k: nat, x: bv32): (r: Sector)
    requires k < 128
    ensures forall j :: 0 <= j < 512 && j / 4 != k ==> r[j] == s[j]
  {
    s[..4 * k] + Bytes32(x) + s[4 * k + 4..]
  }

  /** A 16-bit entry reads back what was put, and only that entry changes. */
  lemma GetPut16(s: Sector, k: nat, x: bv16, j: nat)
    requires k < 256 && j < 256
    ensures Le16At(Put16At(s, k, x), j) == if j == k then x else Le16At(s, j)
  {
    var r := Put16At(s, k, x);
    if j == k {
      var b := Bytes16(x);
      assert r[2 * k] == b[0] && r[2 * k + 1] == b[1];
    } else {
      assert (2 * j) / 2 == j && (2 * j + 1) / 2 == j;
    }
  }

  /** A 32-bit entry reads back what was put, and only that entry changes. */
  lemma GetPut32(s: Sector, k: nat, x: bv32, j: nat)
    requires k < 128 && j < 128
    ensures Le32At(Put32At(s, k, x), j) == if j == k then x else Le32At(s, j)
  {
    var r := Put32At(s, k, x);
    if j == k {
      var b := Bytes32(x);
      assert r[4 * k] == b[0] && r[4 * k + 1] == b[1] && r[4 * k + 2] == b[2] && r[4 * k + 3] == b[3];
    } else {
      assert (4 * j) / 4 == j && (4 * j + 1) / 4 == j && (4 * j + 2) / 4 == j && (4 * j + 3) / 4 == j;
    }
  }

  // ---------------------------------------------------------------------------
  // FAT12 through the cache
  // ---------------------------------------------------------------------------

  /** The sector of its triad that holds the last bits of FAT12 entry i. */
  function TriadLast(i: nat): (r: nat)
    ensures r <= 2
  {
    if i < 341 then 0 else if i < 682 then 1 else 2
  }

  /** Triad t of the FAT as the engine sees it. */
  function TriadView(v: Vol, t: nat): Triad
  {
    Triad(View(v, 3 * t), View(v, 3 * t + 1), View(v, 3 * t + 2))
  }

  /** drive->fatPrefix = b */
  function WithPrefix(v: Vol, b: bv8): (w: Vol)
  {
    Vol(v.disk, v.drive.(cache := v.drive.cache.(prefix := b)))
  }

  lemma WithPrefixView(v: Vol, b: bv8)
    requires CacheOk(v)
    ensures CacheOk(WithPrefix(v, b)) && SameFat(v, WithPrefix(v, b))
  {
    var w := WithPrefix(v, b);
    CacheOkKept(v, w);
    forall s: int | 0 <= s < v.drive.geo.fatSize
      ensures View(v, s) == View(w, s)
    {
      assert FatLba(w.drive, s) == FatLba(v.drive, s);
    }
  }

  /** get12bitsFAT: entry `index` of a FAT12, reached through the cache in
      the five regions of its triad. */
  function Get12Fat(v: Vol, index: U16): (r: (Vol, bv16))
  {
    var t := index / 1024;
    var i := index % 1024;
    if i < 341 then
      var w := GetFatSector(v, 3 * t);
      (w, Get12A(Arr(w.drive.cache, 0), i))
    else if i == 341 then
      var w0 := GetFatSector(v, 3 * t);
      var w1 := WithPrefix(w0, w0.drive.cache.table[511]);
      var w2 := GetFatSector(w1, 3 * t + 1);
      (w2, Get12A(Arr(w2.drive.cache, -2), 1))
    else if i < 682 then
      var w := GetFatSector(v, 3 * t + 1);
      (w, Get12A(Arr(w.drive.cache, 1), i - 342))
    else if i == 682 then
      var w0 := GetFatSector(v, 3 * t + 1);
      var w1 := WithPrefix(w0, w0.drive.cache.table[511]);
      var w2 := GetFatSector(w1, 3 * t + 2);
      (w2, Get12A(Arr(w2.drive.cache, -1), 0))
    else
      var w := GetFatSector(v, 3 * t + 2);
      (w, Get12A(Arr(w.drive.cache, -1), i - 682))
  }

  lemma Arr0(c: FatCache)
    ensures Arr(c, 0) == c.table + [c.suffix]
  {
  }

  lemma Arr1(c: FatCache)
    ensures Arr(c, 1) == c.table[1..] + [c.suffix]
  {
  }

  lemma ArrMinus1(c: FatCache)
    ensures Arr(c, -1) == [c.prefix] + c.table + [c.suffix]
  {
  }

  lemma ArrMinus2(c: FatCache)
    ensures Arr(c, -2) == [0, c.prefix] + c.table + [c.suffix]
  {
  }

  /** The facts about a read: the view is kept, the geometry and cursor
      are kept, and the value is entry i of triad t. */
  ghost predicate ReadOk(v: Vol, w: Vol, t: nat, i: nat, x: bv16)
    requires i < 1024
  {
    && CacheOk(w) && SameFat(v, w) && OnlyCache(v.drive, w.drive)
    && x == Get12A(Flat(TriadView(v, t)), i)
  }

  lemma GetThrough0(c: FatCache, j: nat)
    requires j < 341
    ensures Get12A(Arr(c, 0), j) == Get12A(c.table, j)
  {
    Arr0(c);
    Get12AAppend(c.table, [c.suffix], j);
  }

  lemma GetThrough1(c: FatCache, j: nat)
    requires j < 340
    ensures Get12A(Arr(c, 1), j) == Get12A(c.table[1..], j)
  {
    Arr1(c);
    Get12AAppend(c.table[1..], [c.suffix], j);
  }

  lemma GetThroughMinus1(c: FatCache, j: nat)
    requires j < 342
    ensures Get12A(Arr(c, -1), j) == Get12A([c.prefix] + c.table, j)
  {
    ArrMinus1(c);
    Get12AAppend([c.prefix] + c.table, [c.suffix], j);
  }

  lemma GetThroughMinus2(c: FatCache)
    ensures Get12A(Arr(c, -2), 1) == Get12A([0, c.prefix] + c.table, 1)
  {
    ArrMinus2(c);
    Get12AAppend([0, c.prefix] + c.table, [c.suffix], 1);
  }

  // The value each region of get12bitsFAT reads, for a cache holding the
  // sector (and the saved byte) the region needs.

  lemma ReadLow(tv: Triad, c: FatCache, i: nat)
    requires i < 341 && c.table == tv.s0
    ensures Get12A(Arr(c, 0), i) == Get12A(Flat(tv), i)
  {
    GetThrough0(c, i);
    Get12RegionsFlatLow(tv, i);
  }

  lemma Read341(tv: Triad, c: FatCache)
    requires c.prefix == tv.s0[511] && c.table == tv.s1
    ensures Get12A(Arr(c, -2), 1) == Get12A(Flat(tv), 341)
  {
    GetThroughMinus2(c);
    Get12RegionsFlat341(tv);
  }

  lemma ReadMiddle(tv: Triad, c: FatCache, i: nat)
    requires 341 < i < 682 && c.table == tv.s1
    ensures Get12A(Arr(c, 1), i - 342) == Get12A(Flat(tv), i)
  {
    GetThrough1(c, i - 342);
    Get12RegionsFlatMiddle(tv, i);
  }

  lemma Read682(tv: Triad, c: FatCache)
    requires c.prefix == tv.s1[511] && c.table == tv.s2
    ensures Get12A(Arr(c, -1), 0) == Get12A(Flat(tv), 682)
  {
    GetThroughMinus1(c, 0);
    Get12RegionsFlat682(tv);
  }

  lemma ReadTop(tv: Triad, c: FatCache, i: nat)
    requires 682 < i < 1024 && c.table == tv.s2
    ensures Get12A(Arr(c, -1), i - 682) == Get12A(Flat(tv), i)
  {
    GetThroughMinus1(c, i - 682);
    Get12RegionsFlatTop(tv, c.prefix, i);
  }

  /** The two cache steps of an access at 341 or 682: sector k of the triad
      is fetched, its last byte kept in fatPrefix, then sector k + 1 is
      fetched. */
  lemma FetchPair(v: Vol, s: nat)
    requires CacheOk(v) && s + 1 < v.drive.geo.fatSize
    ensures var w0 := GetFatSector(v, s);
      var w2 := GetFatSector(WithPrefix(w0, w0.drive.cache.table[511]), s + 1);
      && CacheOk(w2) && SameFat(v, w2) && OnlyCache(v.drive, w2.drive)
      && w2.drive.cache.prefix == View(v, s)[511] && w2.drive.cache.table == View(v, s + 1)
  {
    GetFatSectorView(v, s);
    var w0 := GetFatSector(v, s);
    var w1 := WithPrefix(w0, w0.drive.cache.table[511]);
    WithPrefixView(w0, w0.drive.cache.table[511]);
    GetFatSectorView(w1, s + 1);
  }

  lemma Get12FatLow(v: Vol, t: nat, i: nat)
    requires i < 341 && CacheOk(v) && 3 * t < v.drive.geo.fatSize
    ensures var w := GetFatSector(v, 3 * t); ReadOk(v, w, t, i, Get12A(Arr(w.drive.cache, 0), i))
  {
    GetFatSectorView(v, 3 * t);
    ReadLow(TriadView(v, t), GetFatSector(v, 3 * t).drive.cache, i);
  }

  lemma Get12Fat341(v: Vol, t: nat)
    requires CacheOk(v) && 3 * t + 1 < v.drive.geo.fatSize
    ensures var w0 := GetFatSector(v, 3 * t);
      var w2 := GetFatSector(WithPrefix(w0, w0.drive.cache.table[511]), 3 * t + 1);
      ReadOk(v, w2, t, 341, Get12A(Arr(w2.drive.cache, -2), 1))
  {
    FetchPair(v, 3 * t);
    var w0 := GetFatSector(v, 3 * t);
    Read341(TriadView(v, t), GetFatSector(WithPrefix(w0, w0.drive.cache.table[511]), 3 * t + 1).drive.cache);
  }

  lemma Get12FatMiddle(v: Vol, t: nat, i: nat)
    requires 341 < i < 682 && CacheOk(v) && 3 * t + 1 < v.drive.geo.fatSize
    ensures var w := GetFatSector(v, 3 * t + 1); ReadOk(v, w, t, i, Get12A(Arr(w.drive.cache, 1), i - 342))
  {
    GetFatSectorView(v, 3 * t + 1);
    ReadMiddle(TriadView(v, t), GetFatSector(v, 3 * t + 1).drive.cache, i);
  }

  lemma Get12Fat682(v: Vol, t: nat)
    requires CacheOk(v) && 3 * t + 2 < v.drive.geo.fatSize
    ensures var w0 := GetFatSector(v, 3 * t + 1);
      var w2 := GetFatSector(WithPrefix(w0, w0.drive.cache.table[511]), 3 * t + 2);
      ReadOk(v, w2, t, 682, Get12A(Arr(w2.drive.cache, -1), 0))
  {
    FetchPair(v, 3 * t + 1);
    var w0 := GetFatSector(v, 3 * t + 1);
    Read682(TriadView(v, t), GetFatSector(WithPrefix(w0, w0.drive.cache.table[511]), 3 * t + 2).drive.cache);
  }

  lemma Get12FatTop(v: Vol, t: nat, i: nat)
    requires 682 < i < 1024 && CacheOk(v) && 3 * t + 2 < v.drive.geo.fatSize
    ensures var w := GetFatSector(v, 3 * t + 2); ReadOk(v, w, t, i, Get12A(Arr(w.drive.cache, -1), i - 682))
  {
    GetFatSectorView(v, 3 * t + 2);
    ReadTop(TriadView(v, t), GetFatSector(v, 3 * t + 2).drive.cache, i);
  }

  /** Reading a FAT12 entry through the cache returns the entry of the flat
      triad and changes nothing the engine can see. */
  lemma Get12FatReads(v: Vol, index: U16)
    requires CacheOk(v)
    requires 3 * (index / 1024) + TriadLast(index % 1024) < v.drive.geo.fatSize
    ensures ReadOk(v, Get12Fat(v, index).0, index / 1024, index % 1024, Get12Fat(v, index).1)
  {
    var t := index / 1024;
    var i := index % 1024;
    if i < 341 {
      Get12FatLow(v, t, i);
    } else if i == 341 {
      Get12Fat341(v, t);
    } else if i < 682 {
      Get12FatMiddle(v, t, i);
    } else if i == 682 {
      Get12Fat682(v, t);
    } else {
      Get12FatTop(v, t, i);
    }
  }

  /** Updating entry j through the pointer at the start of the cached
      sector. */
  lemma SetThrough0(c: FatCache, j: nat, x: bv16)
    requires j <= 341
    ensures Through(c, 0, j, x).table == Set12A(c.table + [c.suffix], j, x)[..512]
    ensures j < 341 ==> Through(c, 0, j, x).table == Set12A(c.table, j, x)
  {
    Arr0(c);
    if j < 341 {
      Set12AAppend(c.table, [c.suffix], j, x);
    }
  }

  /** Updating entry j through the pointer one byte into the cached
      sector. */
  lemma SetThrough1(c: FatCache, j: nat, x: bv16)
    requires j < 340
    ensures Through(c, 1, j, x).table == [c.table[0]] + Set12A(c.table[1..], j, x)
  {
    Arr1(c);
    Set12AAppend(c.table[1..], [c.suffix], j, x);
    var a := Set12A(Arr(c, 1), j, x);
    assert PutArr(c, 1, a).table == [c.table[0]] + a[..511];
    assert a[..511] == Set12A(c.table[1..], j, x);
  }

  /** Updating entry j through the pointer one byte before the cached
      sector. */
  lemma SetThroughMinus1(c: FatCache, j: nat, x: bv16)
    requires j < 342
    ensures Through(c, -1, j, x).table == Set12A([c.prefix] + c.table, j, x)[1..]
  {
    ArrMinus1(c);
    Set12AAppend([c.prefix] + c.table, [c.suffix], j, x);
  }

  /** Updating entry 1 through the pointer two bytes before the cached
      sector. */
  lemma SetThroughMinus2(c: FatCache, x: bv16)
    ensures Through(c, -2, 1, x).table == Set12A([0, c.prefix] + c.table, 1, x)[2..]
  {
    ArrMinus2(c);
    Set12AAppend([0, c.prefix] + c.table, [c.suffix], 1, x);
    var a := Set12A(Arr(c, -2), 1, x);
    assert a[1..][1..513] == a[2..514];
  }

  /** fat_dirty = true */
  function MarkDirty(v: Vol): (w: Vol)
  {
    Vol(v.disk, v.drive.(cache := v.drive.cache.(dirty := true)))
  }

  /** The cache after set12bitsA(array, j, x) through a pointer d bytes from
      the start of the cached sector. */
  function Through(c: FatCache, d: int, j: nat, x: bv16): (r: FatCache)
    requires -2 <= d <= 1 && Fits(Arr(c, d), j)
    ensures r.tag == c.tag && (d >= 0 ==> r.prefix == c.prefix)
  {
    PutArr(c, d, Set12A(Arr(c, d), j, x))
  }

  /** set12bitsA through the pointer, setting fat_dirty or leaving it. */
  function StoreThrough(w: Vol, d: int, j: nat, x: bv16, dirty: bool): Vol
    requires -2 <= d <= 1 && Fits(Arr(w.drive.cache, d), j)
  {
    Store(w, Through(w.drive.cache, d, j, x), dirty)
  }

  /** set12bitsFAT, entries 0..340 of triad t: inside sector 0.  The C code
      leaves fat_dirty alone here (its `drive->fat_dirty;` is a no-op
      statement); YY_SetClusterEntry sets it afterwards. */
  function Set12Low(v: Vol, t: nat, i: nat, x: bv16): Vol
    requires t < 64 && i < 341
  {
    StoreThrough(GetFatSector(v, 3 * t), 0, i, x, false)
  }

  /** The first half of set12bitsFAT at entry 341: sector 0 is fetched, its
      last byte kept in fatPrefix, and the low four bits of the entry stored
      at its end (spilling into fatSuffix). */
  function Set12At341First(v: Vol, t: nat, x: bv16): Vol
    requires t < 64
  {
    var w0 := GetFatSector(v, 3 * t);
    StoreThrough(WithPrefix(w0, w0.drive.cache.table[511]), 0, 341, x, true)
  }

  /** set12bitsFAT, entry 341: the high eight bits go to the start of
      sector 1, through a pointer two bytes before it. */
  function Set12At341(v: Vol, t: nat, x: bv16): Vol
    requires t < 64
  {
    StoreThrough(GetFatSector(Set12At341First(v, t, x), 3 * t + 1), -2, 1, x, false)
  }

  /** set12bitsFAT, entries 342..681: inside sector 1, one byte in. */
  function Set12Middle(v: Vol, t: nat, i: nat, x: bv16): Vol
    requires t < 64 && 341 < i < 682
  {
    StoreThrough(GetFatSector(v, 3 * t + 1), 1, i - 342, x, false)
  }

  /** The first half of set12bitsFAT at entry 682 as intended: the low eight
      bits fill the last byte of sector 1. */
  function Set12At682First(v: Vol, t: nat, x: bv16): Vol
    requires t < 64
  {
    var w0 := GetFatSector(v, 3 * t + 1);
    var c0 := w0.drive.cache;
    Store(w0, c0.(table := c0.table[511 := (x & 0xff) as bv8]), true)
  }

  /** The first half as written (Clusters_YY.cpp:193-195): sector 1 is
      updated with set12bitsA(array, 341, value), the layout of an odd
      entry. */
  function Set12At682FirstAsWritten(v: Vol, t: nat, x: bv16): Vol
    requires t < 64
  {
    StoreThrough(GetFatSector(v, 3 * t + 1), 0, 341, x, true)
  }

  /** The second half at entry 682: the high four bits go to the low half of
      sector 2's first byte, through a pointer one byte before it. */
  function Set12At682Second(w: Vol, t: nat, x: bv16): Vol
    requires t < 64
  {
    StoreThrough(GetFatSector(w, 3 * t + 2), -1, 0, x, true)
  }

  /** set12bitsFAT, entries 683..1023: inside sector 2, through a pointer
      one byte before it. */
  function Set12Top(v: Vol, t: nat, i: nat, x: bv16): Vol
    requires t < 64 && 682 < i < 1024
  {
    StoreThrough(GetFatSector(v, 3 * t + 2), -1, i - 682, x, true)
  }

  /** set12bitsFAT with the intended store at entry 682. */
  function Set12Fat(v: Vol, index: U16, x: bv16): Vol
  {
    var t := index / 1024;
    var i := index % 1024;
    if i < 341 then Set12Low(v, t, i, x)
    else if i == 341 then Set12At341(v, t, x)
    else if i < 682 then Set12Middle(v, t, i, x)
    else if i == 682 then Set12At682Second(Set12At682First(v, t, x), t, x)
    else Set12Top(v, t, i, x)
  }

  /** set12bitsFAT as written. */
  function Set12FatAsWritten(v: Vol, index: U16, x: bv16): (w: Vol)
    ensures index % 1024 != 682 ==> w == Set12Fat(v, index, x)
  {
    if index % 1024 == 682 then
      Set12At682Second(Set12At682FirstAsWritten(v, index / 1024, x), index / 1024, x)
    else Set12Fat(v, index, x)
  }

  /** What a write of x to entry i of triad t leaves behind, once the
      cache is marked dirty: the flat triad changed as set12bitsA changes a
      packed array, every other FAT sector unchanged. */
  ghost predicate Set12Done(v: Vol, w: Vol, t: nat, i: nat, x: bv16)
    requires i < 1024
  {
    && CacheOk(w) && OnlyCache(v.drive, w.drive)
    && Flat(TriadView(w, t)) == Set12A(Flat(TriadView(v, t)), i, x)
    && forall s: int :: (s < 3 * t || s > 3 * t + 2) ==> View(w, s) == View(v, s)
  }

  /** w differs from v in FAT sector s only, which now reads tbl. */
  ghost predicate Changed(v: Vol, w: Vol, s: int, tbl: Sector)
  {
    && CacheOk(w) && OnlyCache(v.drive, w.drive)
    && forall r: int :: View(w, r) == if r == s then tbl else View(v, r)
  }

  lemma StoreChanged(v: Vol, w: Vol, c: FatCache)
    requires CacheOk(w) && SameFat(v, w) && OnlyCache(v.drive, w.drive)
    requires c.tag == w.drive.cache.tag && c.tag < w.drive.geo.fatSize
    ensures Changed(v, Store(w, c, true), c.tag, c.table)
  {
    StoreView(w, c);
  }

  /** One changed sector of triad t, seen as the new triad. */
  lemma ChangedOne(v: Vol, w: Vol, t: nat, k: nat, tbl: Sector)
    requires k < 3 && Changed(v, w, 3 * t + k, tbl)
    ensures TriadView(w, t) == (var tv := TriadView(v, t);
      if k == 0 then Triad(tbl, tv.s1, tv.s2) else if k == 1 then Triad(tv.s0, tbl, tv.s2) else Triad(tv.s0, tv.s1, tbl))
    ensures forall s: int :: (s < 3 * t || s > 3 * t + 2) ==> View(w, s) == View(v, s)
  {
  }

  /** Sectors k and k + 1 of triad t changed, seen as the new triad. */
  lemma ChangedPair(u: Vol, v: Vol, w: Vol, t: nat, k: nat, tbl: Sector, tbl2: Sector)
    requires k < 2 && Changed(u, v, 3 * t + k, tbl) && Changed(v, w, 3 * t + k + 1, tbl2)
    ensures CacheOk(w) && OnlyCache(u.drive, w.drive)
    ensures TriadView(w, t) == (var tv := TriadView(u, t);
      if k == 0 then Triad(tbl, tbl2, tv.s2) else Triad(tv.s0, tbl, tbl2))
    ensures forall s: int :: (s < 3 * t || s > 3 * t + 2) ==> View(w, s) == View(u, s)
  {
  }

  // The triad each region of set12bitsFAT leaves, for a cache holding the
  // sector (and the saved byte) the region needs.

  lemma WriteLow(tv: Triad, c: FatCache, i: nat, x: bv16)
    requires i < 341 && c.table == tv.s0
    ensures Flat(Triad(Through(c, 0, i, x).table, tv.s1, tv.s2)) == Set12A(Flat(tv), i, x)
  {
    SetThrough0(c, i, x);
    Set12RegionsFlatLow(tv, 0, 0, i, x);
  }

  lemma Write341(tv: Triad, c1: FatCache, c3: FatCache, x: bv16)
    requires c1.table == tv.s0 && c3.prefix == tv.s0[511] && c3.table == tv.s1
    ensures Flat(Triad(Through(c1, 0, 341, x).table,
                       Through(c3, -2, 1, x).table, tv.s2))
            == Set12A(Flat(tv), 341, x)
  {
    SetThrough0(c1, 341, x);
    SetThroughMinus2(c3, x);
    Set12RegionsFlat341(tv, 0, c1.suffix, x);
  }

  lemma MiddleFlat(tv: Triad, s1: Sector, i: nat, x: bv16)
    requires 341 < i < 682 && Fits(tv.s1[1..], i - 342)
    requires s1 == [tv.s1[0]] + Set12A(tv.s1[1..], i - 342, x)
    ensures Flat(Triad(tv.s0, s1, tv.s2)) == Set12A(Flat(tv), i, x)
  {
    Set12RegionsFlatMiddle(tv, 0, 0, i, x);
    assert Set12Regions(tv, 0, 0, i, x) == Triad(tv.s0, s1, tv.s2);
  }

  lemma WriteMiddle(tv: Triad, c: FatCache, i: nat, x: bv16)
    requires 341 < i < 682 && c.table == tv.s1
    ensures Flat(Triad(tv.s0, Through(c, 1, i - 342, x).table, tv.s2)) == Set12A(Flat(tv), i, x)
  {
    FitsLen(Arr(c, 1), i - 342);
    FitsLen(tv.s1[1..], i - 342);
    SetThrough1(c, i - 342, x);
    MiddleFlat(tv, Through(c, 1, i - 342, x).table, i, x);
  }

  lemma Write682(tv: Triad, c0: FatCache, c2: FatCache, x: bv16)
    requires c0.table == tv.s1 && c2.table == tv.s2
    ensures Flat(Triad(tv.s0, c0.table[511 := (x & 0xff) as bv8],
                       Through(c2, -1, 0, x).table))
            == Set12A(Flat(tv), 682, x)
  {
    SetThroughMinus1(c2, 0, x);
    Set12RegionsFlat682(tv, c2.prefix, 0, x);
  }

  lemma Write682AsWritten(tv: Triad, c0: FatCache, c2: FatCache, x: bv16)
    requires c0.table == tv.s1 && c2.table == tv.s2
    ensures Triad(tv.s0, Through(c0, 0, 341, x).table,
                  Through(c2, -1, 0, x).table)
            == Set12RegionsAsWritten(tv, c2.prefix, c0.suffix, 682, x)
  {
    SetThrough0(c0, 341, x);
    SetThroughMinus1(c2, 0, x);
  }

  lemma WriteTop(tv: Triad, c: FatCache, i: nat, x: bv16)
    requires 682 < i < 1024 && c.table == tv.s2
    ensures Flat(Triad(tv.s0, tv.s1, Through(c, -1, i - 682, x).table)) == Set12A(Flat(tv), i, x)
  {
    SetThroughMinus1(c, i - 682, x);
    Set12RegionsFlatTop(tv, c.prefix, 0, i, x);
    assert Set12Regions(tv, c.prefix, 0, i, x) == Triad(tv.s0, tv.s1, Through(c, -1, i - 682, x).table);
  }

  /** set12bitsA through a pointer into the cache changes the cached sector
      of the view, and nothing else, once the cache is dirty. */
  lemma StoreThroughChanged(v: Vol, w: Vol, d: int, j: nat, x: bv16, dirty: bool)
    requires -2 <= d <= 1 && Fits(Arr(w.drive.cache, d), j)
    requires CacheOk(w) && SameFat(v, w) && OnlyCache(v.drive, w.drive)
    requires w.drive.cache.tag < w.drive.geo.fatSize
    ensures Changed(v, MarkDirty(StoreThrough(w, d, j, x, dirty)), w.drive.cache.tag,
                    Through(w.drive.cache, d, j, x).table)
    ensures dirty ==> MarkDirty(StoreThrough(w, d, j, x, dirty)) == StoreThrough(w, d, j, x, dirty)
  {
    var c := Through(w.drive.cache, d, j, x);
    assert MarkDirty(StoreThrough(w, d, j, x, dirty)) == Store(w, c, true);
    StoreChanged(v, w, c);
  }

  /** Fetching FAT sector s, then set12bitsA through a pointer into it. */
  lemma FetchThrough(v: Vol, s: U32, d: int, j: nat, x: bv16, dirty: bool)
    requires -2 <= d <= 1 && Fits(Arr(v.drive.cache, d), j)
    requires CacheOk(v) && s < v.drive.geo.fatSize
    ensures var w := GetFatSector(v, s);
      && w.drive.cache.table == View(v, s) && w.drive.cache.prefix == v.drive.cache.prefix
      && Changed(v, MarkDirty(StoreThrough(w, d, j, x, dirty)), s, Through(w.drive.cache, d, j, x).table)
    ensures dirty ==> MarkDirty(StoreThrough(GetFatSector(v, s), d, j, x, dirty))
                      == StoreThrough(GetFatSector(v, s), d, j, x, dirty)
  {
    GetFatSectorView(v, s);
    StoreThroughChanged(v, GetFatSector(v, s), d, j, x, dirty);
  }

  // Each region's write, first over abstract volumes (what changed where),
  // then over the model's own steps.

  lemma LowDone(v: Vol, w: Vol, c: FatCache, t: nat, i: nat, x: bv16)
    requires i < 341 && c.table == View(v, 3 * t)
    requires Changed(v, w, 3 * t, Through(c, 0, i, x).table)
    ensures Set12Done(v, w, t, i, x)
  {
    ChangedOne(v, w, t, 0, Through(c, 0, i, x).table);
    WriteLow(TriadView(v, t), c, i, x);
  }

  lemma Set12LowState(v: Vol, t: nat, i: nat, x: bv16)
    requires t < 64
    requires i < 341 && CacheOk(v) && 3 * t < v.drive.geo.fatSize
    ensures Set12Done(v, MarkDirty(Set12Low(v, t, i, x)), t, i, x)
  {
    FetchThrough(v, 3 * t, 0, i, x, false);
    assert Set12Low(v, t, i, x) == StoreThrough(GetFatSector(v, 3 * t), 0, i, x, false);
    LowDone(v, MarkDirty(Set12Low(v, t, i, x)), GetFatSector(v, 3 * t).drive.cache, t, i, x);
  }

  lemma At341Done(v: Vol, w2: Vol, w: Vol, c1: FatCache, c3: FatCache, t: nat, x: bv16)
    requires c1.table == View(v, 3 * t)
    requires c3.prefix == View(v, 3 * t)[511] && c3.table == View(w2, 3 * t + 1)
    requires Changed(v, w2, 3 * t, Through(c1, 0, 341, x).table)
    requires Changed(w2, w, 3 * t + 1, Through(c3, -2, 1, x).table)
    ensures Set12Done(v, w, t, 341, x)
  {
    ChangedPair(v, w2, w, t, 0, Through(c1, 0, 341, x).table, Through(c3, -2, 1, x).table);
    Write341(TriadView(v, t), c1, c3, x);
  }

  lemma Set12At341FirstState(v: Vol, t: nat, x: bv16)
    requires t < 64 && CacheOk(v) && 3 * t < v.drive.geo.fatSize
    ensures var w0 := GetFatSector(v, 3 * t);
      var c1 := WithPrefix(w0, w0.drive.cache.table[511]).drive.cache;
      && c1.table == View(v, 3 * t)
      && Set12At341First(v, t, x).drive.cache.prefix == View(v, 3 * t)[511]
      && Changed(v, Set12At341First(v, t, x), 3 * t, Through(c1, 0, 341, x).table)
  {
    GetFatSectorView(v, 3 * t);
    var w0 := GetFatSector(v, 3 * t);
    WithPrefixView(w0, w0.drive.cache.table[511]);
    StoreThroughChanged(v, WithPrefix(w0, w0.drive.cache.table[511]), 0, 341, x, true);
  }

  lemma Set12At341State(v: Vol, t: nat, x: bv16)
    requires t < 64
    requires CacheOk(v) && 3 * t + 1 < v.drive.geo.fatSize
    ensures Set12Done(v, MarkDirty(Set12At341(v, t, x)), t, 341, x)
  {
    Set12At341FirstState(v, t, x);
    var w0 := GetFatSector(v, 3 * t);
    var w2 := Set12At341First(v, t, x);
    FetchThrough(w2, 3 * t + 1, -2, 1, x, false);
    assert Set12At341(v, t, x) == StoreThrough(GetFatSector(w2, 3 * t + 1), -2, 1, x, false);
    At341Done(v, w2, MarkDirty(Set12At341(v, t, x)), WithPrefix(w0, w0.drive.cache.table[511]).drive.cache,
              GetFatSector(w2, 3 * t + 1).drive.cache, t, x);
  }

  lemma MiddleDone(v: Vol, w: Vol, c: FatCache, t: nat, i: nat, x: bv16)
    requires 341 < i < 682 && c.table == View(v, 3 * t + 1)
    requires Changed(v, w, 3 * t + 1, Through(c, 1, i - 342, x).table)
    ensures Set12Done(v, w, t, i, x)
  {
    ChangedOne(v, w, t, 1, Through(c, 1, i - 342, x).table);
    WriteMiddle(TriadView(v, t), c, i, x);
  }

  lemma Set12MiddleState(v: Vol, t: nat, i: nat, x: bv16)
    requires t < 64
    requires 341 < i < 682 && CacheOk(v) && 3 * t + 1 < v.drive.geo.fatSize
    ensures Set12Done(v, MarkDirty(Set12Middle(v, t, i, x)), t, i, x)
  {
    var w := GetFatSector(v, 3 * t + 1);
    GetFatSectorView(v, 3 * t + 1);
    FitsLen(Arr(w.drive.cache, 1), i - 342);
    StoreThroughChanged(v, w, 1, i - 342, x, false);
    MiddleDone(v, MarkDirty(StoreThrough(w, 1, i - 342, x, false)), w.drive.cache, t, i, x);
  }

  lemma At682Done(v: Vol, w1: Vol, w: Vol, c0: FatCache, c2: FatCache, t: nat, x: bv16)
    requires c0.table == View(v, 3 * t + 1) && c2.table == View(w1, 3 * t + 2)
    requires Changed(v, w1, 3 * t + 1, c0.table[511 := (x & 0xff) as bv8])
    requires Changed(w1, w, 3 * t + 2, Through(c2, -1, 0, x).table)
    ensures Set12Done(v, w, t, 682, x)
  {
    ChangedPair(v, w1, w, t, 1, c0.table[511 := (x & 0xff) as bv8], Through(c2, -1, 0, x).table);
    Write682(TriadView(v, t), c0, c2, x);
  }

  lemma Set12At682FirstState(v: Vol, t: nat, x: bv16)
    requires t < 64 && CacheOk(v) && 3 * t + 1 < v.drive.geo.fatSize
    ensures var c0 := GetFatSector(v, 3 * t + 1).drive.cache;
      && c0.table == View(v, 3 * t + 1)
      && Changed(v, Set12At682First(v, t, x), 3 * t + 1, c0.table[511 := (x & 0xff) as bv8])
  {
    GetFatSectorView(v, 3 * t + 1);
    var w0 := GetFatSector(v, 3 * t + 1);
    var c0 := w0.drive.cache;
    StoreChanged(v, w0, c0.(table := c0.table[511 := (x & 0xff) as bv8]));
  }

  lemma Set12At682State(v: Vol, t: nat, x: bv16)
    requires t < 64
    requires CacheOk(v) && 3 * t + 2 < v.drive.geo.fatSize
    ensures Set12Done(v, MarkDirty(Set12At682Second(Set12At682First(v, t, x), t, x)), t, 682, x)
  {
    Set12At682FirstState(v, t, x);
    var w1 := Set12At682First(v, t, x);
    FetchThrough(w1, 3 * t + 2, -1, 0, x, true);
    assert Set12At682Second(w1, t, x) == StoreThrough(GetFatSector(w1, 3 * t + 2), -1, 0, x, true);
    At682Done(v, w1, MarkDirty(Set12At682Second(w1, t, x)), GetFatSector(v, 3 * t + 1).drive.cache,
              GetFatSector(w1, 3 * t + 2).drive.cache, t, x);
  }

  lemma At682AsWrittenDone(v: Vol, w1: Vol, w: Vol, c0: FatCache, c2: FatCache, t: nat, x: bv16)
    requires c0.table == View(v, 3 * t + 1) && c2.table == View(w1, 3 * t + 2)
    requires Changed(v, w1, 3 * t + 1, Through(c0, 0, 341, x).table)
    requires Changed(w1, w, 3 * t + 2, Through(c2, -1, 0, x).table)
    ensures && CacheOk(w) && OnlyCache(v.drive, w.drive)
      && TriadView(w, t) == Set12RegionsAsWritten(TriadView(v, t), c2.prefix, c0.suffix, 682, x)
      && forall s: int :: (s < 3 * t || s > 3 * t + 2) ==> View(w, s) == View(v, s)
  {
    ChangedPair(v, w1, w, t, 1, Through(c0, 0, 341, x).table, Through(c2, -1, 0, x).table);
    Write682AsWritten(TriadView(v, t), c0, c2, x);
  }

  lemma Set12At682FirstAsWrittenState(v: Vol, t: nat, x: bv16)
    requires t < 64 && CacheOk(v) && 3 * t + 1 < v.drive.geo.fatSize
    ensures var c0 := GetFatSector(v, 3 * t + 1).drive.cache;
      && c0.table == View(v, 3 * t + 1) && c0.suffix == v.drive.cache.suffix
      && Set12At682FirstAsWritten(v, t, x).drive.cache.prefix == v.drive.cache.prefix
      && Changed(v, Set12At682FirstAsWritten(v, t, x), 3 * t + 1, Through(c0, 0, 341, x).table)
  {
    FetchThrough(v, 3 * t + 1, 0, 341, x, true);
  }

  /** What the as-written store at 682 leaves in the triad. */
  lemma Set12At682AsWrittenState(v: Vol, t: nat, x: bv16)
    requires t < 64
    requires CacheOk(v) && 3 * t + 2 < v.drive.geo.fatSize
    ensures var w := MarkDirty(Set12At682Second(Set12At682FirstAsWritten(v, t, x), t, x));
      && CacheOk(w) && OnlyCache(v.drive, w.drive)
      && TriadView(w, t) == Set12RegionsAsWritten(TriadView(v, t), v.drive.cache.prefix, v.drive.cache.suffix, 682, x)
      && forall s: int :: (s < 3 * t || s > 3 * t + 2) ==> View(w, s) == View(v, s)
  {
    Set12At682FirstAsWrittenState(v, t, x);
    var w1 := Set12At682FirstAsWritten(v, t, x);
    FetchThrough(w1, 3 * t + 2, -1, 0, x, true);
    assert Set12At682Second(w1, t, x) == StoreThrough(GetFatSector(w1, 3 * t + 2), -1, 0, x, true);
    At682AsWrittenDone(v, w1, MarkDirty(Set12At682Second(w1, t, x)), GetFatSector(v, 3 * t + 1).drive.cache,
                       GetFatSector(w1, 3 * t + 2).drive.cache, t, x);
  }

  /** After the write at 683..1023: only sector 2 of the triad changed. */
  lemma TopDone(v: Vol, w: Vol, c: FatCache, t: nat, i: nat, x: bv16)
    requires 682 < i < 1024 && c.table == View(v, 3 * t + 2)
    requires Changed(v, w, 3 * t + 2, Through(c, -1, i - 682, x).table)
    ensures Set12Done(v, w, t, i, x)
  {
    ChangedOne(v, w, t, 2, Through(c, -1, i - 682, x).table);
    WriteTop(TriadView(v, t), c, i, x);
  }

  lemma Set12TopState(v: Vol, t: nat, i: nat, x: bv16)
    requires t < 64
    requires 682 < i < 1024 && CacheOk(v) && 3 * t + 2 < v.drive.geo.fatSize
    ensures Set12Done(v, MarkDirty(Set12Top(v, t, i, x)), t, i, x)
  {
    FetchThrough(v, 3 * t + 2, -1, i - 682, x, true);
    assert Set12Top(v, t, i, x) == StoreThrough(GetFatSector(v, 3 * t + 2), -1, i - 682, x, true);
    TopDone(v, MarkDirty(Set12Top(v, t, i, x)), GetFatSector(v, 3 * t + 2).drive.cache, t, i, x);
  }

  /** Writing a FAT12 entry through the cache (and marking the cache dirty,
      as YY_SetClusterEntry does) changes the flat triad exactly as
      set12bitsA changes a packed array, and no other FAT sector. */
  lemma Set12FatWrites(v: Vol, index: U16, x: bv16)
    requires CacheOk(v)
    requires 3 * (index / 1024) + TriadLast(index % 1024) < v.drive.geo.fatSize
    ensures Set12Done(v, MarkDirty(Set12Fat(v, index, x)), index / 1024, index % 1024, x)
  {
    var t := index / 1024;
    var i := index % 1024;
    if i < 341 {
      Set12LowState(v, t, i, x);
    } else if i == 341 {
      Set12At341State(v, t, x);
    } else if i < 682 {
      Set12MiddleState(v, t, i, x);
    } else if i == 682 {
      Set12At682State(v, t, x);
    } else {
      Set12TopState(v, t, i, x);
    }
  }
}

=== FILE: fat_types.dfy ===
/** Records, flags and constants shared by the FAT engine (FAT_YY.h). */
module FatTypes {
  import opened Uint

  /** One device sector: the engine only ever moves whole 512-byte sectors. */
  type Sector = s: seq<bv8> | |s| == 512 witness seq(512, _ => 0)

  /** The width of path buffers (MAX_PATH in the Windows headers). */
  const MaxPath: nat := 260

  // ---------------------------------------------------------------------------
  // Little-endian fields
  // ---------------------------------------------------------------------------

  function Le16(b0: bv8, b1: bv8): (r: bv16)
  {
    (b0 as bv16) | ((b1 as bv16) << 8)
  }

  function Le32(b0: bv8, b1: bv8, b2: bv8, b3: bv8): (r: bv32)
  {
    (b0 as bv32) | ((b1 as bv32) << 8) | ((b2 as bv32) << 16) | ((b3 as bv32) << 24)
  }

  /** Bytes of a 16-bit value, least significant first. */
  function Bytes16(v: bv16): (r: seq<bv8>)
    ensures |r| == 2 && Le16(r[0], r[1]) == v
  {
    [(v & 0xff) as bv8, (v >> 8) as bv8]
  }

  /** Bytes of a 32-bit value, least significant first. */
  function Bytes32(v: bv32): (r: seq<bv8>)
    ensures |r| == 4 && Le32(r[0], r[1], r[2], r[3]) == v
  {
    [(v & 0xff) as bv8, ((v >> 8) & 0xff) as bv8, ((v >> 16) & 0xff) as bv8, (v >> 24) as bv8]
  }

  lemma Le16Bytes(b0: bv8, b1: bv8)
    ensures Bytes16(Le16(b0, b1)) == [b0, b1]
  {
  }

  lemma Le32Bytes(b0: bv8, b1: bv8, b2: bv8, b3: bv8)
    ensures Bytes32(Le32(b0, b1, b2, b3)) == [b0, b1, b2, b3]
  {
  }

  // ---------------------------------------------------------------------------
  // uint24_t: a three-byte number stored least significant byte first
  // ---------------------------------------------------------------------------

  datatype Uint24 = Uint24(a0: bv8, a1: bv8, a2: bv8)

  /** uint24_t::get */
  function Get24(u: Uint24): (r: bv32)
    ensures r < 0x100_0000
    ensures (r & 0xff) as bv8 == u.a0 && ((r >> 8) & 0xff) as bv8 == u.a1 && (r >> 16) as bv8 == u.a2
  {
    (u.a0 as bv32) + ((u.a1 as bv32) << 8) + ((u.a2 as bv32) << 16)
  }

  /** uint24_t::set: keeps the low 24 bits of v, low byte first. */
  function Set24(v: bv32): (r: Uint24)
    ensures r.a0 == (v & 0xff) as bv8 && r.a1 == ((v >> 8) & 0xff) as bv8 && r.a2 == ((v >> 16) & 0xff) as bv8
  {
    Uint24((v & 0xff) as bv8, ((v >> 8) & 0xff) as bv8, ((v >> 16) & 0xff) as bv8)
  }

  /** get after set returns the value modulo 2^24. */
  lemma Uint24RoundTrip(v: bv32)
    ensures Get24(Set24(v)) == v & 0xFF_FFFF
  {
  }

  /** set after get stores the same three bytes. */
  lemma Uint24Restore(u: Uint24)
    ensures Set24(Get24(u)) == u
  {
  }

  // ---------------------------------------------------------------------------
  // Attribute and open-mode bits
  // ---------------------------------------------------------------------------

  const AttrReadOnly: bv8 := 0x01
  const AttrHidden: bv8 := 0x02
  const AttrSystem: bv8 := 0x04
  const AttrVolume: bv8 := 0x08
  const AttrDirectory: bv8 := 0x10
  const AttrArchive: bv8 := 0x20

  const FomRead: bv8 := 0x01
  const FomWrite: bv8 := 0x02
  const FomMustExist: bv8 := 0x04
  const FomClean: bv8 := 0x08
  const FomAppend: bv8 := 0x10
  const FomOpen: bv8 := 0x20
  const FomDirty: bv8 := 0x40
  const FomDirDirty: bv8 := 0x80

  /** The open-mode bits a caller may pass in. */
  const CallerModeBits: bv8 := FomRead | FomWrite | FomMustExist | FomClean | FomAppend
  /** The open-mode bits the engine keeps for itself. */
  const InternalModeBits: bv8 := FomOpen | FomDirty | FomDirDirty

  const FomFlags: seq<bv8> := [FomRead, FomWrite, FomMustExist, FomClean, FomAppend, FomOpen, FomDirty, FomDirDirty]

  predicate SingleBit(x: bv8)
  {
    x != 0 && x & (x - 1) == 0
  }

  /** Every open-mode flag is one bit, no two flags share a bit, and the
      internal bits never overlap the caller's. */
  lemma FomFlagsDisjoint()
    ensures forall i :: 0 <= i < |FomFlags| ==> SingleBit(FomFlags[i])
    ensures forall i, j :: 0 <= i < j < |FomFlags| ==> FomFlags[i] & FomFlags[j] == 0
    ensures CallerModeBits & InternalModeBits == 0
    ensures CallerModeBits | InternalModeBits == 0xff
  {
  }

  /** The value YY_getc returns at end of file. */
  const Eof: bv16 := 0xffff

  /** No byte widened to 16 bits can be mistaken for the end-of-file marker. */
  lemma EofIsNotAByte(b: bv8)
    ensures b as bv16 != Eof
    ensures b as bv16 <= 0xff
  {
  }

  // ---------------------------------------------------------------------------
  // Directory entries
  // ---------------------------------------------------------------------------

  /** YY_DIRN: one 32-byte directory entry. */
  datatype Dirn = Dirn(
    name: seq<bv8>,        // 8 bytes at 0
    ext: seq<bv8>,         // 3 bytes at 8
    attr: bv8,             // 11
    ntRes: bv8,            // 12: 0x08 lower-case name, 0x10 lower-case extension
    crtTimeTenth: bv8,     // 13
    crtTime: bv16,         // 14
    crtDate: bv16,         // 16
    lstAccDate: bv16,      // 18
    fstClusHi: bv16,       // 20
    wrtTime: bv16,         // 22
    wrtDate: bv16,         // 24
    fstClusLo: bv16,       // 26
    fileSize: bv32         // 28
  )
  {
    predicate Valid()
    {
      |name| == 8 && |ext| == 3
    }

    /** The first cluster, assembled from its high and low words. */
    function StartCluster(): (c: U32)
      ensures c / 0x1_0000 == fstClusHi as int && c % 0x1_0000 == fstClusLo as int
    {
      fstClusHi as int * 0x1_0000 + fstClusLo as int
    }
  }

  /** The all-zero entry the C structures are initialised with. */
  const ZeroDirn: Dirn := Dirn(seq(8, _ => 0), seq(3, _ => 0), 0, 0, 0, 0, 0, 0, 0, 0, 0, 0, 0)

  /** The j-th 16-bit field of a packed entry, from byte 14 on. */
  function Word16(raw: seq<bv8>, j: nat): bv16
    requires |raw| == 32 && j < 7
  {
    Le16(raw[14 + 2 * j], raw[15 + 2 * j])
  }

  /** Reads the packed entry layout. */
  function ParseDirn(raw: seq<bv8>): (d: Dirn)
    requires |raw| == 32
    ensures d.Valid()
    ensures d.name == raw[..8] && d.ext == raw[8..11] && d.attr == raw[11] && d.ntRes == raw[12]
  {
    Dirn(raw[..8], raw[8..11], raw[11], raw[12], raw[13],
         Word16(raw, 0), Word16(raw, 1), Word16(raw, 2), Word16(raw, 3),
         Word16(raw, 4), Word16(raw, 5), Word16(raw, 6), Le32(raw[28], raw[29], raw[30], raw[31]))
  }

  function Lo(v: bv16): bv8 { (v & 0xff) as bv8 }
  function Hi(v: bv16): bv8 { (v >> 8) as bv8 }

  /** The seven 16-bit fields, in the order they are packed from byte 14. */
  function Field16(d: Dirn, j: nat): bv16
    requires j < 7
  {
    if j == 0 then d.crtTime else if j == 1 then d.crtDate
    else if j == 2 then d.lstAccDate else if j == 3 then d.fstClusHi
    else if j == 4 then d.wrtTime else if j == 5 then d.wrtDate
    else d.fstClusLo
  }

  /** Byte k of the packed entry layout. */
  function DirnByte(d: Dirn, k: nat): bv8
    requires d.Valid() && k < 32
  {
    if k < 8 then d.name[k]
    else if k < 11 then d.ext[k - 8]
    else if k == 11 then d.attr
    else if k == 12 then d.ntRes
    else if k == 13 then d.crtTimeTenth
    else if k < 28 then (if k % 2 == 0 then Lo(Field16(d, (k - 14) / 2)) else Hi(Field16(d, (k - 14) / 2)))
    else Bytes32(d.fileSize)[k - 28]
  }

  /** The first n bytes of the packed entry layout. */
  function DirnPrefix(d: Dirn, n: nat): (raw: seq<bv8>)
    requires d.Valid() && n <= 32
    ensures |raw| == n && forall k :: 0 <= k < n ==> raw[k] == DirnByte(d, k)
  {
    if n == 0 then [] else DirnPrefix(d, n - 1) + [DirnByte(d, n - 1)]
  }

  /** Writes the packed entry layout. */
  function SerializeDirn(d: Dirn): (raw: seq<bv8>)
    requires d.Valid()
    ensures |raw| == 32 && forall k :: 0 <= k < 32 ==> raw[k] == DirnByte(d, k)
  {
    DirnPrefix(d, 32)
  }

  lemma Le16LoHi(v: bv16)
    ensures Le16(Lo(v), Hi(v)) == v
  {
  }

  lemma LoHiLe16(b0: bv8, b1: bv8)
    ensures Lo(Le16(b0, b1)) == b0 && Hi(Le16(b0, b1)) == b1
  {
  }

  /** A packed 16-bit field reads back as the field. */
  lemma SerializedField(d: Dirn, j: nat)
    requires d.Valid() && j < 7
    ensures Word16(SerializeDirn(d), j) == Field16(d, j)
  {
    var raw := SerializeDirn(d);
    assert raw[14 + 2 * j] == DirnByte(d, 14 + 2 * j) == Lo(Field16(d, j));
    assert raw[15 + 2 * j] == DirnByte(d, 15 + 2 * j) == Hi(Field16(d, j));
    Le16LoHi(Field16(d, j));
  }

  /** The byte fields and the size read back from the packed layout. */
  lemma SerializedBytes(d: Dirn)
    requires d.Valid()
    ensures var raw := SerializeDirn(d);
      && raw[..8] == d.name && raw[8..11] == d.ext
      && raw[11] == d.attr && raw[12] == d.ntRes && raw[13] == d.crtTimeTenth
      && Le32(raw[28], raw[29], raw[30], raw[31]) == d.fileSize
  {
    var raw := SerializeDirn(d);
    assert raw[..8] == d.name;
    assert raw[8..11] == d.ext;
    assert [raw[28], raw[29], raw[30], raw[31]] == Bytes32(d.fileSize);
  }

  lemma DirnRoundTrip(d: Dirn)
    requires d.Valid()
    ensures ParseDirn(SerializeDirn(d)) == d
  {
    SerializedBytes(d);
    SerializedField(d, 0);
    SerializedField(d, 1);
    SerializedField(d, 2);
    SerializedField(d, 3);
    SerializedField(d, 4);
    SerializedField(d, 5);
    SerializedField(d, 6);
  }

  /** A parsed 16-bit field is the word its two bytes make. */
  lemma ParsedField(raw: seq<bv8>, j: nat)
    requires |raw| == 32 && j < 7
    ensures Field16(ParseDirn(raw), j) == Word16(raw, j)
  {
  }

  /** Each byte of a parsed entry is written back where it was read. */
  lemma DirnByteBack(raw: seq<bv8>, k: nat)
    requires |raw| == 32 && k < 32
    ensures DirnByte(ParseDirn(raw), k) == raw[k]
  {
    var d := ParseDirn(raw);
    if 14 <= k < 28 {
      var j := (k - 14) / 2;
      ParsedField(raw, j);
      LoHiLe16(raw[14 + 2 * j], raw[15 + 2 * j]);
    } else if k >= 28 {
      Le32Bytes(raw[28], raw[29], raw[30], raw[31]);
    }
  }

  lemma DirnBytesRoundTrip(raw: seq<bv8>)
    requires |raw| == 32
    ensures SerializeDirn(ParseDirn(raw)) == raw
  {
    var s := SerializeDirn(ParseDirn(raw));
    forall k | 0 <= k < 32
      ensures s[k] == raw[k]
    {
      DirnByteBack(raw, k);
    }
  }

  /** YY_DIRSECT: a directory sector read as its sixteen entries. */
  function DirSect(s: Sector): (r: seq<Dirn>)
    ensures |r| == 16
    ensures forall k :: 0 <= k < 16 ==> r[k] == ParseDirn(s[32 * k .. 32 * k + 32])
    ensures forall k :: 0 <= k < 16 ==> r[k].Valid()
  {
    seq(16, k requires 0 <= k < 16 => ParseDirn(s[32 * k .. 32 * k + 32]))
  }

  /** Sixteen entries fill exactly one sector. */
  function JoinDirSect(entries: seq<Dirn>): (s: seq<bv8>)
    requires forall k :: 0 <= k < |entries| ==> entries[k].Valid()
    ensures |s| == 32 * |entries|
  {
    if entries == [] then [] else SerializeDirn(entries[0]) + JoinDirSect(entries[1..])
  }

  lemma {:induction false} JoinDirSectAt(entries: seq<Dirn>, k: nat)
    requires forall j :: 0 <= j < |entries| ==> entries[j].Valid()
    requires k < |entries|
    ensures JoinDirSect(entries)[32 * k .. 32 * k + 32] == SerializeDirn(entries[k])
  {
    var head := SerializeDirn(entries[0]);
    var rest := JoinDirSect(entries[1..]);
    assert JoinDirSect(entries) == head + rest;
    if k > 0 {
      var j := k - 1;
      JoinDirSectAt(entries[1..], j);
      assert (head + rest)[32 * k .. 32 * k + 32] == rest[32 * j .. 32 * j + 32];
    } else {
      assert (head + rest)[0 .. 32] == head;
    }
  }

  lemma DirSectEntry(s: Sector, k: nat)
    requires k < 16
    ensures JoinDirSect(DirSect(s))[32 * k .. 32 * k + 32] == s[32 * k .. 32 * k + 32]
  {
    var e := DirSect(s);
    var piece := s[32 * k .. 32 * k + 32];
    JoinDirSectAt(e, k);
    DirnBytesRoundTrip(piece);
  }

  lemma DirSectByte(s: Sector, k: nat, r: nat)
    requires k < 16 && r < 32
    ensures JoinDirSect(DirSect(s))[32 * k + r] == s[32 * k + r]
  {
    DirSectEntry(s, k);
    var j := JoinDirSect(DirSect(s));
    assert j[32 * k + r] == j[32 * k .. 32 * k + 32][r];
    assert s[32 * k + r] == s[32 * k .. 32 * k + 32][r];
  }

  /** Splitting a directory sector into its entries and packing them again
      gives back the sector. */
  lemma {:induction false} DirSectRoundTrip(s: Sector)
    ensures JoinDirSect(DirSect(s)) == s
  {
    var j := JoinDirSect(DirSect(s));
    forall i | 0 <= i < 512
      ensures j[i] == s[i]
    {
      DirSectByte(s, i / 32, i % 32);
    }
  }

  // ---------------------------------------------------------------------------
  // The mounted drive and its FAT cache
  // ---------------------------------------------------------------------------

  datatype FatType = UnknownFat | Fat12 | Fat16 | Fat32

  /** The value last_fat_sector holds before any FAT sector was read. */
  const NoFatSector: U32 := 0xffff_ffff

  /** The one-sector FAT cache of a drive: the sector itself plus the byte
      the FAT12 code keeps in front of it (fatPrefix) and the byte it may
      spill past its end (fatSuffix). */
  datatype FatCache = FatCache(prefix: bv8, table: Sector, suffix: bv8, tag: U32, dirty: bool)

  /** The fields of a YY_DRIVE that mounting sets from the boot sector and
      nothing else changes. */
  datatype Geometry = Geometry(
    fatType: FatType,
    partitionBegin: U32,
    fatSize: U32,
    slide: U8,              // log2 of sectors per cluster
    mask: U8,               // sectors per cluster - 1
    fatBegin: U32,
    rootDirFirst: U32,
    rootDirEntries: U16,
    clusterBegin: U32,
    countOfClusters: U32,
    rootClus: U32           // BPB_RootClus; YY_DRIVE does not keep it, see ResetDirectory
  )

  /** YY_DRIVE */
  datatype Drive = Drive(
    device: string,          // the device the drive letter is mapped to
    id: bv8,                 // 0 when the slot is free, else the drive letter
    cwd: seq<bv16>,          // current working directory, "X:/..."
    geo: Geometry,
    cache: FatCache,
    freeCursor: U32          // FAT sector where free space was last found
  )

  /** A YY_DRIVE as the slot table is initialised. */
  function DefaultDrive(): (d: Drive)
    ensures d.id == 0 && d.cache.tag == NoFatSector && !d.cache.dirty
    ensures d.geo.partitionBegin == 0 && d.geo.fatType == UnknownFat
  {
    Drive("", 0, [], Geometry(UnknownFat, 0, 0, 0, 0, 0, 0, 0, 0, 0, 0),
          FatCache(0, seq(512, _ => 0), 0, NoFatSector, false), 0)
  }
}

=== FILE: file_slots.dfy ===
/** The YY_FILE record, its slot pool and the predicates on it
    (Files_YY.cpp:14-62). */
module FileSlots {
  import opened Uint
  import opened Wrappers
  import opened FatTypes
  import opened Names

  /** The number of file slots (MAX_FILES). */
  const MaxFiles: nat := 100

  /** YY_FILE.  The drive pointer is held as the drive letter of the drive
      it points at, 0 while the slot is free; the write-side fields
      (first_sector_file, file_dirty) that nothing reads are left out. */
  datatype FileRec = FileRec(
    drive: bv8,
    dirn: Dirn,
    startCluster: U32,
    longName: WBuf,
    pathName: WBuf,
    checksum: bv8,          // shortnamechecksum, from the long-name fragments
    absInBuffer: U32,       // sector_in_buffer_abs
    fileInBuffer: U32,      // sector_in_buffer_file
    firstSector: U32,
    buffer: Sector,
    pointer: U32,           // filePointer
    openMode: bv8
  )

  function ZeroBuf(): (b: WBuf)
    ensures forall i :: 0 <= i < MaxPath ==> b[i] == 0
  {
    seq(MaxPath, _ => 0)
  }

  /** A slot as files[] is initialised: everything zero. */
  function EmptyFile(): (f: FileRec)
    ensures f.drive == 0 && f.openMode == 0
  {
    FileRec(0, ZeroDirn, 0, ZeroBuf(), ZeroBuf(), 0, 0, 0, 0, seq(512, _ => 0), 0, 0)
  }

  /** YY_GetFileSlot: the first free slot, without claiming it. */
  function GetFileSlot(files: seq<FileRec>): (r: Option<nat>)
    ensures r.Some? ==> r.value < |files| && files[r.value].drive == 0
    ensures r.Some? ==> forall j :: 0 <= j < r.value ==> files[j].drive != 0
    ensures r.None? ==> forall j :: 0 <= j < |files| ==> files[j].drive != 0
  {
    FirstFree(files, 0)
  }

  function FirstFree(files: seq<FileRec>, i: nat): (r: Option<nat>)
    ensures r.Some? ==> i <= r.value < |files| && files[r.value].drive == 0
    ensures r.Some? ==> forall j :: i <= j < r.value ==> files[j].drive != 0
    ensures r.None? ==> forall j :: i <= j < |files| ==> files[j].drive != 0
    decreases |files| - i
  {
    if i >= |files| then None
    else if files[i].drive == 0 then Some(i)
    else FirstFree(files, i + 1)
  }

  /** YY_FreeFileSlot: releases the slot; a null file is ignored. */
  function FreeFileSlot(files: seq<FileRec>, file: Option<nat>): (r: seq<FileRec>)
    requires file.Some? ==> file.value < |files|
    ensures |r| == |files|
    ensures file.Some? ==> r[file.value].drive == 0
    ensures forall j :: 0 <= j < |files| && (file.None? || j != file.value) ==> r[j] == files[j]
    ensures file.Some? ==> r[file.value] == files[file.value].(drive := 0)
  {
    match file
    case None => files
    case Some(i) => files[i := files[i].(drive := 0)]
  }

  /** Which slots are in use. */
  function Busy(files: seq<FileRec>): (r: set<nat>)
    ensures forall j :: j in r <==> 0 <= j < |files| && files[j].drive != 0
  {
    set j | 0 <= j < |files| && files[j].drive != 0
  }

  /** Taking the first free slot and releasing it again leaves the pool's
      use as it was. */
  lemma ClaimRelease(files: seq<FileRec>, d: bv8)
    requires GetFileSlot(files).Some? && d != 0
    ensures var i := GetFileSlot(files).value;
      && Busy(files[i := files[i].(drive := d)]) == Busy(files) + {i}
      && Busy(FreeFileSlot(files[i := files[i].(drive := d)], Some(i))) == Busy(files)
  {
  }

  // ---------------------------------------------------------------------------
  // The attribute predicates
  // ---------------------------------------------------------------------------

  /** YY_isDIR: the directory bit without the volume-label bit. */
  predicate IsDir(f: FileRec)
  {
    f.dirn.attr & (AttrDirectory | AttrVolume) == AttrDirectory
  }

  /** YY_isFILE: neither the directory nor the volume-label bit. */
  predicate IsFile(f: FileRec)
  {
    f.dirn.attr & (AttrDirectory | AttrVolume) == 0
  }

  /** An entry is a directory, a file, or (with the volume-label bit) neither,
      never both. */
  lemma DirOrFile(f: FileRec)
    ensures !(IsDir(f) && IsFile(f))
    ensures f.dirn.attr & AttrVolume != 0 ==> !IsDir(f) && !IsFile(f)
    ensures f.dirn.attr & AttrVolume == 0 ==> (IsDir(f) <==> f.dirn.attr & AttrDirectory != 0)
    ensures f.dirn.attr & AttrVolume == 0 ==> (IsFile(f) <==> f.dirn.attr & AttrDirectory == 0)
  {
  }

  /** YY_isOpen as written: open_mode XOR FOM_OPEN is non-zero. */
  predicate IsOpenAsWritten(f: FileRec)
  {
    f.openMode ^ FomOpen != 0
  }

  /** YY_isOpen as intended: the FOM_OPEN bit is set. */
  predicate IsOpen(f: FileRec)
  {
    f.openMode & FomOpen != 0
  }

  /** The XOR test calls a never-opened slot open, and calls a file opened
      for reading closed only when its mode is exactly FOM_OPEN. */
  lemma IsOpenAsWrittenWrong()
    ensures IsOpenAsWritten(EmptyFile()) && !IsOpen(EmptyFile())
    ensures var f := EmptyFile().(openMode := FomOpen);
      !IsOpenAsWritten(f) && IsOpen(f)
  {
  }

  // ---------------------------------------------------------------------------
  // YY_matchName
  // ---------------------------------------------------------------------------

  /** Two texts that are equal once ASCII capitals are folded to lower case. */
  predicate FoldEqual(a: seq<bv16>, b: seq<bv16>)
  {
    |a| == |b| && forall i :: 0 <= i < |a| ==> LowerUnit(a[i]) == LowerUnit(b[i])
  }

  /** The loop of YY_matchName from position i: equal when both texts end
      at the same place, unequal at the first unit that differs after
      folding, unequal when MAX_PATH units pass without an end. */
  function MatchFrom(p: WBuf, name: seq<bv16>, i: nat): bool
    decreases MaxPath - i
  {
    if i >= MaxPath then false
    else if p[i] == 0 && At(name, i) == 0 then true
    else if LowerUnit(p[i]) != LowerUnit(At(name, i)) then false
    else MatchFrom(p, name, i + 1)
  }

  /** YY_matchName: a file's long name against a NUL-free name. */
  function MatchName(f: FileRec, name: seq<bv16>): bool
  {
    MatchFrom(f.longName, name, 0)
  }

  /** The match is ASCII-case-insensitive equality of the long name with
      the name, within MAX_PATH. */
  lemma MatchNameIff(f: FileRec, name: seq<bv16>)
    requires forall i :: 0 <= i < |name| ==> name[i] != 0
    ensures MatchName(f, name) <==> |name| < MaxPath && FoldEqual(Str(f.longName), name)
  {
    MatchFromIff(f.longName, name, 0);
  }

  lemma {:induction false} MatchFromIff(p: WBuf, name: seq<bv16>, i: nat)
    requires forall k :: 0 <= k < |name| ==> name[k] != 0
    requires i <= MaxPath && i <= |name| && i <= |Str(p)|
    requires forall k :: 0 <= k < i ==> LowerUnit(Str(p)[k]) == LowerUnit(name[k])
    ensures MatchFrom(p, name, i) <==> |name| < MaxPath && FoldEqual(Str(p), name)
    decreases MaxPath - i
  {
    var s := Str(p);
    if i >= MaxPath {
    } else if p[i] == 0 && At(name, i) == 0 {
      assert |s| == i && |name| == i;
    } else if LowerUnit(p[i]) != LowerUnit(At(name, i)) {
      if |s| == |name| && i < |s| {
        assert !FoldEqual(s, name);
      }
      LowerUnitFolds(p[i]);
      LowerUnitFolds(At(name, i));
    } else {
      LowerUnitFolds(p[i]);
      LowerUnitFolds(At(name, i));
      assert i < |s| && i < |name|;
      MatchFromIff(p, name, i + 1);
    }
  }
}

=== FILE: files.dfy ===
/** Opening, reading and closing files (Files_YY.cpp:63-205): the file is
    found through its folder, its sectors are followed along the cluster
    chain and handed out a byte at a time. */
module Files {
  import opened Uint
  import opened Wrappers
  import opened FatTypes
  import opened Device
  import opened Clusters
  import opened Entries
  import opened Allocate
  import opened Drives
  import opened Names
  import opened FileSlots
  import opened Directories

  // ---------------------------------------------------------------------------
  // Opening and closing
  // ---------------------------------------------------------------------------

  /** YY_OpenFileDirect: the entry becomes an open file.  Both buffer tags
      say nothing is buffered, reading starts at the first sector of the
      start cluster, and a mode with both WRITE and APPEND puts the pointer
      at the end of the file. */
  function OpenFileDirect(f: FileRec, d: Drive, mode: bv8): (g: FileRec)
    requires d.geo.slide < 32
    ensures IsOpen(g) && g.openMode & CallerModeBits == mode & CallerModeBits
    ensures g.absInBuffer == NoSector && g.fileInBuffer == NoSector
    ensures g.firstSector == ClusterToSector(d, f.startCluster)
    ensures mode & (FomWrite | FomAppend) == FomWrite | FomAppend ==> g.pointer == f.dirn.fileSize as int
    ensures mode & (FomWrite | FomAppend) != FomWrite | FomAppend ==> g.pointer == f.pointer
    ensures g == f.(openMode := g.openMode, absInBuffer := g.absInBuffer, fileInBuffer := g.fileInBuffer,
                    firstSector := g.firstSector, pointer := g.pointer)
  {
    OpenModeBits(mode);
    f.(openMode := mode | FomOpen, absInBuffer := NoSector, fileInBuffer := NoSector,
       firstSector := ClusterToSector(d, f.startCluster), pointer := OpenPointer(f, mode))
  }

  /** Where an open file's pointer starts: at the end for WRITE with
      APPEND, otherwise where it was. */
  function OpenPointer(f: FileRec, mode: bv8): (p: U32)
    ensures mode & (FomWrite | FomAppend) == FomWrite | FomAppend ==> p == f.dirn.fileSize as int
    ensures mode & (FomWrite | FomAppend) != FomWrite | FomAppend ==> p == f.pointer
  {
    if mode & (FomWrite | FomAppend) == FomWrite | FomAppend then f.dirn.fileSize as int else f.pointer
  }

  /** Setting FOM_OPEN keeps the caller's bits. */
  lemma OpenModeBits(mode: bv8)
    ensures (mode | FomOpen) & FomOpen != 0 && (mode | FomOpen) & CallerModeBits == mode & CallerModeBits
  {
  }

  /** An opened file is open, yet the as-written test calls it closed when
      it was opened with mode 0. */
  lemma OpenedIsOpen(f: FileRec, d: Drive, mode: bv8)
    requires d.geo.slide < 32
    ensures IsOpen(OpenFileDirect(f, d, mode))
    ensures IsOpenAsWritten(OpenFileDirect(f, d, mode)) <==> mode & !FomOpen != 0
  {
  }

  /** YY_CloseFile: the slot is released (nothing has been written, so
      nothing is flushed). */
  function CloseFile(files: seq<FileRec>, file: Option<nat>): (r: seq<FileRec>)
    requires file.Some? ==> file.value < |files|
    ensures file.Some? ==> Busy(r) == Busy(files) - {file.value}
    ensures file.None? ==> r == files
  {
    FreeFileSlot(files, file)
  }

  /** Where YY_OpenFile splits a path: after its last separator (0 when
      it has none).  The part after is the file name, the part before the
      folder. */
  function SplitAt(s: seq<bv16>, i: nat): (r: nat)
    requires i <= |s|
    ensures r <= i && (r > 0 ==> IsSeparator(s[r - 1]))
    ensures forall k :: r <= k < i ==> !IsSeparator(s[k])
  {
    if i == 0 || IsSeparator(s[i - 1]) then i else SplitAt(s, i - 1)
  }

  /** The folder keeps its separator and the name holds none: splitting
      the path and joining the halves gives the path back. */
  lemma SplitRejoin(s: seq<bv16>)
    ensures var i := SplitAt(s, |s|);
      && s[..i] + s[i..] == s
      && (i > 0 ==> IsSeparator(s[..i][i - 1]))
      && forall k :: 0 <= k < |s[i..]| ==> !IsSeparator(s[i..][k])
  {
  }

  /** What YY_OpenFile hands back: an open plain file of that name. */
  predicate Opened(f: FileRec, name: seq<bv16>)
  {
    IsFile(f) && MatchName(f, name) && IsOpen(f)
  }

  /** What the search of YY_OpenFile keeps: every drive field but the FAT
      cache, the device's sectors, and the use of every file slot but the
      one handed out, which was free. */
  predicate FindKeeps(v: Vol, files: seq<FileRec>, r: (Vol, seq<FileRec>, Option<nat>))
  {
    && |r.1| == |files| && OnlyCache(v.drive, r.0.drive) && r.0.disk.Keys == v.disk.Keys
    && (r.2.Some? ==> r.2.value < |files| && files[r.2.value].drive == 0)
    && forall j :: 0 <= j < |files| && (r.2.None? || j != r.2.value) ==> r.1[j].drive == files[j].drive
  }

  /** The search loop of YY_OpenFile: each entry that is not the file is
      released; the first plain file whose name matches is opened.  count
      bounds the number of entries looked at. */
  function FindFile(v: Vol, dir: Directory, files: seq<FileRec>, name: seq<bv16>, mode: bv8, fuel: nat, count: Budget): (r: (Vol, seq<FileRec>, Option<nat>))
    requires v.drive.geo.slide < 32
    ensures FindKeeps(v, files, r)
    ensures r.2.Some? ==> Opened(r.1[r.2.value], name) && r.1[r.2.value].drive == dir.drive
    decreases count, 1
  {
    var s := NextDirectoryItem(v, dir, files, fuel);
    if s.item.None? then (s.v, s.files, None)
    else Consider(v, dir, files, s, name, mode, fuel, count)
  }

  /** The entry a step of the search handed out: opened when it is the
      file, otherwise released before the search goes on. */
  function Consider(v: Vol, dir: Directory, files: seq<FileRec>, s: Step, name: seq<bv16>, mode: bv8, fuel: nat, count: Budget): (r: (Vol, seq<FileRec>, Option<nat>))
    requires v.drive.geo.slide < 32 && StepKeeps(v, dir, files, s) && s.item.Some?
    ensures FindKeeps(v, files, r)
    ensures r.2.Some? ==> Opened(r.1[r.2.value], name) && r.1[r.2.value].drive == dir.drive
    decreases count, 0
  {
    var i := s.item.value;
    var f := s.files[i];
    if IsFile(f) && MatchName(f, name) then (s.v, s.files[i := OpenFileDirect(f, s.v.drive, mode)], Some(i))
    else
      var rest := CloseFile(s.files, Some(i));
      if count.Spent? then (s.v, rest, None) else FindFile(s.v, s.dir, rest, name, mode, fuel, count.more)
  }

  /** The drive slot a directory's drive letter names. */
  function DriveOf(st: Sys, id: bv8): (r: Option<nat>)
    ensures r.Some? ==> r.value < |st.drives| && st.drives[r.value].id == id
  {
    FindSlot(st.drives, id, 0)
  }

  /** The buffer YY_OpenFile hands to YY_OpenDirectory: the path with a
      NUL written in place over the first unit of the name part.  The text
      up to that NUL is the folder part; past it the buffer still holds the
      rest of the name, and when the name starts the path, the NUL replaces
      the drive letter of a path such as "C:NAME" while its ':' stays. */
  function FolderBuffer(s: seq<bv16>): (b: seq<bv16>)
  {
    var i := SplitAt(s, |s|);
    if i < |s| then s[i := 0] else s
  }

  /** The folder YY_OpenDirectory reads is the path up to its last
      separator; a path "C:NAME" with no separator reaches it as drive
      letter 0 and an empty folder. */
  lemma FolderBufferReads(s: seq<bv16>)
    requires forall i :: 0 <= i < |s| ==> s[i] != 0
    ensures Str(FolderBuffer(s)) == s[..SplitAt(s, |s|)]
    ensures SplitAt(s, |s|) == 0 && |s| >= 2 && s[1] == Unit(':') ==> PathDrive(FolderBuffer(s)) == (0, 2)
  {
    var i := SplitAt(s, |s|);
    var b := FolderBuffer(s);
    StrUpTo(b, i);
  }

  /** The name part of a path: what follows its last separator. */
  function FileName(path: seq<bv16>): seq<bv16>
  {
    Str(path)[SplitAt(Str(path), |Str(path)|)..]
  }

  /** The rest of YY_OpenFile once the folder is open in directory slot k:
      the folder is closed and searched for the file. */
  function SearchFolder(st: Sys, k: nat, name: seq<bv16>, mode: bv8, fuel: nat): (r: (Sys, Option<nat>))
    requires SysOk(st) && k < MaxDirectories
    ensures SysOk(r.0)
    ensures r.0.dirs == CloseDirectory(st.dirs, k)
    ensures forall j :: 0 <= j < |st.files| && (r.1.None? || j != r.1.value) ==> r.0.files[j].drive == st.files[j].drive
    ensures r.1.Some? ==> r.1.value < MaxFiles && st.files[r.1.value].drive == 0 && r.0.files[r.1.value].drive == st.dirs[k].drive
    ensures r.1.Some? ==> Opened(r.0.files[r.1.value], name)
  {
    var id := st.dirs[k].drive;
    var closed := st.(dirs := CloseDirectory(st.dirs, k));
    match DriveOf(st, id)
    case None => (closed, None)
    case Some(n) =>
      var c := FindFile(VolOf(st, n), st.dirs[k], st.files, name, mode, fuel, BudgetOf(fuel));
      (PutVol(closed, n, c.0).(files := c.1), c.2)
  }

  /** Freeing the one slot claimed since gives every slot its old use. */
  lemma ClosedAgain(a: seq<Directory>, b: seq<Directory>, k: nat)
    requires |b| == |a| && k < |a| && a[k].drive == 0
    requires forall j :: 0 <= j < |a| && j != k ==> b[j] == a[j]
    ensures forall j :: 0 <= j < |a| ==> CloseDirectory(b, k)[j].drive == a[j].drive
  {
  }

  /** YY_OpenFile: an empty path opens nothing; otherwise the folder part
      is opened as a directory, searched for a plain file of the name
      part, and closed again.  The file found is opened in the given mode. */
  function OpenFile(st: Sys, path: seq<bv16>, mode: bv8, fuel: nat): (r: (Sys, Option<nat>))
    requires SysOk(st)
    ensures SysOk(r.0)
    ensures forall j :: 0 <= j < |st.dirs| ==> r.0.dirs[j].drive == st.dirs[j].drive
    ensures forall j :: 0 <= j < |st.files| && (r.1.None? || j != r.1.value) ==> r.0.files[j].drive == st.files[j].drive
    ensures |Str(path)| == 0 ==> r == (st, None)
    ensures r.1.Some? ==> r.1.value < MaxFiles && st.files[r.1.value].drive == 0
    ensures r.1.Some? ==> Opened(r.0.files[r.1.value], FileName(path))
  {
    var s := Str(path);
    if |s| == 0 then (st, None) else OpenIn(st, FolderBuffer(s), s[SplitAt(s, |s|)..], mode, fuel)
  }

  /** YY_OpenFile once the path is split into its folder and its name. */
  function OpenIn(st: Sys, folder: seq<bv16>, name: seq<bv16>, mode: bv8, fuel: nat): (r: (Sys, Option<nat>))
    requires SysOk(st)
    ensures SysOk(r.0)
    ensures forall j :: 0 <= j < |st.dirs| ==> r.0.dirs[j].drive == st.dirs[j].drive
    ensures forall j :: 0 <= j < |st.files| && (r.1.None? || j != r.1.value) ==> r.0.files[j].drive == st.files[j].drive
    ensures r.1.Some? ==> r.1.value < MaxFiles && st.files[r.1.value].drive == 0
    ensures r.1.Some? ==> Opened(r.0.files[r.1.value], name)
  {
    var o := OpenDirectory(st, folder, fuel);
    if o.1.None? then (o.0, None)
    else
      var k := o.1.value;
      ClosedAgain(st.dirs, o.0.dirs, k);
      SearchFolder(o.0, k, name, mode, fuel)
  }

  // ---------------------------------------------------------------------------
  // What the search of YY_OpenFile finds
  // ---------------------------------------------------------------------------

  /** An item the search of YY_OpenFile takes: a plain file of that name. */
  predicate FileMatches(f: FileRec, name: seq<bv16>)
  {
    IsFile(f) && MatchName(f, name)
  }

  /** The position of the first plain file of that name from k on, |items|
      if there is none. */
  function FirstFile(items: seq<FileRec>, name: seq<bv16>, k: nat): (j: nat)
    requires k <= |items|
    ensures k <= j <= |items|
    ensures j < |items| ==> FileMatches(items[j], name)
    ensures forall m :: k <= m < j ==> !FileMatches(items[m], name)
    decreases |items| - k
  {
    if k == |items| || FileMatches(items[k], name) then k else FirstFile(items, name, k + 1)
  }

  /** got is what a search over items hands back: a slot exactly when the
      items hold a plain file of that name, and then that slot holds the
      first such file, opened on drive d in the mode. */
  predicate FoundFile(got: Option<nat>, files: seq<FileRec>, d: Drive, items: seq<FileRec>, name: seq<bv16>, mode: bv8)
  {
    var j := FirstFile(items, name, 0);
    && (got.Some? <==> j < |items|)
    && (got.Some? ==> got.value < |files| && d.geo.slide < 32 && files[got.value] == OpenFileDirect(items[j], d, mode))
  }

  /** The search loop of YY_OpenFile opens a file exactly when the folder's
      listing holds a plain file of that name, and then it opens the first
      such file. */
  lemma {:induction false} FindFindsFirstFile(v: Vol, dir: Directory, files: seq<FileRec>, name: seq<bv16>, mode: bv8, fuel: nat, count: Budget)
    requires v.drive.geo.slide < 32
    ensures var r := FindFile(v, dir, files, name, mode, fuel, count);
      FoundFile(r.2, r.1, r.0.drive, Listing(v, dir, files, fuel, count), name, mode)
    decreases count
  {
    var s := NextDirectoryItem(v, dir, files, fuel);
    if s.item.Some? && !FileMatches(s.files[s.item.value], name) && count.Left? {
      var rest := FindPassesOver(v, dir, files, name, mode, fuel, count);
      FindFindsFirstFile(s.v, s.dir, rest, name, mode, fuel, count.more);
      var r := FindFile(s.v, s.dir, rest, name, mode, fuel, count.more);
      FoundFileShift(r.2, r.1, r.0.drive, s.files[s.item.value], Listing(s.v, s.dir, rest, fuel, count.more), name, mode);
    } else {
      FindStops(v, dir, files, name, mode, fuel, count);
    }
  }

  /** The search ends on the first item: at the end of the folder, on a
      match, or when no more items may be looked at. */
  lemma FindStops(v: Vol, dir: Directory, files: seq<FileRec>, name: seq<bv16>, mode: bv8, fuel: nat, count: Budget)
    requires v.drive.geo.slide < 32
    requires var s := NextDirectoryItem(v, dir, files, fuel);
      s.item.None? || FileMatches(s.files[s.item.value], name) || count.Spent?
    ensures var r := FindFile(v, dir, files, name, mode, fuel, count);
      FoundFile(r.2, r.1, r.0.drive, Listing(v, dir, files, fuel, count), name, mode)
  {
    var s := NextDirectoryItem(v, dir, files, fuel);
    if s.item.Some? {
      assert Listing(v, dir, files, fuel, count)[0] == s.files[s.item.value];
    }
  }

  /** An item that is not the file is released and passed over: the search
      and the listing go on from the next one. */
  lemma FindPassesOver(v: Vol, dir: Directory, files: seq<FileRec>, name: seq<bv16>, mode: bv8, fuel: nat, count: Budget)
    returns (rest: seq<FileRec>)
    requires v.drive.geo.slide < 32 && count.Left?
    requires var s := NextDirectoryItem(v, dir, files, fuel); s.item.Some? && !FileMatches(s.files[s.item.value], name)
    ensures var s := NextDirectoryItem(v, dir, files, fuel);
      && s.v.drive.geo.slide < 32
      && rest == CloseFile(s.files, s.item)
      && FindFile(v, dir, files, name, mode, fuel, count) == FindFile(s.v, s.dir, rest, name, mode, fuel, count.more)
      && Listing(v, dir, files, fuel, count) == [s.files[s.item.value]] + Listing(s.v, s.dir, rest, fuel, count.more)
  {
    var s := NextDirectoryItem(v, dir, files, fuel);
    rest := CloseFile(s.files, s.item);
  }

  /** An item in front that is not the file changes nothing found. */
  lemma FoundFileShift(got: Option<nat>, files: seq<FileRec>, d: Drive, f: FileRec, items: seq<FileRec>, name: seq<bv16>, mode: bv8)
    requires !FileMatches(f, name) && FoundFile(got, files, d, items, name, mode)
    ensures FoundFile(got, files, d, [f] + items, name, mode)
  {
    FirstFileShift(f, items, name, 0);
  }

  /** An item in front that is not the file moves the first file on by one. */
  lemma {:induction false} FirstFileShift(f: FileRec, items: seq<FileRec>, name: seq<bv16>, k: nat)
    requires k <= |items| && !FileMatches(f, name)
    ensures FirstFile([f] + items, name, k + 1) == 1 + FirstFile(items, name, k)
    ensures FirstFile([f] + items, name, 0) == FirstFile([f] + items, name, 1)
    decreases |items| - k
  {
    assert ([f] + items)[k + 1..] == items[k..];
    if k < |items| && !FileMatches(items[k], name) {
      FirstFileShift(f, items, name, k + 1);
    }
  }

  /** The directory YY_OpenFile searches lies on a mounted drive. */
  lemma OpenedDriveMounted(st: Sys, folder: seq<bv16>, fuel: nat)
    requires SysOk(st)
    ensures var o := OpenDirectory(st, folder, fuel);
      o.1.Some? ==> DriveOf(o.0, o.0.dirs[o.1.value].drive).Some?
  {
    var o := OpenDirectory(st, folder, fuel);
    if o.1.Some? {
      var id := PathDrive(folder).0;
      var m := MountDrive(st.drives, st.devices, DeviceMap, id);
      MountKeepsSlides(st.drives, st.devices, DeviceMap, id);
      var n := m.1.value;
      assert o.0.drives[n].id == id;
    }
  }

  /** The search of an open folder opens the first plain file of that name
      the folder lists, and nothing when it lists none. */
  lemma SearchFolderFindsFirstFile(st: Sys, k: nat, name: seq<bv16>, mode: bv8, fuel: nat)
    requires SysOk(st) && k < MaxDirectories && DriveOf(st, st.dirs[k].drive).Some?
    ensures var n := DriveOf(st, st.dirs[k].drive).value;
      var r := SearchFolder(st, k, name, mode, fuel);
      && VolOf(st, n).drive.geo.slide < 32
      && FoundFile(r.1, r.0.files, r.0.drives[n], Listing(VolOf(st, n), st.dirs[k], st.files, fuel, BudgetOf(fuel)), name, mode)
  {
    var n := DriveOf(st, st.dirs[k].drive).value;
    FindFindsFirstFile(VolOf(st, n), st.dirs[k], st.files, name, mode, fuel, BudgetOf(fuel));
  }

  /** YY_OpenFile once the path is split: nothing opens when the folder
      does not; otherwise the file opened is the first plain file of that
      name in the folder's listing, and none when it lists none. */
  lemma OpenInFindsFirstFile(st: Sys, folder: seq<bv16>, name: seq<bv16>, mode: bv8, fuel: nat)
    requires SysOk(st)
    ensures var o := OpenDirectory(st, folder, fuel);
      var r := OpenIn(st, folder, name, mode, fuel);
      && (o.1.None? ==> r.1.None?)
      && (o.1.Some? ==>
            var k := o.1.value;
            var n := DriveOf(o.0, o.0.dirs[k].drive);
            && n.Some?
            && FoundFile(r.1, r.0.files, r.0.drives[n.value],
                         Listing(VolOf(o.0, n.value), o.0.dirs[k], o.0.files, fuel, BudgetOf(fuel)), name, mode))
  {
    var o := OpenDirectory(st, folder, fuel);
    OpenedDriveMounted(st, folder, fuel);
    if o.1.Some? {
      SearchFolderFindsFirstFile(o.0, o.1.value, name, mode, fuel);
    }
  }

  /** YY_OpenFile: the folder part of the path is opened, and the file
      opened is the first plain file of the name part in its listing. */
  lemma OpenFileFindsFirstFile(st: Sys, path: seq<bv16>, mode: bv8, fuel: nat)
    requires SysOk(st) && |Str(path)| > 0
    ensures var s := Str(path);
      var o := OpenDirectory(st, FolderBuffer(s), fuel);
      var r := OpenFile(st, path, mode, fuel);
      && (o.1.None? ==> r.1.None?)
      && (o.1.Some? ==>
            var k := o.1.value;
            var n := DriveOf(o.0, o.0.dirs[k].drive);
            && n.Some?
            && FoundFile(r.1, r.0.files, r.0.drives[n.value],
                         Listing(VolOf(o.0, n.value), o.0.dirs[k], o.0.files, fuel, BudgetOf(fuel)), FileName(path), mode))
  {
    var s := Str(path);
    OpenInFindsFirstFile(st, FolderBuffer(s), s[SplitAt(s, |s|)..], mode, fuel);
  }

  /** Opening "X:/name", with drive X mountable and a directory slot free:
      the root of X is opened, and the file opened is the first plain file
      called name in the root's listing, none when it lists none. */
  lemma OpenFileAtRoot(st: Sys, path: seq<bv16>, mode: bv8, fuel: nat)
    requires SysOk(st)
    requires |Str(path)| > 3 && Str(path)[1] == Unit(':') && IsSeparator(Str(path)[2])
    requires forall i :: 3 <= i < |Str(path)| ==> !IsSeparator(Str(path)[i])
    requires MountDrive(st.drives, st.devices, DeviceMap, PathDrive(Str(path)).0).1.Some?
    requires GetDirectorySlot(st.dirs).Some?
    ensures var s := Str(path);
      var o := OpenDirectory(st, FolderBuffer(s), fuel);
      var k := GetDirectorySlot(st.dirs).value;
      var r := OpenFile(st, path, mode, fuel);
      && o.1 == Some(k) && o.0.dirs[k].startCluster == 0 && o.0.dirs[k].slot == 0
      && var n := DriveOf(o.0, o.0.dirs[k].drive);
      && n.Some?
      && FoundFile(r.1, r.0.files, r.0.drives[n.value],
                   Listing(VolOf(o.0, n.value), o.0.dirs[k], o.0.files, fuel, BudgetOf(fuel)), s[3..], mode)
  {
    var s := Str(path);
    SplitAtRoot(s);
    var b := FolderBuffer(s);
    assert b == s[3 := 0];
    assert PathDrive(b) == PathDrive(s);
    OpenRoot(st, b, fuel);
    OpenFileFindsFirstFile(st, path, mode, fuel);
  }

  /** A path "X:/name" splits after its third unit. */
  lemma SplitAtRoot(s: seq<bv16>)
    requires |s| > 3 && IsSeparator(s[2]) && forall i :: 3 <= i < |s| ==> !IsSeparator(s[i])
    ensures SplitAt(s, |s|) == 3
  {
    var i := |s|;
    while i > 3
      invariant 3 <= i <= |s| && SplitAt(s, i) == SplitAt(s, |s|)
    {
      i := i - 1;
    }
  }

  // ---------------------------------------------------------------------------
  // Following the file's chain
  // ---------------------------------------------------------------------------

  /** The loop of readsector: GetNextSector from sector abs, counting the
      position in the file up from from to to. */
  function Chase(v: Vol, abs: U32, from: nat, to: nat): (r: (Vol, U32))
    requires v.drive.geo.slide < 32
    ensures OnlyCache(v.drive, r.0.drive) && r.0.disk.Keys == v.disk.Keys
    decreases if to > from then to - from else 0
  {
    if from >= to then (v, abs)
    else
      var n := GetNextSector(v, abs);
      GetNextSectorShape(v, abs);
      Chase(n.0, n.1, from + 1, to)
  }

  /** readsector: sector number required of the file into its buffer.  The
      walk starts from the file's first sector, or from the buffered
      sector when that lies before the one required. */
  function ReadInFile(v: Vol, f: FileRec, required: U32): (r: (Vol, FileRec, bool))
    requires v.drive.geo.slide < 32
    ensures OnlyCache(v.drive, r.0.drive) && r.0.disk.Keys == v.disk.Keys
    ensures !r.2 ==> r.1 == f
    ensures r.2 ==> r.1 == f.(buffer := r.1.buffer, absInBuffer := r.1.absInBuffer, fileInBuffer := required)
    ensures r.2 ==> r.1.absInBuffer in r.0.disk && r.1.buffer == r.0.disk[r.1.absInBuffer]
    ensures (forall s: U32 :: s in v.disk) ==> r.2
  {
    var shortcut := required > f.fileInBuffer;
    var c := Chase(v, if shortcut then f.absInBuffer else f.firstSector, if shortcut then f.fileInBuffer else 0, required);
    match ReadSector(c.0.disk, c.1)
    case None => (c.0, f, false)
    case Some(b) => (c.0, f.(buffer := b, absInBuffer := c.1, fileInBuffer := required), true)
  }

  /** The sector n steps along the chain from s, by the cluster
      arithmetic and the FAT contents. */
  function Nth(v: Vol, s: U32, n: nat): U32
    requires v.drive.geo.slide < 32
    decreases n
  {
    if n == 0 then s else Nth(v, NextInChain(v, s), n - 1)
  }

  /** One step from s is one GetNextSector can take without leaving the
      cluster arithmetic: s + 1 does not wrap, and a data sector's cluster
      has an entry in the FAT. */
  predicate StepOk(v: Vol, s: U32)
    requires v.drive.geo.slide < 32
  {
    s + 1 < Two32 && (s >= v.drive.geo.clusterBegin ==> InFat(v.drive, SectorToCluster(v.drive, s)))
  }

  /** The first n steps of the chain from s are ones GetNextSector can take. */
  predicate StepsOk(v: Vol, s: U32, n: nat)
    requires v.drive.geo.slide < 32
    decreases n
  {
    n == 0 || (StepOk(v, s) && StepsOk(v, NextInChain(v, s), n - 1))
  }

  /** Steps along the chain add up. */
  lemma {:induction false} NthAdd(v: Vol, s: U32, a: nat, b: nat)
    requires v.drive.geo.slide < 32
    ensures Nth(v, Nth(v, s, a), b) == Nth(v, s, a + b)
    ensures StepsOk(v, s, a + b) ==> StepsOk(v, Nth(v, s, a), b)
    decreases a
  {
    if a > 0 {
      NthAdd(v, NextInChain(v, s), a - 1, b);
    }
  }

  /** Views that agree on every FAT sector agree everywhere. */
  lemma SameFatViews(u: Vol, w: Vol)
    requires SameFat(u, w)
    ensures forall s: int :: View(w, s) == View(u, s)
  {
  }

  /** The cluster arithmetic reads only the geometry. */
  lemma SameGeometryArith(d: Drive, e: Drive, s: U32, x: bv32)
    requires d.geo.slide < 32 && e.geo == d.geo
    ensures SectorToCluster(e, s) == SectorToCluster(d, s) && FollowEntry(e, x) == FollowEntry(d, x)
    ensures InFat(e, SectorToCluster(d, s)) == InFat(d, SectorToCluster(d, s))
  {
  }

  /** A FAT read changes no entry. */
  lemma EntryKept(u: Vol, w: Vol, k: U32)
    requires SameFat(u, w) && w.drive.geo == u.drive.geo
    ensures EntryInFat(w, k) == EntryInFat(u, k)
  {
    SameFatViews(u, w);
    match u.drive.geo.fatType
    case Fat32 => SameViewEntry32(u, w, k);
    case Fat16 => SameViewEntry16(u, w, k);
    case _ => SameViewEntry12(u, w, k);
  }

  /** A FAT read changes no entry, so the chain is the same after it. */
  lemma ChainKept(u: Vol, w: Vol, s: U32)
    requires u.drive.geo.slide < 32 && SameFat(u, w) && w.drive.geo == u.drive.geo
    ensures NextInChain(w, s) == NextInChain(u, s)
    ensures StepOk(w, s) == StepOk(u, s)
  {
    var k := SectorToCluster(u.drive, s);
    SameGeometryArith(u.drive, w.drive, s, EntryInFat(u, k));
    EntryKept(u, w, k);
  }

  lemma {:induction false} NthKept(u: Vol, w: Vol, s: U32, n: nat)
    requires u.drive.geo.slide < 32 && SameFat(u, w) && w.drive.geo == u.drive.geo
    ensures Nth(w, s, n) == Nth(u, s, n)
    ensures StepsOk(w, s, n) == StepsOk(u, s, n)
    decreases n
  {
    if n > 0 {
      ChainKept(u, w, s);
      NthKept(u, w, NextInChain(u, s), n - 1);
    }
  }

  /** One FAT read after another is a FAT read. */
  lemma ReadStepTrans(u: Vol, v: Vol, w: Vol)
    requires ReadStep(u, v) && ReadStep(v, w)
    ensures ReadStep(u, w)
  {
    SameFatTrans(u, v, w);
  }

  /** The loop of readsector walks the chain: over sound FAT reads it ends
      on the sector to - from steps on. */
  lemma {:induction false} ChaseFollows(v: Vol, abs: U32, from: nat, to: nat)
    requires ClusterGeometry(v.drive) && CacheOk(v) && from <= to && StepsOk(v, abs, to - from)
    ensures ReadStep(v, Chase(v, abs, from, to).0)
    ensures Chase(v, abs, from, to).1 == Nth(v, abs, to - from)
    decreases if to > from then to - from else 0
  {
    if from < to {
      var n := GetNextSector(v, abs);
      NextSectorKeeps(v, abs, to - from - 1);
      ChaseFollows(n.0, n.1, from + 1, to);
      ReadStepTrans(v, n.0, Chase(n.0, n.1, from + 1, to).0);
    } else {
      ReadStepRefl(v);
    }
  }

  /** One step of the walk keeps what the rest of the walk needs. */
  lemma NextSectorKeeps(v: Vol, abs: U32, k: nat)
    requires ClusterGeometry(v.drive) && CacheOk(v) && StepsOk(v, abs, k + 1)
    ensures var n := GetNextSector(v, abs);
      && ReadStep(v, n.0) && ClusterGeometry(n.0.drive) && CacheOk(n.0)
      && StepsOk(n.0, n.1, k) && Nth(n.0, n.1, k) == Nth(v, abs, k + 1)
  {
    var n := GetNextSector(v, abs);
    GetNextSectorSteps(v, abs);
    NthKept(v, n.0, n.1, k);
  }

  /** The buffer tags agree with the chain: the buffered sector is the
      chain's sector at the buffered position, unless nothing is buffered. */
  predicate TagOk(v: Vol, f: FileRec)
    requires v.drive.geo.slide < 32
  {
    f.fileInBuffer == NoSector || f.absInBuffer == Nth(v, f.firstSector, f.fileInBuffer)
  }

  /** The shortcut of readsector lands where the walk from the first sector
      does: a read puts the chain's sector required into the buffer and
      tags it so, and the tags stay in agreement with the chain. */
  lemma ReadInFileSound(v: Vol, f: FileRec, required: U32)
    requires ClusterGeometry(v.drive) && CacheOk(v) && TagOk(v, f)
    requires StepsOk(v, f.firstSector, required)
    ensures var r := ReadInFile(v, f, required);
      && ReadStep(v, r.0) && TagOk(r.0, r.1)
      && (r.2 ==> r.1.absInBuffer == Nth(v, f.firstSector, required))
  {
    var shortcut := required > f.fileInBuffer;
    var abs := if shortcut then f.absInBuffer else f.firstSector;
    var from := if shortcut then f.fileInBuffer else 0;
    if shortcut {
      NthAdd(v, f.firstSector, f.fileInBuffer, required - f.fileInBuffer);
    }
    ChaseFollows(v, abs, from, required);
    var r := ReadInFile(v, f, required);
    ReadInFileChases(v, f, required);
    NthKept(v, r.0, f.firstSector, required);
    NthKept(v, r.0, f.firstSector, f.fileInBuffer);
  }

  /** readsector ends where its walk ends, and buffers that sector. */
  lemma ReadInFileChases(v: Vol, f: FileRec, required: U32)
    requires v.drive.geo.slide < 32
    ensures var shortcut := required > f.fileInBuffer;
      var c := Chase(v, if shortcut then f.absInBuffer else f.firstSector, if shortcut then f.fileInBuffer else 0, required);
      var r := ReadInFile(v, f, required);
      && r.0 == c.0 && (r.2 ==> r.1.absInBuffer == c.1)
  {
  }

  // ---------------------------------------------------------------------------
  // YY_getc
  // ---------------------------------------------------------------------------

  /** The file's sector required in its buffer: read unless it is there
      already. */
  function Fetch(v: Vol, f: FileRec, required: U32): (r: (Vol, FileRec, bool))
    requires v.drive.geo.slide < 32
    ensures OnlyCache(v.drive, r.0.drive) && r.0.disk.Keys == v.disk.Keys
    ensures !r.2 ==> r.1 == f
    ensures r.2 ==> r.1 == f.(buffer := r.1.buffer, absInBuffer := r.1.absInBuffer, fileInBuffer := required)
    ensures (forall s: U32 :: s in v.disk) ==> r.2
  {
    if required != f.fileInBuffer then ReadInFile(v, f, required) else (v, f, true)
  }

  /** The byte at the file pointer, taken from the file's sector required,
      and the pointer moved on by one; EOF when the sector cannot be read. */
  function TakeByte(v: Vol, f: FileRec, required: U32): (r: (Vol, FileRec, bv16))
    requires v.drive.geo.slide < 32 && f.pointer + 1 < Two32
    ensures OnlyCache(v.drive, r.0.drive) && r.0.disk.Keys == v.disk.Keys
    ensures r.2 == Eof ==> r.1 == f
    ensures r.2 != Eof ==>
      && r.2 < 0x100 && r.1.fileInBuffer == required && r.2 == r.1.buffer[f.pointer % 512] as bv16
      && r.1 == f.(buffer := r.1.buffer, absInBuffer := r.1.absInBuffer, fileInBuffer := required, pointer := f.pointer + 1)
    ensures (forall s: U32 :: s in v.disk) ==> r.2 != Eof
  {
    var g := Fetch(v, f, required);
    if !g.2 then (g.0, g.1, Eof)
    else
      var b := g.1.buffer[f.pointer % 512];
      EofIsNotAByte(b);
      (g.0, g.1.(pointer := f.pointer + 1), b as bv16)
  }

  /** YY_getc: EOF at or past the end of the file; otherwise the byte at
      the file pointer, reading its sector (pointer / 512) first when
      another one is buffered, and EOF when that read fails.  The pointer
      moves on by one for every byte returned. */
  function Getc(v: Vol, f: FileRec): (r: (Vol, FileRec, bv16))
    requires v.drive.geo.slide < 32
    ensures OnlyCache(v.drive, r.0.drive) && r.0.disk.Keys == v.disk.Keys
    ensures f.pointer >= f.dirn.fileSize as int ==> r.2 == Eof
    ensures r.2 == Eof ==> r.1 == f
    ensures r.2 != Eof ==>
      && f.pointer < f.dirn.fileSize as int && r.2 < 0x100
      && r.1 == f.(buffer := r.1.buffer, absInBuffer := r.1.absInBuffer, fileInBuffer := r.1.fileInBuffer, pointer := f.pointer + 1)
      && r.1.fileInBuffer == f.pointer / 512 && r.2 == r.1.buffer[f.pointer % 512] as bv16
    ensures (forall s: U32 :: s in v.disk) && f.pointer < f.dirn.fileSize as int ==> r.2 != Eof
  {
    if f.pointer >= f.dirn.fileSize as int then (v, f, Eof) else TakeByte(v, f, f.pointer / 512)
  }

  /** The byte getc returns is byte pointer % 512 of the file's sector
      pointer / 512 along its cluster chain. */
  lemma GetcFromChain(v: Vol, f: FileRec)
    requires ClusterGeometry(v.drive) && CacheOk(v) && TagOk(v, f)
    requires StepsOk(v, f.firstSector, f.pointer / 512)
    ensures var r := Getc(v, f);
      && ReadStep(v, r.0) && TagOk(r.0, r.1)
      && (r.2 != Eof ==> r.1.absInBuffer == Nth(v, f.firstSector, f.pointer / 512))
  {
    if f.pointer >= f.dirn.fileSize as int || f.pointer / 512 == f.fileInBuffer {
      GetcBuffered(v, f);
    } else {
      GetcReads(v, f);
    }
  }

  /** Without a read getc leaves the volume and the buffer tags alone. */
  lemma GetcBuffered(v: Vol, f: FileRec)
    requires ClusterGeometry(v.drive) && CacheOk(v) && TagOk(v, f)
    requires f.pointer >= f.dirn.fileSize as int || f.pointer / 512 == f.fileInBuffer
    ensures var r := Getc(v, f);
      && ReadStep(v, r.0) && TagOk(r.0, r.1)
      && (r.2 != Eof ==> r.1.absInBuffer == Nth(v, f.firstSector, f.pointer / 512))
  {
    ReadStepRefl(v);
  }

  /** With a read getc is readsector followed by taking the byte. */
  lemma GetcReads(v: Vol, f: FileRec)
    requires ClusterGeometry(v.drive) && CacheOk(v) && TagOk(v, f)
    requires StepsOk(v, f.firstSector, f.pointer / 512)
    requires f.pointer < f.dirn.fileSize as int && f.pointer / 512 != f.fileInBuffer
    ensures var r := Getc(v, f);
      && ReadStep(v, r.0) && TagOk(r.0, r.1)
      && (r.2 != Eof ==> r.1.absInBuffer == Nth(v, f.firstSector, f.pointer / 512))
  {
    var g := ReadInFile(v, f, f.pointer / 512);
    assert Fetch(v, f, f.pointer / 512) == g;
    ReadInFileSound(v, f, f.pointer / 512);
  }

  /** YY_getc as written: the sector number is kept in a uint16_t. */
  function GetcAsWritten(v: Vol, f: FileRec): (r: (Vol, FileRec, bv16))
    requires v.drive.geo.slide < 32
  {
    if f.pointer >= f.dirn.fileSize as int then (v, f, Eof) else TakeByte(v, f, Wrap16(f.pointer / 512))
  }

  /** 32 MiB into a file the 16-bit sector number wraps to 0: with sector
      0 buffered the as-written getc returns its first byte again, where
      the byte wanted lies in sector 65536. */
  lemma GetcAsWrittenWraps(v: Vol, f: FileRec)
    requires v.drive.geo.slide < 32
    requires f.pointer == 0x200_0000 && f.dirn.fileSize as int > f.pointer && f.fileInBuffer == 0
    ensures GetcAsWritten(v, f) == (v, f.(pointer := f.pointer + 1), f.buffer[0] as bv16)
    ensures Getc(v, f).2 != Eof ==> Getc(v, f).1.fileInBuffer == 0x1_0000
  {
    assert f.pointer / 512 == 0x1_0000 && f.pointer % 512 == 0;
  }

  /** Reading a file to its end with getc: every byte up to the file's size
      when the device delivers every sector, and never more. */
  method ReadAll(v: Vol, f: FileRec) returns (w: Vol, g: FileRec, bytes: seq<bv8>)
    requires v.drive.geo.slide < 32
    ensures g.pointer == f.pointer + |bytes| && g.dirn == f.dirn
    ensures f.pointer + |bytes| <= (if f.pointer > f.dirn.fileSize as int then f.pointer else f.dirn.fileSize as int)
    ensures (forall s: U32 :: s in v.disk) && f.pointer <= f.dirn.fileSize as int ==> |bytes| == f.dirn.fileSize as int - f.pointer
  {
    var size := f.dirn.fileSize as int;
    w, g, bytes := v, f, [];
    while true
      invariant w.drive.geo.slide < 32 && w.disk.Keys == v.disk.Keys
      invariant g.pointer == f.pointer + |bytes| && g.dirn == f.dirn
      invariant f.pointer + |bytes| <= (if f.pointer > size then f.pointer else size)
      decreases if size > g.pointer then size - g.pointer else 0
    {
      var r := Getc(w, g);
      if r.2 == Eof {
        return;
      }
      w, g, bytes := r.0, r.1, bytes + [r.2 as bv8];
    }
  }
}

=== FILE: names.dfy ===
/** The name and path text the directory engine works with
    (Directories_YY.cpp, Files_YY.cpp): 16-bit code units, ASCII case
    folding, the short-name checksum, long names made from 8.3 names,
    path accumulation and path tokens. */
module Names {
  import opened Uint
  import opened FatTypes

  /** A fixed MAX_PATH buffer of 16-bit code units, as YY_FILE and
      YY_DIRECTORY hold names. */
  type WBuf = s: seq<bv16> | |s| == MaxPath witness seq(MaxPath, _ => 0)

  /** Unit i of a NUL-terminated text held as the units before its
      terminator: past the end it reads the terminator. */
  function At(s: seq<bv16>, i: nat): bv16
  {
    if i < |s| then s[i] else 0
  }

  /** The text a buffer holds: its units up to the first NUL. */
  function Str(b: seq<bv16>): (r: seq<bv16>)
    ensures |r| <= |b| && r == b[..|r|]
    ensures forall i :: 0 <= i < |r| ==> r[i] != 0
    ensures |r| < |b| ==> b[|r|] == 0
  {
    if |b| == 0 || b[0] == 0 then [] else [b[0]] + Str(b[1..])
  }

  /** A buffer whose first NUL is at i (or that has none, for i == |b|)
      holds the text of its first i units. */
  lemma StrUpTo(b: seq<bv16>, i: nat)
    requires i <= |b| && (i < |b| ==> b[i] == 0)
    requires forall j :: 0 <= j < i ==> b[j] != 0
    ensures Str(b) == b[..i]
  {
  }


  function ToBuf(s: seq<bv16>): (b: WBuf)
    requires |s| < MaxPath
    ensures b[..|s|] == s && forall i :: |s| <= i < MaxPath ==> b[i] == 0
  {
    s + seq(MaxPath - |s|, _ => 0)
  }

  /** A text without NUL units survives the trip through a buffer. */
  lemma {:induction false} StrToBuf(s: seq<bv16>)
    requires |s| < MaxPath && forall i :: 0 <= i < |s| ==> s[i] != 0
    ensures Str(ToBuf(s)) == s
  {
    var b := ToBuf(s);
    StrPrefix(b, |s|);
  }

  lemma {:induction false} StrPrefix(b: seq<bv16>, n: nat)
    requires n < |b| && b[n] == 0 && forall i :: 0 <= i < n ==> b[i] != 0
    ensures Str(b) == b[..n]
  {
    if n > 0 {
      StrPrefix(b[1..], n - 1);
      assert b[..n] == [b[0]] + b[1..][..n - 1];
    }
  }

  function Unit(c: char): bv16
    requires c as int < 0x1_0000
  {
    c as int as bv16
  }

  // ---------------------------------------------------------------------------
  // ASCII case folding (tolower)
  // ---------------------------------------------------------------------------

  function LowerByte(b: bv8): (r: bv8)
  {
    if 0x41 <= b <= 0x5a then b + 0x20 else b
  }

  function LowerUnit(c: bv16): (r: bv16)
  {
    if 0x41 <= c <= 0x5a then c + 0x20 else c
  }

  /** Folding leaves no capital and changes nothing else. */
  lemma LowerUnitFolds(c: bv16)
    ensures !(0x41 <= LowerUnit(c) <= 0x5a)
    ensures LowerUnit(LowerUnit(c)) == LowerUnit(c)
    ensures LowerUnit(c) != c ==> 0x41 <= c <= 0x5a && LowerUnit(c) == c + 0x20
    ensures (LowerUnit(c) == 0) == (c == 0)
  {
  }

  // ---------------------------------------------------------------------------
  // The short-name checksum
  // ---------------------------------------------------------------------------

  /** One step of the checksum, as written in the engine and in the "FAT
      Long Directory Entries" section of Microsoft's FAT32 File System
      Specification: the sum rotated right one bit, plus the next byte. */
  function ChecksumStep(sum: bv8, b: bv8): bv8
  {
    (if sum & 1 == 1 then 0x80 else 0) + (sum >> 1) + b
  }

  /** The checksum of the bytes of a short name, first to last. */
  function Checksum(name: seq<bv8>): bv8
  {
    if |name| == 0 then 0 else ChecksumStep(Checksum(name[..|name| - 1]), name[|name| - 1])
  }

  /** The same sum written with a rotate instruction. */
  function ChecksumRotate(name: seq<bv8>): bv8
  {
    if |name| == 0 then 0 else Checksum(name[..|name| - 1]).RotateRight(1) + name[|name| - 1]
  }

  lemma StepIsRotate(sum: bv8, b: bv8)
    ensures ChecksumStep(sum, b) == sum.RotateRight(1) + b
  {
  }

  lemma ChecksumIsRotate(name: seq<bv8>)
    ensures Checksum(name) == ChecksumRotate(name)
  {
    if |name| > 0 {
      StepIsRotate(Checksum(name[..|name| - 1]), name[|name| - 1]);
    }
  }

  /** The loop YY_NextDirectoryItem runs over the 11 bytes of DIR_Name and
      DIR_Ext. */
  method ShortNameChecksum(name: seq<bv8>) returns (sum: bv8)
    requires |name| == 11
    ensures sum == Checksum(name)
    ensures sum == ChecksumRotate(name)
  {
    sum := 0;
    var i := 0;
    while i < 11
      invariant 0 <= i <= 11
      invariant sum == Checksum(name[..i])
    {
      assert name[..i + 1][..i] == name[..i];
      sum := ChecksumStep(sum, name[i]);
      i := i + 1;
    }
    assert name[..11] == name;
    ChecksumIsRotate(name);
  }

  // ---------------------------------------------------------------------------
  // MakeLongFromShort
  // ---------------------------------------------------------------------------

  /** Short-name bytes widened to 16 bits, lowercased when asked. */
  function Widen(bytes: seq<bv8>, lower: bool): (r: seq<bv16>)
    ensures |r| == |bytes|
    ensures forall i :: 0 <= i < |r| ==> r[i] == (if lower then LowerByte(bytes[i]) else bytes[i]) as bv16
  {
    if |bytes| == 0 then []
    else Widen(bytes[..|bytes| - 1], lower) + [(if lower then LowerByte(bytes[|bytes| - 1]) else bytes[|bytes| - 1]) as bv16]
  }

  const Space: bv16 := 0x20
  const Dot: bv16 := 0x2e
  const Slash: bv16 := 0x2f
  const Backslash: bv16 := 0x5c

  /** s without its trailing spaces. */
  function TrimSpaces(s: seq<bv16>): (r: seq<bv16>)
    ensures |r| <= |s| && r == s[..|r|]
    ensures |r| > 0 ==> r[|r| - 1] != Space
    ensures forall i :: |r| <= i < |s| ==> s[i] == Space
  {
    if |s| > 0 && s[|s| - 1] == Space then TrimSpaces(s[..|s| - 1]) else s
  }

  /** s without the trailing spaces and dots it has past position k. */
  function TrimTail(s: seq<bv16>, k: nat): (r: seq<bv16>)
    ensures |r| <= |s| && r == s[..|r|]
  {
    if |s| > 0 && (s[|s| - 1] == Space || (s[|s| - 1] == Dot && |s| > k)) then TrimTail(s[..|s| - 1], k) else s
  }

  /** What MakeLongFromShort produces: the name part without trailing
      spaces, then a dot and the extension without trailing spaces and
      dots, the dot left out when nothing of the extension remains.  NTRes
      bit 0x08 lowercases the name part and bit 0x10 the extension. */
  function LongFromShort(short: seq<bv8>, flags: bv8): (r: seq<bv16>)
    requires |short| == 11
  {
    var base := TrimSpaces(Widen(short[..8], flags & 0x08 != 0));
    var ext := Widen(short[8..], flags & 0x10 != 0);
    base + TrimTail([Dot] + ext, 0)
  }

  /** Trimming the whole text past the name part only ever trims the
      extension part: the name part has no trailing space to lose. */
  lemma {:induction false} TrimTailAfter(base: seq<bv16>, tail: seq<bv16>)
    requires |base| > 0 ==> base[|base| - 1] != Space
    ensures TrimTail(base + tail, |base|) == base + TrimTail(tail, 0)
    decreases |tail|
  {
    if |tail| > 0 {
      var s := base + tail;
      assert s[|s| - 1] == tail[|tail| - 1];
      assert s[..|s| - 1] == base + tail[..|tail| - 1];
      TrimTailAfter(base, tail[..|tail| - 1]);
    } else {
      assert base + tail == base;
    }
  }

  /** The first backing-up loop of MakeLongFromShort: the length of the
      name part once its trailing spaces are gone. */
  method BackOverSpaces(wide: seq<bv16>) returns (j: nat)
    ensures j <= |wide| && wide[..j] == TrimSpaces(wide)
  {
    j := |wide|;
    assert wide[..j] == wide;
    while j > 0 && wide[j - 1] == Space
      invariant 0 <= j <= |wide|
      invariant TrimSpaces(wide[..j]) == TrimSpaces(wide)
    {
      assert wide[..j][..j - 1] == wide[..j - 1];
      j := j - 1;
    }
  }

  /** The second backing-up loop: over spaces anywhere, and over dots only
      past the name part of length k. */
  method BackOverTail(buf: seq<bv16>, k: nat) returns (j: nat)
    ensures j <= |buf| && buf[..j] == TrimTail(buf, k)
  {
    j := |buf|;
    assert buf[..j] == buf;
    while j > 0 && (buf[j - 1] == Space || (buf[j - 1] == Dot && j > k))
      invariant 0 <= j <= |buf|
      invariant TrimTail(buf[..j], k) == TrimTail(buf, k)
    {
      assert buf[..j][..j - 1] == buf[..j - 1];
      j := j - 1;
    }
  }

  /** MakeLongFromShort as the C code does it: copy the eight name bytes,
      back over trailing spaces, put the dot, copy the three extension
      bytes, back over trailing spaces and over dots that follow the name
      part. */
  method MakeLongFromShort(short: seq<bv8>, flags: bv8) returns (name: seq<bv16>)
    requires |short| == 11
    ensures name == LongFromShort(short, flags)
  {
    var wide := Widen(short[..8], flags & 0x08 != 0);
    var k := BackOverSpaces(wide);
    var tail := [Dot] + Widen(short[8..], flags & 0x10 != 0);
    var buf := wide[..k] + tail;
    var j := BackOverTail(buf, k);
    name := buf[..j];
    TrimTailAfter(wide[..k], tail);
  }

  lemma {:induction false} TrimTailSpaces(d: seq<bv16>, n: nat, k: nat)
    ensures TrimTail(d + seq(n, _ => Space), k) == TrimTail(d, k)
  {
    if n > 0 {
      assert (d + seq(n, _ => Space))[..|d| + n - 1] == d + seq(n - 1, _ => Space);
      TrimTailSpaces(d, n - 1, k);
    } else {
      assert d + seq(n, _ => Space) == d;
    }
  }

  /** "README  TXT" and its lowercase-name form. */
  lemma LongFromShortReadme(short: seq<bv8>, flags: bv8)
    requires short == [0x52, 0x45, 0x41, 0x44, 0x4d, 0x45, 0x20, 0x20, 0x54, 0x58, 0x54]
    requires flags == 0 || flags == 0x08
    ensures flags == 0 ==> (LongFromShort(short, flags) == [0x52, 0x45, 0x41, 0x44, 0x4d, 0x45, 0x2e, 0x54, 0x58, 0x54])
    ensures flags == 0x08 ==> (LongFromShort(short, flags) == [0x72, 0x65, 0x61, 0x64, 0x6d, 0x65, 0x2e, 0x54, 0x58, 0x54])
  {
    var w := Widen(short[..8], flags & 0x08 != 0);
    var n: seq<bv16> := if flags == 0 then [0x52, 0x45, 0x41, 0x44, 0x4d, 0x45] else [0x72, 0x65, 0x61, 0x64, 0x6d, 0x65];
    assert w == n + seq(2, _ => Space);
    TrimSpacesPad(n, 2);
    var t := [Dot] + Widen(short[8..], false);
    assert t == [Dot, 0x54, 0x58, 0x54];
    assert TrimTail(t, 0) == t;
  }

  /** "." and "..", the entries every subdirectory starts with. */
  lemma LongFromShortDots(short: seq<bv8>, dots: nat)
    requires 1 <= dots <= 2 && |short| == 11
    requires forall i :: 0 <= i < 11 ==> short[i] == (if i < dots then 0x2e else 0x20)
    ensures LongFromShort(short, 0) == seq(dots, _ => Dot)
  {
    var w := Widen(short[..8], false);
    var d := seq(dots, _ => Dot);
    assert w == d + seq(8 - dots, _ => Space);
    TrimSpacesPad(d, 8 - dots);
    LongFromShortNoExt(short, 0);
  }

  lemma {:induction false} TrimSpacesPad(d: seq<bv16>, n: nat)
    requires |d| > 0 && d[|d| - 1] != Space
    ensures TrimSpaces(d + seq(n, _ => Space)) == d
  {
    if n > 0 {
      assert (d + seq(n, _ => Space))[..|d| + n - 1] == d + seq(n - 1, _ => Space);
      TrimSpacesPad(d, n - 1);
    } else {
      assert d + seq(n, _ => Space) == d;
    }
  }

  /** Without an extension the dot goes too. */
  lemma LongFromShortNoExt(short: seq<bv8>, flags: bv8)
    requires |short| == 11 && short[8] == 0x20 && short[9] == 0x20 && short[10] == 0x20
    ensures LongFromShort(short, flags) == TrimSpaces(Widen(short[..8], flags & 0x08 != 0))
  {
    var ext := Widen(short[8..], flags & 0x10 != 0);
    var t := [Dot] + ext;
    assert t == [Dot, Space, Space, Space];
    assert t == [Dot] + seq(3, _ => Space);
    TrimTailSpaces([Dot], 3, 0);
    assert [Dot][..0] == [];
    assert LongFromShort(short, flags) == TrimSpaces(Widen(short[..8], flags & 0x08 != 0)) + [];
  }

  // ---------------------------------------------------------------------------
  // YY_AddPath
  // ---------------------------------------------------------------------------

  /** wcscat_s into a MAX_PATH buffer: the concatenation when it fits with
      its terminator, otherwise the empty text (wcscat_s clears the
      destination when it refuses). */
  function WcsCat(dest: seq<bv16>, src: seq<bv16>): (r: seq<bv16>)
    ensures |r| < MaxPath || r == []
  {
    if |dest| + |src| < MaxPath then dest + src else []
  }

  /** The ".." loop of YY_AddPath from position i down: the text is cut at
      i, and the loop stops once the unit before the cut is '/' or the cut
      reaches position 1. */
  function CutBack(d: seq<bv16>, i: nat): (r: seq<bv16>)
    requires 1 <= i <= |d|
    ensures 1 <= |r| <= i && r == d[..|r|]
  {
    if d[i - 1] == Slash || i == 1 then d[..i] else CutBack(d, i - 1)
  }

  /** The parent of a path "X:/a/b/": everything up to and including the
      '/' before the last component. */
  function UpOne(d: seq<bv16>): (r: seq<bv16>)
    ensures |r| <= |d| && r == d[..|r|]
  {
    if |d| <= 1 then d else CutBack(d, |d| - 1)
  }

  /** YY_AddPath: "." changes nothing, ".." goes up one level, anything else
      is appended with a '/'. */
  function AddPath(dest: seq<bv16>, src: seq<bv16>): (r: seq<bv16>)
  {
    if src == [Dot] then dest
    else if src == [Dot, Dot] then UpOne(dest)
    else WcsCat(WcsCat(dest, src), [Slash])
  }

  /** A path component: not empty, no separator, not "." or "..". */
  predicate Component(n: seq<bv16>)
  {
    && |n| > 0 && n != [Dot] && n != [Dot, Dot]
    && forall i :: 0 <= i < |n| ==> n[i] != Slash
  }

  /** Going into a directory and back out again restores the path. */
  lemma AddPathUndo(p: seq<bv16>, n: seq<bv16>)
    requires |p| > 0 && p[|p| - 1] == Slash
    requires Component(n) && |p| + |n| + 1 < MaxPath
    ensures AddPath(AddPath(p, n), [Dot, Dot]) == p
  {
    var q := p + n + [Slash];
    assert AddPath(p, n) == q;
    CutBackComponent(p, n, |q| - 1);
  }

  lemma {:induction false} CutBackComponent(p: seq<bv16>, n: seq<bv16>, i: nat)
    requires |p| > 0 && p[|p| - 1] == Slash
    requires forall j :: 0 <= j < |n| ==> n[j] != Slash
    requires |p| <= i <= |p| + |n|
    ensures CutBack(p + n + [Slash], i) == p
    decreases i
  {
    var q := p + n + [Slash];
    if i == |p| {
      assert q[i - 1] == p[|p| - 1];
      assert q[..i] == p;
    } else {
      assert q[i - 1] == n[i - 1 - |p|];
      CutBackComponent(p, n, i - 1);
    }
  }

  // ---------------------------------------------------------------------------
  // getToken
  // ---------------------------------------------------------------------------

  predicate IsSeparator(c: bv16)
  {
    c == Slash || c == Backslash
  }

  /** getToken from position index: the units up to the next separator or
      NUL, the position after that separator (or at the NUL), and whether
      the token is non-empty. */
  function GetToken(text: seq<bv16>, index: nat): (r: (nat, seq<bv16>, bool))
    ensures r.2 <== |r.1| > 0
    ensures r.2 ==> |r.1| > 0
    ensures forall i :: 0 <= i < |r.1| ==> r.1[i] == At(text, index + i) && r.1[i] != 0 && !IsSeparator(r.1[i])
    ensures At(text, index + |r.1|) == 0 ==> r.0 == index + |r.1|
    ensures IsSeparator(At(text, index + |r.1|)) ==> r.0 == index + |r.1| + 1
    ensures At(text, index + |r.1|) == 0 || IsSeparator(At(text, index + |r.1|))
    ensures r.2 ==> index < r.0 <= |text|
    decreases |text| - index
  {
    var c := At(text, index);
    if c == 0 then (index, [], false)
    else if IsSeparator(c) then (index + 1, [], false)
    else
      var t := GetToken(text, index + 1);
      (t.0, [c] + t.1, true)
  }
}

=== FILE: streams.dfy ===
/** The stdio-like ZZ_ layer over the engine (FAT_ZZ.cpp): handles from a
    pool of 100 slots, the fopen mode letters, fread, fgetc and fgets by
    getc, fseek and ftell, the null-safe accessors, and the folder calls. */
module Streams {
  import opened Uint
  import opened Wrappers
  import opened FatTypes
  import opened Clusters
  import opened Drives
  import opened Names
  import opened Unicode
  import opened Chars
  import opened FileSlots
  import opened Directories
  import opened Files

  // ---------------------------------------------------------------------------
  // The handle pool (getthing / freething)
  // ---------------------------------------------------------------------------

  /** The number of pool slots (N_THINGS). */
  const NThings: nat := 100

  /** What a pool slot points at: a file slot or a directory slot. */
  datatype Ref = FileRef(file: nat) | FolderRef(dir: nat)

  /** The engine's tables together with the pool; a free pool slot is None.
      A handle (ZZ_FILE*, ZZ_FOLDER*) is the index of its pool slot, and
      None is the null pointer. */
  datatype World = World(st: Sys, things: seq<Option<Ref>>)

  /** A reference names a slot of the engine's tables. */
  predicate RefOk(p: Option<Ref>)
  {
    match p
    case None => true
    case Some(FileRef(i)) => i < MaxFiles
    case Some(FolderRef(k)) => k < MaxDirectories
  }

  /** The pool has N_THINGS slots, each empty or naming a table slot. */
  predicate WorldOk(w: World)
  {
    SysOk(w.st) && |w.things| == NThings && forall t :: 0 <= t < |w.things| ==> RefOk(w.things[t])
  }

  /** A handle is null or one of the pool's slots. */
  predicate HandleOk(h: Option<nat>)
  {
    h.None? || h.value < NThings
  }

  /** The first free pool slot from i on. */
  function FirstFreeThing(things: seq<Option<Ref>>, i: nat): (r: Option<nat>)
    ensures r.Some? ==> i <= r.value < |things| && things[r.value].None?
    ensures r.Some? ==> forall u :: i <= u < r.value ==> things[u].Some?
    ensures r.None? ==> forall u :: i <= u < |things| ==> things[u].Some?
    decreases |things| - i
  {
    if i >= |things| then None
    else if things[i].None? then Some(i)
    else FirstFreeThing(things, i + 1)
  }

  /** getthing: p goes into the first free slot, whose index is the
      handle; no handle when every slot is taken.  A null p leaves the slot
      free, and its handle is returned all the same. */
  function GetThing(things: seq<Option<Ref>>, p: Option<Ref>): (r: (seq<Option<Ref>>, Option<nat>))
    ensures r.1.None? ==> r.0 == things && forall u :: 0 <= u < |things| ==> things[u].Some?
    ensures r.1.Some? ==>
      && r.1.value < |things| && things[r.1.value].None? && r.0 == things[r.1.value := p]
      && forall u :: 0 <= u < r.1.value ==> things[u].Some?
  {
    match FirstFreeThing(things, 0)
    case None => (things, None)
    case Some(t) => (things[t := p], Some(t))
  }

  /** freething: the slot is free again. */
  function FreeThing(things: seq<Option<Ref>>, t: nat): (r: seq<Option<Ref>>)
    requires t < |things|
    ensures |r| == |things| && r[t].None?
    ensures forall u :: 0 <= u < |things| && u != t ==> r[u] == things[u]
  {
    things[t := None]
  }

  /** Freeing the slot getthing just handed out leaves the pool as it was. */
  lemma GetThenFree(things: seq<Option<Ref>>, p: Option<Ref>)
    requires GetThing(things, p).1.Some?
    ensures FreeThing(GetThing(things, p).0, GetThing(things, p).1.value) == things
  {
    var t := GetThing(things, p).1.value;
    assert FreeThing(things[t := p], t) == things[t := None];
  }

  /** getfile: the file slot behind a handle; none for the null handle or
      a handle on a folder. */
  function GetFile(w: World, h: Option<nat>): (r: Option<nat>)
    requires WorldOk(w) && HandleOk(h)
    ensures r.Some? ==> r.value < MaxFiles && h.Some? && w.things[h.value] == Some(FileRef(r.value))
    ensures h.None? ==> r.None?
  {
    if h.None? then None
    else match w.things[h.value]
      case Some(FileRef(i)) => Some(i)
      case _ => None
  }

  /** getfolder: the directory slot behind a handle, as getfile. */
  function GetFolder(w: World, h: Option<nat>): (r: Option<nat>)
    requires WorldOk(w) && HandleOk(h)
    ensures r.Some? ==> r.value < MaxDirectories && h.Some? && w.things[h.value] == Some(FolderRef(r.value))
    ensures h.None? ==> r.None?
  {
    if h.None? then None
    else match w.things[h.value]
      case Some(FolderRef(k)) => Some(k)
      case _ => None
  }

  /** A new handle on p in the first free pool slot, with the engine's
      tables now st; null when the pool is full. */
  function Claim(w: World, st: Sys, p: Ref): (r: (World, Option<nat>))
    requires WorldOk(w) && SysOk(st) && RefOk(Some(p))
    ensures WorldOk(r.0) && HandleOk(r.1) && r.0.st == st
    ensures r.1.None? ==> r.0.things == w.things && FirstFreeThing(w.things, 0).None?
    ensures r.1.Some? ==>
      && r.1 == FirstFreeThing(w.things, 0) && w.things[r.1.value].None?
      && r.0.things == w.things[r.1.value := Some(p)]
  {
    var g := GetThing(w.things, Some(p));
    (World(st, g.0), g.1)
  }

  // ---------------------------------------------------------------------------
  // Text between the caller's UTF-8 and the engine's UTF-16
  // ---------------------------------------------------------------------------

  /** A caller's UTF-8 path as the engine takes it: converted into a buffer
      of MAX_PATH units. */
  function WidePath(path: seq<bv8>): (r: seq<bv16>)
    ensures |r| == MaxPath
  {
    ToWide(seq(MaxPath, _ => 0), MaxPath as U16, path, 0xffff)
  }

  /** An engine name handed to the caller: converted to UTF-8 into a
      buffer of MAX_PATH bytes. */
  function NarrowName(name: seq<bv16>): (r: seq<bv8>)
    ensures |r| == MaxPath
  {
    ToNarrow(seq(MaxPath, _ => 0), MaxPath as U16, name, 0xffff)
  }

  // ---------------------------------------------------------------------------
  // fopen modes
  // ---------------------------------------------------------------------------

  /** The modes table: the two characters of an fopen mode and its code. */
  const Modes: seq<(bv8, bv8, bv8)> := [
    (0x72, 0, FomRead | FomMustExist),                  // "r"
    (0x77, 0, FomWrite | FomClean),                     // "w"
    (0x61, 0, FomWrite | FomAppend),                    // "a"
    (0x72, 0x2b, FomRead | FomWrite | FomMustExist),    // "r+"
    (0x77, 0x2b, FomRead | FomWrite | FomClean),        // "w+"
    (0x61, 0x2b, FomRead | FomWrite | FomAppend)        // "a+"
  ]

  /** A row of the table names the mode whose first two characters are
      mode[0] and mode[1]. */
  predicate RowFits(a: nat, mode: seq<bv8>)
    requires a < |Modes|
  {
    Modes[a].0 == Byte(mode, 0) && Modes[a].1 == Byte(mode, 1)
  }

  /** The code of the first row from a on that fits, 0 when none does. */
  function ModeFrom(mode: seq<bv8>, a: nat): (code: bv8)
    requires a <= |Modes|
    ensures code != 0 <==> exists b :: a <= b < |Modes| && RowFits(b, mode)
    ensures code != 0 ==> exists b :: a <= b < |Modes| && RowFits(b, mode) && code == Modes[b].2
    decreases |Modes| - a
  {
    if a == |Modes| then 0
    else if RowFits(a, mode) then Modes[a].2
    else ModeFrom(mode, a + 1)
  }

  /** The code fopen works with: that of the row naming the mode, 0 for a
      mode the table does not know. */
  function ModeCode(mode: seq<bv8>): (code: bv8)
    ensures code != 0 <==> exists b :: 0 <= b < |Modes| && RowFits(b, mode)
    ensures code != 0 ==> code & InternalModeBits == 0 && code & (FomRead | FomWrite) != 0
  {
    ModeFrom(mode, 0)
  }

  /** The six modes and their codes; a "b" for binary is not understood. */
  lemma ModeCodes()
    ensures ModeCode([0x72]) == FomRead | FomMustExist
    ensures ModeCode([0x77]) == FomWrite | FomClean
    ensures ModeCode([0x61]) == FomWrite | FomAppend
    ensures ModeCode([0x72, 0x2b]) == FomRead | FomWrite | FomMustExist
    ensures ModeCode([0x77, 0x2b]) == FomRead | FomWrite | FomClean
    ensures ModeCode([0x61, 0x2b]) == FomRead | FomWrite | FomAppend
    ensures ModeCode([0x72, 0x62]) == 0
  {
    assert RowFits(0, [0x72]);
    assert RowFits(1, [0x77]) && !RowFits(0, [0x77]);
    assert RowFits(2, [0x61]);
    assert RowFits(3, [0x72, 0x2b]);
    assert RowFits(4, [0x77, 0x2b]);
    assert RowFits(5, [0x61, 0x2b]);
    assert forall b :: 0 <= b < |Modes| ==> !RowFits(b, [0x72, 0x62]);
  }

  // ---------------------------------------------------------------------------
  // Opening and closing files
  // ---------------------------------------------------------------------------

  /** ZZ_fopen on a UTF-16 path: an unknown mode opens nothing; otherwise
      YY_OpenFile opens the path and a pool slot is claimed for the file.  With the pool
      full the handle is null and the engine's file stays open. */
  function FopenWide(w: World, path: seq<bv16>, mode: seq<bv8>, fuel: nat): (r: (World, Option<nat>))
    requires WorldOk(w)
    ensures WorldOk(r.0) && HandleOk(r.1)
    ensures ModeCode(mode) == 0 ==> r == (w, None)
    ensures r.1.Some? ==>
      && ModeCode(mode) != 0 && r.0.things == w.things[r.1.value := r.0.things[r.1.value]]
      && w.things[r.1.value].None? && GetFile(r.0, r.1).Some?
      && var i := GetFile(r.0, r.1).value;
         w.st.files[i].drive == 0 && Opened(r.0.st.files[i], FileName(path))
  {
    var code := ModeCode(mode);
    if code == 0 then (w, None)
    else
      var o := OpenFile(w.st, path, code, fuel);
      match o.1
      case None => (w.(st := o.0), None)
      case Some(i) => Claim(w, o.0, FileRef(i))
  }

  /** With a known mode, ZZ_fopen hands out a handle exactly when the
      engine opens the file and a pool slot is free, and the handle leads
      to the file slot the engine opened (which Files.OpenFileFindsFirstFile
      ties to the first matching entry of the folder). */
  lemma FopenWideOpens(w: World, path: seq<bv16>, mode: seq<bv8>, fuel: nat)
    requires WorldOk(w) && ModeCode(mode) != 0
    ensures var o := OpenFile(w.st, path, ModeCode(mode), fuel);
      var r := FopenWide(w, path, mode, fuel);
      && r.0.st == o.0
      && (r.1.Some? <==> o.1.Some? && FirstFreeThing(w.things, 0).Some?)
      && (r.1.Some? ==> GetFile(r.0, r.1) == o.1)
  {
  }

  /** ZZ_fopen: the caller's UTF-8 path converted, then opened. */
  function Fopen(w: World, path: seq<bv8>, mode: seq<bv8>, fuel: nat): (r: (World, Option<nat>))
    requires WorldOk(w)
    ensures WorldOk(r.0) && HandleOk(r.1)
  {
    FopenWide(w, WidePath(path), mode, fuel)
  }

  /** The drive slot of file slot i's drive letter. */
  function FileDrive(st: Sys, i: nat): (r: Option<nat>)
    requires SysOk(st) && i < MaxFiles
    ensures r.Some? ==> r.value < NDrives
  {
    DriveOf(st, st.files[i].drive)
  }

  /** ZZ_fopenD: the file behind the handle is opened again in the mode
      and the same handle returned; an unknown mode gives null.  A null
      handle with a known mode is dereferenced by the code, so it is
      excluded. */
  function FopenD(w: World, h: Option<nat>, mode: seq<bv8>): (r: (World, Option<nat>))
    requires WorldOk(w) && HandleOk(h)
    requires ModeCode(mode) != 0 ==> GetFile(w, h).Some?
    ensures WorldOk(r.0) && r.0.things == w.things
    ensures ModeCode(mode) == 0 ==> r == (w, None)
    ensures r.1.Some? ==> r.1 == h && var i := GetFile(w, h).value;
      && IsOpen(r.0.st.files[i]) && r.0.st.files[i].dirn == w.st.files[i].dirn
      && (ModeCode(mode) & (FomWrite | FomAppend) == FomWrite | FomAppend ==>
            r.0.st.files[i].pointer == w.st.files[i].dirn.fileSize as int)
      && (ModeCode(mode) & FomAppend == 0 ==> r.0.st.files[i].pointer == w.st.files[i].pointer)
  {
    var code := ModeCode(mode);
    if code == 0 then (w, None)
    else
      var i := GetFile(w, h).value;
      match FileDrive(w.st, i)
      case None => (w, None)
      case Some(n) =>
        var f := OpenFileDirect(w.st.files[i], w.st.drives[n], code);
        (w.(st := w.st.(files := w.st.files[i := f])), h)
  }

  /** ZZ_fclose: the engine closes the file, then freeFILE closes it once
      more and frees the pool slot.  freeFILE dereferences the handle, so a
      null handle is excluded. */
  function Fclose(w: World, h: Option<nat>): (r: World)
    requires WorldOk(w) && HandleOk(h) && h.Some?
    ensures WorldOk(r) && r.st.dirs == w.st.dirs && r.st.drives == w.st.drives
    ensures r.things == FreeThing(w.things, h.value)
    ensures GetFile(w, h).Some? ==> Busy(r.st.files) == Busy(w.st.files) - {GetFile(w, h).value}
    ensures GetFile(w, h).None? ==> r.st.files == w.st.files
  {
    var fy := GetFile(w, h);
    var once := CloseFile(w.st.files, fy);
    World(w.st.(files := CloseFile(once, fy)), FreeThing(w.things, h.value))
  }

  /** Opening a file and closing its handle gives the pool and the file
      slots their old use. */
  lemma FopenFclose(w: World, path: seq<bv16>, mode: seq<bv8>, fuel: nat)
    requires WorldOk(w)
    requires FopenWide(w, path, mode, fuel).1.Some?
    ensures var (w1, h) := FopenWide(w, path, mode, fuel);
      var w2 := Fclose(w1, h);
      && w2.things == w.things
      && Busy(w2.st.files) == Busy(w1.st.files) - {GetFile(w1, h).value}
  {
    var (w1, h) := FopenWide(w, path, mode, fuel);
    var t := h.value;
    assert w1.things[t := None] == w.things;
  }

  // ---------------------------------------------------------------------------
  // Reading
  // ---------------------------------------------------------------------------

  /** Every sector of the device under file slot i's drive can be read. */
  predicate Whole(st: Sys, i: nat)
    requires SysOk(st) && i < MaxFiles
  {
    match FileDrive(st, i)
    case None => false
    case Some(n) => forall s: U32 :: s in VolOf(st, n).disk
  }

  /** Only file slot i changes, and it keeps its entry and drive. */
  predicate OneFile(st: Sys, r: Sys, i: nat)
    requires i < |st.files|
  {
    && r.dirs == st.dirs && |r.drives| == |st.drives| && |r.files| == |st.files|
    && (forall n :: 0 <= n < |st.drives| ==> r.drives[n].id == st.drives[n].id)
    && (forall j :: 0 <= j < |st.files| && j != i ==> r.files[j] == st.files[j])
    && r.files[i].dirn == st.files[i].dirn && r.files[i].drive == st.files[i].drive
  }

  /** Only the ids of the slots decide which slot has a letter. */
  lemma {:induction false} FindSlotIds(t: seq<Drive>, u: seq<Drive>, id: bv8, i: nat)
    requires |u| == |t| && forall n :: 0 <= n < |t| ==> u[n].id == t[n].id
    ensures FindSlot(u, id, i) == FindSlot(t, id, i)
    decreases |t| - i
  {
    if i < |t| && t[i].id != id {
      FindSlotIds(t, u, id, i + 1);
    }
  }

  /** YY_getc on file slot i: the byte at the pointer, which moves on by
      one, or EOF with the file as it was.  A file whose drive letter is not
      mounted reads as EOF. */
  function FileGetc(st: Sys, i: nat): (r: (Sys, bv16))
    requires SysOk(st) && i < MaxFiles
    ensures SysOk(r.0) && OneFile(st, r.0, i)
    ensures r.1 == Eof ==> r.0.files[i] == st.files[i]
    ensures r.1 != Eof ==>
      && r.1 < 0x100 && st.files[i].pointer < st.files[i].dirn.fileSize as int
      && r.0.files[i].pointer == st.files[i].pointer + 1
    ensures st.files[i].pointer >= st.files[i].dirn.fileSize as int ==> r.1 == Eof
  {
    match FileDrive(st, i)
    case None => (st, Eof)
    case Some(n) =>
      var g := Getc(VolOf(st, n), st.files[i]);
      (PutVol(st, n, g.0).(files := st.files[i := g.1]), g.2)
  }

  /** On a device that delivers every sector getc reads a byte wherever
      the pointer is within the file, and the device still delivers every
      sector afterwards. */
  lemma FileGetcWhole(st: Sys, i: nat)
    requires SysOk(st) && i < MaxFiles && Whole(st, i)
    ensures st.files[i].pointer < st.files[i].dirn.fileSize as int ==> FileGetc(st, i).1 != Eof
    ensures Whole(FileGetc(st, i).0, i)
  {
    var n := FileDrive(st, i).value;
    var g := Getc(VolOf(st, n), st.files[i]);
    var r := FileGetc(st, i).0;
    FindSlotIds(st.drives, r.drives, st.files[i].drive, 0);
    assert FileDrive(r, i) == Some(n);
    assert VolOf(r, n).disk == g.0.disk;
  }

  /** The loop of ZZ_fread: bytes from getc after those in acc, until
      count are there or getc returns EOF. */
  function ReadFrom(st: Sys, i: nat, count: nat, acc: seq<bv8>): (r: (Sys, seq<bv8>))
    requires SysOk(st) && i < MaxFiles && |acc| <= count
    ensures SysOk(r.0) && OneFile(st, r.0, i)
    ensures acc <= r.1 && |r.1| <= count
    ensures r.0.files[i].pointer == st.files[i].pointer + |r.1| - |acc|
    ensures st.files[i].pointer <= st.files[i].dirn.fileSize as int ==>
      r.0.files[i].pointer <= st.files[i].dirn.fileSize as int
    decreases count - |acc|
  {
    if |acc| == count then (st, acc)
    else
      var g := FileGetc(st, i);
      if g.1 == Eof then (g.0, acc)
      else ReadFrom(g.0, i, count, acc + [g.1 as bv8])
  }

  /** On a device that delivers every sector, the loop stops short of
      count only at the end of the file. */
  lemma {:induction false} ReadFromEnds(st: Sys, i: nat, count: nat, acc: seq<bv8>)
    requires SysOk(st) && i < MaxFiles && |acc| <= count && Whole(st, i)
    ensures var r := ReadFrom(st, i, count, acc);
      |r.1| < count ==> r.0.files[i].pointer >= st.files[i].dirn.fileSize as int
    decreases count - |acc|
  {
    if |acc| < count {
      var g := FileGetc(st, i);
      FileGetcWhole(st, i);
      if g.1 != Eof {
        ReadFromEnds(g.0, i, count, acc + [g.1 as bv8]);
      }
    }
  }

  /** ZZ_fread: the bytes copied and their number, at most count; 0 for a
      null handle. */
  function Fread(w: World, count: U16, h: Option<nat>): (r: (World, seq<bv8>, U32))
    requires WorldOk(w) && HandleOk(h)
    ensures WorldOk(r.0) && r.0.things == w.things
    ensures r.2 == |r.1| <= count
    ensures GetFile(w, h).None? ==> r == (w, [], 0)
    ensures GetFile(w, h).Some? ==> var i := GetFile(w, h).value;
      && OneFile(w.st, r.0.st, i)
      && r.0.st.files[i].pointer == w.st.files[i].pointer + |r.1|
  {
    match GetFile(w, h)
    case None => (w, [], 0)
    case Some(i) =>
      var r := ReadFrom(w.st, i, count, []);
      (w.(st := r.0), r.1, |r.1|)
  }

  /** fread returns fewer bytes than asked for only at the end of the file:
      from a pointer within the file, on a device that delivers every
      sector, it returns count bytes or all that are left. */
  lemma FreadCount(w: World, count: U16, h: Option<nat>)
    requires WorldOk(w) && HandleOk(h) && GetFile(w, h).Some?
    requires var f := w.st.files[GetFile(w, h).value]; f.pointer <= f.dirn.fileSize as int
    requires Whole(w.st, GetFile(w, h).value)
    ensures var f := w.st.files[GetFile(w, h).value];
      var left := f.dirn.fileSize as int - f.pointer;
      Fread(w, count, h).2 == if count <= left then count else left
  {
    ReadFromEnds(w.st, GetFile(w, h).value, count, []);
  }

  /** ZZ_fgetc: getc on the file; 0 for a null handle. */
  function Fgetc(w: World, h: Option<nat>): (r: (World, bv16))
    requires WorldOk(w) && HandleOk(h)
    ensures WorldOk(r.0) && r.0.things == w.things
    ensures GetFile(w, h).None? ==> r == (w, 0)
    ensures GetFile(w, h).Some? ==> var i := GetFile(w, h).value;
      && OneFile(w.st, r.0.st, i)
      && (r.1 == Eof ==> r.0.st.files[i] == w.st.files[i])
      && (r.1 != Eof ==> r.1 < 0x100 && r.0.st.files[i].pointer == w.st.files[i].pointer + 1)
  {
    match GetFile(w, h)
    case None => (w, 0)
    case Some(i) =>
      var g := FileGetc(w.st, i);
      (w.(st := g.0), g.1)
  }

  /** The line feed that ends a line for fgets. */
  const NewLine: bv16 := 0x0a

  /** The loop of ZZ_fgets: bytes from getc after those in acc while fewer
      than count - 1 are there; a line feed ends the line and is not kept;
      EOF ends it too, and gives null when nothing was read. */
  function GetsFrom(st: Sys, i: nat, count: U16, acc: seq<bv8>): (r: (Sys, Option<seq<bv8>>))
    requires SysOk(st) && i < MaxFiles
    requires |acc| == 0 || |acc| <= count - 1
    ensures SysOk(r.0)
    ensures r.1.None? ==> acc == [] && r.0.files[i] == st.files[i]
    ensures r.1.Some? ==> acc <= r.1.value
    ensures r.1.Some? ==> |r.1.value| == |acc| || |r.1.value| <= count - 1
    decreases count - |acc|
  {
    if |acc| >= count - 1 then (st, Some(acc))
    else
      var g := FileGetc(st, i);
      if g.1 == Eof then (g.0, if |acc| == 0 then None else Some(acc))
      else if g.1 == NewLine then (g.0, Some(acc))
      else GetsFrom(g.0, i, count, acc + [g.1 as bv8])
  }

  /** ZZ_fgets: the line read, without its line feed (the buffer gets a NUL
      after it), or null at the end of the file or for a null handle. */
  function Fgets(w: World, count: U16, h: Option<nat>): (r: (World, Option<seq<bv8>>))
    requires WorldOk(w) && HandleOk(h)
    ensures WorldOk(r.0) && r.0.things == w.things
    ensures GetFile(w, h).None? ==> r == (w, None)
    ensures r.1.Some? ==> |r.1.value| <= if count == 0 then 0 else count - 1
  {
    match GetFile(w, h)
    case None => (w, None)
    case Some(i) =>
      var r := GetsFrom(w.st, i, count, []);
      (w.(st := r.0), r.1)
  }

  /** The position of the first line feed in s from k on, |s| if none. */
  function FirstNewLine(s: seq<bv8>, k: nat): (j: nat)
    requires k <= |s|
    ensures k <= j <= |s| && (j < |s| ==> s[j] as bv16 == NewLine)
    ensures forall m :: k <= m < j ==> s[m] as bv16 != NewLine
    decreases |s| - k
  {
    if k == |s| || s[k] as bv16 == NewLine then k else FirstNewLine(s, k + 1)
  }

  /** A getc result below 0x100 survives the cut to a byte. */
  lemma ByteBack(x: bv16)
    requires x < 0x100
    ensures (x as bv8) as bv16 == x
  {
  }

  /** A read that went on past a line feed at index |acc| is cut there. */
  lemma CutAtNewLine(rd: seq<bv8>, acc: seq<bv8>, c: bv8)
    requires acc + [c] <= rd && c as bv16 == NewLine
    ensures rd != [] && FirstNewLine(rd, |acc|) == |acc| && rd[..|acc|] == acc
  {
    assert rd[|acc|] == (acc + [c])[|acc|];
    assert acc <= rd;
  }

  /** A byte other than a line feed at index |acc| does not end the line. */
  lemma PassOver(rd: seq<bv8>, acc: seq<bv8>, c: bv8)
    requires acc + [c] <= rd && c as bv16 != NewLine
    ensures rd != [] && FirstNewLine(rd, |acc|) == FirstNewLine(rd, |acc| + 1)
  {
    assert rd[|acc|] == (acc + [c])[|acc|];
  }

  /** A byte other than a line feed keeps a line free of them. */
  lemma NoNewLineAfter(acc: seq<bv8>, c: bv8)
    requires forall m :: 0 <= m < |acc| ==> acc[m] as bv16 != NewLine
    requires c as bv16 != NewLine
    ensures forall m :: 0 <= m < |acc + [c]| ==> (acc + [c])[m] as bv16 != NewLine
  {
  }

  /** The line in the bytes rd with the line feed searched from k on:
      none when there are no bytes at all. */
  function LineIn(rd: seq<bv8>, k: nat): (r: Option<seq<bv8>>)
    requires k <= |rd|
  {
    if rd == [] then None else Some(rd[..FirstNewLine(rd, k)])
  }

  /** The line fgets reads from acc on, against the bytes fread of
      count - 1 reads from acc on. */
  predicate LineOfRead(st: Sys, i: nat, count: U16, acc: seq<bv8>)
    requires SysOk(st) && i < MaxFiles && count >= 2 && |acc| <= count - 1
  {
    GetsFrom(st, i, count, acc).1 == LineIn(ReadFrom(st, i, count - 1, acc).1, |acc|)
  }

  /** With count - 1 bytes there, both loops stop. */
  lemma LineOfReadFull(st: Sys, i: nat, count: U16, acc: seq<bv8>)
    requires SysOk(st) && i < MaxFiles && count >= 2 && |acc| == count - 1
    ensures LineOfRead(st, i, count, acc)
  {
    assert ReadFrom(st, i, count - 1, acc).1 == acc;
    assert acc[..|acc|] == acc;
  }

  /** At EOF both loops stop. */
  lemma LineOfReadEof(st: Sys, i: nat, count: U16, acc: seq<bv8>)
    requires SysOk(st) && i < MaxFiles && count >= 2 && |acc| < count - 1
    requires FileGetc(st, i).1 == Eof
    ensures LineOfRead(st, i, count, acc)
  {
    assert ReadFrom(st, i, count - 1, acc).1 == acc;
    assert acc[..|acc|] == acc;
  }

  /** At a line feed fgets stops and fread goes on past it. */
  lemma LineOfReadNewLine(st: Sys, i: nat, count: U16, acc: seq<bv8>)
    requires SysOk(st) && i < MaxFiles && count >= 2 && |acc| < count - 1
    requires FileGetc(st, i).1 == NewLine
    ensures LineOfRead(st, i, count, acc)
  {
    var g := FileGetc(st, i);
    var c := g.1 as bv8;
    ByteBack(g.1);
    var rd := ReadFrom(g.0, i, count - 1, acc + [c]).1;
    assert ReadFrom(st, i, count - 1, acc).1 == rd;
    CutAtNewLine(rd, acc, c);
  }

  /** fread's loop past a byte that is not EOF. */
  lemma ReadOn(st: Sys, i: nat, count: U16, acc: seq<bv8>)
    requires SysOk(st) && i < MaxFiles && count >= 2 && |acc| < count - 1
    requires FileGetc(st, i).1 != Eof
    ensures ReadFrom(st, i, count - 1, acc).1 == ReadFrom(FileGetc(st, i).0, i, count - 1, acc + [FileGetc(st, i).1 as bv8]).1
  {
  }

  /** fgets's loop past a byte that is neither EOF nor a line feed. */
  lemma GetsOn(st: Sys, i: nat, count: U16, acc: seq<bv8>)
    requires SysOk(st) && i < MaxFiles && count >= 2 && |acc| < count - 1
    requires FileGetc(st, i).1 != Eof && FileGetc(st, i).1 != NewLine
    ensures GetsFrom(st, i, count, acc).1 == GetsFrom(FileGetc(st, i).0, i, count, acc + [FileGetc(st, i).1 as bv8]).1
  {
  }

  /** The cut of a read that went on past a byte other than a line feed. */
  lemma CutOn(rd: seq<bv8>, acc: seq<bv8>, c: bv8)
    requires acc + [c] <= rd && c as bv16 != NewLine
    ensures LineIn(rd, |acc| + 1) == LineIn(rd, |acc|)
  {
    PassOver(rd, acc, c);
  }

  /** At any other byte both loops take it and go on. */
  lemma LineOfReadOn(st: Sys, i: nat, count: U16, acc: seq<bv8>)
    requires SysOk(st) && i < MaxFiles && count >= 2 && |acc| < count - 1
    requires FileGetc(st, i).1 != Eof && FileGetc(st, i).1 != NewLine
    requires LineOfRead(FileGetc(st, i).0, i, count, acc + [FileGetc(st, i).1 as bv8])
    ensures LineOfRead(st, i, count, acc)
  {
    var g := FileGetc(st, i);
    var c := g.1 as bv8;
    ByteBack(g.1);
    ReadOn(st, i, count, acc);
    GetsOn(st, i, count, acc);
    CutOn(ReadFrom(g.0, i, count - 1, acc + [c]).1, acc, c);
  }

  /** What fgets reads is what fread of count - 1 bytes reads, cut at the
      first line feed: null exactly when fread gets nothing at all. */
  lemma {:induction false} GetsIsReadToNewLine(st: Sys, i: nat, count: U16, acc: seq<bv8>)
    requires SysOk(st) && i < MaxFiles && count >= 2 && |acc| <= count - 1
    requires forall m :: 0 <= m < |acc| ==> acc[m] as bv16 != NewLine
    ensures LineOfRead(st, i, count, acc)
    decreases count - |acc|
  {
    if |acc| == count - 1 {
      LineOfReadFull(st, i, count, acc);
    } else {
      var g := FileGetc(st, i);
      if g.1 == Eof {
        LineOfReadEof(st, i, count, acc);
      } else if g.1 == NewLine {
        LineOfReadNewLine(st, i, count, acc);
      } else {
        ByteBack(g.1);
        NoNewLineAfter(acc, g.1 as bv8);
        GetsIsReadToNewLine(g.0, i, count, acc + [g.1 as bv8]);
        LineOfReadOn(st, i, count, acc);
      }
    }
  }

  /** fgets on a handle is fread of count - 1 bytes cut at the first line
      feed, and null exactly when that fread gets nothing. */
  lemma FgetsIsFreadToNewLine(w: World, count: U16, h: Option<nat>)
    requires WorldOk(w) && HandleOk(h) && GetFile(w, h).Some? && count >= 2
    ensures var rd := Fread(w, count - 1, h).1;
      Fgets(w, count, h).1 == if rd == [] then None else Some(rd[..FirstNewLine(rd, 0)])
  {
    GetsIsReadToNewLine(w.st, GetFile(w, h).value, count, []);
    assert LineOfRead(w.st, GetFile(w, h).value, count, []);
  }

  // ---------------------------------------------------------------------------
  // Seeking
  // ---------------------------------------------------------------------------

  /** An int32_t. */
  type I32 = x: int | -0x8000_0000 <= x < 0x8000_0000

  /** Where a seek counts from: the start (origin 0), the pointer (1) or
      the end (2). */
  function SeekBase(ptr: U32, size: U32, origin: U8): int
  {
    if origin == 0 then 0 else if origin == 1 then ptr else size
  }

  /** ZZ_fseek's test and move on a pointer and a size, with the sum for
      SEEK_CUR taken in full: the new pointer, or None when the seek is
      refused (return 1) and the pointer stays. */
  function Seek(ptr: U32, size: U32, offset: I32, origin: U8): (r: Option<U32>)
    ensures ptr <= size ==>
      (r.Some? <==> origin <= 2 && 0 <= SeekBase(ptr, size, origin) + offset <= size)
    ensures r.Some? ==> origin <= 2 && r.value == SeekBase(ptr, size, origin) + offset
  {
    if origin == 0 then
      if offset < 0 || offset > size then None else Some(offset)
    else if origin == 1 then
      if offset < 0 && -(offset as int) > ptr then None
      else if offset > 0 && offset + ptr > size then None
      else Some(ptr + offset)
    else if origin == 2 then
      if offset > 0 then None
      else if -(offset as int) > size then None
      else Some(size + offset)
    else None
  }

  /** ZZ_fseek as written: for SEEK_CUR the offset, converted to uint32_t,
      is added to the pointer in 32 bits before the comparison, and the
      pointer moves by the same wrapped sum. */
  function SeekAsWritten(ptr: U32, size: U32, offset: I32, origin: U8): (r: Option<U32>)
  {
    if origin == 0 then
      if offset < 0 || offset > size then None else Some(offset)
    else if origin == 1 then
      if offset < 0 && -(offset as int) > ptr then None
      else if offset > 0 && Wrap32(offset + ptr) > size then None
      else Some(Wrap32(ptr + offset))
    else if origin == 2 then
      if offset > 0 then None
      else if -(offset as int) > size then None
      else Some(size + offset)
    else None
  }

  /** Without a carry out of 32 bits the as-written seek is the intended one. */
  lemma SeekAsWrittenAgrees(ptr: U32, size: U32, offset: I32, origin: U8)
    requires ptr + offset < Two32
    ensures SeekAsWritten(ptr, size, offset, origin) == Seek(ptr, size, offset, origin)
  {
  }

  /** At the end of a file of 0xFFFFFFFF bytes, a SEEK_CUR by 1 is let
      through by the as-written test, whose sum wraps to 0, and moves the
      pointer to 0; the intended seek refuses it. */
  lemma SeekAsWrittenWraps()
    ensures SeekAsWritten(0xffff_ffff, 0xffff_ffff, 1, 1) == Some(0)
    ensures Seek(0xffff_ffff, 0xffff_ffff, 1, 1) == None
  {
  }

  /** ZZ_fseek: 0 when the file's pointer was moved, 1 when the seek was
      refused, the origin unknown or the handle null. */
  function Fseek(w: World, h: Option<nat>, offset: I32, origin: U8): (r: (World, U8))
    requires WorldOk(w) && HandleOk(h)
    ensures WorldOk(r.0) && r.0.things == w.things
    ensures r.1 == 0 || r.1 == 1
    ensures r.1 == 1 ==> r.0 == w
    ensures r.1 == 0 ==> GetFile(w, h).Some?
    ensures r.1 == 0 ==> var i := GetFile(w, h).value; var f := w.st.files[i];
      r.0.st == w.st.(files := w.st.files[i := f.(pointer := r.0.st.files[i].pointer)])
    ensures r.1 == 0 ==> var f := w.st.files[GetFile(w, h).value];
      && r.0.st.files[GetFile(w, h).value].pointer == SeekBase(f.pointer, f.dirn.fileSize as int, origin) + offset
      && (f.pointer <= f.dirn.fileSize as int ==> r.0.st.files[GetFile(w, h).value].pointer <= f.dirn.fileSize as int)
  {
    match GetFile(w, h)
    case None => (w, 1)
    case Some(i) =>
      var f := w.st.files[i];
      match Seek(f.pointer, f.dirn.fileSize as int, offset, origin)
      case None => (w, 1)
      case Some(p) => (w.(st := w.st.(files := w.st.files[i := f.(pointer := p)])), 0)
  }

  /** ZZ_ftell: the file's pointer; 0 for a null handle. */
  function Ftell(w: World, h: Option<nat>): (r: U32)
    requires WorldOk(w) && HandleOk(h)
    ensures GetFile(w, h).None? ==> r == 0
    ensures GetFile(w, h).Some? ==> r == w.st.files[GetFile(w, h).value].pointer
  {
    match GetFile(w, h)
    case None => 0
    case Some(i) => w.st.files[i].pointer
  }

  /** ftell after a seek that succeeded reports where the seek aimed. */
  lemma TellAfterSeek(w: World, h: Option<nat>, offset: I32, origin: U8)
    requires WorldOk(w) && HandleOk(h)
    requires Fseek(w, h, offset, origin).1 == 0
    ensures var f := w.st.files[GetFile(w, h).value];
      Ftell(Fseek(w, h, offset, origin).0, h) == SeekBase(f.pointer, f.dirn.fileSize as int, origin) + offset
  {
  }

  // ---------------------------------------------------------------------------
  // Null-safe accessors
  // ---------------------------------------------------------------------------

  /** ZZ_filesize: the entry's size; 0 for a null handle. */
  function FileSize(w: World, h: Option<nat>): (r: U32)
    requires WorldOk(w) && HandleOk(h)
    ensures GetFile(w, h).None? ==> r == 0
    ensures GetFile(w, h).Some? ==> r == w.st.files[GetFile(w, h).value].dirn.fileSize as int
  {
    match GetFile(w, h)
    case None => 0
    case Some(i) => w.st.files[i].dirn.fileSize as int
  }

  /** ZZ_longname: the file's long name in UTF-8; "" for a null handle. */
  function LongName(w: World, h: Option<nat>): (r: seq<bv8>)
    requires WorldOk(w) && HandleOk(h)
    ensures GetFile(w, h).None? ==> r == []
    ensures GetFile(w, h).Some? ==> r == NarrowName(w.st.files[GetFile(w, h).value].longName)
  {
    match GetFile(w, h)
    case None => []
    case Some(i) => NarrowName(w.st.files[i].longName)
  }

  /** ZZ_longpath: the path of the folder the file was found in, in UTF-8;
      "" for a null handle. */
  function LongPath(w: World, h: Option<nat>): (r: seq<bv8>)
    requires WorldOk(w) && HandleOk(h)
    ensures GetFile(w, h).None? ==> r == []
    ensures GetFile(w, h).Some? ==> r == NarrowName(w.st.files[GetFile(w, h).value].pathName)
  {
    match GetFile(w, h)
    case None => []
    case Some(i) => NarrowName(w.st.files[i].pathName)
  }

  /** An ASCII name reaches the caller unchanged and terminated. */
  lemma NarrowNameAscii(name: seq<bv16>, m: nat)
    requires AsciiText16(name, m) && m < MaxPath
    ensures forall j :: 0 <= j < m ==> NarrowName(name)[j] == At(name, j) as bv8
    ensures NarrowName(name)[m] == 0
  {
    NarrowAscii(seq(MaxPath, _ => 0), MaxPath as U16, name, 0xffff, m);
  }

  /** ZZ_isDIR: YY_isDIR of the file; false for a null handle. */
  function FileIsDir(w: World, h: Option<nat>): (r: bool)
    requires WorldOk(w) && HandleOk(h)
    ensures r <==> GetFile(w, h).Some? && IsDir(w.st.files[GetFile(w, h).value])
  {
    match GetFile(w, h)
    case None => false
    case Some(i) => IsDir(w.st.files[i])
  }

  /** ZZ_isFILE: YY_isFILE of the file; false for a null handle. */
  function FileIsFile(w: World, h: Option<nat>): (r: bool)
    requires WorldOk(w) && HandleOk(h)
    ensures r <==> GetFile(w, h).Some? && IsFile(w.st.files[GetFile(w, h).value])
  {
    match GetFile(w, h)
    case None => false
    case Some(i) => IsFile(w.st.files[i])
  }

  /** ZZ_isOpen: YY_isOpen of the file; false for a null handle. */
  function FileIsOpen(w: World, h: Option<nat>): (r: bool)
    requires WorldOk(w) && HandleOk(h)
    ensures r <==> GetFile(w, h).Some? && IsOpen(w.st.files[GetFile(w, h).value])
  {
    match GetFile(w, h)
    case None => false
    case Some(i) => IsOpen(w.st.files[i])
  }

  /** No handle is both a directory and a plain file, and a handle that
      fopen handed out is an open plain file. */
  lemma OpenedHandle(w: World, path: seq<bv16>, mode: seq<bv8>, fuel: nat)
    requires WorldOk(w)
    ensures var (w1, h) := FopenWide(w, path, mode, fuel);
      && !(FileIsDir(w1, h) && FileIsFile(w1, h))
      && (h.Some? ==> FileIsFile(w1, h) && FileIsOpen(w1, h) && !FileIsDir(w1, h))
  {
    var (w1, h) := FopenWide(w, path, mode, fuel);
    if GetFile(w1, h).Some? {
      DirOrFile(w1.st.files[GetFile(w1, h).value]);
    }
  }

  // ---------------------------------------------------------------------------
  // Folders
  // ---------------------------------------------------------------------------

  /** ZZ_openfolder as written, on a UTF-16 path: the result of
      YY_OpenDirectory goes to getthing even when it is null, so a folder
      that does not open still gets a handle (one whose slot stays empty). */
  function OpenFolderAsWrittenWide(w: World, path: seq<bv16>, fuel: nat): (r: (World, Option<nat>))
    requires WorldOk(w)
    ensures WorldOk(r.0) && HandleOk(r.1)
  {
    var o := OpenDirectory(w.st, path, fuel);
    var g := GetThing(w.things, if o.1.None? then None else Some(FolderRef(o.1.value)));
    (World(o.0, g.0), g.1)
  }

  /** ZZ_openfolder as intended, on a UTF-16 path: a handle only for a
      folder that opened. */
  function OpenFolderWide(w: World, path: seq<bv16>, fuel: nat): (r: (World, Option<nat>))
    requires WorldOk(w)
    ensures WorldOk(r.0) && HandleOk(r.1)
    ensures r.1.Some? <==>
      OpenDirectory(w.st, path, fuel).1.Some? && FirstFreeThing(w.things, 0).Some?
    ensures r.1.Some? ==>
      && r.1 == FirstFreeThing(w.things, 0)
      && GetFolder(r.0, r.1) == OpenDirectory(w.st, path, fuel).1
      && r.0.st.dirs[GetFolder(r.0, r.1).value].drive == PathDrive(path).0
  {
    var o := OpenDirectory(w.st, path, fuel);
    if o.1.None? then (World(o.0, w.things), None)
    else Claim(w, o.0, FolderRef(o.1.value))
  }

  /** A path that does not open still gets a handle from the as-written
      openfolder while a pool slot is free; the handle leads to no folder,
      and the intended openfolder gives null. */
  lemma OpenFolderAsWrittenHandsOutNothing(w: World, path: seq<bv16>, fuel: nat)
    requires WorldOk(w)
    requires OpenDirectory(w.st, path, fuel).1.None? && FirstFreeThing(w.things, 0).Some?
    ensures var r := OpenFolderAsWrittenWide(w, path, fuel);
      r.1.Some? && GetFolder(r.0, r.1).None?
    ensures OpenFolderWide(w, path, fuel).1.None?
  {
  }

  /** ZZ_openfolder as written: the caller's UTF-8 path converted, then
      opened. */
  function OpenFolderAsWritten(w: World, path: seq<bv8>, fuel: nat): (r: (World, Option<nat>))
    requires WorldOk(w)
    ensures WorldOk(r.0) && HandleOk(r.1)
  {
    OpenFolderAsWrittenWide(w, WidePath(path), fuel)
  }

  /** ZZ_openfolder as intended: the caller's UTF-8 path converted, then
      opened. */
  function OpenFolder(w: World, path: seq<bv8>, fuel: nat): (r: (World, Option<nat>))
    requires WorldOk(w)
    ensures WorldOk(r.0) && HandleOk(r.1)
  {
    OpenFolderWide(w, WidePath(path), fuel)
  }

  /** ZZ_changefolder on a UTF-16 name: YY_ChangeDirectory on the folder;
      false for a null handle (and for a folder whose drive letter is not
      mounted). */
  function ChangeFolderWide(w: World, h: Option<nat>, name: seq<bv16>, fuel: nat): (r: (World, bool))
    requires WorldOk(w) && HandleOk(h)
    ensures WorldOk(r.0) && r.0.things == w.things
    ensures GetFolder(w, h).None? ==> r == (w, false)
    ensures r.1 ==> GetFolder(w, h).Some? && var k := GetFolder(w, h).value;
      r.0.st.dirs[k].drive == w.st.dirs[k].drive
  {
    match GetFolder(w, h)
    case None => (w, false)
    case Some(k) =>
      var dir := w.st.dirs[k];
      match DriveOf(w.st, dir.drive)
      case None => (w, false)
      case Some(n) =>
        var c := ChangeDirectory(VolOf(w.st, n), dir, w.st.files, name, fuel);
        (w.(st := PutVol(w.st, n, c.v).(dirs := w.st.dirs[k := c.dir], files := c.files)), c.ok)
  }

  /** ZZ_changefolder to a name other than "." succeeds exactly when the
      folder's listing from its start holds a directory of that name, and
      the folder then starts at the first such directory's cluster. */
  lemma ChangeFolderFindsFirstMatch(w: World, h: Option<nat>, name: seq<bv16>, fuel: nat)
    requires WorldOk(w) && HandleOk(h) && GetFolder(w, h).Some?
    requires var dir := w.st.dirs[GetFolder(w, h).value]; DriveOf(w.st, dir.drive).Some?
    requires !IsDotName(name)
    ensures var k := GetFolder(w, h).value;
      var dir := w.st.dirs[k];
      var v := VolOf(w.st, DriveOf(w.st, dir.drive).value);
      var items := Listing(v, ResetDirectory(dir, v.drive), w.st.files, fuel, BudgetOf(fuel));
      var r := ChangeFolderWide(w, h, name, fuel);
      && (r.1 <==> exists m :: 0 <= m < |items| && Matches(items[m], name))
      && (r.1 ==> r.0.st.dirs[k].startCluster == items[FirstMatch(items, name, 0)].startCluster)
  {
    var k := GetFolder(w, h).value;
    var dir := w.st.dirs[k];
    var v := VolOf(w.st, DriveOf(w.st, dir.drive).value);
    ChangeFindsFirstMatch(v, dir, w.st.files, name, fuel);
  }

  /** ZZ_changefolder: the caller's UTF-8 name converted, then looked up. */
  function ChangeFolder(w: World, h: Option<nat>, path: seq<bv8>, fuel: nat): (r: (World, bool))
    requires WorldOk(w) && HandleOk(h)
    ensures WorldOk(r.0) && r.0.things == w.things
  {
    ChangeFolderWide(w, h, Str(WidePath(path)), fuel)
  }

  /** ZZ_findnextfile: the folder's next item gets a handle; null at the
      end of the folder, for a null handle, or with the pool full (the
      item's file slot then stays taken). */
  function FindNextFile(w: World, h: Option<nat>, fuel: nat): (r: (World, Option<nat>))
    requires WorldOk(w) && HandleOk(h)
    ensures WorldOk(r.0) && HandleOk(r.1)
    ensures GetFolder(w, h).None? ==> r == (w, None)
    ensures r.1.Some? ==> GetFolder(w, h).Some? && GetFile(r.0, r.1).Some?
    ensures r.1.Some? ==>
      var k := GetFolder(w, h).value;
      var i := GetFile(r.0, r.1).value;
      && w.st.files[i].drive == 0 && r.0.st.files[i].drive == w.st.dirs[k].drive
      && r.0.st.files[i].pathName == w.st.dirs[k].longPath && r.0.st.files[i].pointer == 0
  {
    match GetFolder(w, h)
    case None => (w, None)
    case Some(k) =>
      var dir := w.st.dirs[k];
      match DriveOf(w.st, dir.drive)
      case None => (w, None)
      case Some(n) =>
        var s := NextDirectoryItem(VolOf(w.st, n), dir, w.st.files, fuel);
        var st := PutVol(w.st, n, s.v).(dirs := w.st.dirs[k := s.dir], files := s.files);
        match s.item
        case None => (World(st, w.things), None)
        case Some(i) => Claim(w, st, FileRef(i))
  }

  /** ZZ_resetfolder: the folder is read from its start again; nothing
      happens for a null handle. */
  function ResetFolder(w: World, h: Option<nat>): (r: World)
    requires WorldOk(w) && HandleOk(h)
    ensures WorldOk(r) && r.things == w.things && r.st.files == w.st.files && r.st.drives == w.st.drives
    ensures GetFolder(w, h).None? ==> r == w
    ensures GetFolder(w, h).Some? ==> var k := GetFolder(w, h).value;
      && (forall j :: 0 <= j < MaxDirectories && j != k ==> r.st.dirs[j] == w.st.dirs[j])
      && (DriveOf(w.st, w.st.dirs[k].drive).Some? ==> r.st.dirs[k].slot == 0) && r.st.dirs[k].startCluster == w.st.dirs[k].startCluster
  {
    match GetFolder(w, h)
    case None => w
    case Some(k) =>
      var dir := w.st.dirs[k];
      match DriveOf(w.st, dir.drive)
      case None => w
      case Some(n) => w.(st := w.st.(dirs := w.st.dirs[k := ResetDirectory(dir, w.st.drives[n])]))
  }

  /** ZZ_folderpathname: the folder's path in UTF-8; "" for a null handle. */
  function FolderPathName(w: World, h: Option<nat>): (r: seq<bv8>)
    requires WorldOk(w) && HandleOk(h)
    ensures GetFolder(w, h).None? ==> r == []
    ensures GetFolder(w, h).Some? ==> r == NarrowName(w.st.dirs[GetFolder(w, h).value].longPath)
  {
    match GetFolder(w, h)
    case None => []
    case Some(k) => NarrowName(w.st.dirs[k].longPath)
  }

  /** ZZ_closefolder as written: the directory is closed but the pool slot
      is not freed. */
  function CloseFolderAsWritten(w: World, h: Option<nat>): (r: World)
    requires WorldOk(w) && HandleOk(h)
  {
    match GetFolder(w, h)
    case None => w
    case Some(k) => w.(st := w.st.(dirs := CloseDirectory(w.st.dirs, k)))
  }

  /** ZZ_closefolder as intended (freeFOLDER): the directory is closed and
      the pool slot freed. */
  function CloseFolder(w: World, h: Option<nat>): (r: World)
    requires WorldOk(w) && HandleOk(h)
    ensures WorldOk(r) && r.st.files == w.st.files && r.st.drives == w.st.drives
    ensures GetFolder(w, h).None? ==> r == w
    ensures GetFolder(w, h).Some? ==> var k := GetFolder(w, h).value;
      && r.things == FreeThing(w.things, h.value)
      && r.st.dirs == CloseDirectory(w.st.dirs, k)
  {
    match GetFolder(w, h)
    case None => w
    case Some(k) => World(w.st.(dirs := CloseDirectory(w.st.dirs, k)), FreeThing(w.things, h.value))
  }

  /** Opening a folder and closing it gives the pool its old slots back;
      the as-written close keeps the slot taken, so every open and close
      costs one of the 100 slots for good. */
  lemma OpenCloseFolder(w: World, path: seq<bv16>, fuel: nat)
    requires WorldOk(w) && OpenFolderWide(w, path, fuel).1.Some?
    ensures var (w1, h) := OpenFolderWide(w, path, fuel);
      && CloseFolder(w1, h).things == w.things
      && CloseFolderAsWritten(w1, h).things[h.value].Some? && w.things[h.value].None?
  {
    var (w1, h) := OpenFolderWide(w, path, fuel);
    assert w1.things[h.value := None] == w.things;
  }
}

=== FILE: uint.dfy ===
/** Fixed-width unsigned arithmetic as the C engine does it.  Sector and
    cluster numbers are uint32_t in the C code; here they are integers kept in
    range by explicit reduction modulo 2^32, and the shifts and masks the code
    applies to them are spelt out as multiplication, division and a bitwise
    AND on naturals. */
module Uint {

  const Two32: int := 0x1_0000_0000

  type U32 = x: int | 0 <= x < 0x1_0000_0000
  type U16 = x: int | 0 <= x < 0x1_0000
  type U8 = x: int | 0 <= x < 0x100

  /** What a uint32_t keeps of an integer result. */
  function Wrap32(x: int): (r: U32)
    ensures 0 <= x < Two32 ==> r == x
    ensures Two32 <= x < 2 * Two32 ==> r == x - Two32
    ensures -Two32 <= x < 0 ==> r == x + Two32
  {
    x % Two32
  }

  /** What a uint16_t keeps of an integer result. */
  function Wrap16(x: int): (r: U16)
    ensures 0 <= x < 0x1_0000 ==> r == x
  {
    x % 0x1_0000
  }

  /** What a uint8_t keeps of an integer result. */
  function Wrap8(x: int): (r: U8)
    ensures 0 <= x < 0x100 ==> r == x
    ensures -0x100 <= x < 0 ==> r == x + 0x100
  {
    x % 0x100
  }

  function Pow2(k: nat): (r: nat)
    ensures r >= 1
  {
    if k == 0 then 1 else 2 * Pow2(k - 1)
  }

  /** The powers of two a sector-per-cluster slide can take. */
  lemma Pow2Small(k: nat)
    requires k < 8
    ensures Pow2(k) == [1, 2, 4, 8, 16, 32, 64, 128][k]
  {
    if k > 0 {
      Pow2Small(k - 1);
    }
  }

  lemma {:induction false} Pow2Monotone(j: nat, k: nat)
    requires j <= k
    ensures Pow2(j) <= Pow2(k)
  {
    if j < k {
      Pow2Monotone(j, k - 1);
    }
  }

  /** x << k on a uint32_t, for the shift counts C defines (k < 32). */
  function Shl32(x: U32, k: nat): (r: U32)
    requires k < 32
    ensures x * Pow2(k) < Two32 ==> r == x * Pow2(k)
  {
    Wrap32(x * Pow2(k))
  }

  /** x >> k on an unsigned value. */
  function Shr(x: nat, k: nat): (r: nat)
    ensures r <= x
  {
    var p := Pow2(k);
    DivBounds(x, p);
    x / p
  }

  lemma DivBounds(x: nat, p: nat)
    requires p >= 1
    ensures 0 <= x / p <= x
    ensures (x / p) * p <= x < (x / p) * p + p
  {
  }

  /** A product divides back exactly. */
  lemma MulDivCancel(x: nat, p: nat)
    requires p >= 1
    ensures (x * p) / p == x
    ensures (x * p) % p == 0
  {
    DivUnique(x * p, p, x, 0);
  }

  /** The quotient and remainder are the only ones that fit. */
  lemma DivUnique(a: int, p: int, q: int, r: int)
    requires p >= 1 && 0 <= r < p && a == q * p + r
    ensures a / p == q && a % p == r
  {
    var d := q - a / p;
    assert d * p == (a % p) - r;
    if d != 0 {
      MulAtLeast(if d > 0 then d else -d, p);
      assert false;
    }
  }

  /** Subtracting a multiple of p keeps the remainder modulo p. */
  lemma ModSubMultiple(a: nat, b: nat, p: nat)
    requires p >= 1 && b <= a && b % p == 0
    ensures (a - b) % p == a % p
  {
    var q := b / p;
    var k := (a - b) / p;
    var m := (a - b) % p;
    assert b == q * p;
    assert a - b == k * p + m;
    assert (q + k) * p == q * p + k * p;
    DivUnique(a, p, q + k, m);
  }

  lemma MulAtLeast(x: int, p: int)
    requires x >= 1 && p >= 1
    ensures x * p >= p
  {
  }

  /** The bitwise AND of two naturals, bit by bit from the bottom. */
  function BitAnd(a: nat, b: nat): (r: nat)
    decreases a
  {
    if a == 0 || b == 0 then 0
    else 2 * BitAnd(a / 2, b / 2) + (if a % 2 == 1 && b % 2 == 1 then 1 else 0)
  }

  /** Dropping the lowest bit splits a remainder modulo 2p. */
  lemma ModDouble(a: nat, p: nat)
    requires p >= 1
    ensures a % (2 * p) == 2 * ((a / 2) % p) + a % 2
  {
    var q := a / 2;
    var t := q / p;
    var u := q % p;
    assert a == 2 * q + a % 2;
    assert q == t * p + u;
    assert a == t * (2 * p) + (2 * u + a % 2);
    DivUnique(a, 2 * p, t, 2 * u + a % 2);
  }

  /** An odd mask keeps the lowest bit and masks the rest with its upper
      bits. */
  lemma BitAndOdd(a: nat, h: nat)
    ensures BitAnd(a, 2 * h + 1) == 2 * BitAnd(a / 2, h) + a % 2
  {
    assert (2 * h + 1) / 2 == h && (2 * h + 1) % 2 == 1;
  }

  /** One bit more of the mask keeps one bit more of the remainder. */
  lemma LowMaskStep(a: nat, p: nat, q: nat)
    requires p >= 1 && q == 2 * p && BitAnd(a / 2, p - 1) == (a / 2) % p
    ensures BitAnd(a, q - 1) == a % q
  {
    BitAndOdd(a, p - 1);
    ModDouble(a, p);
  }

  /** Masking with 2^k - 1 keeps the remainder modulo 2^k: the identity the
      engine relies on when it takes sector offsets within a cluster with
      an AND instead of a division. */
  lemma {:induction false} BitAndLowMask(a: nat, k: nat)
    ensures BitAnd(a, Pow2(k) - 1) == a % Pow2(k)
  {
    if k == 0 {
    } else if a == 0 {
    } else {
      BitAndLowMask(a / 2, k - 1);
      LowMaskStep(a, Pow2(k - 1), Pow2(k));
    }
  }
}

=== FILE: unicode.dfy ===
/** The character coding both code bases share: the code points a text may
    hold (the Unicode scalar values), UTF-8 as section 3 of RFC 3629 lays it
    out and UTF-16 as sections 2.1 and 2.2 of RFC 2781 do.  The decoders
    and the unit sequences the encoders write are those of
    UTF16toUnicode/UTF8toUnicode/UnicodetoUTF16/UnicodetoUTF8 in
    Chars_YY.cpp and of getchar/putchar in charset.cpp, which are the same
    code; the index arithmetic and the room checks around them differ and
    live with each caller (modules Chars and Charset).

    Texts are NUL-terminated: a text is held as the elements before its
    terminator, and reading past the end reads 0.  A code point is a
    uint32_t, held as a bv32.  Where the C code combines disjoint bit
    fields with `|`, the model writes the same `|`. */
module Unicode {
  import opened Names

  /** Element i of a NUL-terminated byte text. */
  function Byte(t: seq<bv8>, i: nat): bv8
  {
    if i < |t| then t[i] else 0
  }

  /** A Unicode scalar value: at most 0x10FFFF and not a surrogate.  These
      are the code points both encoders accept. */
  predicate Scalar(k: bv32)
  {
    k <= 0x10ffff && !(0xd800 <= k <= 0xdfff)
  }

  /** What a decoder returns: the code point and how many elements it
      consumed; a NUL or an error consumes nothing and returns 0. */
  datatype Decoded = Decoded(key: bv32, len: nat)

  // ---------------------------------------------------------------------------
  // UTF-16
  // ---------------------------------------------------------------------------

  predicate HighSurrogate(c: bv16) { c & 0xfc00 == 0xd800 }
  predicate LowSurrogate(c: bv16) { c & 0xfc00 == 0xdc00 }

  /** UTF16toUnicode / getchar(PCUTF16): one unit outside the surrogate
      range, or a high surrogate followed by a low one.  The code reads the
      second unit only after the first is a high surrogate; reading it
      regardless changes nothing, since past the terminator a text reads 0. */
  function GetUtf16(t: seq<bv16>, i: nat): (r: Decoded)
    ensures r == Decode16(At(t, i), At(t, i + 1))
  {
    Decode16(At(t, i), At(t, i + 1))
  }

  /** The decision of UTF16toUnicode on the unit at the index (c) and the
      one after it (d). */
  function Decode16(c: bv16, d: bv16): (r: Decoded)
    ensures r.len == 0 ==> r.key == 0
    ensures r.len > 0 ==> r.key != 0 && Scalar(r.key)
    ensures r.len == 1 <==> c != 0 && !(0xd800 <= c < 0xe000)
    ensures r.len == 2 <==> HighSurrogate(c) && LowSurrogate(d)
    ensures r.len == 1 ==> r.key == c as bv32
    ensures r.len == 2 ==> 0x10000 <= r.key
  {
    if c == 0 then Decoded(0, 0)
    else if c < 0xd800 || c >= 0xe000 then Decoded(c as bv32, 1)
    else if c & 0xdc00 != 0xd800 then Decoded(0, 0)
    else if d == 0 then Decoded(0, 0)
    else if d & 0xfc00 != 0xdc00 then Decoded(0, 0)
    else Decoded((((c & 0x3ff) as bv32 << 10) | (d & 0x3ff) as bv32) + 0x10000, 2)
  }

  /** The units UnicodetoUTF16 / putchar(PUTF16) write for a key: none for a
      key that is not a scalar value, one below 0x10000, otherwise a
      surrogate pair. */
  function Utf16Units(k: bv32): (u: seq<bv16>)
    ensures |u| == (if !Scalar(k) then 0 else if k < 0x10000 then 1 else 2)
  {
    if (k >= 0xd800 && k < 0xe000) || k > 0x10ffff then []
    else if k < 0x10000 then [Single(k)]
    else [HighHalf(k), LowHalf(k)]
  }

  function Single(k: bv32): bv16
  {
    (k & 0xffff) as bv16
  }

  function HighHalf(k: bv32): bv16
  {
    var v := k - 0x10000;
    (((v >> 10) & 0x3ff) | 0xd800) as bv16
  }

  function LowHalf(k: bv32): bv16
  {
    var v := k - 0x10000;
    ((v & 0x3ff) | 0xdc00) as bv16
  }

  /** Decoding the units written for a non-zero scalar value gives it back
      and consumes exactly those units. */
  lemma Utf16RoundTrip(t: seq<bv16>, i: nat, k: bv32)
    requires Scalar(k) && k != 0
    requires i + |Utf16Units(k)| <= |t| && t[i..i + |Utf16Units(k)|] == Utf16Units(k)
    ensures GetUtf16(t, i) == Decoded(k, |Utf16Units(k)|)
  {
    if k < 0x10000 {
      assert t[i] == Single(k);
      SingleRoundTrip(t, i, k);
    } else {
      assert t[i] == HighHalf(k) && t[i + 1] == LowHalf(k);
      PairRoundTrip(t, i, k);
    }
  }

  lemma SingleRoundTrip(t: seq<bv16>, i: nat, k: bv32)
    requires Scalar(k) && k != 0 && k < 0x10000
    requires i < |t| && t[i] == Single(k)
    ensures GetUtf16(t, i) == Decoded(k, 1)
  {
    SingleBits(k);
    DecodeSingle(t[i], At(t, i + 1));
  }

  lemma PairRoundTrip(t: seq<bv16>, i: nat, k: bv32)
    requires 0x10000 <= k <= 0x10ffff
    requires i + 1 < |t| && t[i] == HighHalf(k) && t[i + 1] == LowHalf(k)
    ensures GetUtf16(t, i) == Decoded(k, 2)
  {
    PairBits(k);
    DecodePair(t[i], t[i + 1]);
  }

  lemma SingleBits(k: bv32)
    requires Scalar(k) && k != 0 && k < 0x10000
    ensures Single(k) as bv32 == k && Single(k) != 0 && !(0xd800 <= Single(k) <= 0xdfff)
  {
  }

  /** The units of a surrogate pair combine back to the code point. */
  lemma PairBits(k: bv32)
    requires 0x10000 <= k <= 0x10ffff
    ensures HighSurrogate(HighHalf(k)) && LowSurrogate(LowHalf(k))
    ensures (((HighHalf(k) & 0x3ff) as bv32 << 10) | (LowHalf(k) & 0x3ff) as bv32) + 0x10000 == k
  {
  }

  lemma DecodeSingle(c: bv16, d: bv16)
    requires c != 0 && !(0xd800 <= c <= 0xdfff)
    ensures Decode16(c, d) == Decoded(c as bv32, 1)
  {
  }

  lemma DecodePair(c: bv16, d: bv16)
    requires HighSurrogate(c) && LowSurrogate(d)
    ensures Decode16(c, d) == Decoded((((c & 0x3ff) as bv32 << 10) | (d & 0x3ff) as bv32) + 0x10000, 2)
  {
  }

  // ---------------------------------------------------------------------------
  // UTF-8
  // ---------------------------------------------------------------------------

  /** The decoders' test for a continuation byte: non-zero with the top bit
      set (the code does not look at the second bit). */
  predicate Continues(d: bv8)
  {
    d != 0 && d & 0x80 == 0x80
  }

  /** A continuation byte as RFC 3629 writes it: 10xxxxxx. */
  predicate Tail(d: bv8)
  {
    d & 0xc0 == 0x80
  }

  /** How many bytes a sequence starting with lead byte c has: 0 for a
      continuation byte or for 0xF8..0xFF. */
  function LeadLength(c: bv8): (n: nat)
    ensures n <= 4
  {
    if c & 0x80 == 0 then 1
    else if c & 0xe0 == 0xc0 then 2
    else if c & 0xf0 == 0xe0 then 3
    else if c & 0xf8 == 0xf0 then 4
    else 0
  }

  /** UTF8toUnicode / getchar(PCUTF8).  As with UTF-16, the code reads a
      continuation byte only once the bytes before it passed; reading all
      four up front changes nothing. */
  function GetUtf8(t: seq<bv8>, i: nat): (r: Decoded)
    ensures r == Decode8(Byte(t, i), Byte(t, i + 1), Byte(t, i + 2), Byte(t, i + 3))
  {
    Decode8(Byte(t, i), Byte(t, i + 1), Byte(t, i + 2), Byte(t, i + 3))
  }

  /** The decision of UTF8toUnicode on the lead byte c and the three bytes
      after it.  A sequence is taken when the lead byte is not NUL, says how
      long the sequence is, and each byte it claims passes the continuation
      test. */
  function Decode8(c: bv8, d: bv8, e: bv8, f: bv8): (r: Decoded)
    ensures r.len == 0 ==> r.key == 0
    ensures r.key < 0x20_0000
    ensures r.len > 0 <==>
      && c != 0 && LeadLength(c) > 0
      && (LeadLength(c) >= 2 ==> Continues(d))
      && (LeadLength(c) >= 3 ==> Continues(e))
      && (LeadLength(c) == 4 ==> Continues(f))
    ensures r.len > 0 ==> r.len == LeadLength(c)
    ensures r.len == 1 ==> r.key == c as bv32
  {
    var c := c as bv32;
    if c == 0 then Decoded(0, 0)
    else if c & 0x80 == 0 then Decoded(c, 1)
    else if c & 0xc0 == 0x80 then Decoded(0, 0)
    else if c & 0xe0 == 0xc0 then
      if d == 0 || d & 0x80 != 0x80 then Decoded(0, 0)
      else Decoded(((c & 0x1f) << 6) | (d & 0x3f) as bv32, 2)
    else if c & 0xf0 == 0xe0 then
      if d == 0 || d & 0x80 != 0x80 then Decoded(0, 0)
      else if e == 0 || e & 0x80 != 0x80 then Decoded(0, 0)
      else Decoded(((c & 0x0f) << 12) | ((d & 0x3f) as bv32 << 6) | (e & 0x3f) as bv32, 3)
    else if c & 0xf8 == 0xf0 then
      if d == 0 || d & 0x80 != 0x80 then Decoded(0, 0)
      else if e == 0 || e & 0x80 != 0x80 then Decoded(0, 0)
      else if f == 0 || f & 0x80 != 0x80 then Decoded(0, 0)
      else Decoded(((c & 0x07) << 18) | ((d & 0x3f) as bv32 << 12) | ((e & 0x3f) as bv32 << 6)
                   | (f & 0x3f) as bv32, 4)
    else Decoded(0, 0)
  }

  /** The bytes UnicodetoUTF8 / putchar(PUTF8) write for a key: none for a
      key that is not a scalar value, else one to four bytes by the ranges
      of section 3 of RFC 3629. */
  function Utf8Units(k: bv32): (u: seq<bv8>)
    ensures |u| == (if !Scalar(k) then 0 else if k <= 0x7f then 1
                    else if k <= 0x7ff then 2 else if k <= 0xffff then 3 else 4)
  {
    if (k >= 0xd800 && k <= 0xdfff) || k > 0x10ffff then []
    else if k <= 0x7f then [Ascii(k)]
    else if k <= 0x7ff then [Lead2(k), Cont(k, 0)]
    else if k <= 0xffff then [Lead3(k), Cont(k, 6), Cont(k, 0)]
    else [Lead4(k), Cont(k, 12), Cont(k, 6), Cont(k, 0)]
  }

  function Ascii(k: bv32): bv8 { (k & 0x7f) as bv8 }
  function Lead2(k: bv32): bv8 { (((k >> 6) & 0x1f) | 0xc0) as bv8 }
  function Lead3(k: bv32): bv8 { (((k >> 12) & 0xf) | 0xe0) as bv8 }
  function Lead4(k: bv32): bv8 { (((k >> 18) & 0x7) | 0xf0) as bv8 }

  /** The continuation byte carrying bits s..s+5 of k. */
  function Cont(k: bv32, s: bv32): bv8
    requires s == 0 || s == 6 || s == 12
  {
    (((k >> s) & 0x3f) | 0x80) as bv8
  }

  /** charbytes: how many bytes the UTF-8 encoder writes for a key. */
  function CharBytes(k: bv32): (n: nat)
    ensures n == |Utf8Units(k)|
    ensures n == 0 <==> !Scalar(k)
  {
    if (k >= 0xd800 && k <= 0xdfff) || k > 0x10ffff then 0
    else if k <= 0x7f then 1
    else if k <= 0x7ff then 2
    else if k <= 0xffff then 3
    else 4
  }

  /** The encoder writes what RFC 3629 calls well-formed: a lead byte that
      announces the length and 10xxxxxx continuation bytes; only the key 0
      gives a NUL byte. */
  lemma Utf8UnitsShape(k: bv32)
    requires Scalar(k)
    ensures var u := Utf8Units(k);
      && LeadLength(u[0]) == |u|
      && (forall j :: 1 <= j < |u| ==> Tail(u[j]) && Continues(u[j]))
      && (u[0] == 0 <==> k == 0)
  {
    ContBits(k);
    if k <= 0x7f {
      Utf8Bits1(k);
    } else if k <= 0x7ff {
      Utf8Bits2(k);
    } else if k <= 0xffff {
      Utf8Bits3(k);
    } else {
      Utf8Bits4(k);
    }
  }

  /** Decoding the bytes written for a non-zero scalar value gives it back
      and consumes exactly those bytes. */
  lemma Utf8RoundTrip(t: seq<bv8>, i: nat, k: bv32)
    requires Scalar(k) && k != 0
    requires i + |Utf8Units(k)| <= |t| && t[i..i + |Utf8Units(k)|] == Utf8Units(k)
    ensures GetUtf8(t, i) == Decoded(k, |Utf8Units(k)|)
  {
    var u := Utf8Units(k);
    assert t[i] == u[0];
    if k <= 0x7f {
      RoundTrip1(t, i, k);
    } else if k <= 0x7ff {
      assert t[i + 1] == u[1];
      RoundTrip2(t, i, k);
    } else if k <= 0xffff {
      assert t[i + 1] == u[1] && t[i + 2] == u[2];
      RoundTrip3(t, i, k);
    } else {
      assert t[i + 1] == u[1] && t[i + 2] == u[2] && t[i + 3] == u[3];
      RoundTrip4(t, i, k);
    }
  }

  lemma RoundTrip1(t: seq<bv8>, i: nat, k: bv32)
    requires 0 < k <= 0x7f && i < |t| && t[i] == Ascii(k)
    ensures GetUtf8(t, i) == Decoded(k, 1)
  {
    Utf8Bits1(k);
    Decode8One(t[i], Byte(t, i + 1), Byte(t, i + 2), Byte(t, i + 3));
  }

  lemma RoundTrip2(t: seq<bv8>, i: nat, k: bv32)
    requires 0x80 <= k <= 0x7ff && i + 1 < |t|
    requires t[i] == Lead2(k) && t[i + 1] == Cont(k, 0)
    ensures GetUtf8(t, i) == Decoded(k, 2)
  {
    Utf8Bits2(k);
    ContBits(k);
    Decode8Two(t[i], t[i + 1], Byte(t, i + 2), Byte(t, i + 3));
  }

  lemma RoundTrip3(t: seq<bv8>, i: nat, k: bv32)
    requires 0x800 <= k <= 0xffff && i + 2 < |t|
    requires t[i] == Lead3(k) && t[i + 1] == Cont(k, 6) && t[i + 2] == Cont(k, 0)
    ensures GetUtf8(t, i) == Decoded(k, 3)
  {
    Utf8Bits3(k);
    ContBits(k);
    Decode8Three(t[i], t[i + 1], t[i + 2], Byte(t, i + 3));
  }

  lemma RoundTrip4(t: seq<bv8>, i: nat, k: bv32)
    requires 0x10000 <= k <= 0x10ffff && i + 3 < |t|
    requires t[i] == Lead4(k) && t[i + 1] == Cont(k, 12) && t[i + 2] == Cont(k, 6) && t[i + 3] == Cont(k, 0)
    ensures GetUtf8(t, i) == Decoded(k, 4)
  {
    Utf8Bits4(k);
    ContBits(k);
    Decode8Four(t[i], t[i + 1], t[i + 2], t[i + 3]);
  }

  // The bytes of each length, as the encoder computes them.

  lemma ContBits(k: bv32)
    ensures Continues(Cont(k, 0)) && Tail(Cont(k, 0)) && (Cont(k, 0) & 0x3f) as bv32 == k & 0x3f
    ensures Continues(Cont(k, 6)) && Tail(Cont(k, 6)) && (Cont(k, 6) & 0x3f) as bv32 == (k >> 6) & 0x3f
    ensures Continues(Cont(k, 12)) && Tail(Cont(k, 12)) && (Cont(k, 12) & 0x3f) as bv32 == (k >> 12) & 0x3f
  {
  }

  lemma Utf8Bits1(k: bv32)
    requires k <= 0x7f
    ensures Ascii(k) & 0x80 == 0 && Ascii(k) as bv32 == k
  {
  }

  lemma Utf8Bits2(k: bv32)
    requires 0x80 <= k <= 0x7ff
    ensures var c := Lead2(k);
      && c & 0x80 != 0 && c & 0xc0 != 0x80 && c & 0xe0 == 0xc0
      && ((c as bv32 & 0x1f) << 6) | (k & 0x3f) == k
  {
  }

  lemma Utf8Bits3(k: bv32)
    requires 0x800 <= k <= 0xffff
    ensures var c := Lead3(k);
      && c & 0x80 != 0 && c & 0xc0 != 0x80 && c & 0xe0 != 0xc0 && c & 0xf0 == 0xe0
      && ((c as bv32 & 0x0f) << 12) | (((k >> 6) & 0x3f) << 6) | (k & 0x3f) == k
  {
  }

  lemma Utf8Bits4(k: bv32)
    requires 0x10000 <= k <= 0x10ffff
    ensures var c := Lead4(k);
      && c & 0x80 != 0 && c & 0xc0 != 0x80 && c & 0xe0 != 0xc0 && c & 0xf0 != 0xe0 && c & 0xf8 == 0xf0
      && ((c as bv32 & 0x07) << 18) | (((k >> 12) & 0x3f) << 12) | (((k >> 6) & 0x3f) << 6) | (k & 0x3f) == k
  {
  }

  // What the decoder does with each length.

  lemma Decode8One(c: bv8, d: bv8, e: bv8, f: bv8)
    requires c != 0 && c & 0x80 == 0
    ensures Decode8(c, d, e, f) == Decoded(c as bv32, 1)
  {
  }

  lemma Decode8Two(c: bv8, d: bv8, e: bv8, f: bv8)
    requires c & 0x80 != 0 && c & 0xc0 != 0x80 && c & 0xe0 == 0xc0 && Continues(d)
    ensures Decode8(c, d, e, f) == Decoded(((c as bv32 & 0x1f) << 6) | (d & 0x3f) as bv32, 2)
  {
  }

  lemma Decode8Three(c: bv8, d: bv8, e: bv8, f: bv8)
    requires c & 0x80 != 0 && c & 0xc0 != 0x80 && c & 0xe0 != 0xc0 && c & 0xf0 == 0xe0
    requires Continues(d) && Continues(e)
    ensures Decode8(c, d, e, f)
         == Decoded(((c as bv32 & 0x0f) << 12) | ((d & 0x3f) as bv32 << 6) | (e & 0x3f) as bv32, 3)
  {
  }

  lemma Decode8Four(c: bv8, d: bv8, e: bv8, f: bv8)
    requires c & 0x80 != 0 && c & 0xc0 != 0x80 && c & 0xe0 != 0xc0 && c & 0xf0 != 0xe0 && c & 0xf8 == 0xf0
    requires Continues(d) && Continues(e) && Continues(f)
    ensures Decode8(c, d, e, f)
         == Decoded(((c as bv32 & 0x07) << 18) | ((d & 0x3f) as bv32 << 12) | ((e & 0x3f) as bv32 << 6)
                    | (f & 0x3f) as bv32, 4)
  {
  }

  /** The decoder is more lenient than RFC 3629: it takes 11xxxxxx as a
      continuation byte, and it decodes an overlong form of NUL (C0 80) to
      0 while consuming two bytes. */
  lemma GetUtf8Lenient()
    ensures GetUtf8([0xc3, 0xc3], 0) == Decoded(0xc3, 2)
    ensures GetUtf8([0xc0, 0x80], 0) == Decoded(0, 2)
  {
  }

  // ---------------------------------------------------------------------------
  // Writing a code point into a buffer
  // ---------------------------------------------------------------------------

  /** Splicing elements into a buffer at index i. */
  function Write<T>(t: seq<T>, i: nat, u: seq<T>): (r: seq<T>)
    requires i + |u| <= |t|
    ensures |r| == |t| && r[i..i + |u|] == u
    ensures forall j :: 0 <= j < |t| && !(i <= j < i + |u|) ==> r[j] == t[j]
  {
    t[..i] + u + t[i + |u|..]
  }

  /** Some unit in [from, to) is a terminator. */
  predicate Ended16(r: seq<bv16>, from: nat, to: nat)
  {
    exists j :: from <= j < to && j < |r| && r[j] == 0
  }

  /** Some byte in [from, to) is a terminator. */
  predicate Ended8(r: seq<bv8>, from: nat, to: nat)
  {
    exists j :: from <= j < to && j < |r| && r[j] == 0
  }

  /** What an encoder leaves: the buffer, the advanced index and the
      number of elements written (0 for an error, which writes nothing). */
  datatype Put<T> = Put(text: seq<T>, index: nat, count: nat)

  /** The encoders' room test, in the signed arithmetic the uint16_t
      operands are promoted to: a limit of 0 means unchecked, otherwise n
      more elements must still leave a place for the terminator. */
  predicate Fits(index: nat, max: nat, n: nat)
  {
    max == 0 || index < max - n
  }

  /** The caller's side of the bargain: with a limit the buffer holds max
      elements; without one it has room for what is written. */
  predicate Room(size: nat, index: nat, max: nat, n: nat)
  {
    if max != 0 then max <= size else index + n <= size
  }

  /** An encoder as a whole: write the units when they fit, else nothing. */
  function PutUnits<T>(t: seq<T>, index: nat, max: nat, u: seq<T>): (r: Put<T>)
    requires Room(|t|, index, max, |u|)
    ensures r.count == 0 ==> r.text == t && r.index == index
    ensures r.count > 0 <==> |u| > 0 && Fits(index, max, |u|)
    ensures r.count > 0 ==> r.count == |u| && r.index == index + |u| && r.text == Write(t, index, u)
    ensures r.count > 0 && max != 0 ==> r.index <= max - 1
    ensures |r.text| == |t|
  {
    if |u| == 0 || !Fits(index, max, |u|) then Put(t, index, 0)
    else Put(Write(t, index, u), index + |u|, |u|)
  }

  /** UnicodetoUTF16 / putchar(PUTF16): the limit is tested before the
      first unit and again before the second. */
  function PutUtf16(t: seq<bv16>, index: nat, max: nat, key: bv32): (r: Put<bv16>)
    requires Room(|t|, index, max, |Utf16Units(key)|)
    ensures r == PutUnits(t, index, max, Utf16Units(key))
    ensures r.count == 0 <==> !Scalar(key) || !Fits(index, max, |Utf16Units(key)|)
  {
    if (key >= 0xd800 && key < 0xe000) || key > 0x10ffff then Put(t, index, 0)
    else if max != 0 && index >= max - 1 then Put(t, index, 0)
    else if key < 0x10000 then Put(Write(t, index, [Single(key)]), index + 1, 1)
    else if max != 0 && index >= max - 2 then Put(t, index, 0)
    else Put(Write(t, index, [HighHalf(key), LowHalf(key)]), index + 2, 2)
  }

  /** UnicodetoUTF8 / putchar(PUTF8) with the limit tested in signed
      arithmetic, once per length. */
  function PutUtf8(t: seq<bv8>, index: nat, max: nat, key: bv32): (r: Put<bv8>)
    requires Room(|t|, index, max, |Utf8Units(key)|)
    ensures r == PutUnits(t, index, max, Utf8Units(key))
    ensures r.count == 0 <==> !Scalar(key) || !Fits(index, max, |Utf8Units(key)|)
  {
    if (key >= 0xd800 && key <= 0xdfff) || key > 0x10ffff then Put(t, index, 0)
    else if key <= 0x7f then
      if max != 0 && index >= max - 1 then Put(t, index, 0)
      else Put(Write(t, index, [Ascii(key)]), index + 1, 1)
    else if key <= 0x7ff then
      if max != 0 && index >= max - 2 then Put(t, index, 0)
      else Put(Write(t, index, [Lead2(key), Cont(key, 0)]), index + 2, 2)
    else if key <= 0xffff then
      if max != 0 && index >= max - 3 then Put(t, index, 0)
      else Put(Write(t, index, [Lead3(key), Cont(key, 6), Cont(key, 0)]), index + 3, 3)
    else
      if max != 0 && index >= max - 4 then Put(t, index, 0)
      else Put(Write(t, index, [Lead4(key), Cont(key, 12), Cont(key, 6), Cont(key, 0)]), index + 4, 4)
  }

  /** One code point through the UTF-16 encoder into a buffer of max
      units, with what a caller's loop needs to know about it. */
  function Step16(out: seq<bv16>, n: nat, max: nat, key: bv32): (r: Put<bv16>)
    requires 1 <= max <= |out| && n < max
    ensures |r.text| == |out|
    ensures r.count == 0 <==> !Scalar(key) || !Fits(n, max, |Utf16Units(key)|)
    ensures r.count > 0 ==> n < r.index < max && r.index == n + |Utf16Units(key)|
    ensures r.count > 0 ==> forall j :: 0 <= j < n ==> r.text[j] == out[j]
    ensures r.count > 0 ==> r.text[n..r.index] == Utf16Units(key)
    ensures r.count > 0 ==> r.text[max..] == out[max..]
  {
    var r := PutUtf16(out, n, max, key);
    assert r.count > 0 ==> r.text[max..] == out[max..];
    r
  }

  /** The same through the UTF-8 encoder. */
  function Step8(out: seq<bv8>, n: nat, max: nat, key: bv32): (r: Put<bv8>)
    requires 1 <= max <= |out| && n < max
    ensures |r.text| == |out|
    ensures r.count == 0 <==> !Scalar(key) || !Fits(n, max, |Utf8Units(key)|)
    ensures r.count > 0 ==> n < r.index < max && r.index == n + |Utf8Units(key)|
    ensures r.count > 0 ==> forall j :: 0 <= j < n ==> r.text[j] == out[j]
    ensures r.count > 0 ==> r.text[n..r.index] == Utf8Units(key)
    ensures r.count > 0 ==> r.text[max..] == out[max..]
  {
    var r := PutUtf8(out, n, max, key);
    assert r.count > 0 ==> r.text[max..] == out[max..];
    r
  }

  /** The terminator a conversion loop writes after its last code point. */
  function End16(out: seq<bv16>, n: nat): (r: seq<bv16>)
    requires n < |out|
    ensures |r| == |out| && Ended16(r, n, n + 1) && r[n] == 0
    ensures forall j :: 0 <= j < |out| && j != n ==> r[j] == out[j]
  {
    var r := out[n := 0];
    assert r[n] == 0;
    r
  }

  /** The same for a byte buffer. */
  function End8(out: seq<bv8>, n: nat): (r: seq<bv8>)
    requires n < |out|
    ensures |r| == |out| && Ended8(r, n, n + 1) && r[n] == 0
    ensures forall j :: 0 <= j < |out| && j != n ==> r[j] == out[j]
  {
    var r := out[n := 0];
    assert r[n] == 0;
    r
  }

  /** A code point written by the UTF-16 encoder reads back from the index
      it was written at, and the reader moves as far as the writer did. */
  lemma PutGetUtf16(t: seq<bv16>, index: nat, max: nat, key: bv32)
    requires Room(|t|, index, max, |Utf16Units(key)|) && key != 0
    requires PutUtf16(t, index, max, key).count > 0
    ensures var r := PutUtf16(t, index, max, key);
      GetUtf16(r.text, index) == Decoded(key, r.count)
  {
    var r := PutUtf16(t, index, max, key);
    Utf16RoundTrip(r.text, index, key);
  }

  /** The same for UTF-8. */
  lemma PutGetUtf8(t: seq<bv8>, index: nat, max: nat, key: bv32)
    requires Room(|t|, index, max, |Utf8Units(key)|) && key != 0
    requires PutUtf8(t, index, max, key).count > 0
    ensures var r := PutUtf8(t, index, max, key);
      GetUtf8(r.text, index) == Decoded(key, r.count)
  {
    var r := PutUtf8(t, index, max, key);
    Utf8RoundTrip(r.text, index, key);
  }
}

=== FILE: wrappers.dfy ===
/** Failure-carrying values used wherever the C code returns a null pointer
    or a failed status instead of a value. */
module Wrappers {

  /** A value that may be absent: `None` stands for a C null pointer. */
  datatype Option<+T> = None | Some(value: T)

}
